=== FILE: README.md ===
# PanefulMigrator analysis and planning core, in Dafny

PanefulMigrator scans a Python project, analyses its source files and plans the
project's migration into a new directory layout. This project models the parts
of it that decide what the tool reports and plans, and proves properties of
them:

- **Syntax** is the Python syntax tree the analyzers read, as an inductive
  datatype. It provides `ast.iter_child_nodes` and the breadth-first `ast.walk`.
  The walk is proved to visit the same nodes as a preorder traversal, so every
  count taken over it equals a count taken structurally.
- **Wrappers**, **Strings**, **PySeq**, **Sorting**, **OrderedMap** and **Paths**
  give Python's own building blocks the meaning Python gives them:
  - `Optional` and raised exceptions (Wrappers);
  - `str` methods (Strings);
  - slicing and `zip` (PySeq);
  - `sorted` (Sorting);
  - the insertion-ordered `dict` (OrderedMap);
  - `pathlib`'s `name`, `stem`, `suffix` and `parent.name` (Paths).
- **Base** covers the `BaseAnalyzer` helpers:
  - line ranges and node source;
  - dotted names and docstrings;
  - literal decoding;
  - parent links and the enclosing class;
  - the import table.
- **ClassStructure** covers the class analyzer:
  - the class records;
  - the dependency heuristic;
  - the inheritance tree;
  - the Mermaid class diagram.
- **Complexity** covers the complexity analyzer:
  - cyclomatic complexity, nesting depth and coupling;
  - per-method and per-class metrics;
  - the weighted total score;
  - the threshold-based risk report.
- **Config** covers the configuration analyzer:
  - configuration-like names and values;
  - the suggestion made for each finding;
  - the walk over assignments, classes and default arguments;
  - the grouping of findings by location and by type.
- **Mapping** covers loading and validating the migration mapping document.
- **Planner** covers the migration planner:
  - the directories to create;
  - the rule chosen for each file;
  - target path templates;
  - plan validation (duplicates, missing directories, size checks);
  - the plan summary.
- **Scanner** covers, from the project scanner:
  - file classification;
  - the directory, file, type and size-bucket bookkeeping of `scan_directory`;
  - the choice of the last successful analysis of each kind.
- **DirectoryMap** covers the directory mapper:
  - excluded directories and files;
  - the sorted top-down tree elements;
  - the text tree drawn from them.

Each Python function is a Dafny function over immutable data. A raised
exception becomes a `Result` failure carrying the message Python would print.
File-system and library calls the code makes are parameters of the model. The
section below says which.

## Model

| member | source | states |
|---|---|---|
| Base.GetLineRange | analyzers/base.py:63-68 | a node with a position gives its start and end line; a node without one gives the pair (0, 0) |
| Base.CountLines | analyzers/base.py:70-73 | the line count is end - start + 1 when both ends are non-zero, and 0 otherwise, including for nodes without a position |
| Base.GetNodeSource | analyzers/base.py:75-84 | source text exists exactly when both ends are non-zero and the start lies within the file; it is then the lines start..end joined by newlines, with Python's clamping slice |
| Base.SourceMatchesLineCount | analyzers/base.py:70-84 | for a node inside the file, splitting its source text at newlines gives back exactly its lines, and their number is the line count |
| Base.LinesSplitBack | analyzers/base.py:78-81 | joining newline-free lines with "\n" and splitting again gives the same lines |
| Base.ExtractName | analyzers/base.py:86-99 | a name exists exactly for Name, Attribute, FunctionDef and ClassDef nodes; names and definitions give their identifier, and an attribute ends in "." + attr |
| Base.ExtractDottedName | analyzers/base.py:89-92 | a chain of attributes on a name gives the dotted path, and splitting it at dots gives the parts back when they are dot-free |
| Base.UnnamedAttribute | analyzers/base.py:91-92 | an attribute on an unnamed value is rendered with the text "None" before the dot |
| Base.ExtractDocstring | analyzers/base.py:56-61 | only modules, classes and functions have docstrings; it is the first statement of the body when that is a string expression, and absent otherwise |
| Base.DocstringFirstStatement | analyzers/base.py:56-61 | a string in first position is the docstring; the same string in second position is not |
| Base.MappingPut | analyzers/base.py:110-114 | assigning a key in a Python dict replaces the value of an equal key (numbers compare by value) and keeps every other key; distinct keys stay distinct |
| Base.MappingGetNone | analyzers/base.py:110-114 | a dict lookup misses exactly when no stored key equals the one asked for |
| Base.BuildMapping | analyzers/base.py:110-114 | building a dict from pairs succeeds exactly when every key is hashable; the result has distinct keys and each key maps to the value of its last pair |
| Base.ExtractValue | analyzers/base.py:101-120 | int, float, complex and string constants keep their value; boolean constants (`True`, `False`), None, bytes and Ellipsis give None, so `DEBUG = True` yields a None value, and only a Name node called True or False gives a boolean; a list literal becomes a list of the same length; a dict literal becomes a dict exactly when every key is hashable, and then each key is bound to the value of its last occurrence; any other node gives None |
| Base.ExtractValues | analyzers/base.py:108-109 | one value per list element |
| Base.ListElements | analyzers/base.py:108-109 | each element of the extracted list is the value extracted from the matching element node |
| Base.ExtractValuesAt | analyzers/base.py:108-109 | the i-th extracted value is the value of the i-th node |
| Base.ExtractPairs | analyzers/base.py:113 | zip pairs keys with values up to the shorter of the two |
| Base.ExtractPairsAt | analyzers/base.py:113 | the i-th pair holds the values of the i-th key and the i-th value |
| Base.DictLastValueWins | analyzers/base.py:110-114 | in an extracted dict, each key holds the value of the last pair with an equal key |
| Base.UnhashableKeyGivesNone | analyzers/base.py:110-120 | a list used as a dict key raises, and the extracted value is None |
| Base.LinksFromParents | analyzers/base.py:148-153 | every link recorded for a subtree points from a node to its immediate parent |
| Base.ChildLinksParents | analyzers/base.py:151-153 | the links recorded for a list of children point from each node to its immediate parent |
| Base.LinksFromKeys | analyzers/base.py:148-153 | a node of a subtree gets a parent link exactly when it lies strictly below the subtree's root |
| Base.ChildLinksKeys | analyzers/base.py:151-153 | a node gets a link from a list of children exactly when it lies in one of those children |
| Base.ParentLinksCorrect | analyzers/base.py:148-153 | after linking, every node except the root has a parent link, and the link is its immediate parent |
| Base.AddParentLinksShrinks | analyzers/base.py:148-153 | every parent link leads strictly closer to the root, so following links ends |
| Base.FindParentClass | analyzers/base.py:122-129 | a parent found by following the links is a class definition |
| Base.FindParentClassNearest | analyzers/base.py:122-129 | following the parent links from a node finds its nearest enclosing class, or nothing when no ancestor is a class |
| Base.AnalyzeImports | analyzers/base.py:131-146 | the import table has distinct keys, and each key maps to the last binding made for it in walk order |
| Base.AnalyzeImportsKeys | analyzers/base.py:131-146 | a name is a key of the import table exactly when some import in the tree binds it |
| Base.RelativeImportBinding | analyzers/base.py:139-143 | in a relative import with no module, the bound value starts with a bare "." |
| ClassStructure.TargetIdsMembers | analyzers/class_analyzer.py:88-90 | a name is collected from an assignment's targets exactly when one of the targets is a plain Name with that identifier |
| ClassStructure.InstanceVarNamesMembers | analyzers/class_analyzer.py:84-90 | a name is an instance variable exactly when some assignment directly in the class body targets it by name |
| ClassStructure.MethodNamesMembers | analyzers/class_analyzer.py:84-86 | a name is a method exactly when some function definition directly in the class body has that name |
| ClassStructure.ClassInfoOf | analyzers/class_analyzer.py:80-102 | the record keeps the class name, one extracted name per base in order, the method names in body order, the instance variables as a duplicate-free set, the line count, position and docstring, and no dependencies yet |
| ClassStructure.ClassEntries | analyzers/class_analyzer.py:78-92 | every collected entry is keyed by the name its record carries and starts with no dependencies |
| ClassStructure.ClassEntriesKeys | analyzers/class_analyzer.py:78-92 | a name is collected exactly when some class definition in the node list has it |
| ClassStructure.CollectClasses | analyzers/class_analyzer.py:76-102 | the class table has distinct keys, a name is a key exactly when some class in the tree has it, and each name maps to the record of the last such class in walk order |
| ClassStructure.CollectedRecords | analyzers/class_analyzer.py:92-97 | each collected record carries its own key as its name and has no dependencies |
| ClassStructure.NamedIn | analyzers/class_analyzer.py:111-113 | a class is taken from one method name exactly when it is another class whose name occurs inside the method name |
| ClassStructure.MethodMatchesMembers | analyzers/class_analyzer.py:110-113 | over all methods, a class is taken exactly when it is another known class whose name occurs inside some method name |
| ClassStructure.Dependencies | analyzers/class_analyzer.py:107-116 | the dependency set has no duplicates |
| ClassStructure.DependenciesMembers | analyzers/class_analyzer.py:107-116 | a dependency is a base, or another known class whose name occurs in a method name, and nothing else |
| ClassStructure.OwnNameDependency | analyzers/class_analyzer.py:112-116 | a class depends on itself only when it lists itself as a base |
| ClassStructure.WithDependencies | analyzers/class_analyzer.py:104-118 | the table keeps its keys, and each record changes only in its dependencies, which become the computed set |
| ClassStructure.RelationsOf | analyzers/class_analyzer.py:119 | the relationships table has the same keys as the class table, and each class maps to its computed dependencies |
| ClassStructure.Ensure | analyzers/class_analyzer.py:125-126 | ensuring an entry adds the key with an empty list only when it is missing, and changes no other key |
| ClassStructure.AddChild | analyzers/class_analyzer.py:130-132 | adding a child appends it to the base's list, creating the key at the end when missing, and changes no other key |
| ClassStructure.AddChildSize | analyzers/class_analyzer.py:130-132 | adding a child adds exactly one entry over all lists |
| ClassStructure.AddToBasesKeys | analyzers/class_analyzer.py:129-132 | the keys grow by the first occurrences of new bases, in order |
| ClassStructure.AddToBasesSize | analyzers/class_analyzer.py:129-132 | a class adds one list entry per listed base |
| ClassStructure.AddToBasesLookup | analyzers/class_analyzer.py:129-132 | a class is appended to a base's list once per time it names that base; lists of other keys are unchanged |
| ClassStructure.AddChildOnce | analyzers/class_analyzer.py:130-132 | one addition appends exactly one more copy of the child to the base's list |
| ClassStructure.InheritanceTreeKeys | analyzers/class_analyzer.py:121-132 | the inheritance tree's keys are the class names and their bases, each at its first occurrence in table order |
| ClassStructure.InheritanceTreeSize | analyzers/class_analyzer.py:121-132 | the tree holds as many entries as there are base listings over all classes |
| ClassStructure.InheritanceTreeLookup | analyzers/class_analyzer.py:121-132 | each key's list is the classes naming it as a base, in table order, once per naming |
| ClassStructure.InheritanceTreeSpec | analyzers/class_analyzer.py:121-132 | the inheritance tree has one key per class and per base in first-insertion order, each key lists exactly the classes naming it as a base, and the lists together hold one entry per base listing |
| ClassStructure.KeyOrderMembers | analyzers/class_analyzer.py:123-131 | a key is in the tree exactly when it is a class name or a base of some class |
| ClassStructure.SubclassesMembers | analyzers/class_analyzer.py:129-132 | a class is listed under a key exactly when it names that key as a base |
| ClassStructure.InheritanceTreeMeaning | analyzers/class_analyzer.py:121-132 | every class has an entry, and a class is listed under a key exactly when it names that key as a base |
| ClassStructure.ResolvedRecord | analyzers/class_analyzer.py:104-118 | after the relationship pass a record differs from the collected one only in its dependencies, which are its computed set |
| ClassStructure.Succeeded | analyzers/class_analyzer.py:44-63 | a successful analysis has the collected class keys, a relationships entry per class equal to its dependencies, records equal to the collected ones apart from dependencies, and the inheritance tree of the final table |
| ClassStructure.AnalyzeFile | analyzers/class_analyzer.py:31-74 | the analysis succeeds exactly when the file parses and every class has a line number; a parse failure gives "Failed to parse file" and a missing line number gives the attribute error, both with empty tables |
| ClassStructure.TreeFromCollectedBases | analyzers/class_analyzer.py:57-61 | the inheritance tree of a successful analysis is built from the bases as collected, so the relationship pass does not disturb it |
| ClassStructure.SameBasesOrder | analyzers/class_analyzer.py:104-132 | adding dependencies changes neither the key order nor the subclass lists of the inheritance tree |
| ClassStructure.ChildEdges | analyzers/class_analyzer.py:143-145 | an inheritance line is drawn for a child exactly when the child is a found class |
| ClassStructure.EdgeLinesMembers | analyzers/class_analyzer.py:142-145 | a line is among the inheritance lines exactly when it is drawn for some entry of the tree |
| ClassStructure.AssociationTargets | analyzers/class_analyzer.py:163-165 | an association is drawn to a dependency exactly when it is not a base and is a found class |
| ClassStructure.AssociationMeaning | analyzers/class_analyzer.py:163-165 | an association is drawn exactly to the other found classes that are not bases and whose name occurs in a method name |
| ClassStructure.SortedLines | analyzers/class_analyzer.py:153-158 | one line per item, in the order of `sorted(xs)`: line i renders the i-th item of the sorted list, so each item's line appears and every line comes from an item |
| ClassStructure.ClassBox | analyzers/class_analyzer.py:150-160 | a class box opens with the class header and closes with "    }", has one line per instance variable and method, and each variable appears as `+v` and each method as `+m()` |
| ClassStructure.ClassBoxLayout | analyzers/class_analyzer.py:150-160 | inside the box, the lines after the header are exactly the variable lines of `sorted(instance_vars)`, followed by exactly the method lines of `sorted(methods)`, each run in sorted order |
| ClassStructure.GenerateMermaid | analyzers/class_analyzer.py:136-137 | a failed analysis renders as the fixed error diagram |
| ClassStructure.CleanLinesSplit | analyzers/class_analyzer.py:167 | joining newline-free lines with "\n" and splitting again gives the lines back |
| ClassStructure.MermaidLines | analyzers/class_analyzer.py:139-167 | a successful diagram's lines are the header "classDiagram", the inheritance lines, then each class section, in that order |
| ClassStructure.InheritanceDrawn | analyzers/class_analyzer.py:142-145 | every base a found class names gets its inheritance line in the diagram |
| ClassStructure.InheritanceLinesSound | analyzers/class_analyzer.py:142-145 | every inheritance line drawn comes from a base a found class names |
| ClassStructure.AssociationsOfAnalysis | analyzers/class_analyzer.py:163-165 | in a successful analysis, associations go exactly to the other found non-base classes named inside a method name |
| ClassStructure.SingleEmptyClass | analyzers/class_analyzer.py:31-167 | a module with one empty class `A` on line 1 gives one record, the single relationships entry ("A", []) with no dependencies, the tree {A: []} and a diagram with just A's empty box |
| ClassStructure.SingleEmptyClassCollected | analyzers/class_analyzer.py:76-102 | the single empty class is collected with line count 1 and no docstring |
| ClassStructure.EmptyBoxDiagram | analyzers/class_analyzer.py:139-167 | an analysis of one empty class renders as the header and that class's empty box |
| ClassStructure.EmptyBox | analyzers/class_analyzer.py:150-160 | a class with no variables and no methods renders as its header and the closing brace only |
| ClassStructure.ChildDependsOnParent | analyzers/class_analyzer.py:107-116 | a class whose only link to another is naming it as a base depends on exactly that base |
| ClassStructure.SelfBaseDependency | analyzers/class_analyzer.py:115-119 | a class listing itself as a base records itself among its relationships |
| Complexity.CyclomaticComplexity | analyzers/complexity_analyzer.py:187-199 | cyclomatic complexity is at least the base value 1 |
| Complexity.CyclomaticFormula | analyzers/complexity_analyzer.py:187-199 | cyclomatic complexity is 1 plus, over the whole subtree, one per if/while/for, one per extra boolean operand and one per exception handler |
| Complexity.SequentialIfs | analyzers/complexity_analyzer.py:192-193 | a function whose body is k plain ifs has complexity k + 1 |
| Complexity.TryAddsHandlers | analyzers/complexity_analyzer.py:196-197 | a try with k handlers adds k, not 1 |
| Complexity.NestingDepth | analyzers/complexity_analyzer.py:201-216 | the nesting depth is never negative |
| Complexity.DepthAtLeast | analyzers/complexity_analyzer.py:203-214 | the depth found below a node is never less than the depth it starts at |
| Complexity.DepthSeqAtLeastChild | analyzers/complexity_analyzer.py:206-212 | the maximum over children is at least each child's depth, counting the child itself when it is a block |
| Complexity.DepthSeqAttained | analyzers/complexity_analyzer.py:206-214 | the maximum over children is the starting depth or is reached by one particular child |
| Complexity.DepthCoversPath | analyzers/complexity_analyzer.py:203-214 | the depth is at least the number of blocks on any path from the node down |
| Complexity.DepthReachedByPath | analyzers/complexity_analyzer.py:203-214 | some path from the node down holds exactly as many blocks as the depth |
| Complexity.DepthAtMostBlocks | analyzers/complexity_analyzer.py:203-214 | the depth never exceeds the number of blocks below the node |
| Complexity.DepthAboveWhenBlocks | analyzers/complexity_analyzer.py:203-214 | a node with any block below it has a depth above its start |
| Complexity.NestingDepthIsDeepestPath | analyzers/complexity_analyzer.py:201-216 | the nesting depth is the largest number of if/for/while/try blocks on one path from the root |
| Complexity.NestingDepthBounds | analyzers/complexity_analyzer.py:201-216 | the nesting depth is at most the number of blocks in the subtree, and 0 exactly when there are none |
| Complexity.NamesInSet | analyzers/complexity_analyzer.py:223-226 | the collected names are exactly the non-empty names extracted from the nodes |
| Complexity.CouplingScore | analyzers/complexity_analyzer.py:218-228 | the coupling score is 0.1 times the number of distinct non-empty names in the class's subtree |
| Complexity.CouplingAtLeastOwnName | analyzers/complexity_analyzer.py:218-228 | a class with a non-empty name scores at least 0.1, its own name counting |
| Complexity.StoreNamesSet | analyzers/complexity_analyzer.py:171-173 | the local variables are exactly the identifiers of Name nodes in store context |
| Complexity.AnalyzeMethod | analyzers/complexity_analyzer.py:165-185 | a method's metrics are its name, parameter count, cyclomatic complexity, line count, number of distinct stored names, number of returns in the subtree and nesting depth |
| Complexity.MethodPairs | analyzers/complexity_analyzer.py:146-148 | each method entry is keyed by its own name and has complexity at least 1 |
| Complexity.MethodPairsKeys | analyzers/complexity_analyzer.py:146-148 | the method entries are keyed by the method names in body order |
| Complexity.AnalyzeClass | analyzers/complexity_analyzer.py:140-163 | a class's metrics: one dict entry per distinct method name holding the last definition's metrics, the method count as the number of distinct names, distinct assigned names as instance variables, the coupling score, line count and base count |
| Complexity.ClassPairs | analyzers/complexity_analyzer.py:135-138 | every class entry has a non-negative coupling score and non-negative method complexities |
| Complexity.AnalyzeClasses | analyzers/complexity_analyzer.py:133-138 | the class table has distinct keys, each holding the metrics of the last class of that name in walk order |
| Complexity.AnalyzeClassesSound | analyzers/complexity_analyzer.py:133-138 | every entry of the class table has non-negative scores |
| Complexity.AnalyzeClassSound | analyzers/complexity_analyzer.py:140-163 | a single class's metrics have non-negative scores |
| Complexity.MethodTermsNonNegative | analyzers/complexity_analyzer.py:243-248 | the method terms of the total are never negative |
| Complexity.ClassTermsNonNegative | analyzers/complexity_analyzer.py:234-248 | the class terms of the total are never negative |
| Complexity.TotalAtLeastGlobal | analyzers/complexity_analyzer.py:230-250 | the total complexity is never below the global-scope complexity |
| Complexity.AddRisk | analyzers/complexity_analyzer.py:274-282 | a risk is appended together with its matching suggestion "location: advice" |
| Complexity.MethodRisks | analyzers/complexity_analyzer.py:265-272 | checking methods keeps every risk paired with its suggestion |
| Complexity.ClassRisks | analyzers/complexity_analyzer.py:256-272 | checking a class keeps every risk paired with its suggestion |
| Complexity.RisksFrom | analyzers/complexity_analyzer.py:254-272 | checking classes keeps every risk paired with its suggestion |
| Complexity.IdentifyRisks | analyzers/complexity_analyzer.py:252-282 | the risk list and suggestion list have the same length, and each suggestion is its risk's location and advice |
| Complexity.MethodRisksAppend | analyzers/complexity_analyzer.py:265-272 | checking methods appends exactly the method risks in method order |
| Complexity.RisksFromAppend | analyzers/complexity_analyzer.py:254-272 | checking classes appends exactly the expected risks in class order |
| Complexity.IdentifyRisksOrder | analyzers/complexity_analyzer.py:252-272 | the risks are: per class in table order, too many methods, then excessive size, then per method high complexity and deep nesting |
| Complexity.ClassRisksReported | analyzers/complexity_analyzer.py:256-262 | a class over the method limit or over the line limit is reported with that issue |
| Complexity.MethodRisksReported | analyzers/complexity_analyzer.py:265-272 | a method over the complexity or nesting limit is reported at "Class.method" with that issue |
| Complexity.RisksSound | analyzers/complexity_analyzer.py:252-272 | every reported risk is justified by a class or method exceeding the matching threshold |
| Complexity.ScopeComplexity | analyzers/complexity_analyzer.py:118-131 | the scope complexity is never negative |
| Complexity.ScopeVersusCyclomatic | analyzers/complexity_analyzer.py:118-131 | scope complexity equals cyclomatic complexity minus the base 1, counting each try once instead of once per handler |
| Complexity.Succeeded | analyzers/complexity_analyzer.py:77-103 | a successful analysis holds the given scope score and the class table; the total is the scope score plus every class's score, and so no smaller than the scope score; the risk areas are exactly the failed class and method checks, in class order, each with its paired suggestion |
| Complexity.AnalyzeFileAsWritten | analyzers/complexity_analyzer.py:62-116 | as written, no file is analyzed successfully: a parse failure gives "Failed to parse file", and any parsed tree fails in the scope loop with the "not iterable" error |
| Complexity.AnalyzeFile | analyzers/complexity_analyzer.py:62-116 | with the scope loop walking the tree, the analysis succeeds exactly when the file parses; it then reports the total of the scope and class scores and exactly the risks the class table fails, each justified by a failed check |
| Complexity.ScopeLoopDefect | analyzers/complexity_analyzer.py:122 | even an empty module fails as written, while the corrected analysis succeeds with scope score 0 |
| Complexity.EmptyModuleScope | analyzers/complexity_analyzer.py:118-131 | an empty module has scope complexity 0 |
| Complexity.EmptyModuleWalk | analyzers/complexity_analyzer.py:135 | walking an empty module visits only the module itself |
| Config.AnyPattern | analyzers/config_analyzer.py:153-163 | a pattern loop answers true exactly when some listed pattern passes the test |
| Config.IsConfigName | analyzers/config_analyzer.py:148-166 | a name looks like configuration exactly when its upper-case form starts with a listed prefix, ends with a listed suffix or contains a listed word, or when it is upper case with an underscore |
| Config.ConfigNameIgnoresCase | analyzers/config_analyzer.py:150-163 | two names with the same upper-case form that match a listed pattern are both configuration names |
| Config.ListedWordInside | analyzers/config_analyzer.py:161-163 | any name containing one of the listed words, such as SETTINGS, is a configuration name |
| Config.IsConfigValue | analyzers/config_analyzer.py:168-183 | a string is configuration-like exactly when it looks like a path or a URL, a number exactly when it is a magic number, every list or dict is, and None is not |
| Config.GenerateSuggestion | analyzers/config_analyzer.py:185-200 | path, URL, collection and magic-number values get their own advice, path taking precedence over URL; the fallback advice comes exactly when the value is not configuration-like |
| Config.PathBeatsUrl | analyzers/config_analyzer.py:187-191 | a URL ending in ".json" gets the path advice, since the path test comes first |
| Config.ScopeLocation | analyzers/config_analyzer.py:122 | the location of a "class X" or "function f" context is its first word |
| Config.ModuleLocation | analyzers/config_analyzer.py:122 | the location of the module context is "module" |
| Config.RecordConsistent | analyzers/config_analyzer.py:127-128 | recording keeps the earlier findings and puts the item last; from a state whose total matches its well-made findings, the new state keeps matching exactly when the item is well made |
| Config.AssignmentItemsCons | analyzers/config_analyzer.py:113-128 | the items of an assignment are those of its first target followed by those of the rest |
| Config.AssignTargetsAppend | analyzers/config_analyzer.py:110-128 | analyzing an assignment with a line number appends exactly its reported items and adds their number to the total |
| Config.AssignTargetStep | analyzers/config_analyzer.py:113-128 | targets are handled one by one, in order |
| Config.AssignmentItemsMeaning | analyzers/config_analyzer.py:113-128 | an item comes from an assignment exactly when some target is a Name that looks like configuration and the assigned value is not None |
| Config.DefaultPairs | analyzers/config_analyzer.py:133-134 | defaults pair with the last parameters; with more defaults than parameters the slice wraps to the start and zip stops at the shorter |
| Config.DefaultFindingsCons | analyzers/config_analyzer.py:133-146 | the default findings of a function are those of its first pair followed by those of the rest |
| Config.DefaultFindingsMeaning | analyzers/config_analyzer.py:133-146 | an item comes from a default exactly when the default's value is not None and is configuration-like |
| Config.DefaultsAppend | analyzers/config_analyzer.py:130-146 | analyzing defaults appends exactly the reported items and adds their number to the total |
| Config.ClassBodySmaller | analyzers/config_analyzer.py:101-104 | each statement of a class body is smaller than the class, so the recursion into it ends |
| Config.ExtendsTrans | analyzers/config_analyzer.py:94-108 | progress only grows: once raised it stays raised, and items are only ever appended |
| Config.AssignTargetsKeeps | analyzers/config_analyzer.py:110-128 | the assignment step keeps the total equal to the number of items and every item well-formed |
| Config.DefaultsKeep | analyzers/config_analyzer.py:130-146 | the defaults step keeps the total equal to the number of items and every item well-formed |
| Config.AnalyzeNodeKeeps | analyzers/config_analyzer.py:94-108 | the walk keeps the total equal to the number of items, each item's location the first word of its context, and each item justified by its name or value |
| Config.ScanKeeps | analyzers/config_analyzer.py:97-108 | the same for each node visited by the walk |
| Config.VisitKeeps | analyzers/config_analyzer.py:98-108 | the same for a single visited node |
| Config.ClassBodyKeeps | analyzers/config_analyzer.py:101-104 | the same for the statements of a class body |
| Config.AnalyzeFile | analyzers/config_analyzer.py:47-92 | the analysis succeeds exactly when the file parses and the walk raises nothing; failures have empty results and a message; on success the items are those of the walk of the module, the total is their number, every item is well-formed, and both groupings are the groupings of those items by location and by type, holding every item once, keyed by first occurrence |
| Config.ScanRecords | analyzers/config_analyzer.py:97-104 | a finding that one visit of the walk records is still there when the walk ends without an exception |
| Config.ClassBodyRecords | analyzers/config_analyzer.py:103-104 | a finding from one class-body statement survives the analysis of the rest of the body |
| Config.AssignRecords | analyzers/config_analyzer.py:110-128 | visiting an assignment that has a line number records the finding of each configuration-like target with a known value, from whatever state the visit starts |
| Config.WalkRecords | analyzers/config_analyzer.py:97-99 | whatever a visit of a node below the root records reaches the result of the analysis of the root |
| Config.ClassRecords | analyzers/config_analyzer.py:101-104 | visiting a class records each configuration-like assignment in its body in the context "class <name>" |
| Config.ModuleFinding | analyzers/config_analyzer.py:119-126 | an assignment found in the module context has location "module" |
| Config.ClassFinding | analyzers/config_analyzer.py:101-128 | an assignment found in the context of class X has location "class" and context "class X" |
| Config.AssignmentReported | analyzers/config_analyzer.py:73-128 | completeness: every assignment the walk of the file meets, at any depth, with a configuration-like name target and a known value, is in the file's items with location and context "module", its line, value and suggestion |
| Config.ModuleAssignmentReported | analyzers/config_analyzer.py:73-128 | in particular each such top-level assignment of the module is reported |
| Config.ClassBodyInWalk | analyzers/config_analyzer.py:97-104 | the walk meets every statement of the body of a class it meets |
| Config.ClassAssignmentReported | analyzers/config_analyzer.py:101-128 | such an assignment in a class body is in the file's items with location "class" and context "class <name>" |
| Config.ClassAssignReportedTwice | analyzers/config_analyzer.py:97-128 | an assignment in a class body is reported twice, once in the context "module" by the walk and once in the context "class <name>" by the class visit |
| Config.GroupedOnce | analyzers/config_analyzer.py:202-215 | each item appears in the group of its own location and its own value type, and in no other group |
| Mapping.HasKey | planner/mapper.py:40-41 | the `in` test is defined for mappings, lists and strings, and raises for any other document |
| Mapping.FirstMissing | planner/mapper.py:40-43 | the first required key missing from the document is found, and none is found exactly when every key is present |
| Mapping.CheckRules | planner/mapper.py:56-59 | a rule list passes exactly when every rule is a mapping holding "pattern", "target" and "priority"; a rule missing one is rejected with "Invalid pattern structure in" and the type; a rule that is not a mapping raises |
| Mapping.CheckPatternLists | planner/mapper.py:51-59 | the patterns pass exactly when every entry is a list whose rules pass; a raise comes only from a rule that is not a mapping |
| Mapping.Validate | planner/mapper.py:36-61 | validation accepts exactly the well-shaped documents: a mapping with the four required keys whose patterns are a mapping of lists of complete rule mappings; a scalar or null document raises, and lists and strings are never accepted |
| Mapping.LoadMappingAsWritten | planner/mapper.py:19-34 | as written, loading reports success exactly for a readable, valid document and then keeps it; an unreadable file leaves the old configuration; a rejected document leaves no configuration; a document on which validation raises stays stored, which for an empty file (YAML null) is no configuration |
| Mapping.EmptyFileLoadsNothing | planner/mapper.py:21-34 | an empty file parses to null, and both the as-written and the corrected loader return false and leave no configuration |
| Mapping.AsWrittenKeepsInvalidDocument | planner/mapper.py:21-34 | a document whose pattern list holds a string raises inside validation, and as written the loader returns false but keeps that document loaded |
| Mapping.LoadMapping | planner/mapper.py:19-34 | loading reports success exactly for a readable, valid document; any parsed document that fails validation, by rejection or by raising, leaves no configuration, so a valid configuration stays valid |
| Planner.TargetDir | planner/mapper.py:108-111 | a target without "{" plans no directory; one with "{" plans a directory exactly when some character before the first "{" is not "/"; the planned directory is the prefix of the target up to that "{" with only the trailing slashes removed: non-empty, brace-free and not ending in "/" |
| Planner.Targets | planner/mapper.py:106-108 | the targets are exactly those of every rule of every file type |
| Planner.AddDirs | planner/mapper.py:111-112 | adding pattern directories keeps the directories already planned, in place |
| Planner.AddDirsComplete | planner/mapper.py:106-112 | every directory a target asks for ends up in the plan |
| Planner.AddDirsFrom | planner/mapper.py:106-112 | every added directory comes from some target |
| Planner.AddDirsFresh | planner/mapper.py:111-112 | an added directory is never one already planned |
| Planner.PlanDirectories | planner/mapper.py:99-112 | the planned directories include every required directory and every directory asked for by a pattern target |
| Planner.PlanDirectoriesAdded | planner/mapper.py:99-112 | the required directories come first, in their own order; every later one comes from a target, and none of the later ones repeats an earlier one |
| Planner.FirstIgnore | planner/mapper.py:119-123 | the ignore pattern used is the first that matches, and none is used exactly when no pattern matches |
| Planner.SelectRule | planner/mapper.py:126-134 | the chosen rule matches, has priority above -1 and at least that of every matching rule, and is strictly above every earlier match, so the first rule of top priority wins; no rule is chosen exactly when every match has priority -1 or less |
| Planner.Replacements | planner/mapper.py:155-160 | the replacements are keyed name, stem, parent, ext, in that order |
| Planner.ResolveTarget | planner/mapper.py:151-171 | a resolved target has no braces left; otherwise the error is "Unresolved placeholders in target path:" with the text after substitution |
| Planner.NoPlaceholderWithoutBrace | planner/mapper.py:164-165 | a text without "{" contains no placeholder |
| Planner.SubstituteBraceFree | planner/mapper.py:162-166 | substitution leaves a text without "{" unchanged |
| Planner.ResolveBraceFreeTemplate | planner/mapper.py:151-171 | a brace-free template resolves to itself |
| Planner.PlaceholderNotPrefix | planner/mapper.py:164-166 | one placeholder never starts with a different one |
| Planner.OtherPlaceholderAbsent | planner/mapper.py:164-166 | a template holding one placeholder contains no different placeholder |
| Planner.ReplaceOnePlaceholder | planner/mapper.py:164-166 | replacing the one placeholder of a template puts the value in its place and leaves the rest |
| Planner.SubstituteOne | planner/mapper.py:162-166 | a template with one known placeholder becomes the text around it with that key's value inside |
| Planner.SubstituteUnknown | planner/mapper.py:162-166 | a template whose one placeholder names no key is left unchanged |
| Planner.ReplacementKeysPlain | planner/mapper.py:155-160 | the four keys are distinct and brace-free |
| Planner.ReplacementChars | planner/mapper.py:156-159 | every character of the stem or the extension occurs in the file name |
| Planner.ReplacementsBraceFree | planner/mapper.py:155-160 | when the file name and the parent name are brace-free, so are all four values |
| Planner.ResolveOnePlaceholder | planner/mapper.py:151-171 | a template with one known placeholder resolves to the text around it with the path's value inside |
| Planner.ResolveUnknownPlaceholder | planner/mapper.py:151-171 | a template with one unknown placeholder fails, and the message carries the template unchanged |
| Planner.PlanFile | planner/mapper.py:114-149 | a file is ignored exactly when an ignore pattern matches, with the first such pattern in the reason; it is unmatched exactly when no rule is chosen; a move carries the file, the chosen rule's pattern and its resolved, brace-free target |
| Planner.Record | planner/mapper.py:121-149 | each file outcome adds exactly one entry to the plan and leaves the directories: an ignore match appends its (path, reason) to the ignores, a resolved rule appends the move, a failing resolution appends its message to the errors, and a file without a matching rule appends its warning; the other lists stay as they were |
| Planner.RoutedMembers | planner/mapper.py:121-149 | a list of the plan receives exactly the entries its kind of outcome carries, in outcome order |
| Planner.RoutedCount | planner/mapper.py:121-149 | every outcome goes to exactly one of the four lists |
| Planner.PlanFiles | planner/mapper.py:83-84 | planning a type's files adds one entry per file, keeps the directories and earlier moves, and every new move is from one of the files with a brace-free target |
| Planner.PlanFilesRoutes | planner/mapper.py:83-84 | the files of a type are planned in order, and each file's outcome is appended to the list it names: moves, ignores, errors and warnings are the old lists followed by the routed outcomes |
| Planner.FilePlanner | planner/mapper.py:114-149 | the per-file planner gives the outcome of planning that file, and its moves are sound |
| Planner.PlanTypes | planner/mapper.py:81-87 | the loop stops with the "'ignore'" key error exactly when the mapping has no ignore list and some mapped type has files; otherwise it adds one entry per file of a mapped type and one warning per unmapped type, keeping earlier moves |
| Planner.PlanTypesRoutes | planner/mapper.py:81-87 | when the loop finishes, every outcome of the type-by-type reference (each file of a type with rules, one "No mapping rules for file type" warning for a type without) has gone to its list, in order; when it stops for the missing ignore list, no file has been planned: moves, ignores and errors are unchanged and only warnings were added |
| Planner.NoEarlierTarget | planner/mapper.py:178 | a target has not been seen exactly when no earlier move has it |
| Planner.DuplicateOfNone | planner/mapper.py:177-182 | a move reports no duplicate exactly when no earlier move shares its target |
| Planner.DuplicatesFromNone | planner/mapper.py:177-182 | the moves from a position on report nothing exactly when none of them shares a target with an earlier move |
| Planner.DuplicatesNone | planner/mapper.py:176-182 | no duplicate error exactly when all targets are distinct |
| Planner.SeenStep | planner/mapper.py:178-182 | the seen table after a move maps each target to the source of its latest move, and looking up the current target finds the previous one |
| Planner.DuplicateScanFrom | planner/mapper.py:176-182 | the scan with the seen table agrees with the per-move reference: each move repeating a target reports it against the latest earlier move with that target |
| Planner.DuplicateScanMatches | planner/mapper.py:176-182 | the scan from an empty table gives exactly the reference errors |
| Planner.RepeatedTargetReported | planner/mapper.py:176-182 | two moves with the same target always produce an error |
| Planner.MissingDirs | planner/mapper.py:185-187 | a directory is missing exactly when it is required and not planned, each listed once |
| Planner.MissingDirsErrors | planner/mapper.py:185-190 | the missing-directories error appears exactly when some required directory is not planned |
| Planner.CheckMoves | planner/mapper.py:203-210 | the size check keeps moves, directories, ignores and errors, and only appends to the warnings |
| Planner.SizeWarningsCons | planner/mapper.py:203-210 | the warnings of a list of moves are those of its first move followed by those of the rest |
| Planner.CheckMovesAborts | planner/mapper.py:203-207 | the size check stops exactly when a checked move's file cannot be measured, with that error's text |
| Planner.CheckedMoveStep | planner/mapper.py:203-210 | a checked, measurable move adds its warning when over the limit and the check goes on |
| Planner.CheckedMoveWarnings | planner/mapper.py:203-210 | a checked, measurable move contributes exactly its own warning to the total |
| Planner.SkippedMoveWarnings | planner/mapper.py:204 | a move of another extension contributes nothing |
| Planner.CheckMovesWarnings | planner/mapper.py:203-210 | when every checked move can be measured, the check appends exactly one warning per checked move over the limit, in move order |
| Planner.CheckSizes | planner/mapper.py:195-210 | size validation keeps moves, directories, ignores and errors, only appends to the warnings, and does nothing when every check's limit is missing or zero |
| Planner.CheckSizesMeaning | planner/mapper.py:195-210 | size validation stops exactly when a check with a limit looks up a move of its type whose size cannot be read, with that lookup's message; otherwise the warnings grow by the reference list: check by check, one warning per move of the checked type above the limit |
| Planner.LimitedCheck | planner/mapper.py:201-210 | one check with a limit stops exactly on its own failing lookup and otherwise adds its oversized-move warnings |
| Planner.ValidatePlan | planner/mapper.py:173-193 | validation keeps moves, directories and ignores; the errors become the earlier errors, then one error per move whose target an earlier move has, then the missing-directories error if any; without required directories it stops with the "'required_dirs'" key error after the duplicate errors; it stops exactly when a size lookup fails, and otherwise adds the reference size warnings |
| Planner.Finish | planner/mapper.py:94-97 | the moves, creates, ignores and warnings gathered before an exception are kept; the errors only grow, by exactly one entry, the exception's text, when the plan was stopped |
| Planner.CreateMigrationPlan | planner/mapper.py:63-97 | planning fails exactly when no mapping is loaded; otherwise the directories are the planned ones, every move's target is brace-free, and a mapping without an ignore list but with mapped files ends with the "'ignore'" error |
| Planner.PlanLists | planner/mapper.py:63-97 | the returned plan's lists, stated without the loops: a missing ignore list leaves no moves, no ignores and the single "'ignore'" error; otherwise the moves and ignores are the routed outcomes, the errors are the routed file errors, then one per repeated target, then "'required_dirs'" when the mapping lists none or the failing lookup's message when a size lookup fails; the warnings are the routed file warnings followed by the size warnings |
| Planner.RequiredDirsAlwaysPlanned | planner/mapper.py:99-103 | with required directories listed, the missing-directories error never fires, since planning copies them all in |
| Planner.DuplicateTargetsMakeErrors | planner/mapper.py:176-182 | a plan with two moves to the same target has errors |
| Planner.Summarize | planner/mapper.py:212-224 | no plan gives no summary; otherwise the summary counts each list, and has_errors holds exactly when there are errors |
| Planner.AfterPlanning | planner/mapper.py:63-68 | without a mapping the current plan stays as it was; with one, a plan is always recorded |
| Planner.PlanAccountsForEveryFile | planner/mapper.py:81-87 | with an ignore list, the file loop completes and accounts for every file of a mapped type once and for every unmapped type with one warning |
| Scanner.Classify | core/scanner.py:65-81 | a file is classified as one of the six file types the scanner keeps lists for, by the first rule that matches: "python" exactly for a lower-cased suffix ".py"; "config" exactly for a configuration suffix; "docs" exactly for a documentation suffix; "git" exactly for a name starting ".git" with none of those suffixes; "compiled" exactly for a compiled suffix or a path containing "__pycache__" when no earlier rule matched; "other" exactly when no rule matched |
| Scanner.PythonInsidePycache | core/scanner.py:67-79 | a `.py` file inside a `__pycache__` directory is still Python: the suffix test wins over the `__pycache__` path test |
| Scanner.CompiledByPath | core/scanner.py:76-79 | a file whose path contains `__pycache__` and whose suffix is not Python, config or docs and whose name does not start with `.git` is compiled, whatever its own suffix |
| Scanner.ClassifyIntoTypes | core/scanner.py:65-81 | every path classifies into a key of the files dictionary, so the append never raises |
| Scanner.SizeBucket | core/scanner.py:127-133 | a size lands in exactly one bucket: small below 10240 bytes, large from 102400 bytes, medium in between |
| Scanner.FileIntoLookup | core/scanner.py:136-140 | recording a file appends it to its own type's list and leaves every other list unchanged |
| Scanner.NothingTallied | core/scanner.py:89-108 | the initial statistics and file lists are consistent: three size buckets summing to zero files and six empty type lists |
| Scanner.CountFileSums | core/scanner.py:120-133 | counting a file adds one to the type totals and one to the size totals and keeps the three size buckets |
| Scanner.AddFileCounts | core/scanner.py:119-133 | on consistent statistics recording a file of a known type succeeds, adds one file, no directory, and keeps the counts consistent |
| Scanner.AddFileLists | core/scanner.py:119-140 | recording a file keeps the per-type counts equal to the per-type list lengths and every listed file under its own type |
| Scanner.ScanFailsOnStat | core/scanner.py:127 | a file whose size cannot be read, and that is not skipped, makes the whole scan fail |
| Scanner.ScanKeeps | core/scanner.py:111-140 | a failed scan has an unreadable file among the entries; a successful scan ends with consistent counts and lists |
| Scanner.ScanFails | core/scanner.py:111-140 | the scan fails exactly when some entry that is not skipped is a file whose size cannot be read |
| Scanner.ScanCounts | core/scanner.py:111-120 | the file total is the number of files not skipped and the directory total the number of directories not skipped and not named `__pycache__` |
| Scanner.VisitLists | core/scanner.py:112-140 | visiting one entry extends a type's list by exactly that entry's record when it is a counted file of that type, and by nothing otherwise |
| Scanner.ScanLists | core/scanner.py:111-140 | each type's list holds, in walk order, exactly the counted files of that type with their relative paths and sizes |
| Scanner.LastSuccessfulMeaning | core/scanner.py:149-163 | an analysis is kept exactly when some run succeeded, and the kept one is a successful run with no successful run after it |
| Scanner.Runs | core/scanner.py:149-161 | one analyzer run per Python file, in list order |
| Scanner.LastSuccessfulSnoc | core/scanner.py:153-163 | the next file's run replaces the kept analysis exactly when it succeeded |
| Scanner.AnalyzePythonLast | core/scanner.py:143-163 | each of the three kept analyses is the last successful run of its analyzer over the Python files |
| Scanner.ScanDirectoryFails | core/scanner.py:175-187 | the scan reports failure exactly when a file's size cannot be read, and then carries zeroed statistics, empty lists, no analyses and an error message |
| Scanner.ScanDirectorySucceeds | core/scanner.py:83-173 | a successful scan carries consistent counts, the counted files and directories, each type's file list and the last successful analysis of each kind |
| DirectoryMap.ListedMeaning | directory_mapper.py:22-35 | the listed files are exactly the directory's files without an excluded extension, sorted, each as often as it occurs; the listed subdirectories are exactly those not in the excluded set, sorted |
| DirectoryMap.TreeShape | directory_mapper.py:15-40 | every element of the walk is a kept name at or below the starting depth, the first sits at the starting depth, and each step goes at most one level deeper and only just after a directory |
| DirectoryMap.SubdirShape | directory_mapper.py:20-30 | walking a run of kept subdirectories yields the same well-formed preorder shape |
| DirectoryMap.SubdirsAtDepth | directory_mapper.py:22-30 | among the elements a run of subdirectories contributes, those at the run's own depth are exactly the subdirectory names, in order |
| DirectoryMap.TopLevel | directory_mapper.py:20-38 | the elements at a directory's own depth are its listed files followed by its listed subdirectories |
| DirectoryMap.LinesAsWritten | directory_mapper.py:47-57 | the map as written draws one line per element |
| DirectoryMap.NextNotDeeper | directory_mapper.py:51-52 | the search finds the first later element that is not deeper than the given one, or reports that every later element is deeper |
| DirectoryMap.IsLastMeaning | directory_mapper.py:50-54 | an element is drawn with the closing connector exactly when no later sibling at its level follows before the walk climbs above it |
| DirectoryMap.Lines | directory_mapper.py:47-57 | the corrected map draws one line per element |
| DirectoryMap.LineRoundTrip | directory_mapper.py:48-57 | a drawn line reads back to its element's depth, name, directory flag and connector, and holds no line break |
| DirectoryMap.MapReadsBack | directory_mapper.py:42-59 | splitting the corrected map at line breaks gives back its lines; each line reads back to its element, and the closing connector marks exactly the elements with no later sibling |
| DirectoryMap.MapAsWrittenReadsBack | directory_mapper.py:42-59 | the map as written also splits back into its lines, each reading back to its element and the connector the source picks |
| DirectoryMap.AsWrittenDisagrees | directory_mapper.py:51-54 | the source's connector differs from the corrected one exactly when the next element is a sibling at the same depth, or is deeper while the element has no later sibling; the final element agrees |
| DirectoryMap.TwoFilesListed | directory_mapper.py:33-38 | a directory holding files `b` and `a` lists them as `a`, `b` and no subdirectory |
| DirectoryMap.SiblingFilesAsWritten | directory_mapper.py:42-59 | for two sibling files the source draws both with the closing connector, while the corrected map draws the first with the branching connector |
| Syntax.Walk | analyzers/base.py:135 | the breadth-first walk starts with the node it is given |
| Syntax.WalkIsPermutation | analyzers/base.py:135 | the breadth-first walk visits exactly the nodes of the tree, each as often as a preorder traversal does |
| Syntax.PreSeqMembers | analyzers/base.py:135 | a node is in the preorder of a list of trees exactly when it is in the preorder of one of them |
| Syntax.PreClosed | analyzers/base.py:135 | the preorder of a tree holds the children of each node it holds |
| Syntax.ChildInWalk | analyzers/base.py:135 | the walk yields the children of every node it yields |
| Syntax.WalkSizes | analyzers/complexity_analyzer.py:191 | every node the walk yields is no larger than the node the walk started from |
| Syntax.SumWalk | analyzers/complexity_analyzer.py:191-197 | adding up a per-node score over the walk gives the same total as adding it up over the tree structurally |
| Sorting.Sort | directory_mapper.py:22 | the sorted names are in order and are a permutation of the input |
| Paths.NameIsLastPart | planner/mapper.py:156 | a path's name is its last part, empty exactly when the path has no parts, and holds no separator |
| Paths.ParentNameIsPart | planner/mapper.py:158 | the parent's name is the second-to-last part, empty exactly when the path has fewer than two parts |
| Paths.SuffixOfName | planner/mapper.py:157-159 | the suffix is empty or a dot followed by at least one dot-free character, it ends the name, and it is empty exactly when the name has no inner final dot |
| Paths.StemSuffix | planner/mapper.py:157-159 | stem followed by suffix gives back the name |
| Paths.ExtensionOfSuffix | planner/mapper.py:159 | the extension is the suffix without its single leading dot and holds no dot |
| OrderedMap.Put | core/scanner.py:124 | a dictionary store sets the key, leaves every other key's value, and appends the key to the key order only when it is new |
| OrderedMap.FromPairs | analyzers/base.py:133-143 | building a dictionary from assignments in order keeps each key once, in first-insertion order, with its last assigned value |
| OrderedMap.BumpSum | core/scanner.py:124 | incrementing a counter adds exactly one to the sum of all counters |
| OrderedMap.GroupBy | analyzers/config_analyzer.py:202-215 | grouping keeps the keys in first-seen order, gives each key exactly the items with that key in input order, and loses no item |
| Strings.Split | analyzers/base.py:78 | splitting at a character yields at least one piece and no piece holds the character |
| Strings.SplitJoin | directory_mapper.py:59 | joining pieces free of a character with that character and splitting again gives back the pieces |
| Strings.JoinSplit | analyzers/base.py:78-81 | splitting at a character and joining with it gives back the text |
| Strings.RStrip | planner/mapper.py:110 | stripping trailing slashes keeps a prefix that does not end in a slash, and everything removed is slashes |
| Strings.ReplaceAbsent | planner/mapper.py:164-166 | replacing a pattern that does not occur leaves the text unchanged |
| PySeq.Slice | analyzers/base.py:81 | a Python slice with negative or out-of-range bounds clamps both bounds to the sequence and yields the elements between them, or nothing when they cross |
| PySeq.Zip | analyzers/config_analyzer.py:133-134 | zipping pairs elements position by position and stops at the shorter input |

## Left out

- The analyzer modules (`class_analyzer.py`, `complexity_analyzer.py`, `config_analyzer.py`) cannot be imported as written. The first error is a `TypeError` from `@dataclass`. `BaseAnalysis` gives `error_message` a default (analyzers/base.py:15), and the subclasses then declare fields without defaults (analyzers/class_analyzer.py:21-26, analyzers/complexity_analyzer.py:30-37, analyzers/config_analyzer.py:19-25), so each result class fails when it is defined. Past that, the modules use `ast` without importing it, and their `tree: ast.AST` annotations (analyzers/class_analyzer.py:76, analyzers/config_analyzer.py:94, analyzers/complexity_analyzer.py:118) would raise `NameError` when the analyzer class bodies run. The model treats the result records as plain records and `ast` as bound, as the code evidently intends.
- An unsupported literal decodes to None, because `extract_value` falls through to `return None` (analyzers/base.py:120).
- The walk is `ast.walk`'s breadth-first order: a node first, then its children in field order, then theirs (analyzers/base.py:135).
- The scope score counts a `try` statement once, whatever its number of handlers (analyzers/complexity_analyzer.py:124-126).
- Parsing, file reading and `ast.parse` are the `parse` parameter, which yields a tree or None. Line numbers are part of the tree.
- `ast.get_docstring`'s `inspect.cleandoc` indentation clean-up is not modelled: a docstring is returned as written.
- Python's set iteration order is unspecified. Sets the code iterates are duplicate-free sequences, and contracts speak only of their members. The order of association edges in the Mermaid diagram is therefore not pinned down.
- `str.splitlines` is modelled as a split at `\n` only.
- Regular expressions in the configuration analyzer are written out as the explicit predicates they match, for text without line breaks: the `$` of a `re.match` pattern (analyzers/config_analyzer.py:41) also matches before a final newline, which the predicates do not allow.
- Case mapping (`upper`, `lower`, `isupper`) covers ASCII letters only.
- Floating-point scores are `real`. Rounding of Python floats is not modelled.
- `fnmatch.fnmatch` is the `matches` parameter of the planner.
- `yaml.safe_load` is replaced by a typed document value.
- Planner.CreateMigrationPlan: the mapping is a typed value, so the exceptions an ill-typed document raises are not modelled. Examples are a string `priority` compared with a number (planner/mapper.py:132), a `validation` that is a list (planner/mapper.py:101), `required_dirs: null` (planner/mapper.py:102), a non-string `target` (planner/mapper.py:109), `special: null` (planner/mapper.py:119), a `file_checks` that is not a list (planner/mapper.py:198) and a file check without `type` (planner/mapper.py:199). Each would be caught and appended to the errors like the exceptions that are modelled.
- Planner.CreateMigrationPlan: the files are a typed table of paths by file type, which is what the method indexes (planner/mapper.py:81, planner/mapper.py:116). The application's caller passes the `ProjectAnalysis` record instead (main.py:122, core/scanner.py:28-37). `project_contents['files']` then raises `TypeError`, the handler at planner/mapper.py:94-96 appends its text, and the plan holds only the planned directories and that one error. Even given a table, `file_info['path']` fails on a `ProjectFile` record. The model plans the typed table the method is written for.
- `os.path.getsize` and `item.stat()` are the `stat` and entry-size parameters; their failure is a `Result` failure.
- Paths are POSIX paths only.
- Logging calls are left out everywhere; they do not affect any result.
- The text of the missing-directories message lists the directories in a sequence order, while Python prints a set.
- Symbolic links, the error handling inside `rglob` and `os.walk`, and their exact orders are left out:
  - the entries `rglob` yields are the `entries` parameter, with paths relative to the project;
  - the directory listings `os.walk` returns are a `Dir` value.
- The utility-directory test of `scan_directory` is the `skip` parameter.
- `'__pycache__' in str(path)` is checked on the path text.
- `scan_directory` is modelled with the corrected complexity analyzer; see Findings.
- `list_available_projects`, `get_project_summary` and the other scanner methods are directory listing and I/O and are not part of this model.
- The `│   ` prefix of `create_directory_map` is repeated once per level, as written. It does not depend on whether an ancestor was the last of its siblings.
- `main` in directory_mapper.py prints and writes a file; it is not part of this model.
- DirectoryMap.MapReadsBack and DirectoryMap.MapAsWrittenReadsBack hold for names without `/` or line breaks, which is every name a directory listing yields.
- Planner.CheckMoves takes the warning text as a parameter, so its proofs do not depend on the decimal rendering of sizes.

## Findings

| source | as written | input that shows it | evidently intended | confidence | as-written member | corrected member |
|---|---|---|---|---|---|---|
| analyzers/complexity_analyzer.py:122 | `_analyze_scope_complexity` iterates over the result of `safe_walk(node).visit(node)`, which is None, so it raises `TypeError` and `analyze_file` returns a failure for every file that parses | any file that parses, e.g. an empty module | iterate over the nodes of the scope (`ast.walk(node)`) and add up the score | not executed | Complexity.AnalyzeFileAsWritten | Complexity.AnalyzeFile |
| planner/mapper.py:19-34 | `load_mapping` stores the loaded document before validating it, so when validation raises, the invalid mapping stays loaded and `load_mapping` returns False | a document whose `patterns` has `python: ["oops"]` | clear the mapping (None) and return False, as planner/mapper.py:26-28 does when validation rejects the document | not executed | Mapping.LoadMappingAsWritten | Mapping.LoadMapping |
| directory_mapper.py:51-52 | `is_last` holds whenever the next element is not deeper, so an element followed by a sibling is drawn with `└──`, and a non-empty directory with no later sibling is drawn with `├──` | a directory with the two files `a` and `b`: both lines are drawn with `└──` | `└──` exactly for an element with no later sibling at its level | not executed | DirectoryMap.CreateDirectoryMapAsWritten | DirectoryMap.CreateDirectoryMap |

=== FILE: base.dfy ===
/**
 * The helpers every analyzer inherits from `BaseAnalyzer`: line ranges and
 * counts, source slicing, dotted-name extraction, literal decoding, parent
 * links with the enclosing-class lookup, and the import table.
 */
module Base {
  import opened Wrappers
  import opened Strings
  import opened Syntax
  import opened OrderedMap
  import PySeq

  // ---------------------------------------------------------------- lines

  /** `(lineno, end_lineno)` of a node; `end_lineno` may be None. */
  datatype LineRange = LineRange(start: int, end: Option<int>)

  /**
   * The position attributes a node carries. Only class and function
   * definitions and assignments are modelled with one; these are the only
   * nodes whose lines the analyzers read.
   */
  function SpanOf(n: Node): Span {
    match n
    case ClassDef(_, _, _, _, _, span) => span
    case FunctionDef(_, _, _, _, _, _, span) => span
    case Assign(_, _, span) => span
    case _ => NoSpan
  }

  /** Python truthiness of an optional line number: present and non-zero. */
  predicate Truthy(o: Option<int>) {
    o.Some? && o.value != 0
  }

  /** `get_line_range`: the node's positions, or (0, 0) when it has none. */
  function GetLineRange(n: Node): (r: LineRange)
    ensures SpanOf(n).NoSpan? ==> r == LineRange(0, Some(0))
    ensures SpanOf(n).At? ==> r.start == SpanOf(n).lineno && r.end == SpanOf(n).endLineno
  {
    match SpanOf(n)
    case NoSpan => LineRange(0, Some(0))
    case At(lineno, endLineno) => LineRange(lineno, endLineno)
  }

  /** `count_lines`: inclusive line count when both ends are set, else 0. */
  function CountLines(n: Node): (k: int)
    ensures SpanOf(n).NoSpan? ==> k == 0
    ensures var r := GetLineRange(n);
      (r.start != 0 && Truthy(r.end) ==> k == r.end.value - r.start + 1) &&
      (r.start == 0 || !Truthy(r.end) ==> k == 0)
  {
    var r := GetLineRange(n);
    if r.start != 0 && Truthy(r.end) then r.end.value - r.start + 1 else 0
  }

  /** No line produced by `splitlines` contains a line break. */
  predicate NoLineBreaks(lines: seq<string>) {
    forall i :: 0 <= i < |lines| ==> '\n' !in lines[i]
  }

  /**
   * `get_node_source`, with the file already split into lines: the lines
   * `start..end` (a Python slice) joined by newlines, when both ends are set
   * and the start is within the file.
   */
  function GetNodeSource(n: Node, lines: seq<string>): (r: Option<string>)
    ensures var lr := GetLineRange(n);
      r.Some? <==> lr.start != 0 && Truthy(lr.end) && lr.start <= |lines|
    ensures r.Some? ==>
      var lr := GetLineRange(n);
      r.value == Join(PySeq.Slice(lines, lr.start - 1, lr.end.value), "\n")
  {
    var lr := GetLineRange(n);
    if lr.start != 0 && Truthy(lr.end) && lr.start <= |lines| then
      Some(Join(PySeq.Slice(lines, lr.start - 1, lr.end.value), "\n"))
    else None
  }

  /**
   * For a node whose span lies within the file, the source text splits back
   * into exactly the node's lines, and there are `count_lines` of them.
   */
  lemma SourceMatchesLineCount(n: Node, lines: seq<string>)
    requires NoLineBreaks(lines)
    requires var lr := GetLineRange(n);
      1 <= lr.start && lr.end.Some? && lr.start <= lr.end.value <= |lines|
    ensures GetNodeSource(n, lines).Some?
    ensures var lr := GetLineRange(n);
      Split(GetNodeSource(n, lines).value, '\n') == lines[lr.start - 1..lr.end.value]
    ensures |Split(GetNodeSource(n, lines).value, '\n')| == CountLines(n)
  {
    var lr := GetLineRange(n);
    var lo, hi := lr.start - 1, lr.end.value;
    assert PySeq.Slice(lines, lo, hi) == lines[lo..hi];
    LinesSplitBack(lines, lo, hi);
  }

  /** A run of lines without line breaks, joined by newlines, splits back into itself. */
  lemma LinesSplitBack(lines: seq<string>, lo: nat, hi: nat)
    requires NoLineBreaks(lines)
    requires lo < hi <= |lines|
    ensures Split(Join(lines[lo..hi], "\n"), '\n') == lines[lo..hi]
  {
    var part := lines[lo..hi];
    forall k | 0 <= k < |part| ensures '\n' !in part[k] {
      assert part[k] == lines[lo + k];
    }
    SplitJoin(part, '\n');
  }

  // ---------------------------------------------------------------- names

  /** The text an f-string gives an optional name: `None` when absent. */
  function NameText(o: Option<string>): string {
    if o.Some? then o.value else "None"
  }

  /**
   * `extract_name`: a Name's id, a definition's name, and for an attribute
   * the dotted text of its value (literally `None` when that has no name)
   * followed by the attribute; None for every other node.
   */
  function ExtractName(n: Node): (r: Option<string>)
    ensures r.Some? <==> n.Name? || n.Attribute? || n.FunctionDef? || n.ClassDef?
    ensures n.Name? ==> r == Some(n.id)
    ensures n.FunctionDef? || n.ClassDef? ==> r == Some(n.name)
    ensures n.Attribute? ==> r.Some? && EndsWith(r.value, "." + n.attr)
  {
    match n
    case Name(id, _) => Some(id)
    case Attribute(value, attr) => Some(NameText(ExtractName(value)) + "." + attr)
    case FunctionDef(name, _, _, _, _, _, _) => Some(name)
    case ClassDef(name, _, _, _, _, _) => Some(name)
    case _ => None
  }

  /** The expression `root.a1.a2…`. */
  function Dotted(root: string, attrs: seq<string>): Node
    decreases |attrs|
  {
    if attrs == [] then Name(root, Load)
    else Attribute(Dotted(root, attrs[..|attrs| - 1]), attrs[|attrs| - 1])
  }

  /** A dotted name is extracted as its parts joined by dots. */
  lemma {:induction false} DottedJoin(root: string, attrs: seq<string>)
    ensures ExtractName(Dotted(root, attrs)) == Some(Join([root] + attrs, "."))
    decreases |attrs|
  {
    if attrs != [] {
      var init := attrs[..|attrs| - 1];
      DottedJoin(root, init);
      JoinSnoc([root] + init, ".", attrs[|attrs| - 1]);
      assert [root] + attrs == ([root] + init) + [attrs[|attrs| - 1]];
    }
  }

  /** A dotted name is extracted as its parts joined by dots, and splits back into them. */
  lemma ExtractDottedName(root: string, attrs: seq<string>)
    ensures ExtractName(Dotted(root, attrs)) == Some(Join([root] + attrs, "."))
    ensures '.' !in root && (forall i :: 0 <= i < |attrs| ==> '.' !in attrs[i]) ==>
      Split(ExtractName(Dotted(root, attrs)).value, '.') == [root] + attrs
  {
    DottedJoin(root, attrs);
    var parts := [root] + attrs;
    if '.' !in root && (forall i :: 0 <= i < |attrs| ==> '.' !in attrs[i]) {
      forall k | 0 <= k < |parts| ensures '.' !in parts[k] {
        if k > 0 { assert parts[k] == attrs[k - 1]; }
      }
      SplitJoin(parts, '.');
    }
  }

  /** An attribute of an unnamed value (a call, a subscript, …) gets the literal prefix `None`. */
  lemma UnnamedAttribute(value: Node, attr: string)
    requires !(value.Name? || value.Attribute? || value.FunctionDef? || value.ClassDef?)
    ensures ExtractName(Attribute(value, attr)) == Some("None." + attr)
  {
    assert ExtractName(value) == None;
    assert "None" + "." + attr == "None." + attr;
  }

  // ---------------------------------------------------------------- docstrings

  /** The nodes `ast.get_docstring` accepts, whose first statement may be a docstring. */
  predicate HasDocSlot(n: Node) {
    n.Module? || n.ClassDef? || n.FunctionDef?
  }

  /** The string literal a statement consists of, if it is one. */
  function StringStatement(s: Node): Option<string> {
    match s
    case Expr(Constant(StrConst(text))) => Some(text)
    case _ => None
  }

  /**
   * `extract_docstring`: the text of a string-literal first statement of a
   * module, class or function; None for any other node (where
   * `ast.get_docstring` raises and the error is swallowed) and for a body
   * that does not start with a string.
   */
  function ExtractDocstring(n: Node): (r: Option<string>)
    ensures !HasDocSlot(n) ==> r.None?
    ensures HasDocSlot(n) && n.body == [] ==> r.None?
    ensures HasDocSlot(n) && n.body != [] ==> r == StringStatement(n.body[0])
    ensures r.Some? ==> HasDocSlot(n) && n.body[0] == Expr(Constant(StrConst(r.value)))
  {
    if HasDocSlot(n) && n.body != [] then StringStatement(n.body[0]) else None
  }

  /** A string placed before any body becomes the docstring; anything else first means none. */
  lemma DocstringFirstStatement(name: string, bases: seq<Node>, text: string, rest: seq<Node>, other: Node)
    requires StringStatement(other).None?
    ensures ExtractDocstring(ClassDef(name, bases, [], [Expr(Constant(StrConst(text)))] + rest, [], NoSpan)) == Some(text)
    ensures ExtractDocstring(ClassDef(name, bases, [], [other, Expr(Constant(StrConst(text)))] + rest, [], NoSpan)).None?
  {
  }

  // ---------------------------------------------------------------- literals

  /** The Python value `extract_value` produces; NoneValue is Python's None. */
  datatype Literal =
    | Integer(i: int)
    | Float(r: real)
    | Text(s: string)
    | Boolean(b: bool)
    | NoneValue
    | Complex(im: real)
    | Sequence(items: seq<Literal>)
    | Mapping(entries: seq<(Literal, Literal)>)

  /** Values usable as dict keys; lists and dicts are unhashable. */
  predicate Hashable(l: Literal) {
    !l.Sequence? && !l.Mapping?
  }

  predicate Numeric(l: Literal) {
    l.Integer? || l.Float? || l.Boolean?
  }

  function NumValue(l: Literal): real
    requires Numeric(l)
  {
    match l
    case Integer(i) => i as real
    case Float(r) => r
    case Boolean(b) => if b then 1.0 else 0.0
  }

  /** The real and imaginary parts of a number used as a key. */
  function KeyParts(l: Literal): (real, real)
    requires Numeric(l) || l.Complex?
  {
    if l.Complex? then (0.0, l.im) else (NumValue(l), 0.0)
  }

  /** Python key equality: `1`, `1.0` and `True` are one key, and so are `0` and `0j`. */
  predicate SameKey(a: Literal, b: Literal) {
    ((Numeric(a) || a.Complex?) && (Numeric(b) || b.Complex?) && KeyParts(a) == KeyParts(b)) ||
    (a.Text? && b.Text? && a.s == b.s) ||
    (a.NoneValue? && b.NoneValue?)
  }

  /** No two entries of a dict have equal keys. */
  predicate DistinctKeys(e: seq<(Literal, Literal)>) {
    forall i, j :: 0 <= i < j < |e| ==> !SameKey(e[i].0, e[j].0)
  }

  /** `d[k]` on the entries of a dict value. */
  function MappingGet(e: seq<(Literal, Literal)>, k: Literal): Option<Literal> {
    if e == [] then None
    else if SameKey(e[0].0, k) then Some(e[0].1)
    else MappingGet(e[1..], k)
  }

  /** `d[k] = v`: an equal key keeps its place and first spelling and takes the new value. */
  function MappingPut(e: seq<(Literal, Literal)>, k: Literal, v: Literal): (r: seq<(Literal, Literal)>)
    ensures forall k' :: MappingGet(r, k') == if SameKey(k, k') then Some(v) else MappingGet(e, k')
    ensures DistinctKeys(e) ==> DistinctKeys(r)
  {
    if e == [] then [(k, v)]
    else if SameKey(e[0].0, k) then
      var r := [(e[0].0, v)] + e[1..];
      assert forall i :: 1 <= i < |r| ==> r[i] == e[i];
      r
    else
      var tail := MappingPut(e[1..], k, v);
      var r := [e[0]] + tail;
      assert forall i :: 1 <= i < |r| ==> r[i] == tail[i - 1];
      assert forall i :: 1 <= i < |e| ==> e[i] == e[1..][i - 1];
      if DistinctKeys(e) then
        MappingGetNone(e[1..], e[0].0);
        MappingGetNone(tail, e[0].0);
        r
      else r
  }

  /** A key is absent exactly when no entry has an equal key. */
  lemma {:induction false} MappingGetNone(e: seq<(Literal, Literal)>, x: Literal)
    ensures MappingGet(e, x).None? <==> forall i :: 0 <= i < |e| ==> !SameKey(e[i].0, x)
  {
    if e != [] {
      MappingGetNone(e[1..], x);
      assert forall i :: 1 <= i < |e| ==> e[i] == e[1..][i - 1];
    }
  }

  /** The value the last pair with key `k` carries, if any. */
  function LastMatch(ps: seq<(Literal, Literal)>, k: Literal): Option<Literal>
    decreases |ps|
  {
    if ps == [] then None
    else if SameKey(ps[|ps| - 1].0, k) then Some(ps[|ps| - 1].1)
    else LastMatch(ps[..|ps| - 1], k)
  }

  /**
   * The dict comprehension over key/value pairs: None when a key is
   * unhashable (the TypeError ends the whole extraction), else the entries
   * with the last value for each key.
   */
  function BuildMapping(ps: seq<(Literal, Literal)>): (r: Option<seq<(Literal, Literal)>>)
    ensures r.Some? <==> forall i :: 0 <= i < |ps| ==> Hashable(ps[i].0)
    ensures r.Some? ==> DistinctKeys(r.value)
    ensures r.Some? ==> forall k :: MappingGet(r.value, k) == LastMatch(ps, k)
    decreases |ps|
  {
    if ps == [] then Some([])
    else
      var init := BuildMapping(ps[..|ps| - 1]);
      var last := ps[|ps| - 1];
      assert forall i :: 0 <= i < |ps| - 1 ==> ps[..|ps| - 1][i] == ps[i];
      if init.Some? && Hashable(last.0) then Some(MappingPut(init.value, last.0, last.1))
      else None
  }

  /**
   * `extract_value`: numbers (int, float and complex: the constants `ast.Num`
   * accepts) and strings of constants, lists elementwise, dicts by their
   * key/value pairs, and the names True, False and None. Boolean, None, bytes
   * and Ellipsis constants are neither `ast.Num` nor `ast.Str`, so they give None.
   */
  function ExtractValue(n: Node): (r: Literal)
    ensures n.Constant? && n.c.IntConst? ==> r == Integer(n.c.i)
    ensures n.Constant? && n.c.FloatConst? ==> r == Float(n.c.r)
    ensures n.Constant? && n.c.ImagConst? ==> r == Complex(n.c.im)
    ensures n.Constant? && n.c.StrConst? ==> r == Text(n.c.s)
    ensures n.Constant? && (n.c.BoolConst? || n.c.NoneConst? || n.c.OtherConst?) ==> r == NoneValue
    ensures n.ListLit? <==> r.Sequence?
    ensures n.ListLit? ==> |r.items| == |n.elts|
    ensures r.Mapping? ==> n.DictLit? && DistinctKeys(r.entries)
    ensures n.DictLit? ==>
      (r.Mapping? <==> forall i :: 0 <= i < |ExtractPairs(n.keys, n.vals)| ==> Hashable(ExtractPairs(n.keys, n.vals)[i].0))
    ensures n.DictLit? && r.Mapping? ==> forall k :: MappingGet(r.entries, k) == LastMatch(ExtractPairs(n.keys, n.vals), k)
    ensures r.Boolean? <==> n.Name? && (n.id == "True" || n.id == "False")
    ensures r.Boolean? ==> r.b == (n.id == "True")
    ensures !(n.Constant? || n.ListLit? || n.DictLit? || n.Name?) ==> r == NoneValue
    decreases Size(n), 0
  {
    match n
    case Constant(c) =>
      (match c
       case IntConst(i) => Integer(i)
       case FloatConst(x) => Float(x)
       case ImagConst(im) => Complex(im)
       case StrConst(s) => Text(s)
       case _ => NoneValue)
    case ListLit(elts) => Sequence(ExtractValues(elts))
    case DictLit(keys, vals) =>
      var m := BuildMapping(ExtractPairs(keys, vals));
      if m.Some? then Mapping(m.value) else NoneValue
    case Name(id, _) =>
      if id == "True" then Boolean(true) else if id == "False" then Boolean(false) else NoneValue
    case _ => NoneValue
  }

  function ExtractValues(s: seq<Node>): (r: seq<Literal>)
    ensures |r| == |s|
    decreases SizeSeq(s), 1
  {
    if s == [] then [] else [ExtractValue(s[0])] + ExtractValues(s[1..])
  }

  /** A list extracts elementwise. */
  lemma {:induction false} ListElements(s: seq<Node>, i: nat)
    requires i < |s|
    ensures ExtractValue(ListLit(s)).items[i] == ExtractValue(s[i])
  {
    ExtractValuesAt(s, i);
  }

  lemma {:induction false} ExtractValuesAt(s: seq<Node>, i: nat)
    requires i < |s|
    ensures ExtractValues(s)[i] == ExtractValue(s[i])
  {
    if i > 0 {
      ExtractValuesAt(s[1..], i - 1);
    }
  }

  /** `zip(keys, values)` with both sides extracted. */
  function ExtractPairs(keys: seq<Node>, vals: seq<Node>): (r: seq<(Literal, Literal)>)
    ensures |r| == if |keys| <= |vals| then |keys| else |vals|
    decreases SizeSeq(keys) + SizeSeq(vals), 1
  {
    if keys == [] || vals == [] then []
    else [(ExtractValue(keys[0]), ExtractValue(vals[0]))] + ExtractPairs(keys[1..], vals[1..])
  }

  /** The dict's pairs are `zip(keys, values)`, both sides extracted. */
  lemma {:induction false} ExtractPairsAt(keys: seq<Node>, vals: seq<Node>, i: nat)
    requires i < |keys| && i < |vals|
    ensures ExtractPairs(keys, vals)[i] == (ExtractValue(keys[i]), ExtractValue(vals[i]))
  {
    if i > 0 {
      ExtractPairsAt(keys[1..], vals[1..], i - 1);
    }
  }

  /** In an extracted dict the value under a key is the one its last pair gave. */
  lemma DictLastValueWins(keys: seq<Node>, vals: seq<Node>, k: Literal)
    requires var m := ExtractValue(DictLit(keys, vals)); m.Mapping?
    ensures MappingGet(ExtractValue(DictLit(keys, vals)).entries, k) == LastMatch(ExtractPairs(keys, vals), k)
  {
  }

  /** A dict with a list key extracts to None as a whole. */
  lemma UnhashableKeyGivesNone(keys: seq<Node>, vals: seq<Node>, i: nat)
    requires i < |keys| && i < |vals|
    requires keys[i].ListLit?
    ensures ExtractValue(DictLit(keys, vals)) == NoneValue
  {
    ExtractPairsAt(keys, vals, i);
  }

  // ---------------------------------------------------------------- parent links

  /**
   * The parent links `add_parent_links` sets, for the subtree `n` found at
   * path `at`: every child gets its parent's path.
   */
  function LinksFrom(n: Node, at: Path): map<Path, Path>
    decreases Size(n), 0
  {
    ChildrenSize(n);
    ChildLinks(Children(n), at, 0)
  }

  /** Links for the children `cs` of the node at `at`, the first of them being child number `i`. */
  function ChildLinks(cs: seq<Node>, at: Path, i: nat): map<Path, Path>
    decreases SizeSeq(cs), 1
  {
    if cs == [] then map[]
    else (ChildLinks(cs[1..], at, i + 1) + LinksFrom(cs[0], at + [i]))[at + [i] := at]
  }

  /** `add_parent_links` on a whole tree. */
  function AddParentLinks(tree: Node): map<Path, Path> {
    LinksFrom(tree, [])
  }

  /** `q` names a node strictly inside the subtree of `n` placed at `at`. */
  predicate Below(n: Node, at: Path, q: Path) {
    |q| > |at| && q[..|at|] == at && NodeAt(n, q[|at|..]).Some?
  }

  /** `q` names a node strictly inside one of the children `cs` (numbered from `i`) of the node at `at`. */
  predicate BelowChildren(cs: seq<Node>, at: Path, i: nat, q: Path) {
    |q| > |at| && q[..|at|] == at && i <= q[|at|] < i + |cs| &&
    NodeAt(cs[q[|at|] - i], q[|at| + 1..]).Some?
  }

  predicate LinksToParent(links: map<Path, Path>) {
    forall q :: q in links ==> |q| > 0 && links[q] == q[..|q| - 1]
  }

  lemma {:induction false} LinksFromParents(n: Node, at: Path)
    ensures LinksToParent(LinksFrom(n, at))
    decreases Size(n), 0
  {
    ChildrenSize(n);
    ChildLinksParents(Children(n), at, 0);
  }

  lemma {:induction false} ChildLinksParents(cs: seq<Node>, at: Path, i: nat)
    ensures LinksToParent(ChildLinks(cs, at, i))
    decreases SizeSeq(cs), 1
  {
    if cs != [] {
      var here := at + [i];
      ChildLinksParents(cs[1..], at, i + 1);
      LinksFromParents(cs[0], here);
      assert here[..|here| - 1] == at;
    }
  }

  lemma {:induction false} LinksFromKeys(n: Node, at: Path, q: Path)
    ensures q in LinksFrom(n, at) <==> Below(n, at, q)
    decreases Size(n), 0
  {
    ChildrenSize(n);
    ChildLinksKeys(Children(n), at, 0, q);
    if |q| > |at| {
      var rest := q[|at|..];
      assert rest[1..] == q[|at| + 1..];
    }
  }

  lemma {:induction false} ChildLinksKeys(cs: seq<Node>, at: Path, i: nat, q: Path)
    ensures q in ChildLinks(cs, at, i) <==> BelowChildren(cs, at, i, q)
    decreases SizeSeq(cs), 1
  {
    if cs != [] {
      var here := at + [i];
      ChildLinksKeys(cs[1..], at, i + 1, q);
      LinksFromKeys(cs[0], here, q);
      assert q in ChildLinks(cs, at, i) <==>
        q == here || q in ChildLinks(cs[1..], at, i + 1) || q in LinksFrom(cs[0], here);
      if BelowChildren(cs, at, i, q) {
        FirstChildOrLater(cs, at, i, q);
      }
      if q in LinksFrom(cs[0], here) {
        BelowFirstChild(cs, at, i, q);
      }
      if q in ChildLinks(cs[1..], at, i + 1) {
        assert cs[q[|at|] - i] == cs[1..][q[|at|] - (i + 1)];
      }
    }
  }

  lemma FirstChildOrLater(cs: seq<Node>, at: Path, i: nat, q: Path)
    requires cs != []
    requires BelowChildren(cs, at, i, q)
    ensures q == at + [i] || Below(cs[0], at + [i], q) || BelowChildren(cs[1..], at, i + 1, q)
  {
    var here := at + [i];
    if q[|at|] == i {
      if |q| == |here| {
        assert q == here;
      } else {
        assert q[..|here|] == here;
        assert q[|here|..] == q[|at| + 1..];
      }
    } else {
      assert cs[q[|at|] - i] == cs[1..][q[|at|] - (i + 1)];
    }
  }

  lemma BelowFirstChild(cs: seq<Node>, at: Path, i: nat, q: Path)
    requires cs != []
    requires Below(cs[0], at + [i], q)
    ensures BelowChildren(cs, at, i, q)
  {
    var here := at + [i];
    assert q[..|at|] == here[..|at|] == at;
    assert q[|at|] == here[|at|] == i;
    assert q[|here|..] == q[|at| + 1..];
  }

  /**
   * After `add_parent_links`, exactly the non-root nodes have a parent, and
   * it is their immediate parent.
   */
  lemma ParentLinksCorrect(tree: Node, q: Path)
    ensures q in AddParentLinks(tree) <==> q != [] && NodeAt(tree, q).Some?
    ensures q in AddParentLinks(tree) ==> AddParentLinks(tree)[q] == q[..|q| - 1]
  {
    LinksFromKeys(tree, [], q);
    LinksFromParents(tree, []);
    assert q[..0] == [];
    assert q[0..] == q;
  }

  /** Following a parent link always leads closer to the root. */
  predicate Shrinks(links: map<Path, Path>) {
    forall q :: q in links ==> |links[q]| < |q|
  }

  /**
   * `find_parent_class`: follow parent links from `p` and return the first
   * ClassDef met, or None once a node has no parent.
   */
  function FindParentClass(tree: Node, links: map<Path, Path>, p: Path): (r: Option<Path>)
    requires Shrinks(links)
    ensures r.Some? ==> NodeAt(tree, r.value).Some? && NodeAt(tree, r.value).value.ClassDef?
    decreases |p|
  {
    if p !in links then None
    else
      var q := links[p];
      var at := NodeAt(tree, q);
      if at.Some? && at.value.ClassDef? then Some(q) else FindParentClass(tree, links, q)
  }

  predicate IsClassAt(tree: Node, p: Path) {
    NodeAt(tree, p).Some? && NodeAt(tree, p).value.ClassDef?
  }

  /** `r` is the nearest strict ancestor of `p` that is a class, or None if there is none. */
  predicate NearestClass(tree: Node, p: Path, r: Option<Path>) {
    match r
    case Some(c) =>
      |c| < |p| && c == p[..|c|] && IsClassAt(tree, c) &&
      forall k :: |c| < k < |p| ==> !IsClassAt(tree, p[..k])
    case None => forall k :: 0 <= k < |p| ==> !IsClassAt(tree, p[..k])
  }

  lemma AddParentLinksShrinks(tree: Node)
    ensures Shrinks(AddParentLinks(tree))
  {
    forall q | q in AddParentLinks(tree) ensures |AddParentLinks(tree)[q]| < |q| {
      ParentLinksCorrect(tree, q);
    }
  }

  /** With the links `add_parent_links` sets, `find_parent_class` finds the nearest enclosing class. */
  lemma {:induction false} FindParentClassNearest(tree: Node, p: Path)
    requires NodeAt(tree, p).Some?
    ensures Shrinks(AddParentLinks(tree))
    ensures NearestClass(tree, p, FindParentClass(tree, AddParentLinks(tree), p))
    decreases |p|
  {
    AddParentLinksShrinks(tree);
    var links := AddParentLinks(tree);
    ParentLinksCorrect(tree, p);
    if p != [] {
      var q := p[..|p| - 1];
      NodeAtSplit(tree, p, |p| - 1);
      if !IsClassAt(tree, q) {
        FindParentClassNearest(tree, q);
        var r := FindParentClass(tree, links, q);
        assert forall k :: 0 <= k <= |q| ==> q[..k] == p[..k];
        if r.Some? {
          assert r.value == q[..|r.value|];
        }
      }
    }
  }

  // ---------------------------------------------------------------- imports

  /** `alias.asname or alias.name`. */
  function BoundName(a: Alias): string {
    if a.asname.Some? && a.asname.value != "" then a.asname.value else a.name
  }

  /** The (bound name, imported name) pairs one node contributes to the import table. */
  function ImportBindings(n: Node): (r: seq<(string, string)>)
    ensures n.Import? ==> (|r| == |n.names| &&
      forall i :: 0 <= i < |r| ==> r[i] == (BoundName(n.names[i]), n.names[i].name))
    ensures n.ImportFrom? ==> (|r| == |n.names| &&
      forall i :: 0 <= i < |r| ==>
        r[i] == (BoundName(n.names[i]), n.fromModule.GetOr("") + "." + n.names[i].name))
    ensures !n.Import? && !n.ImportFrom? ==> r == []
  {
    match n
    case Import(names) => seq(|names|, i requires 0 <= i < |names| => (BoundName(names[i]), names[i].name))
    case ImportFrom(m, names) =>
      seq(|names|, i requires 0 <= i < |names| => (BoundName(names[i]), m.GetOr("") + "." + names[i].name))
    case _ => []
  }

  /** The bindings of the nodes of `s`, in order. */
  function AllBindings(s: seq<Node>): seq<(string, string)> {
    FlatMap(s, ImportBindings)
  }

  /** `analyze_imports`: the import table filled in walk order, the last binding of a name winning. */
  function AnalyzeImports(tree: Node): (r: Dict<string, string>)
    ensures NoDuplicates(Keys(r))
    ensures forall k :: Lookup(r, k) == LastValue(AllBindings(Walk(tree)), k)
  {
    FromPairs(AllBindings(Walk(tree)))
  }

  lemma AllBindingsKeys(s: seq<Node>, k: string)
    ensures k in Keys(AllBindings(s)) <==> exists m :: m in s && k in Keys(ImportBindings(m))
  {
    FlatMapKeys(s, ImportBindings, k);
    if exists m :: m in s && k in Keys(ImportBindings(m)) {
      var m :| m in s && k in Keys(ImportBindings(m));
      var j :| 0 <= j < |s| && s[j] == m;
    }
  }

  /** A name is in the import table exactly when some import anywhere in the tree binds it. */
  lemma AnalyzeImportsKeys(tree: Node, k: string)
    ensures k in Keys(AnalyzeImports(tree)) <==>
      exists m :: m in Pre(tree) && k in Keys(ImportBindings(m))
  {
    var w := Walk(tree);
    AllBindingsKeys(w, k);
    WalkIsPermutation(tree);
    assert Keys(AnalyzeImports(tree)) == Dedup(Keys(AllBindings(w)));
  }

  /** A relative `from . import x` binds `x` to `.x`. */
  lemma RelativeImportBinding(names: seq<Alias>, i: nat)
    requires i < |names|
    ensures ImportBindings(ImportFrom(None, names))[i] == (BoundName(names[i]), "." + names[i].name)
  {
    assert None.GetOr("") + "." + names[i].name == "." + names[i].name;
  }
}

=== FILE: class_structure.dfy ===
/**
 * `ClassAnalyzer`: the classes of a file with their bases, methods, instance
 * variables and docstrings; the dependencies between them; the inheritance
 * tree; and the Mermaid class diagram drawn from all three.
 */
module ClassStructure {
  import opened Wrappers
  import opened Strings
  import opened Syntax
  import opened OrderedMap
  import opened Base
  import Sorting
  import Complexity

  /**
   * One class definition. `instanceVars` and `dependencies` are Python sets,
   * held as sequences without repeats; a base or a dependency whose name
   * `extract_name` cannot give is None.
   */
  datatype ClassInfo = ClassInfo(
    name: string,
    bases: seq<Option<string>>,
    methods: seq<string>,
    instanceVars: seq<string>,
    dependencies: seq<Option<string>>,
    lineCount: int,
    startLine: int,
    endLine: Option<int>,
    docstring: Option<string>)

  type ClassTable = Dict<string, ClassInfo>

  /** Class name to the classes it depends on. */
  type Relationships = Dict<string, seq<Option<string>>>

  /** Base (None when unnamed) to its subclasses, a subclass once per time it lists the base. */
  type InheritanceTree = Dict<Option<string>, seq<string>>

  // ---------------------------------------------------------------- collecting

  /** The ids of the plain names among assignment targets, in order. */
  function TargetIds(targets: seq<Node>): seq<string> {
    if targets == [] then []
    else (if targets[0].Name? then [targets[0].id] else []) + TargetIds(targets[1..])
  }

  lemma {:induction false} TargetIdsMembers(targets: seq<Node>, v: string)
    ensures v in TargetIds(targets) <==>
      exists j :: 0 <= j < |targets| && targets[j].Name? && targets[j].id == v
  {
    if targets != [] {
      var tail := targets[1..];
      TargetIdsMembers(tail, v);
      if exists j :: 0 <= j < |targets| && targets[j].Name? && targets[j].id == v {
        var j :| 0 <= j < |targets| && targets[j].Name? && targets[j].id == v;
        if j > 0 { assert tail[j - 1] == targets[j]; }
      }
      if v in TargetIds(tail) {
        var j :| 0 <= j < |tail| && tail[j].Name? && tail[j].id == v;
        assert targets[j + 1] == tail[j];
      }
    }
  }

  /** A statement assigns to the plain name `v`. */
  predicate AssignsName(s: Node, v: string) {
    s.Assign? && exists j :: 0 <= j < |s.targets| && s.targets[j].Name? && s.targets[j].id == v
  }

  /** The names assigned by the assignments directly in a class body, repeats kept. */
  function InstanceVarNames(body: seq<Node>): seq<string> {
    if body == [] then []
    else (if body[0].Assign? then TargetIds(body[0].targets) else []) + InstanceVarNames(body[1..])
  }

  lemma {:induction false} InstanceVarNamesMembers(body: seq<Node>, v: string)
    ensures v in InstanceVarNames(body) <==> exists i :: 0 <= i < |body| && AssignsName(body[i], v)
  {
    if body != [] {
      var tail := body[1..];
      InstanceVarNamesMembers(tail, v);
      if body[0].Assign? {
        TargetIdsMembers(body[0].targets, v);
      }
      if exists i :: 0 <= i < |body| && AssignsName(body[i], v) {
        var i :| 0 <= i < |body| && AssignsName(body[i], v);
        if i > 0 { assert tail[i - 1] == body[i]; }
      }
      if v in InstanceVarNames(tail) {
        var i :| 0 <= i < |tail| && AssignsName(tail[i], v);
        assert body[i + 1] == tail[i];
      }
    }
  }

  lemma {:induction false} MethodNamesMembers(body: seq<Node>, m: string)
    ensures m in Complexity.MethodNames(body) <==>
      exists i :: 0 <= i < |body| && body[i].FunctionDef? && body[i].name == m
  {
    if body != [] {
      var tail := body[1..];
      MethodNamesMembers(tail, m);
      if exists i :: 0 <= i < |body| && body[i].FunctionDef? && body[i].name == m {
        var i :| 0 <= i < |body| && body[i].FunctionDef? && body[i].name == m;
        if i > 0 { assert tail[i - 1] == body[i]; }
      }
      if m in Complexity.MethodNames(tail) {
        var i :| 0 <= i < |tail| && tail[i].FunctionDef? && tail[i].name == m;
        assert body[i + 1] == tail[i];
      }
    }
  }

  /**
   * The record `_collect_classes` makes for one class: bases by
   * `extract_name`, the functions of the body in order, the distinct names
   * assigned in the body, no dependencies yet.
   */
  function ClassInfoOf(c: Node): (r: ClassInfo)
    requires c.ClassDef?
    ensures r.name == c.name && r.dependencies == []
    ensures |r.bases| == |c.bases|
    ensures forall i :: 0 <= i < |c.bases| ==> r.bases[i] == ExtractName(c.bases[i])
    ensures r.methods == Complexity.MethodNames(c.body)
    ensures NoDuplicates(r.instanceVars)
    ensures forall v :: v in r.instanceVars <==> exists i :: 0 <= i < |c.body| && AssignsName(c.body[i], v)
    ensures r.lineCount == CountLines(c) && r.docstring == ExtractDocstring(c)
    ensures c.span.At? ==> r.startLine == c.span.lineno && r.endLine == c.span.endLineno
  {
    forall v ensures v in Dedup(InstanceVarNames(c.body)) <==>
                       exists i :: 0 <= i < |c.body| && AssignsName(c.body[i], v) {
      InstanceVarNamesMembers(c.body, v);
    }
    var start := if c.span.At? then c.span.lineno else 0;
    var end := if c.span.At? then c.span.endLineno else None;
    ClassInfo(c.name, MapSeq(c.bases, ExtractName), Complexity.MethodNames(c.body),
              Dedup(InstanceVarNames(c.body)), [], CountLines(c), start, end, ExtractDocstring(c))
  }

  /** The (name, record) pairs of the classes in a node sequence, in order. */
  function ClassEntries(s: seq<Node>): (r: seq<(string, ClassInfo)>)
    ensures forall i :: 0 <= i < |r| ==> r[i].1.name == r[i].0 && r[i].1.dependencies == []
  {
    if s == [] then []
    else if s[0].ClassDef? then [(s[0].name, ClassInfoOf(s[0]))] + ClassEntries(s[1..])
    else ClassEntries(s[1..])
  }

  lemma {:induction false} ClassEntriesKeys(s: seq<Node>, k: string)
    ensures k in Keys(ClassEntries(s)) <==> exists m :: m in s && m.ClassDef? && m.name == k
  {
    if s != [] {
      var tail := ClassEntries(s[1..]);
      ClassEntriesKeys(s[1..], k);
      assert s == [s[0]] + s[1..];
      if s[0].ClassDef? {
        assert Keys([(s[0].name, ClassInfoOf(s[0]))] + tail) == [s[0].name] + Keys(tail);
      }
    }
  }

  /** Every class in the tree has a line number (reading `lineno` of one that has not raises). */
  predicate Positioned(tree: Node) {
    forall m :: m in Walk(tree) && m.ClassDef? ==> m.span.At?
  }

  /**
   * `_collect_classes`: every class anywhere in the tree under its name; a
   * later class with the same name (in walk order) replaces the record but
   * keeps the first one's position in the table.
   */
  function CollectClasses(tree: Node): (r: ClassTable)
    ensures NoDuplicates(Keys(r))
    ensures forall k :: Lookup(r, k) == LastValue(ClassEntries(Walk(tree)), k)
    ensures forall k :: k in Keys(r) <==> exists m :: m in Pre(tree) && m.ClassDef? && m.name == k
  {
    var es := ClassEntries(Walk(tree));
    WalkIsPermutation(tree);
    forall k ensures k in Keys(FromPairs(es)) <==> exists m :: m in Pre(tree) && m.ClassDef? && m.name == k {
      ClassEntriesKeys(Walk(tree), k);
    }
    FromPairs(es)
  }

  /** Each record in the table is the record of a class of the tree with that name. */
  lemma CollectedRecords(tree: Node)
    ensures forall i :: 0 <= i < |CollectClasses(tree)| ==>
      CollectClasses(tree)[i].1.name == CollectClasses(tree)[i].0 &&
      CollectClasses(tree)[i].1.dependencies == []
  {
    var es := ClassEntries(Walk(tree));
    FromPairsEntries(es);
    var r := CollectClasses(tree);
    forall i | 0 <= i < |r| ensures r[i].1.name == r[i].0 && r[i].1.dependencies == [] {
      assert r[i] in es;
      var j :| 0 <= j < |es| && es[j] == r[i];
    }
  }

  // ---------------------------------------------------------------- relationships

  /** The other classes whose names occur inside one method name. */
  function NamedIn(methodName: string, names: seq<string>, own: string): (r: seq<Option<string>>)
    ensures forall d :: d in r <==> d.Some? && d.value in names && d.value != own && Contains(methodName, d.value)
  {
    if names == [] then []
    else
      assert names == [names[0]] + names[1..];
      (if names[0] != own && Contains(methodName, names[0]) then [Some(names[0])] else [])
        + NamedIn(methodName, names[1..], own)
  }

  /** Some method name contains `o`. */
  predicate Mentioned(methods: seq<string>, o: string) {
    exists m :: m in methods && Contains(m, o)
  }

  /** The method loop of `_analyze_relationships`, repeats kept. */
  function MethodMatches(methods: seq<string>, names: seq<string>, own: string): seq<Option<string>> {
    if methods == [] then [] else NamedIn(methods[0], names, own) + MethodMatches(methods[1..], names, own)
  }

  lemma {:induction false} MethodMatchesMembers(methods: seq<string>, names: seq<string>, own: string, d: Option<string>)
    ensures d in MethodMatches(methods, names, own) <==>
      d.Some? && d.value in names && d.value != own && Mentioned(methods, d.value)
  {
    if methods != [] {
      MethodMatchesMembers(methods[1..], names, own, d);
      assert methods == [methods[0]] + methods[1..];
      if d.Some? && Mentioned(methods, d.value) {
        var m :| m in methods && Contains(m, d.value);
        if m != methods[0] { assert Mentioned(methods[1..], d.value); }
      }
      if d.Some? && Mentioned(methods[1..], d.value) {
        var m :| m in methods[1..] && Contains(m, d.value);
        assert m in methods;
      }
    }
  }

  /**
   * The dependency set of one class: every other class of the table whose
   * name occurs in one of its method names, and every base.
   */
  function Dependencies(info: ClassInfo, names: seq<string>): (r: seq<Option<string>>)
    ensures NoDuplicates(r)
  {
    Dedup(MethodMatches(info.methods, names, info.name) + info.bases)
  }

  lemma DependenciesMembers(info: ClassInfo, names: seq<string>, d: Option<string>)
    ensures d in Dependencies(info, names) <==>
      d in info.bases ||
      (d.Some? && d.value in names && d.value != info.name && Mentioned(info.methods, d.value))
  {
    MethodMatchesMembers(info.methods, names, info.name, d);
  }

  /**
   * The method loop never adds the class itself, but the bases are added
   * unfiltered: a class depends on itself exactly when it lists itself as a base.
   */
  lemma OwnNameDependency(info: ClassInfo, names: seq<string>)
    ensures Some(info.name) in Dependencies(info, names) <==> Some(info.name) in info.bases
  {
    DependenciesMembers(info, names, Some(info.name));
  }

  /** The table with every record's dependencies filled in from the class names `names`. */
  function WithDependencies(entries: ClassTable, names: seq<string>): (r: ClassTable)
    ensures Keys(r) == Keys(entries)
    ensures forall k :: Lookup(r, k).Some? == Lookup(entries, k).Some?
    ensures forall k :: Lookup(entries, k).Some? ==>
      Lookup(r, k).value == Lookup(entries, k).value.(dependencies := Dependencies(Lookup(entries, k).value, names))
  {
    if entries == [] then []
    else
      var e := entries[0];
      var tail := WithDependencies(entries[1..], names);
      var r := [(e.0, e.1.(dependencies := Dependencies(e.1, names)))] + tail;
      assert r[1..] == tail;
      assert Keys(r) == [e.0] + Keys(tail);
      assert Keys(entries) == [e.0] + Keys(entries[1..]);
      r
  }

  /** The relationships table: class name to its dependency set. */
  function RelationsOf(entries: ClassTable, names: seq<string>): (r: Relationships)
    ensures Keys(r) == Keys(entries)
    ensures forall k :: Lookup(r, k).Some? == Lookup(entries, k).Some?
    ensures forall k :: Lookup(entries, k).Some? ==>
      Lookup(r, k).value == Dependencies(Lookup(entries, k).value, names)
  {
    if entries == [] then []
    else
      var e := entries[0];
      var tail := RelationsOf(entries[1..], names);
      var r := [(e.0, Dependencies(e.1, names))] + tail;
      assert r[1..] == tail;
      assert Keys(r) == [e.0] + Keys(tail);
      assert Keys(entries) == [e.0] + Keys(entries[1..]);
      r
  }

  // ---------------------------------------------------------------- inheritance tree

  /** `if k not in tree: tree[k] = []`. */
  function Ensure(d: InheritanceTree, k: Option<string>): (r: InheritanceTree)
    ensures Keys(r) == if k in Keys(d) then Keys(d) else Keys(d) + [k]
    ensures Lookup(r, k) == Some(Lookup(d, k).GetOr([]))
    ensures forall k' :: k' != k ==> Lookup(r, k') == Lookup(d, k')
  {
    if k in Keys(d) then d else Put(d, k, [])
  }

  /** One step of the base loop: make sure the base has a list, then append the child. */
  function AddChild(d: InheritanceTree, base: Option<string>, child: string): (r: InheritanceTree)
    ensures Keys(r) == if base in Keys(d) then Keys(d) else Keys(d) + [base]
    ensures Lookup(r, base) == Some(Lookup(d, base).GetOr([]) + [child])
    ensures forall k' :: k' != base ==> Lookup(r, k') == Lookup(d, k')
  {
    var e := Ensure(d, base);
    var before := Lookup(e, base).value;
    Put(e, base, before + [child])
  }

  /** One step of the base loop lists the child once more. */
  lemma AddChildSize(d: InheritanceTree, base: Option<string>, child: string)
    ensures GroupSizes(AddChild(d, base, child)) == GroupSizes(d) + 1
  {
    var e := Ensure(d, base);
    if base !in Keys(d) {
      GroupSizesPut(d, base, [], []);
    }
    var before := Lookup(e, base).value;
    GroupSizesPut(e, base, before, before + [child]);
  }

  /** How often `k` occurs in `s`. */
  function Count<T(==)>(s: seq<T>, k: T): nat {
    if s == [] then 0 else Count(s[..|s| - 1], k) + (if s[|s| - 1] == k then 1 else 0)
  }

  lemma {:induction false} CountAbsent<T>(s: seq<T>, k: T)
    requires k !in s
    ensures Count(s, k) == 0
  {
    if s != [] {
      assert s[..|s| - 1] <= s;
      CountAbsent(s[..|s| - 1], k);
    }
  }

  /** `n` copies of `x`. */
  function Copies(x: string, n: nat): (r: seq<string>)
    ensures |r| == n && forall i :: 0 <= i < n ==> r[i] == x
  {
    seq(n, _ => x)
  }

  lemma CopiesMembers(x: string, n: nat, y: string)
    ensures y in Copies(x, n) <==> n > 0 && y == x
  {
    if n > 0 { assert Copies(x, n)[0] == x; }
  }

  /** The base loop of `_build_inheritance_tree` for one class. */
  function AddToBases(d: InheritanceTree, bases: seq<Option<string>>, child: string): InheritanceTree {
    if bases == [] then d
    else AddChild(AddToBases(d, bases[..|bases| - 1], child), bases[|bases| - 1], child)
  }

  /** The base loop adds each base not yet in the tree as a new key, in order. */
  lemma {:induction false} AddToBasesKeys(d: InheritanceTree, bases: seq<Option<string>>, child: string, order: seq<Option<string>>)
    requires Keys(d) == Dedup(order)
    ensures Keys(AddToBases(d, bases, child)) == Dedup(order + bases)
  {
    if bases == [] {
      assert order + bases == order;
    } else {
      var n := |bases| - 1;
      AddToBasesKeys(d, bases[..n], child, order);
      AppendSnoc(order, bases);
      DedupSnoc(order + bases[..n], bases[n]);
    }
  }

  /** The base loop lists the child once per base. */
  lemma {:induction false} AddToBasesSize(d: InheritanceTree, bases: seq<Option<string>>, child: string)
    ensures GroupSizes(AddToBases(d, bases, child)) == GroupSizes(d) + |bases|
  {
    if bases != [] {
      var n := |bases| - 1;
      AddToBasesSize(d, bases[..n], child);
      AddChildSize(AddToBases(d, bases[..n], child), bases[n], child);
    }
  }

  /** Appending to a list that holds `x` and then `c` copies of the child. */
  lemma AddChildAppends(e: InheritanceTree, b: Option<string>, child: string, x: seq<string>, c: nat)
    requires Lookup(e, b).GetOr([]) == x + Copies(child, c)
    ensures Lookup(AddChild(e, b, child), b) == Some(x + Copies(child, c + 1))
  {
    assert Copies(child, c) + [child] == Copies(child, c + 1);
    assert (x + Copies(child, c)) + [child] == x + Copies(child, c + 1);
  }

  /** No copies added. */
  lemma NoCopies(x: seq<string>, child: string)
    ensures x + Copies(child, 0) == x
  {
    assert Copies(child, 0) == [];
  }

  /** The base loop appends the class to the list of `k` once per occurrence of `k` among the bases. */
  lemma {:induction false} AddToBasesLookup(d: InheritanceTree, bases: seq<Option<string>>, child: string, k: Option<string>)
    ensures k in Keys(d) || k in bases ==>
      Lookup(AddToBases(d, bases, child), k) == Some(Lookup(d, k).GetOr([]) + Copies(child, Count(bases, k)))
    ensures k !in bases ==> Lookup(AddToBases(d, bases, child), k) == Lookup(d, k)
  {
    if bases == [] {
      NoCopies(Lookup(d, k).GetOr([]), child);
    } else {
      var n := |bases| - 1;
      AddToBasesLookup(d, bases[..n], child, k);
      MemberSnoc(bases, k);
      if k == bases[n] {
        var init := bases[..n];
        if !(k in Keys(d) || k in init) {
          CountAbsent(init, k);
        }
        AddChildOnce(AddToBases(d, init, child), k, child, Lookup(d, k).GetOr([]), Count(init, k));
      }
    }
  }

  /** One more step of the base loop on `k`: its list, absent or holding `x` and `c` copies, gains one copy. */
  lemma AddChildOnce(prev: InheritanceTree, k: Option<string>, child: string, x: seq<string>, c: nat)
    requires Lookup(prev, k) == Some(x + Copies(child, c)) || (Lookup(prev, k).None? && x == [] && c == 0)
    ensures Lookup(AddChild(prev, k, child), k) == Some(x + Copies(child, c + 1))
  {
    if Lookup(prev, k).None? {
      NoCopies(x, child);
    }
    AddChildAppends(prev, k, child, x, c);
  }

  /** The key sequence the loop inserts into the tree: each class name, then its bases. */
  function KeyOrder(entries: ClassTable): seq<Option<string>> {
    if entries == [] then []
    else
      var n := |entries| - 1;
      KeyOrder(entries[..n]) + [Some(entries[n].0)] + entries[n].1.bases
  }

  /** Reference definition: the subclasses of `k`, in table order, once per listing. */
  function Subclasses(entries: ClassTable, k: Option<string>): seq<string> {
    if entries == [] then []
    else
      var n := |entries| - 1;
      Subclasses(entries[..n], k) + Copies(entries[n].0, Count(entries[n].1.bases, k))
  }

  lemma {:induction false} SubclassesAbsent(entries: ClassTable, k: Option<string>)
    requires k !in KeyOrder(entries)
    ensures Subclasses(entries, k) == []
  {
    if entries != [] {
      var n := |entries| - 1;
      SubclassesAbsent(entries[..n], k);
      CountAbsent(entries[n].1.bases, k);
    }
  }

  /** `_build_inheritance_tree` over a table. */
  function BuildInheritanceTree(entries: ClassTable): InheritanceTree {
    if entries == [] then []
    else
      var n := |entries| - 1;
      var d := Ensure(BuildInheritanceTree(entries[..n]), Some(entries[n].0));
      AddToBases(d, entries[n].1.bases, entries[n].0)
  }

  /** The number of base listings of all classes. */
  function BaseListings(entries: ClassTable): nat {
    if entries == [] then 0 else BaseListings(entries[..|entries| - 1]) + |entries[|entries| - 1].1.bases|
  }

  /** Making sure a key exists changes no list sizes. */
  lemma EnsureSize(d: InheritanceTree, k: Option<string>)
    ensures GroupSizes(Ensure(d, k)) == GroupSizes(d)
  {
    if k !in Keys(d) {
      GroupSizesPut(d, k, [], []);
    }
  }

  /** The tree has a key for every class and every base, in order of first insertion. */
  lemma {:induction false} InheritanceTreeKeys(entries: ClassTable)
    ensures Keys(BuildInheritanceTree(entries)) == Dedup(KeyOrder(entries))
  {
    if entries != [] {
      var n := |entries| - 1;
      var (name, info) := entries[n];
      var po := KeyOrder(entries[..n]);
      InheritanceTreeKeys(entries[..n]);
      DedupSnoc(po, Some(name));
      AddToBasesKeys(Ensure(BuildInheritanceTree(entries[..n]), Some(name)), info.bases, name, po + [Some(name)]);
    }
  }

  /** The lists together hold one element per base listing. */
  lemma {:induction false} InheritanceTreeSize(entries: ClassTable)
    ensures GroupSizes(BuildInheritanceTree(entries)) == BaseListings(entries)
  {
    if entries != [] {
      var n := |entries| - 1;
      var (name, info) := entries[n];
      InheritanceTreeSize(entries[..n]);
      EnsureSize(BuildInheritanceTree(entries[..n]), Some(name));
      AddToBasesSize(Ensure(BuildInheritanceTree(entries[..n]), Some(name)), info.bases, name);
    }
  }

  /** The list under a key of the tree is exactly the reference subclass list. */
  lemma {:induction false} InheritanceTreeLookup(entries: ClassTable, k: Option<string>)
    ensures k in KeyOrder(entries) ==> Lookup(BuildInheritanceTree(entries), k) == Some(Subclasses(entries, k))
  {
    if entries != [] && k in KeyOrder(entries) {
      var n := |entries| - 1;
      var (name, info) := entries[n];
      var prefix := entries[..n];
      var d := BuildInheritanceTree(prefix);
      var e := Ensure(d, Some(name));
      InheritanceTreeLookup(prefix, k);
      InheritanceTreeKeys(prefix);
      if k !in KeyOrder(prefix) {
        SubclassesAbsent(prefix, k);
      }
      assert Lookup(e, k).GetOr([]) == Subclasses(prefix, k);
      AddToBasesLookup(e, info.bases, name, k);
    }
  }

  /**
   * The tree has a key for every class and every base, in order of first
   * insertion; the list under a key is exactly the reference subclass list;
   * and the lists together hold one element per base listing.
   */
  lemma InheritanceTreeSpec(entries: ClassTable)
    ensures Keys(BuildInheritanceTree(entries)) == Dedup(KeyOrder(entries))
    ensures forall k :: k in KeyOrder(entries) ==>
      Lookup(BuildInheritanceTree(entries), k) == Some(Subclasses(entries, k))
    ensures GroupSizes(BuildInheritanceTree(entries)) == BaseListings(entries)
  {
    InheritanceTreeKeys(entries);
    InheritanceTreeSize(entries);
    forall k | k in KeyOrder(entries)
      ensures Lookup(BuildInheritanceTree(entries), k) == Some(Subclasses(entries, k))
    {
      InheritanceTreeLookup(entries, k);
    }
  }

  lemma {:induction false} KeyOrderMembers(entries: ClassTable, k: Option<string>)
    ensures k in KeyOrder(entries) <==>
      exists i :: 0 <= i < |entries| && (k == Some(entries[i].0) || k in entries[i].1.bases)
  {
    if entries != [] {
      var n := |entries| - 1;
      KeyOrderMembers(entries[..n], k);
      if exists i :: 0 <= i < |entries| && (k == Some(entries[i].0) || k in entries[i].1.bases) {
        var i :| 0 <= i < |entries| && (k == Some(entries[i].0) || k in entries[i].1.bases);
        if i < n { assert entries[..n][i] == entries[i]; }
      }
    }
  }

  lemma {:induction false} SubclassesMembers(entries: ClassTable, k: Option<string>, c: string)
    ensures c in Subclasses(entries, k) <==>
      exists i :: 0 <= i < |entries| && entries[i].0 == c && k in entries[i].1.bases
  {
    if entries != [] {
      var n := |entries| - 1;
      SubclassesMembers(entries[..n], k, c);
      CopiesMembers(entries[n].0, Count(entries[n].1.bases, k), c);
      if k in entries[n].1.bases {
        CountPresent(entries[n].1.bases, k);
      } else {
        CountAbsent(entries[n].1.bases, k);
      }
      if exists i :: 0 <= i < |entries| && entries[i].0 == c && k in entries[i].1.bases {
        var i :| 0 <= i < |entries| && entries[i].0 == c && k in entries[i].1.bases;
        if i < n { assert entries[..n][i] == entries[i]; }
      }
    }
  }

  lemma {:induction false} CountPresent<T>(s: seq<T>, k: T)
    requires k in s
    ensures Count(s, k) > 0
  {
    var n := |s| - 1;
    if s[n] != k {
      assert k in s[..n] by {
        var j :| 0 <= j < |s| && s[j] == k;
        assert s[..n][j] == k;
      }
      CountPresent(s[..n], k);
    }
  }

  /**
   * What the tree says about classes: every class is a key, and `c` is
   * listed under `k` exactly when some class `c` of the table has `k` among
   * its bases.
   */
  lemma InheritanceTreeMeaning(entries: ClassTable, k: Option<string>, c: string)
    ensures forall i :: 0 <= i < |entries| ==> Some(entries[i].0) in Keys(BuildInheritanceTree(entries))
    ensures k in Keys(BuildInheritanceTree(entries)) ==>
      (c in Lookup(BuildInheritanceTree(entries), k).value <==>
       exists i :: 0 <= i < |entries| && entries[i].0 == c && k in entries[i].1.bases)
  {
    InheritanceTreeSpec(entries);
    forall i | 0 <= i < |entries| ensures Some(entries[i].0) in Keys(BuildInheritanceTree(entries)) {
      KeyOrderMembers(entries, Some(entries[i].0));
    }
    SubclassesMembers(entries, k, c);
  }

  // ---------------------------------------------------------------- analysis

  datatype ClassAnalysis = ClassAnalysis(
    filePath: string,
    success: bool,
    errorMessage: Option<string>,
    classes: ClassTable,
    relationships: Relationships,
    inheritanceTree: InheritanceTree)

  const ParseFailure := "Failed to parse file"

  /** The message of the AttributeError raised by reading a missing `lineno` of a class. */
  const MissingLineno := "'ClassDef' object has no attribute 'lineno'"

  function Failed(path: string, message: string): ClassAnalysis {
    ClassAnalysis(path, false, Some(message), [], [], [])
  }

  /** A record with its dependencies filled in is the collected one otherwise, and they are computed from it. */
  lemma ResolvedRecord(entries: ClassTable, names: seq<string>, k: string)
    requires Lookup(entries, k).Some?
    ensures var info := Lookup(WithDependencies(entries, names), k).value;
      info == Lookup(entries, k).value.(dependencies := info.dependencies) &&
      info.dependencies == Dependencies(info, names)
  {
    var before := Lookup(entries, k).value;
    var info := Lookup(WithDependencies(entries, names), k).value;
    assert info == before.(dependencies := Dependencies(before, names));
    assert Dependencies(info, names) == Dependencies(before, names);
  }

  /** The analysis of a tree whose classes all have line numbers. */
  function Succeeded(path: string, root: Node): (r: ClassAnalysis)
    ensures r.success && r.errorMessage.None?
    ensures Keys(r.classes) == Keys(CollectClasses(root)) && NoDuplicates(Keys(r.classes))
    ensures Keys(r.relationships) == Keys(r.classes)
    ensures r.inheritanceTree == BuildInheritanceTree(r.classes)
    ensures forall k :: Lookup(r.classes, k).Some? ==>
      var info := Lookup(r.classes, k).value;
      Lookup(r.relationships, k) == Some(info.dependencies) &&
      info == Lookup(CollectClasses(root), k).value.(dependencies := info.dependencies) &&
      info.dependencies == Dependencies(info, Keys(r.classes))
  {
    var collected := CollectClasses(root);
    var names := Keys(collected);
    var classes := WithDependencies(collected, names);
    forall k | Lookup(classes, k).Some?
      ensures var info := Lookup(classes, k).value;
        info == Lookup(collected, k).value.(dependencies := info.dependencies) &&
        info.dependencies == Dependencies(info, names)
    {
      ResolvedRecord(collected, names, k);
    }
    ClassAnalysis(path, true, None, classes, RelationsOf(collected, names), BuildInheritanceTree(classes))
  }

  /**
   * `analyze_file` on an already parsed tree (None when parsing failed):
   * collect the classes, fill in their dependencies, then build the
   * inheritance tree from the completed table.
   */
  function AnalyzeFile(path: string, tree: Option<Node>): (r: ClassAnalysis)
    ensures r.success <==> tree.Some? && Positioned(tree.value)
    ensures tree.None? ==> r == Failed(path, ParseFailure)
    ensures tree.Some? && !Positioned(tree.value) ==> r == Failed(path, MissingLineno)
    ensures tree.Some? && Positioned(tree.value) ==> r == Succeeded(path, tree.value)
  {
    match tree
    case None => Failed(path, ParseFailure)
    case Some(root) => if !Positioned(root) then Failed(path, MissingLineno) else Succeeded(path, root)
  }

  /** Filling in dependencies leaves bases alone, so the tree can be read off the collected records. */
  lemma TreeFromCollectedBases(path: string, tree: Node, k: Option<string>)
    requires AnalyzeFile(path, Some(tree)).success
    ensures var r := AnalyzeFile(path, Some(tree));
      KeyOrder(r.classes) == KeyOrder(CollectClasses(tree)) &&
      (k in Keys(r.inheritanceTree) ==>
        Lookup(r.inheritanceTree, k) == Some(Subclasses(CollectClasses(tree), k)))
  {
    var collected := CollectClasses(tree);
    var classes := WithDependencies(collected, Keys(collected));
    SameBasesOrder(collected, Keys(collected));
    InheritanceTreeSpec(classes);
  }

  lemma {:induction false} SameBasesOrder(entries: ClassTable, names: seq<string>)
    ensures KeyOrder(WithDependencies(entries, names)) == KeyOrder(entries)
    ensures forall k :: Subclasses(WithDependencies(entries, names), k) == Subclasses(entries, k)
  {
    if entries != [] {
      var n := |entries| - 1;
      var r := WithDependencies(entries, names);
      WithDependenciesSnoc(entries, names);
      SameBasesOrder(entries[..n], names);
    }
  }

  lemma {:induction false} WithDependenciesSnoc(entries: ClassTable, names: seq<string>)
    requires entries != []
    ensures var n := |entries| - 1;
      var r := WithDependencies(entries, names);
      |r| == |entries| && r[..n] == WithDependencies(entries[..n], names) &&
      r[n].0 == entries[n].0 && r[n].1.bases == entries[n].1.bases
  {
    var n := |entries| - 1;
    if n > 0 {
      WithDependenciesSnoc(entries[1..], names);
      assert entries[1..][..n - 1] == entries[..n][1..];
    }
  }

  // ---------------------------------------------------------------- diagram

  const DiagramError := "classDiagram\n    note Error occurred during analysis"

  /** The Mermaid inheritance arrow from a base to a subclass. */
  function EdgeLine(base: Option<string>, child: string): string {
    "    " + NameText(base) + " <|-- " + child
  }

  /** The inheritance lines of one tree entry: one per listed child that is a class of the table. */
  function ChildEdges(base: Option<string>, children: seq<string>, names: seq<string>): (r: seq<string>)
    ensures forall c :: c in children && c in names ==> EdgeLine(base, c) in r
    ensures forall x :: x in r ==> exists c :: c in children && c in names && x == EdgeLine(base, c)
  {
    if children == [] then []
    else
      var tail := ChildEdges(base, children[1..], names);
      assert children == [children[0]] + children[1..];
      (if children[0] in names then [EdgeLine(base, children[0])] else []) + tail
  }

  /** The inheritance section: the tree's entries in order. */
  function EdgeLines(tree: InheritanceTree, names: seq<string>): seq<string> {
    if tree == [] then [] else ChildEdges(tree[0].0, tree[0].1, names) + EdgeLines(tree[1..], names)
  }

  lemma {:induction false} EdgeLinesMembers(tree: InheritanceTree, names: seq<string>, x: string)
    ensures x in EdgeLines(tree, names) <==>
      exists i :: 0 <= i < |tree| && x in ChildEdges(tree[i].0, tree[i].1, names)
  {
    if tree != [] {
      EdgeLinesMembers(tree[1..], names, x);
      if exists i :: 0 <= i < |tree| && x in ChildEdges(tree[i].0, tree[i].1, names) {
        var i :| 0 <= i < |tree| && x in ChildEdges(tree[i].0, tree[i].1, names);
        if i > 0 { assert tree[1..][i - 1] == tree[i]; }
      }
      if x in EdgeLines(tree[1..], names) {
        var i :| 0 <= i < |tree[1..]| && x in ChildEdges(tree[1..][i].0, tree[1..][i].1, names);
        assert tree[i + 1] == tree[1..][i];
      }
    }
  }

  /** The dependencies drawn as associations: named, not a base, and a class of the table. */
  function AssociationTargets(deps: seq<Option<string>>, bases: seq<Option<string>>, names: seq<string>): (r: seq<string>)
    ensures forall t :: t in r <==> Some(t) in deps && Some(t) !in bases && t in names
  {
    if deps == [] then []
    else
      var tail := AssociationTargets(deps[1..], bases, names);
      assert deps == [deps[0]] + deps[1..];
      var d := deps[0];
      (if d !in bases && d.Some? && d.value in names then [d.value] else []) + tail
  }

  /**
   * A class is drawn with an association to `t` exactly when `t` is another
   * class of the table that is not one of its bases and whose name occurs in
   * one of its method names.
   */
  lemma AssociationMeaning(info: ClassInfo, names: seq<string>, t: string)
    ensures t in AssociationTargets(Dependencies(info, names), info.bases, names) <==>
      t in names && Some(t) !in info.bases && t != info.name && Mentioned(info.methods, t)
  {
    DependenciesMembers(info, names, Some(t));
  }

  /** The Mermaid association arrow. */
  function AssociationLine(name: string, target: string): string {
    "    " + name + " --> " + target
  }

  function VarLine(v: string): string { "        +" + v }
  function MethodLine(m: string): string { "        +" + m + "()" }

  /** `sorted(xs)` rendered line by line: one line per element, nothing else. */
  function SortedLines(xs: seq<string>, line: string -> string): (r: seq<string>)
    ensures |r| == |xs|
    ensures forall i :: 0 <= i < |r| ==> r[i] == line(Sorting.Sort(xs)[i])
    ensures forall x :: x in xs ==> line(x) in r
    ensures forall y :: y in r ==> exists x :: x in xs && y == line(x)
  {
    var sorted := Sorting.Sort(xs);
    assert |sorted| == |xs| by { assert |multiset(sorted)| == |multiset(xs)|; }
    var r := MapSeq(sorted, line);
    forall x | x in xs ensures line(x) in r {
      assert x in multiset(sorted);
      var i :| 0 <= i < |sorted| && sorted[i] == x;
      assert r[i] == line(x);
    }
    forall y | y in r ensures exists x :: x in xs && y == line(x) {
      var i :| 0 <= i < |r| && r[i] == y;
      assert sorted[i] in multiset(xs);
    }
    r
  }

  /** The box of one class: its sorted instance variables, then its sorted methods. */
  function ClassBox(name: string, info: ClassInfo): (r: seq<string>)
    ensures |r| == |info.instanceVars| + |info.methods| + 2
    ensures r[0] == "    class " + name + " {" && r[|r| - 1] == "    }"
    ensures forall v :: v in info.instanceVars ==> VarLine(v) in r
    ensures forall m :: m in info.methods ==> MethodLine(m) in r
  {
    var vars := SortedLines(info.instanceVars, VarLine);
    var methods := SortedLines(info.methods, MethodLine);
    BoxParts("    class " + name + " {", vars, methods, "    }");
    ["    class " + name + " {"] + vars + methods + ["    }"]
  }

  /** A class box: the header, the sorted variable lines, the sorted method lines, the closing line. */
  lemma ClassBoxLayout(name: string, info: ClassInfo)
    ensures var r := ClassBox(name, info);
      && r[1..1 + |info.instanceVars|] == SortedLines(info.instanceVars, VarLine)
      && r[1 + |info.instanceVars|..|r| - 1] == SortedLines(info.methods, MethodLine)
  {
    BoxParts("    class " + name + " {", SortedLines(info.instanceVars, VarLine), SortedLines(info.methods, MethodLine), "    }");
  }

  /** Where the parts of a box sit: the header, the first run, the second run, the closing line. */
  lemma BoxParts<T>(header: T, xs: seq<T>, ys: seq<T>, footer: T)
    ensures var r := [header] + xs + ys + [footer];
      && |r| == |xs| + |ys| + 2 && r[0] == header && r[|r| - 1] == footer
      && r[1..1 + |xs|] == xs && r[1 + |xs|..|r| - 1] == ys
      && (forall x :: x in xs ==> x in r) && (forall y :: y in ys ==> y in r)
  {
    var r := [header] + xs + ys + [footer];
    assert r[1..1 + |xs|] == xs;
    assert r[1 + |xs|..|r| - 1] == ys;
    forall x | x in xs ensures x in r {
      var i :| 0 <= i < |xs| && xs[i] == x;
      assert r[1 + i] == x;
    }
    forall y | y in ys ensures y in r {
      var i :| 0 <= i < |ys| && ys[i] == y;
      assert r[1 + |xs| + i] == y;
    }
  }

  /** The lines of one class: its box, then its associations. */
  function ClassLines(name: string, info: ClassInfo, names: seq<string>): seq<string> {
    ClassBox(name, info) +
      MapSeq(AssociationTargets(info.dependencies, info.bases, names), t => AssociationLine(name, t))
  }

  function ClassSections(entries: ClassTable, names: seq<string>): seq<string> {
    if entries == [] then [] else ClassLines(entries[0].0, entries[0].1, names) + ClassSections(entries[1..], names)
  }

  /** The diagram's lines: the header, the inheritance section, then one section per class. */
  function DiagramLines(a: ClassAnalysis): seq<string> {
    ["classDiagram"] + EdgeLines(a.inheritanceTree, Keys(a.classes)) + ClassSections(a.classes, Keys(a.classes))
  }

  /** `generate_mermaid_diagram`: the fixed error note for a failed analysis, else the lines joined. */
  function GenerateMermaid(a: ClassAnalysis): (r: string)
    ensures !a.success ==> r == DiagramError
  {
    if !a.success then DiagramError else Join(DiagramLines(a), "\n")
  }

  predicate Clean(s: string) { '\n' !in s }

  /** No class name, base name, instance variable or method name contains a line break. */
  predicate CleanAnalysis(a: ClassAnalysis) {
    (forall i :: 0 <= i < |a.classes| ==> Clean(a.classes[i].0)) &&
    (forall i :: 0 <= i < |a.classes| ==>
       (forall v :: v in a.classes[i].1.instanceVars ==> Clean(v)) &&
       (forall m :: m in a.classes[i].1.methods ==> Clean(m))) &&
    (forall i :: 0 <= i < |a.inheritanceTree| ==>
       a.inheritanceTree[i].0.Some? ==> Clean(a.inheritanceTree[i].0.value))
  }

  lemma SortedLinesClean(xs: seq<string>, line: string -> string)
    requires forall x :: x in xs ==> Clean(line(x))
    ensures forall y :: y in SortedLines(xs, line) ==> Clean(y)
  {
    forall y | y in SortedLines(xs, line) ensures Clean(y) {
      var x :| x in xs && y == line(x);
    }
  }

  lemma ClassBoxClean(name: string, info: ClassInfo)
    requires Clean(name)
    requires forall v :: v in info.instanceVars ==> Clean(v)
    requires forall m :: m in info.methods ==> Clean(m)
    ensures forall x :: x in ClassBox(name, info) ==> Clean(x)
  {
    SortedLinesClean(info.instanceVars, VarLine);
    SortedLinesClean(info.methods, MethodLine);
    HeaderClean(name);
    FourPartsClean("    class " + name + " {", SortedLines(info.instanceVars, VarLine),
      SortedLines(info.methods, MethodLine), "    }");
  }

  lemma HeaderClean(name: string)
    requires Clean(name)
    ensures Clean("    class " + name + " {")
  {
  }

  lemma FourPartsClean(h: string, xs: seq<string>, ys: seq<string>, t: string)
    requires Clean(h) && Clean(t)
    requires forall x :: x in xs ==> Clean(x)
    requires forall y :: y in ys ==> Clean(y)
    ensures forall z :: z in [h] + xs + ys + [t] ==> Clean(z)
  {
  }

  lemma AssociationsClean(name: string, targets: seq<string>)
    requires Clean(name)
    requires forall t :: t in targets ==> Clean(t)
    ensures forall x :: x in MapSeq(targets, t => AssociationLine(name, t)) ==> Clean(x)
  {
    var assoc := MapSeq(targets, t => AssociationLine(name, t));
    forall x | x in assoc ensures Clean(x) {
      var k :| 0 <= k < |targets| && assoc[k] == x;
      assert targets[k] in targets;
    }
  }

  lemma ClassLinesClean(name: string, info: ClassInfo, names: seq<string>)
    requires Clean(name)
    requires forall v :: v in info.instanceVars ==> Clean(v)
    requires forall m :: m in info.methods ==> Clean(m)
    requires forall t :: t in names ==> Clean(t)
    ensures forall x :: x in ClassLines(name, info, names) ==> Clean(x)
  {
    ClassBoxClean(name, info);
    AssociationsClean(name, AssociationTargets(info.dependencies, info.bases, names));
  }

  lemma {:induction false} ClassSectionsClean(entries: ClassTable, names: seq<string>)
    requires forall i :: 0 <= i < |entries| ==> Clean(entries[i].0)
    requires forall i :: 0 <= i < |entries| ==>
       (forall v :: v in entries[i].1.instanceVars ==> Clean(v)) &&
       (forall m :: m in entries[i].1.methods ==> Clean(m))
    requires forall t :: t in names ==> Clean(t)
    ensures forall x :: x in ClassSections(entries, names) ==> Clean(x)
  {
    if entries != [] {
      var tail := entries[1..];
      assert forall i :: 0 <= i < |tail| ==> tail[i] == entries[i + 1];
      ClassSectionsClean(tail, names);
      ClassLinesClean(entries[0].0, entries[0].1, names);
    }
  }

  lemma EdgeLineClean(base: Option<string>, c: string)
    requires base.Some? ==> Clean(base.value)
    requires Clean(c)
    ensures Clean(EdgeLine(base, c))
  {
    assert Clean(NameText(base));
  }

  lemma EdgeLinesClean(tree: InheritanceTree, names: seq<string>)
    requires forall i :: 0 <= i < |tree| ==> tree[i].0.Some? ==> Clean(tree[i].0.value)
    requires forall t :: t in names ==> Clean(t)
    ensures forall x :: x in EdgeLines(tree, names) ==> Clean(x)
  {
    forall x | x in EdgeLines(tree, names) ensures Clean(x) {
      EdgeLinesMembers(tree, names, x);
      var i :| 0 <= i < |tree| && x in ChildEdges(tree[i].0, tree[i].1, names);
      var c :| c in tree[i].1 && c in names && x == EdgeLine(tree[i].0, c);
      EdgeLineClean(tree[i].0, c);
    }
  }

  lemma CleanLinesSplit(lines: seq<string>)
    requires |lines| >= 1
    requires forall x :: x in lines ==> Clean(x)
    ensures Split(Join(lines, "\n"), '\n') == lines
  {
    forall k | 0 <= k < |lines| ensures '\n' !in lines[k] {
      assert lines[k] in lines;
    }
    SplitJoin(lines, '\n');
  }

  /** Splitting the diagram at line breaks gives back its lines. */
  lemma MermaidLines(a: ClassAnalysis)
    requires a.success && CleanAnalysis(a)
    ensures Split(GenerateMermaid(a), '\n') == DiagramLines(a)
    ensures DiagramLines(a)[0] == "classDiagram"
  {
    var names := Keys(a.classes);
    forall t | t in names ensures Clean(t) {
      var i :| 0 <= i < |names| && names[i] == t;
    }
    ClassSectionsClean(a.classes, names);
    EdgeLinesClean(a.inheritanceTree, names);
    CleanLinesSplit(DiagramLines(a));
  }

  // ---------------------------------------------------------------- diagram of an analysis

  /** Every base a class of the analysis lists is drawn as an inheritance arrow to it. */
  lemma InheritanceDrawn(r: ClassAnalysis, i: nat, k: Option<string>)
    requires r.success && r.inheritanceTree == BuildInheritanceTree(r.classes)
    requires 0 <= i < |r.classes| && k in r.classes[i].1.bases
    ensures EdgeLine(k, r.classes[i].0) in DiagramLines(r)
  {
    BaseEdgeListed(r.classes, i, k);
    EdgeInDiagram(r, EdgeLine(k, r.classes[i].0));
  }

  /** The inheritance section holds an arrow from every base a class lists to that class. */
  lemma BaseEdgeListed(classes: ClassTable, i: nat, k: Option<string>)
    requires 0 <= i < |classes| && k in classes[i].1.bases
    ensures EdgeLine(k, classes[i].0) in EdgeLines(BuildInheritanceTree(classes), Keys(classes))
  {
    var names := Keys(classes);
    assert classes[i].0 == names[i];
    BaseListsClass(classes, i, k);
    var t := BuildInheritanceTree(classes);
    EdgeFromEntry(t, names, k, Lookup(t, k).value, classes[i].0);
  }

  /** A class is listed in the tree under each of its bases. */
  lemma BaseListsClass(classes: ClassTable, i: nat, k: Option<string>)
    requires 0 <= i < |classes| && k in classes[i].1.bases
    ensures Lookup(BuildInheritanceTree(classes), k).Some?
    ensures classes[i].0 in Lookup(BuildInheritanceTree(classes), k).value
  {
    KeyOrderMembers(classes, k);
    InheritanceTreeLookup(classes, k);
    SubclassesMembers(classes, k, classes[i].0);
  }

  /** A child of the table listed under a key of the tree gets an arrow from that key. */
  lemma EdgeFromEntry(t: InheritanceTree, names: seq<string>, k: Option<string>, children: seq<string>, c: string)
    requires Lookup(t, k) == Some(children) && c in children && c in names
    ensures EdgeLine(k, c) in EdgeLines(t, names)
  {
    var j :| 0 <= j < |t| && t[j] == (k, children);
    EdgeLinesMembers(t, names, EdgeLine(k, c));
  }



  /** A line of the inheritance section is a line of the diagram. */
  lemma EdgeInDiagram(r: ClassAnalysis, line: string)
    requires line in EdgeLines(r.inheritanceTree, Keys(r.classes))
    ensures line in DiagramLines(r)
  {
    var edges := EdgeLines(r.inheritanceTree, Keys(r.classes));
    var rest := ClassSections(r.classes, Keys(r.classes));
    InMiddle(["classDiagram"], edges, rest, line);
  }

  lemma InMiddle<T>(a: seq<T>, b: seq<T>, c: seq<T>, x: T)
    requires x in b
    ensures x in a + b + c
  {
    var i :| 0 <= i < |b| && b[i] == x;
    assert (a + b + c)[|a| + i] == x;
  }

  /** Every inheritance arrow of the diagram comes from a base some class lists. */
  lemma InheritanceLinesSound(r: ClassAnalysis, x: string)
    requires r.success && r.inheritanceTree == BuildInheritanceTree(r.classes)
    requires x in EdgeLines(r.inheritanceTree, Keys(r.classes))
    ensures exists i, b :: 0 <= i < |r.classes| && b in r.classes[i].1.bases && x == EdgeLine(b, r.classes[i].0)
  {
    var classes := r.classes;
    var t := r.inheritanceTree;
    var names := Keys(classes);
    InheritanceTreeSpec(classes);
    EdgeLinesMembers(t, names, x);
    var j :| 0 <= j < |t| && x in ChildEdges(t[j].0, t[j].1, names);
    var c :| c in t[j].1 && c in names && x == EdgeLine(t[j].0, c);
    assert Keys(t)[j] == t[j].0;
    LookupEntry(t, t[j].0, t[j].1);
    SubclassesMembers(classes, t[j].0, c);
    var i :| 0 <= i < |classes| && classes[i].0 == c && t[j].0 in classes[i].1.bases;
  }

  /**
   * A class of a successful analysis is drawn with an association to `t`
   * exactly when `t` is another class of the file, not one of its bases, whose
   * name occurs in one of its method names.
   */
  lemma AssociationsOfAnalysis(path: string, tree: Node, i: nat, t: string)
    requires AnalyzeFile(path, Some(tree)).success
    requires 0 <= i < |AnalyzeFile(path, Some(tree)).classes|
    ensures var r := AnalyzeFile(path, Some(tree));
      var info := r.classes[i].1;
      t in AssociationTargets(info.dependencies, info.bases, Keys(r.classes)) <==>
        t in Keys(r.classes) && Some(t) !in info.bases && t != info.name && Mentioned(info.methods, t)
  {
    var r := AnalyzeFile(path, Some(tree));
    var (k, info) := r.classes[i];
    assert Keys(r.classes)[i] == k;
    LookupEntry(r.classes, k, info);
    AssociationMeaning(info, Keys(r.classes), t);
  }

  // ---------------------------------------------------------------- examples

  function EmptyClass(name: string, bases: seq<Node>, line: int): Node {
    ClassDef(name, bases, [], [], [], At(line, Some(line)))
  }

  /** A single empty class: one record, no dependencies, a tree entry with no subclasses, a bare box. */
  lemma SingleEmptyClass()
    ensures var r := AnalyzeFile("a.py", Some(Module([EmptyClass("A", [], 1)])));
      r.success &&
      r.classes == [("A", ClassInfo("A", [], [], [], [], 1, 1, Some(1), None))] &&
      r.relationships == [("A", [])] &&
      r.inheritanceTree == [(Some("A"), [])] &&
      GenerateMermaid(r) == "classDiagram\n    class A {\n    }"
  {
    var c := EmptyClass("A", [], 1);
    var m := Module([c]);
    var info := ClassInfo("A", [], [], [], [], 1, 1, Some(1), None);
    SingleEmptyClassCollected();
    assert Dependencies(info, ["A"]) == [];
    var r := AnalyzeFile("a.py", Some(m));
    assert r.classes == [("A", info)];
    assert r.relationships == [("A", [])];
    assert r.inheritanceTree == [(Some("A"), [])] by {
      assert BuildInheritanceTree([("A", info)]) == AddToBases(Ensure([], Some("A")), [], "A");
    }
    EmptyBoxDiagram(r, "A", info);
    EmptyBoxText();
  }

  lemma EmptyBoxText()
    ensures "classDiagram\n    class " + "A" + " {\n    }" == "classDiagram\n    class A {\n    }"
  {
  }

  lemma SingleEmptyClassCollected()
    ensures var m := Module([EmptyClass("A", [], 1)]);
      Positioned(m) && CollectClasses(m) == [("A", ClassInfo("A", [], [], [], [], 1, 1, Some(1), None))]
  {
    var c := EmptyClass("A", [], 1);
    var m := Module([c]);
    var info := ClassInfo("A", [], [], [], [], 1, 1, Some(1), None);
    LoneClassWalk(c);
    EmptyClassInfo();
    assert ClassEntries(Walk(m)) == [("A", info)] by {
      assert ClassEntries([c]) == [("A", info)] by {
        assert [c][1..] == [];
      }
      assert [m, c][1..] == [c];
    }
  }

  /** A module holding one class without children walks to itself, then the class. */
  lemma LoneClassWalk(c: Node)
    requires Children(c) == []
    ensures Walk(Module([c])) == [Module([c]), c]
  {
    var m := Module([c]);
    assert Children(m) == [c];
    assert [m][1..] + [c] == [c];
    assert [c][1..] + [] == [];
    assert BfsFrom([c]) == [c];
  }

  /** The record of the empty class `A` on line 1. */
  lemma EmptyClassInfo()
    ensures ClassInfoOf(EmptyClass("A", [], 1)) == ClassInfo("A", [], [], [], [], 1, 1, Some(1), None)
  {
    var c := EmptyClass("A", [], 1);
    assert MapSeq(c.bases, ExtractName) == [];
    assert CountLines(c) == 1;
  }


  /** The diagram of a single class with no members, bases or associations. */
  lemma EmptyBoxDiagram(r: ClassAnalysis, name: string, info: ClassInfo)
    requires r.success && r.classes == [(name, info)] && r.inheritanceTree == [(Some(name), [])]
    requires info.instanceVars == [] && info.methods == [] && info.dependencies == []
    ensures GenerateMermaid(r) == "classDiagram\n    class " + name + " {\n    }"
  {
    EmptyBoxLines(r, name, info);
    var lines := DiagramLines(r);
    assert Join(lines, "\n") == "classDiagram" + "\n" + ("    class " + name + " {" + "\n" + "    }") by {
      assert lines[1..] == ["    class " + name + " {", "    }"] && lines[1..][1..] == ["    }"];
    }
  }

  /** The lines of that diagram: the header and a bare box. */
  lemma EmptyBoxLines(r: ClassAnalysis, name: string, info: ClassInfo)
    requires r.success && r.classes == [(name, info)] && r.inheritanceTree == [(Some(name), [])]
    requires info.instanceVars == [] && info.methods == [] && info.dependencies == []
    ensures DiagramLines(r) == ["classDiagram", "    class " + name + " {", "    }"]
  {
    var box := ClassBox(name, info);
    EmptyBox(name, info);
    assert Keys(r.classes) == [name];
    assert AssociationTargets([], info.bases, [name]) == [];
    assert ClassLines(name, info, [name]) == box;
    assert ClassSections(r.classes, [name]) == box by {
      assert r.classes[1..] == [];
    }
    assert EdgeLines(r.inheritanceTree, [name]) == [] by {
      assert r.inheritanceTree[1..] == [];
    }
  }

  /** The box of a class with no members is its opening and closing line. */
  lemma EmptyBox(name: string, info: ClassInfo)
    requires info.instanceVars == [] && info.methods == []
    ensures ClassBox(name, info) == ["    class " + name + " {", "    }"]
  {
    assert |SortedLines(info.instanceVars, VarLine)| == 0;
    assert |SortedLines(info.methods, MethodLine)| == 0;
  }

  /**
   * `class B(A)` whose method `f` does not mention `A`: `B` still depends on
   * `A`, through its base.
   */
  lemma ChildDependsOnParent(info: ClassInfo, a: string, b: string, f: string)
    requires a != b && !Contains(f, a) && info.name == b && info.bases == [Some(a)] && info.methods == [f]
    ensures Dependencies(info, [a, b]) == [Some(a)]
  {
    var names := [a, b];
    assert names[1..] == [b] && [b][1..] == [];
    assert NamedIn(f, [b], b) == [] + NamedIn(f, [], b);
    assert NamedIn(f, names, b) == [] + NamedIn(f, [b], b);
    assert [f][1..] == [];
    assert MethodMatches([f], names, b) == NamedIn(f, names, b) + MethodMatches([], names, b);
    assert MethodMatches([f], names, b) + [Some(a)] == [Some(a)];
    assert Dedup([Some(a)]) == [Some(a)] by { assert [Some(a)][..0] == []; }
  }

  /**
   * A class that lists itself as a base depends on itself: the bases go into
   * the dependencies unfiltered, although the name is kept out of the
   * method matches.
   */
  lemma SelfBaseDependency(path: string, tree: Node, i: int)
    requires AnalyzeFile(path, Some(tree)).success
    requires 0 <= i < |CollectClasses(tree)|
    requires var (k, info) := CollectClasses(tree)[i]; Some(k) in info.bases
    ensures var k := CollectClasses(tree)[i].0;
      Lookup(AnalyzeFile(path, Some(tree)).relationships, k).Some? &&
      Some(k) in Lookup(AnalyzeFile(path, Some(tree)).relationships, k).value
  {
    var collected := CollectClasses(tree);
    var (k, before) := collected[i];
    CollectedRecords(tree);
    assert Keys(collected)[i] == k;
    LookupEntry(collected, k, before);
    var r := AnalyzeFile(path, Some(tree));
    assert Lookup(r.classes, k).Some?;
    var info := Lookup(r.classes, k).value;
    assert info.name == k && info.bases == before.bases;
    OwnNameDependency(info, Keys(r.classes));
  }
}

=== FILE: complexity.dfy ===
/**
 * `ComplexityAnalyzer`: cyclomatic complexity, nesting depth, per-method and
 * per-class metrics, the coupling score, the weighted total, and the
 * threshold-based risk report.
 */
module Complexity {
  import opened Wrappers
  import opened Strings
  import opened Syntax
  import opened OrderedMap
  import opened Base

  // ---------------------------------------------------------------- thresholds

  datatype MethodLimits = MethodLimits(cyclomatic: int, lines: int, parameters: int, nesting: int)
  datatype ClassLimits = ClassLimits(methods: int, lines: int, instanceVars: int)
  datatype Thresholds = Thresholds(forMethod: MethodLimits, forClass: ClassLimits, coupling: real, inheritance: int)

  /** The limits the analyzer is constructed with. */
  const DefaultThresholds := Thresholds(MethodLimits(10, 50, 5, 3), ClassLimits(20, 300, 10), 5.0, 3)

  // ---------------------------------------------------------------- cyclomatic complexity

  /** What one node adds: a branch or loop 1, a boolean operator one less than its operands, a try its handlers. */
  function CcIncrement(n: Node): int {
    match n
    case If(_, _, _) => 1
    case While(_, _, _) => 1
    case For(_, _, _, _) => 1
    case BoolOp(_, _, _) => |n.Values()| - 1
    case Try(_, handlers, _, _) => |handlers|
    case _ => 0
  }

  /** `_calculate_cyclomatic_complexity`: 1 plus the increments of every node `ast.walk` visits. */
  function CyclomaticComplexity(n: Node): (c: int)
    ensures c >= 1
  {
    SumNonNegative(Walk(n), CcIncrement);
    1 + Sum(Walk(n), CcIncrement)
  }

  function BranchCount(n: Node): int {
    if n.If? || n.While? || n.For? then 1 else 0
  }

  function ExtraOperands(n: Node): int {
    if n.BoolOp? then |n.Values()| - 1 else 0
  }

  function HandlerCount(n: Node): int {
    if n.Try? then |n.handlers| else 0
  }

  /**
   * The exact formula over the whole subtree, nested definitions included:
   * 1 + branches and loops + extra boolean operands + exception handlers.
   */
  lemma CyclomaticFormula(n: Node)
    ensures CyclomaticComplexity(n) ==
      1 + TreeSum(n, BranchCount) + TreeSum(n, ExtraOperands) + TreeSum(n, HandlerCount)
  {
    var w := Walk(n);
    var bo := (x: Node) => BranchCount(x) + ExtraOperands(x);
    SumAdd(w, bo, HandlerCount, CcIncrement);
    SumAdd(w, BranchCount, ExtraOperands, bo);
    SumWalk(n, BranchCount);
    SumWalk(n, ExtraOperands);
    SumWalk(n, HandlerCount);
  }

  /** An `if x:` with an empty body. */
  function FlatIf(): Node {
    If(Name("x", Load), [], [])
  }

  /** A function with the given body and nothing else. */
  function FunctionWithBody(body: seq<Node>): Node {
    FunctionDef("f", [], [], [], body, [], NoSpan)
  }

  /** `k` sequential `if`s give complexity k + 1 (eleven give twelve). */
  lemma SequentialIfs(k: nat)
    ensures CyclomaticComplexity(FunctionWithBody(seq(k, _ => FlatIf()))) == k + 1
  {
    var body := seq(k, _ => FlatIf());
    var f := FunctionWithBody(body);
    SumWalk(f, CcIncrement);
    assert Children(f) == body;
    TreeSumSeqCopies(FlatIf(), k, CcIncrement);
    assert Children(FlatIf()) == [Name("x", Load)];
    assert Children(Name("x", Load)) == [];
    assert TreeSumSeq([Name("x", Load)], CcIncrement) == 0 by {
      assert [Name("x", Load)][1..] == [];
    }
  }

  /** A try statement adds its handlers and nothing for itself. */
  lemma TryAddsHandlers(k: nat)
    ensures CyclomaticComplexity(FunctionWithBody([Try([], seq(k, _ => ExceptHandler([], [])), [], [])])) == 1 + k
  {
    var h := ExceptHandler([], []);
    var t := Try([], seq(k, _ => h), [], []);
    var f := FunctionWithBody([t]);
    SumWalk(f, CcIncrement);
    assert Children(f) == [t];
    assert Children(t) == seq(k, _ => h);
    TreeSumSeqCopies(h, k, CcIncrement);
    assert Children(h) == [];
    assert TreeSum(h, CcIncrement) == 0;
    assert TreeSum(t, CcIncrement) == k;
    assert [t][1..] == [];
    assert TreeSumSeq([t], CcIncrement) == k;
  }

  // ---------------------------------------------------------------- nesting depth

  /** The statements that open a nesting level. */
  predicate IsBlock(n: Node) {
    n.If? || n.For? || n.While? || n.Try?
  }

  function BlockCount(n: Node): int {
    if IsBlock(n) then 1 else 0
  }

  function Max(a: int, b: int): int {
    if a >= b then a else b
  }

  /** `get_depth(node, current_depth)`: the deepest level reached below `n`. */
  function GetDepth(n: Node, cur: int): int
    decreases Size(n), 0
  {
    ChildrenSize(n);
    DepthSeq(Children(n), cur)
  }

  /** The running maximum over a node's children, starting from `cur`. */
  function DepthSeq(cs: seq<Node>, cur: int): int
    decreases SizeSeq(cs), 1
  {
    if cs == [] then cur
    else Max(GetDepth(cs[0], cur + BlockCount(cs[0])), DepthSeq(cs[1..], cur))
  }

  /** `_calculate_nesting_depth`. */
  function NestingDepth(n: Node): (d: int)
    ensures d >= 0
  {
    DepthAtLeast(n, 0);
    GetDepth(n, 0)
  }

  /** The number of blocks strictly below `n`. */
  function BlocksBelow(n: Node): int {
    TreeSumSeq(Children(n), BlockCount)
  }

  /** The blocks met along path `p` from `n`, not counting `n` itself. */
  function BlocksOnPath(n: Node, p: Path): int
    decreases |p|
  {
    if p == [] || p[0] >= |Children(n)| then 0
    else
      var c := Children(n)[p[0]];
      BlockCount(c) + BlocksOnPath(c, p[1..])
  }

  lemma {:induction false} DepthAtLeast(n: Node, cur: int)
    ensures GetDepth(n, cur) >= cur
    decreases Size(n), 0
  {
    ChildrenSize(n);
    DepthSeqAtLeast(Children(n), cur);
  }

  lemma {:induction false} DepthSeqAtLeast(cs: seq<Node>, cur: int)
    ensures DepthSeq(cs, cur) >= cur
    decreases SizeSeq(cs), 1
  {
    if cs != [] {
      DepthSeqAtLeast(cs[1..], cur);
    }
  }

  /** The running maximum is at least what any one child reaches. */
  lemma {:induction false} DepthSeqAtLeastChild(cs: seq<Node>, cur: int, i: nat)
    requires i < |cs|
    ensures DepthSeq(cs, cur) >= GetDepth(cs[i], cur + BlockCount(cs[i]))
  {
    if i > 0 {
      DepthSeqAtLeastChild(cs[1..], cur, i - 1);
    }
  }

  /** The running maximum is `cur` or what some child reaches. */
  lemma {:induction false} DepthSeqAttained(cs: seq<Node>, cur: int) returns (i: int)
    ensures i == -1 ==> DepthSeq(cs, cur) == cur
    ensures i != -1 ==> 0 <= i < |cs| && DepthSeq(cs, cur) == GetDepth(cs[i], cur + BlockCount(cs[i]))
  {
    if cs == [] {
      i := -1;
    } else if DepthSeq(cs, cur) == GetDepth(cs[0], cur + BlockCount(cs[0])) {
      i := 0;
    } else {
      var j := DepthSeqAttained(cs[1..], cur);
      if j == -1 {
        i := -1;
      } else {
        assert cs[1..][j] == cs[j + 1];
        i := j + 1;
      }
    }
  }

  /** No path goes deeper than the computed depth. */
  lemma {:induction false} DepthCoversPath(n: Node, cur: int, p: Path)
    requires NodeAt(n, p).Some?
    ensures GetDepth(n, cur) >= cur + BlocksOnPath(n, p)
    decreases |p|
  {
    DepthAtLeast(n, cur);
    if p != [] {
      var c := Children(n)[p[0]];
      DepthSeqAtLeastChild(Children(n), cur, p[0]);
      DepthCoversPath(c, cur + BlockCount(c), p[1..]);
    }
  }

  /** Some path reaches the computed depth. */
  lemma {:induction false} DepthReachedByPath(n: Node, cur: int)
    ensures exists p :: NodeAt(n, p).Some? && GetDepth(n, cur) == cur + BlocksOnPath(n, p)
    decreases Size(n), 0
  {
    ChildrenSize(n);
    var cs := Children(n);
    var i := DepthSeqAttained(cs, cur);
    if i == -1 {
      assert NodeAt(n, []).Some? && BlocksOnPath(n, []) == 0;
    } else {
      ChildSmaller(n, i);
      DepthReachedByPath(cs[i], cur + BlockCount(cs[i]));
      var q :| NodeAt(cs[i], q).Some? &&
        GetDepth(cs[i], cur + BlockCount(cs[i])) == cur + BlockCount(cs[i]) + BlocksOnPath(cs[i], q);
      var p := [i] + q;
      assert p[1..] == q;
      assert NodeAt(n, p) == NodeAt(cs[i], q);
    }
  }

  /** The computed depth never exceeds the number of blocks below. */
  lemma {:induction false} DepthAtMostBlocks(n: Node, cur: int)
    ensures GetDepth(n, cur) <= cur + BlocksBelow(n)
    decreases Size(n), 0
  {
    ChildrenSize(n);
    DepthSeqAtMostBlocks(Children(n), cur);
  }

  lemma {:induction false} DepthSeqAtMostBlocks(cs: seq<Node>, cur: int)
    ensures DepthSeq(cs, cur) <= cur + TreeSumSeq(cs, BlockCount)
    decreases SizeSeq(cs), 1
  {
    if cs != [] {
      var c := cs[0];
      DepthAtMostBlocks(c, cur + BlockCount(c));
      DepthSeqAtMostBlocks(cs[1..], cur);
      ChildrenSize(c);
      TreeSumSeqNonNegative(Children(c), BlockCount);
      TreeSumSeqNonNegative(cs[1..], BlockCount);
      TreeSumAtLeastRoot(c, BlockCount);
    }
  }

  /** With a block somewhere below, the depth is above `cur`. */
  lemma {:induction false} DepthAboveWhenBlocks(n: Node, cur: int)
    requires BlocksBelow(n) > 0
    ensures GetDepth(n, cur) > cur
    decreases Size(n), 0
  {
    ChildrenSize(n);
    DepthSeqAboveWhenBlocks(Children(n), cur);
  }

  lemma {:induction false} DepthSeqAboveWhenBlocks(cs: seq<Node>, cur: int)
    requires TreeSumSeq(cs, BlockCount) > 0
    ensures DepthSeq(cs, cur) > cur
    decreases SizeSeq(cs), 1
  {
    var c := cs[0];
    DepthSeqAtLeast(cs[1..], cur);
    if TreeSumSeq(cs[1..], BlockCount) > 0 {
      DepthSeqAboveWhenBlocks(cs[1..], cur);
    } else if IsBlock(c) {
      DepthAtLeast(c, cur + 1);
    } else {
      DepthAboveWhenBlocks(c, cur);
    }
  }

  /**
   * The nesting depth is the largest number of blocks on a downward path
   * (the node itself not counted): no path exceeds it and some path reaches it.
   */
  lemma NestingDepthIsDeepestPath(n: Node)
    ensures forall p :: NodeAt(n, p).Some? ==> NestingDepth(n) >= BlocksOnPath(n, p)
    ensures exists p :: NodeAt(n, p).Some? && NestingDepth(n) == BlocksOnPath(n, p)
  {
    forall p | NodeAt(n, p).Some? ensures NestingDepth(n) >= BlocksOnPath(n, p) {
      DepthCoversPath(n, 0, p);
    }
    DepthReachedByPath(n, 0);
  }

  /** The depth is at most the number of blocks below, and 0 exactly when there is none. */
  lemma NestingDepthBounds(n: Node)
    ensures NestingDepth(n) <= BlocksBelow(n)
    ensures NestingDepth(n) == 0 <==> BlocksBelow(n) == 0
  {
    DepthAtMostBlocks(n, 0);
    ChildrenSize(n);
    TreeSumSeqNonNegative(Children(n), BlockCount);
    if BlocksBelow(n) > 0 {
      DepthAboveWhenBlocks(n, 0);
    }
  }

  // ---------------------------------------------------------------- coupling

  /** The non-empty names `extract_name` gives for a list of nodes, in order. */
  function NamesIn(s: seq<Node>): seq<string> {
    if s == [] then []
    else
      var e := ExtractName(s[0]);
      if e.Some? && e.value != "" then [e.value] + NamesIn(s[1..]) else NamesIn(s[1..])
  }

  /** The distinct non-empty names of the nodes in `s`. */
  function NameSetOf(s: seq<Node>): set<string> {
    set m | m in s && ExtractName(m).Some? && ExtractName(m).value != "" :: ExtractName(m).value
  }

  lemma {:induction false} NamesInSet(s: seq<Node>)
    ensures (set x | x in NamesIn(s)) == NameSetOf(s)
  {
    if s != [] {
      NamesInSet(s[1..]);
      forall x ensures x in NamesIn(s) <==> x in NameSetOf(s) {
        if x in NameSetOf(s) {
          var m :| m in s && ExtractName(m).Some? && ExtractName(m).value != "" && ExtractName(m).value == x;
          if m != s[0] {
            assert m in s[1..];
          }
        }
        if x in NameSetOf(s[1..]) {
          var m :| m in s[1..] && ExtractName(m).Some? && ExtractName(m).value != "" && ExtractName(m).value == x;
          assert m in s;
        }
      }
    }
  }

  /** The distinct names referenced anywhere in a subtree. */
  function NameSet(n: Node): set<string> {
    NameSetOf(Pre(n))
  }

  /** `_calculate_coupling_score`: a tenth per distinct non-empty name over the class's walk. */
  function CouplingScore(c: Node): (r: real)
    ensures r == 0.1 * (|NameSet(c)| as real)
  {
    var names := NamesIn(Walk(c));
    DedupCard(names);
    NamesInSet(Walk(c));
    WalkIsPermutation(c);
    assert NameSetOf(Walk(c)) == NameSetOf(Pre(c));
    0.1 * (|Dedup(names)| as real)
  }

  /** The class's own name is among the names, so a named class scores at least 0.1. */
  lemma CouplingAtLeastOwnName(c: Node)
    requires c.ClassDef? && c.name != ""
    ensures CouplingScore(c) >= 0.1
  {
    WalkIsPermutation(c);
    assert c in Pre(c);
    assert ExtractName(c) == Some(c.name);
    assert c.name in NameSet(c);
  }

  // ---------------------------------------------------------------- methods

  datatype MethodComplexity = MethodComplexity(
    name: string,
    cyclomatic: int,
    lineCount: int,
    parameterCount: nat,
    localVarCount: nat,
    returnCount: nat,
    nestedDepth: int)

  /** The ids of the stored-to Names in a list of nodes, in order. */
  function StoreNames(s: seq<Node>): seq<string> {
    if s == [] then []
    else if s[0].Name? && s[0].ctx.Store? then [s[0].id] + StoreNames(s[1..])
    else StoreNames(s[1..])
  }

  function StoreNameSetOf(s: seq<Node>): set<string> {
    set m | m in s && m.Name? && m.ctx.Store? :: m.id
  }

  lemma {:induction false} StoreNamesSet(s: seq<Node>)
    ensures (set x | x in StoreNames(s)) == StoreNameSetOf(s)
  {
    if s != [] {
      StoreNamesSet(s[1..]);
      forall x ensures x in StoreNames(s) <==> x in StoreNameSetOf(s) {
        if x in StoreNameSetOf(s) {
          var m :| m in s && m.Name? && m.ctx.Store? && m.id == x;
          if m != s[0] {
            assert m in s[1..];
          }
        }
        if x in StoreNameSetOf(s[1..]) {
          var m :| m in s[1..] && m.Name? && m.ctx.Store? && m.id == x;
          assert m in s;
        }
      }
    }
  }

  /** The distinct names assigned anywhere in a subtree; parameters are not Name nodes. */
  function LocalNameSet(n: Node): set<string> {
    StoreNameSetOf(Pre(n))
  }

  function ReturnCount(n: Node): int {
    if n.Return? then 1 else 0
  }

  /** `_analyze_method`. */
  function AnalyzeMethod(f: Node): (m: MethodComplexity)
    requires f.FunctionDef?
    ensures m.name == f.name && m.parameterCount == |f.params|
    ensures m.cyclomatic == CyclomaticComplexity(f) && m.cyclomatic >= 1
    ensures m.nestedDepth == NestingDepth(f) && m.nestedDepth >= 0
    ensures m.lineCount == CountLines(f)
    ensures m.localVarCount == |LocalNameSet(f)|
    ensures m.returnCount == TreeSum(f, ReturnCount)
  {
    var w := Walk(f);
    var locals := StoreNames(w);
    DedupCard(locals);
    StoreNamesSet(w);
    WalkIsPermutation(f);
    assert StoreNameSetOf(w) == StoreNameSetOf(Pre(f));
    SumWalk(f, ReturnCount);
    SumNonNegative(w, ReturnCount);
    MethodComplexity(f.name, CyclomaticComplexity(f), CountLines(f), |f.params|,
                     |Dedup(locals)|, Sum(w, ReturnCount), NestingDepth(f))
  }

  // ---------------------------------------------------------------- classes

  datatype ClassComplexity = ClassComplexity(
    name: string,
    methodCount: nat,
    totalLineCount: int,
    instanceVarCount: nat,
    methods: Dict<string, MethodComplexity>,
    couplingScore: real,
    inheritanceDepth: nat)

  /** The (name, metrics) pairs of the functions directly in a class body, in order. */
  function MethodPairs(body: seq<Node>): (r: seq<(string, MethodComplexity)>)
    ensures forall i :: 0 <= i < |r| ==> r[i].1.name == r[i].0 && r[i].1.cyclomatic >= 1
  {
    if body == [] then []
    else
      var tail := MethodPairs(body[1..]);
      if body[0].FunctionDef? then [(body[0].name, AnalyzeMethod(body[0]))] + tail else tail
  }

  /** The names of the functions directly in a class body, in order, repeats kept. */
  function MethodNames(body: seq<Node>): seq<string> {
    if body == [] then []
    else if body[0].FunctionDef? then [body[0].name] + MethodNames(body[1..])
    else MethodNames(body[1..])
  }

  lemma {:induction false} MethodPairsKeys(body: seq<Node>)
    ensures Keys(MethodPairs(body)) == MethodNames(body)
  {
    if body != [] {
      MethodPairsKeys(body[1..]);
      var tail := MethodPairs(body[1..]);
      if body[0].FunctionDef? {
        assert Keys([(body[0].name, AnalyzeMethod(body[0]))] + tail) == [body[0].name] + Keys(tail);
      }
    }
  }

  /** The non-empty names of the targets of the assignments directly in a class body. */
  function AssignedNames(body: seq<Node>): seq<string> {
    if body == [] then []
    else if body[0].Assign? then NamesIn(body[0].targets) + AssignedNames(body[1..])
    else AssignedNames(body[1..])
  }

  /** `_analyze_class`; a later method with a repeated name replaces the earlier one. */
  function AnalyzeClass(c: Node): (r: ClassComplexity)
    requires c.ClassDef?
    ensures r.name == c.name && r.inheritanceDepth == |c.bases|
    ensures Keys(r.methods) == Dedup(MethodNames(c.body))
    ensures r.methodCount == |set x | x in MethodNames(c.body)|
    ensures forall k :: Lookup(r.methods, k) == LastValue(MethodPairs(c.body), k)
    ensures r.instanceVarCount == |set x | x in AssignedNames(c.body)|
    ensures r.couplingScore == CouplingScore(c) && r.couplingScore >= 0.0
    ensures r.totalLineCount == CountLines(c)
  {
    var pairs := MethodPairs(c.body);
    var methods := FromPairs(pairs);
    MethodPairsKeys(c.body);
    DedupCard(MethodNames(c.body));
    var vars := AssignedNames(c.body);
    DedupCard(vars);
    ClassComplexity(c.name, |methods|, CountLines(c), |Dedup(vars)|, methods,
                    CouplingScore(c), |c.bases|)
  }

  /** The (name, metrics) pairs of every class in walk order. */
  function ClassPairs(s: seq<Node>): (r: seq<(string, ClassComplexity)>)
    ensures forall i :: 0 <= i < |r| ==> Sound(r[i].1)
  {
    if s == [] then []
    else
      var tail := ClassPairs(s[1..]);
      if s[0].ClassDef? then
        AnalyzeClassSound(s[0]);
        [(s[0].name, AnalyzeClass(s[0]))] + tail
      else tail
  }

  /** `_analyze_classes`: every class anywhere in the tree under its name, the last in walk order winning. */
  function AnalyzeClasses(tree: Node): (r: Dict<string, ClassComplexity>)
    ensures NoDuplicates(Keys(r))
    ensures forall k :: Lookup(r, k) == LastValue(ClassPairs(Walk(tree)), k)
  {
    FromPairs(ClassPairs(Walk(tree)))
  }

  lemma AnalyzeClassesSound(tree: Node)
    ensures forall i :: 0 <= i < |AnalyzeClasses(tree)| ==> Sound(AnalyzeClasses(tree)[i].1)
  {
    var ps := ClassPairs(Walk(tree));
    var r := AnalyzeClasses(tree);
    FromPairsEntries(ps);
    forall i | 0 <= i < |r| ensures Sound(r[i].1) {
      assert r[i] in ps;
      var j :| 0 <= j < |ps| && ps[j] == r[i];
    }
  }

  // ---------------------------------------------------------------- total complexity

  /** A method's contribution to the total. */
  function MethodTerm(m: MethodComplexity, t: Thresholds): real {
    0.3 * (m.cyclomatic as real) + 0.2 * ((m.nestedDepth * m.nestedDepth) as real) +
    (if m.parameterCount > t.forMethod.parameters then 0.5 else 0.0)
  }

  function MethodTerms(ms: seq<MethodComplexity>, t: Thresholds): real {
    if ms == [] then 0.0 else MethodTerm(ms[0], t) + MethodTerms(ms[1..], t)
  }

  /** A class's contribution: its own terms plus its methods'. */
  function ClassTerm(c: ClassComplexity, t: Thresholds): real {
    0.2 * (c.methodCount as real) + c.couplingScore + 0.5 * (c.inheritanceDepth as real) +
    MethodTerms(Values(c.methods), t)
  }

  function ClassTerms(cs: seq<ClassComplexity>, t: Thresholds): real {
    if cs == [] then 0.0 else ClassTerm(cs[0], t) + ClassTerms(cs[1..], t)
  }

  /** `_calculate_total_complexity`. */
  function TotalComplexity(global: real, classes: Dict<string, ClassComplexity>, t: Thresholds): real {
    global + ClassTerms(Values(classes), t)
  }

  /** Metrics as the analyzer produces them: non-negative coupling and method complexities. */
  predicate Sound(c: ClassComplexity) {
    c.couplingScore >= 0.0 && forall i :: 0 <= i < |c.methods| ==> c.methods[i].1.cyclomatic >= 0
  }

  lemma AnalyzeClassSound(c: Node)
    requires c.ClassDef?
    ensures Sound(AnalyzeClass(c))
  {
    var ps := MethodPairs(c.body);
    var m := FromPairs(ps);
    assert AnalyzeClass(c).methods == m;
    FromPairsEntries(ps);
    forall i | 0 <= i < |m| ensures m[i].1.cyclomatic >= 0 {
      assert m[i] in ps;
      var j :| 0 <= j < |ps| && ps[j] == m[i];
    }
  }

  lemma {:induction false} MethodTermsNonNegative(ms: seq<MethodComplexity>, t: Thresholds)
    requires forall i :: 0 <= i < |ms| ==> ms[i].cyclomatic >= 0
    ensures MethodTerms(ms, t) >= 0.0
  {
    if ms != [] {
      assert ms[0].nestedDepth * ms[0].nestedDepth >= 0;
      MethodTermsNonNegative(ms[1..], t);
    }
  }

  lemma {:induction false} ClassTermsNonNegative(cs: seq<ClassComplexity>, t: Thresholds)
    requires forall i :: 0 <= i < |cs| ==> Sound(cs[i])
    ensures ClassTerms(cs, t) >= 0.0
  {
    if cs != [] {
      MethodTermsNonNegative(Values(cs[0].methods), t);
      ClassTermsNonNegative(cs[1..], t);
    }
  }

  /** Every summand is non-negative, so the total is at least the global scope complexity. */
  lemma TotalAtLeastGlobal(global: real, classes: Dict<string, ClassComplexity>, t: Thresholds)
    requires forall i :: 0 <= i < |classes| ==> Sound(classes[i].1)
    ensures TotalComplexity(global, classes, t) >= global
  {
    ClassTermsNonNegative(Values(classes), t);
  }

  // ---------------------------------------------------------------- risks

  datatype Risk = Risk(kind: string, location: string, issue: string)

  /** The two parallel lists the analysis accumulates. */
  datatype RiskReport = RiskReport(areas: seq<Risk>, suggestions: seq<string>)

  const TooManyMethods := "Too many methods"
  const ExcessiveSize := "Excessive class size"
  const HighComplexity := "High cyclomatic complexity"
  const DeepNesting := "Deep nesting"

  /** The advice that goes with each issue. */
  function Advice(issue: string): string {
    if issue == TooManyMethods then "Consider splitting into multiple classes"
    else if issue == ExcessiveSize then "Consider extracting functionality"
    else if issue == HighComplexity then "Simplify method logic"
    else if issue == DeepNesting then "Refactor to reduce nesting"
    else ""
  }

  /** Each suggestion is its area's location, a colon, and the advice for its issue. */
  predicate Paired(r: RiskReport) {
    |r.areas| == |r.suggestions| &&
    forall i :: 0 <= i < |r.areas| ==>
      r.suggestions[i] == r.areas[i].location + ": " + Advice(r.areas[i].issue)
  }

  /** `_add_risk`. */
  function AddRisk(r: RiskReport, kind: string, location: string, issue: string): (r': RiskReport)
    ensures Paired(r) ==> Paired(r')
    ensures r'.areas == r.areas + [Risk(kind, location, issue)]
  {
    RiskReport(r.areas + [Risk(kind, location, issue)], r.suggestions + [location + ": " + Advice(issue)])
  }

  /** `{cls}.{method}`. */
  function MethodLocation(cls: string, methodName: string): string {
    cls + "." + methodName
  }

  /** The method-level checks of one class, methods in dict order. */
  function MethodRisks(cls: string, ms: Dict<string, MethodComplexity>, t: Thresholds, r: RiskReport): (r': RiskReport)
    ensures Paired(r) ==> Paired(r')
    decreases |ms|
  {
    if ms == [] then r
    else
      var (name, m) := ms[0];
      var loc := MethodLocation(cls, name);
      var r1 := if m.cyclomatic > t.forMethod.cyclomatic then AddRisk(r, "method", loc, HighComplexity) else r;
      var r2 := if m.nestedDepth > t.forMethod.nesting then AddRisk(r1, "method", loc, DeepNesting) else r1;
      MethodRisks(cls, ms[1..], t, r2)
  }

  /** The class-level checks, then the method-level ones. */
  function ClassRisks(name: string, c: ClassComplexity, t: Thresholds, r: RiskReport): (r': RiskReport)
    ensures Paired(r) ==> Paired(r')
  {
    var r1 := if c.methodCount > t.forClass.methods then AddRisk(r, "class", name, TooManyMethods) else r;
    var r2 := if c.totalLineCount > t.forClass.lines then AddRisk(r1, "class", name, ExcessiveSize) else r1;
    MethodRisks(name, c.methods, t, r2)
  }

  function RisksFrom(classes: Dict<string, ClassComplexity>, t: Thresholds, r: RiskReport): (r': RiskReport)
    ensures Paired(r) ==> Paired(r')
    decreases |classes|
  {
    if classes == [] then r
    else RisksFrom(classes[1..], t, ClassRisks(classes[0].0, classes[0].1, t, r))
  }

  /** `_identify_risks`: areas and suggestions always pair up one to one. */
  function IdentifyRisks(classes: Dict<string, ClassComplexity>, t: Thresholds): (r: RiskReport)
    ensures Paired(r)
  {
    RisksFrom(classes, t, RiskReport([], []))
  }

  // Reference order: the risks listed class by class, without an accumulator.

  function MethodRiskList(cls: string, name: string, m: MethodComplexity, t: Thresholds): seq<Risk> {
    var loc := MethodLocation(cls, name);
    (if m.cyclomatic > t.forMethod.cyclomatic then [Risk("method", loc, HighComplexity)] else []) +
    (if m.nestedDepth > t.forMethod.nesting then [Risk("method", loc, DeepNesting)] else [])
  }

  function MethodRiskLists(cls: string, ms: Dict<string, MethodComplexity>, t: Thresholds): seq<Risk> {
    if ms == [] then [] else MethodRiskList(cls, ms[0].0, ms[0].1, t) + MethodRiskLists(cls, ms[1..], t)
  }

  function ClassRiskList(name: string, c: ClassComplexity, t: Thresholds): seq<Risk> {
    (if c.methodCount > t.forClass.methods then [Risk("class", name, TooManyMethods)] else []) +
    (if c.totalLineCount > t.forClass.lines then [Risk("class", name, ExcessiveSize)] else []) +
    MethodRiskLists(name, c.methods, t)
  }

  function ExpectedRisks(classes: Dict<string, ClassComplexity>, t: Thresholds): seq<Risk> {
    if classes == [] then [] else ClassRiskList(classes[0].0, classes[0].1, t) + ExpectedRisks(classes[1..], t)
  }

  lemma {:induction false} MethodRisksAppend(cls: string, ms: Dict<string, MethodComplexity>, t: Thresholds, r: RiskReport)
    ensures MethodRisks(cls, ms, t, r).areas == r.areas + MethodRiskLists(cls, ms, t)
    decreases |ms|
  {
    if ms != [] {
      var (name, m) := ms[0];
      var loc := MethodLocation(cls, name);
      var r1 := if m.cyclomatic > t.forMethod.cyclomatic then AddRisk(r, "method", loc, HighComplexity) else r;
      var r2 := if m.nestedDepth > t.forMethod.nesting then AddRisk(r1, "method", loc, DeepNesting) else r1;
      MethodRisksAppend(cls, ms[1..], t, r2);
      assert r2.areas == r.areas + MethodRiskList(cls, name, m, t);
    }
  }

  lemma {:induction false} RisksFromAppend(classes: Dict<string, ClassComplexity>, t: Thresholds, r: RiskReport)
    ensures RisksFrom(classes, t, r).areas == r.areas + ExpectedRisks(classes, t)
    decreases |classes|
  {
    if classes != [] {
      ClassRisksAppend(classes[0].0, classes[0].1, t, r);
      RisksFromAppend(classes[1..], t, ClassRisks(classes[0].0, classes[0].1, t, r));
    }
  }

  /** One class's checks append exactly that class's expected risks. */
  lemma ClassRisksAppend(name: string, c: ClassComplexity, t: Thresholds, r: RiskReport)
    ensures ClassRisks(name, c, t, r).areas == r.areas + ClassRiskList(name, c, t)
  {
    var r1 := if c.methodCount > t.forClass.methods then AddRisk(r, "class", name, TooManyMethods) else r;
    var r2 := if c.totalLineCount > t.forClass.lines then AddRisk(r1, "class", name, ExcessiveSize) else r1;
    MethodRisksAppend(name, c.methods, t, r2);
  }

  /**
   * The fixed order: class by class in dict order; within a class the
   * method-count check, the size check, then for each method the complexity
   * check and the nesting check.
   */
  lemma IdentifyRisksOrder(classes: Dict<string, ClassComplexity>, t: Thresholds)
    ensures IdentifyRisks(classes, t).areas == ExpectedRisks(classes, t)
  {
    RisksFromAppend(classes, t, RiskReport([], []));
  }

  /** Risk `x` is reported for class number `i` of the dict. */
  lemma {:induction false} ExpectedRisksHave(classes: Dict<string, ClassComplexity>, t: Thresholds, i: nat, x: Risk)
    requires i < |classes|
    requires x in ClassRiskList(classes[i].0, classes[i].1, t)
    ensures x in ExpectedRisks(classes, t)
  {
    if i > 0 {
      ExpectedRisksHave(classes[1..], t, i - 1, x);
    }
  }

  /** Each risk of method number `j` is among the risks of the methods. */
  lemma {:induction false} MethodRiskListsMember(cls: string, ms: Dict<string, MethodComplexity>, t: Thresholds, j: nat, x: Risk)
    requires j < |ms|
    requires x in MethodRiskList(cls, ms[j].0, ms[j].1, t)
    ensures x in MethodRiskLists(cls, ms, t)
    decreases j
  {
    var here := MethodRiskList(cls, ms[0].0, ms[0].1, t);
    var later := MethodRiskLists(cls, ms[1..], t);
    assert MethodRiskLists(cls, ms, t) == here + later;
    if j > 0 {
      assert ms[1..][j - 1] == ms[j];
      MethodRiskListsMember(cls, ms[1..], t, j - 1, x);
    }
  }

  /** A class over the method limit or the line limit (strict `>`) is reported. */
  lemma ClassRisksReported(classes: Dict<string, ClassComplexity>, t: Thresholds, i: nat)
    requires i < |classes|
    ensures classes[i].1.methodCount > t.forClass.methods ==>
      Risk("class", classes[i].0, TooManyMethods) in IdentifyRisks(classes, t).areas
    ensures classes[i].1.totalLineCount > t.forClass.lines ==>
      Risk("class", classes[i].0, ExcessiveSize) in IdentifyRisks(classes, t).areas
  {
    IdentifyRisksOrder(classes, t);
    var (name, c) := classes[i];
    if c.methodCount > t.forClass.methods {
      ExpectedRisksHave(classes, t, i, Risk("class", name, TooManyMethods));
    }
    if c.totalLineCount > t.forClass.lines {
      ExpectedRisksHave(classes, t, i, Risk("class", name, ExcessiveSize));
    }
  }

  /** A method over the complexity limit or the nesting limit (strict `>`) is reported as `Class.method`. */
  lemma MethodRisksReported(classes: Dict<string, ClassComplexity>, t: Thresholds, i: nat, j: nat)
    requires i < |classes| && j < |classes[i].1.methods|
    ensures classes[i].1.methods[j].1.cyclomatic > t.forMethod.cyclomatic ==>
      Risk("method", MethodLocation(classes[i].0, classes[i].1.methods[j].0), HighComplexity)
        in IdentifyRisks(classes, t).areas
    ensures classes[i].1.methods[j].1.nestedDepth > t.forMethod.nesting ==>
      Risk("method", MethodLocation(classes[i].0, classes[i].1.methods[j].0), DeepNesting)
        in IdentifyRisks(classes, t).areas
  {
    IdentifyRisksOrder(classes, t);
    var cls := classes[i].0;
    var m := classes[i].1.methods[j];
    var loc := MethodLocation(cls, m.0);
    if m.1.cyclomatic > t.forMethod.cyclomatic {
      assert Risk("method", loc, HighComplexity) in MethodRiskList(cls, m.0, m.1, t);
      MethodRiskExpected(classes, t, i, j, Risk("method", loc, HighComplexity));
    }
    if m.1.nestedDepth > t.forMethod.nesting {
      assert Risk("method", loc, DeepNesting) in MethodRiskList(cls, m.0, m.1, t);
      MethodRiskExpected(classes, t, i, j, Risk("method", loc, DeepNesting));
    }
  }

  lemma MethodRiskExpected(classes: Dict<string, ClassComplexity>, t: Thresholds, i: nat, j: nat, x: Risk)
    requires i < |classes| && j < |classes[i].1.methods|
    requires x in MethodRiskList(classes[i].0, classes[i].1.methods[j].0, classes[i].1.methods[j].1, t)
    ensures x in ExpectedRisks(classes, t)
  {
    MethodRiskListsMember(classes[i].0, classes[i].1.methods, t, j, x);
    ClassRiskListHasMethods(classes[i].0, classes[i].1, t, x);
    ExpectedRisksHave(classes, t, i, x);
  }

  lemma ClassRiskListHasMethods(cls: string, c: ClassComplexity, t: Thresholds, x: Risk)
    requires x in MethodRiskLists(cls, c.methods, t)
    ensures x in ClassRiskList(cls, c, t)
  {
  }

  /** Each reported risk comes from a failed check of some class or of one of its methods. */
  predicate Justified(classes: Dict<string, ClassComplexity>, t: Thresholds, x: Risk) {
    exists i :: 0 <= i < |classes| && JustifiedBy(classes[i].0, classes[i].1, t, x)
  }

  predicate JustifiedBy(name: string, c: ClassComplexity, t: Thresholds, x: Risk) {
    (x == Risk("class", name, TooManyMethods) && c.methodCount > t.forClass.methods) ||
    (x == Risk("class", name, ExcessiveSize) && c.totalLineCount > t.forClass.lines) ||
    exists j :: 0 <= j < |c.methods| && MethodJustifies(name, c.methods[j].0, c.methods[j].1, t, x)
  }

  predicate MethodJustifies(cls: string, methodName: string, m: MethodComplexity, t: Thresholds, x: Risk) {
    (x == Risk("method", MethodLocation(cls, methodName), HighComplexity) && m.cyclomatic > t.forMethod.cyclomatic) ||
    (x == Risk("method", MethodLocation(cls, methodName), DeepNesting) && m.nestedDepth > t.forMethod.nesting)
  }

  lemma {:induction false} MethodRiskListsSound(cls: string, ms: Dict<string, MethodComplexity>, t: Thresholds, x: Risk)
    requires x in MethodRiskLists(cls, ms, t)
    ensures exists j :: 0 <= j < |ms| && MethodJustifies(cls, ms[j].0, ms[j].1, t, x)
  {
    if x in MethodRiskList(cls, ms[0].0, ms[0].1, t) {
      assert MethodJustifies(cls, ms[0].0, ms[0].1, t, x);
    } else {
      MethodRiskListsSound(cls, ms[1..], t, x);
      var j :| 0 <= j < |ms[1..]| && MethodJustifies(cls, ms[1..][j].0, ms[1..][j].1, t, x);
      assert ms[1..][j] == ms[j + 1];
    }
  }

  lemma {:induction false} ExpectedRisksSound(classes: Dict<string, ClassComplexity>, t: Thresholds, x: Risk)
    requires x in ExpectedRisks(classes, t)
    ensures Justified(classes, t, x)
  {
    var (name, c) := classes[0];
    if x in ClassRiskList(name, c, t) {
      if x in MethodRiskLists(name, c.methods, t) {
        MethodRiskListsSound(name, c.methods, t, x);
      }
      assert JustifiedBy(name, c, t, x);
    } else {
      ExpectedRisksSound(classes[1..], t, x);
      var i :| 0 <= i < |classes[1..]| && JustifiedBy(classes[1..][i].0, classes[1..][i].1, t, x);
      assert classes[1..][i] == classes[i + 1];
    }
  }

  /** Nothing is reported without a failed check; at a limit exactly, nothing is reported. */
  lemma RisksSound(classes: Dict<string, ClassComplexity>, t: Thresholds)
    ensures forall x :: x in IdentifyRisks(classes, t).areas ==> Justified(classes, t, x)
  {
    IdentifyRisksOrder(classes, t);
    forall x | x in IdentifyRisks(classes, t).areas ensures Justified(classes, t, x) {
      ExpectedRisksSound(classes, t, x);
    }
  }

  // ---------------------------------------------------------------- scope complexity and the file

  /** What one node adds to `_analyze_scope_complexity`: a block 1, a boolean operator one less than its operands. */
  function ScopeIncrement(n: Node): int {
    if n.If? || n.While? || n.For? || n.Try? then 1
    else if n.BoolOp? then |n.Values()| - 1
    else 0
  }

  /** `_analyze_scope_complexity` with its loop run over `ast.walk(node)`. */
  function ScopeComplexity(n: Node): (r: real)
    ensures r >= 0.0
  {
    SumNonNegative(Walk(n), ScopeIncrement);
    Sum(Walk(n), ScopeIncrement) as real
  }

  /** What a try counts for in cyclomatic complexity beyond the 1 it counts for in scope complexity. */
  function TryExtra(n: Node): int {
    if n.Try? then |n.handlers| - 1 else 0
  }

  /**
   * Scope complexity differs from cyclomatic complexity only in the base 1
   * and in counting each try once instead of once per handler.
   */
  lemma ScopeVersusCyclomatic(n: Node)
    ensures (CyclomaticComplexity(n) - 1 - TreeSum(n, TryExtra)) as real == ScopeComplexity(n)
  {
    SumAdd(Walk(n), ScopeIncrement, TryExtra, CcIncrement);
    SumWalk(n, TryExtra);
  }

  datatype ComplexityAnalysis = ComplexityAnalysis(
    filePath: string,
    success: bool,
    errorMessage: Option<string>,
    totalComplexity: real,
    classes: Dict<string, ClassComplexity>,
    globalScopeComplexity: real,
    highestRiskAreas: seq<Risk>,
    suggestions: seq<string>)

  /** The empty result both failure paths return. */
  function Failed(path: string, message: string): ComplexityAnalysis {
    ComplexityAnalysis(path, false, Some(message), 0.0, [], 0.0, [], [])
  }

  const ParseFailure := "Failed to parse file"
  const NoneNotIterable := "'NoneType' object is not iterable"

  /** What `NodeVisitor.visit` returns for a module: `generic_visit`'s None. */
  function VisitResult(n: Node): (r: Option<seq<Node>>)
    ensures r.None?
  {
    None
  }

  /** The scope loop over whatever it is given to iterate; iterating None raises, modelled as None. */
  function ScopeLoop(items: Option<seq<Node>>): (r: Option<real>)
    ensures r.None? <==> items.None?
    ensures items.Some? ==> r.value == Sum(items.value, ScopeIncrement) as real
  {
    match items
    case None => None
    case Some(nodes) => Some(Sum(nodes, ScopeIncrement) as real)
  }

  /** The successful result for a parsed tree with the given global scope complexity. */
  function Succeeded(path: string, tree: Node, scope: real): (r: ComplexityAnalysis)
    ensures r.success && r.errorMessage.None?
    ensures r.globalScopeComplexity == scope && r.classes == AnalyzeClasses(tree)
    ensures r.totalComplexity == TotalComplexity(scope, r.classes, DefaultThresholds) >= scope
    ensures RiskReport(r.highestRiskAreas, r.suggestions) == IdentifyRisks(r.classes, DefaultThresholds)
    ensures r.highestRiskAreas == ExpectedRisks(r.classes, DefaultThresholds)
    ensures Paired(RiskReport(r.highestRiskAreas, r.suggestions))
    ensures forall x :: x in r.highestRiskAreas ==> Justified(r.classes, DefaultThresholds, x)
  {
    var classes := AnalyzeClasses(tree);
    var report := IdentifyRisks(classes, DefaultThresholds);
    AnalyzeClassesSound(tree);
    TotalAtLeastGlobal(scope, classes, DefaultThresholds);
    IdentifyRisksOrder(classes, DefaultThresholds);
    RisksSound(classes, DefaultThresholds);
    ComplexityAnalysis(path, true, None, TotalComplexity(scope, classes, DefaultThresholds),
                       classes, scope, report.areas, report.suggestions)
  }

  /**
   * `analyze_file` as written: the scope loop iterates over the result of
   * `visit`, which is None, so the TypeError lands in the except branch.
   */
  function AnalyzeFileAsWritten(path: string, tree: Option<Node>): (r: ComplexityAnalysis)
    ensures !r.success
    ensures tree.None? ==> r == Failed(path, ParseFailure)
    ensures tree.Some? ==> r == Failed(path, NoneNotIterable)
  {
    match tree
    case None => Failed(path, ParseFailure)
    case Some(root) =>
      match ScopeLoop(VisitResult(root))
      case None => Failed(path, NoneNotIterable)
      case Some(scope) => Succeeded(path, root, scope)
  }

  /** `analyze_file` with the scope loop run over the walk. */
  function AnalyzeFile(path: string, tree: Option<Node>): (r: ComplexityAnalysis)
    ensures r.success <==> tree.Some?
    ensures tree.None? ==> r == Failed(path, ParseFailure)
    ensures r.success ==>
      r.globalScopeComplexity == ScopeComplexity(tree.value) >= 0.0 &&
      r.classes == AnalyzeClasses(tree.value) &&
      r.totalComplexity == TotalComplexity(r.globalScopeComplexity, r.classes, DefaultThresholds) &&
      r.totalComplexity >= r.globalScopeComplexity &&
      RiskReport(r.highestRiskAreas, r.suggestions) == IdentifyRisks(r.classes, DefaultThresholds) &&
      r.highestRiskAreas == ExpectedRisks(r.classes, DefaultThresholds) &&
      Paired(RiskReport(r.highestRiskAreas, r.suggestions))
    ensures r.success ==> forall x :: x in r.highestRiskAreas ==> Justified(r.classes, DefaultThresholds, x)
  {
    match tree
    case None => Failed(path, ParseFailure)
    case Some(root) => Succeeded(path, root, ScopeComplexity(root))
  }

  /** An empty module: the code as written reports failure, the walk-based loop succeeds with score 0. */
  lemma ScopeLoopDefect()
    ensures !AnalyzeFileAsWritten("m.py", Some(Module([]))).success
    ensures AnalyzeFileAsWritten("m.py", Some(Module([]))).errorMessage == Some(NoneNotIterable)
    ensures AnalyzeFile("m.py", Some(Module([]))).success
    ensures AnalyzeFile("m.py", Some(Module([]))).globalScopeComplexity == 0.0
  {
    EmptyModuleScope();
  }

  /** An empty module scores 0. */
  lemma EmptyModuleScope()
    ensures ScopeComplexity(Module([])) == 0.0
  {
    var m := Module([]);
    EmptyModuleWalk();
    assert ScopeIncrement(m) == 0;
    assert [m][1..] == [];
    assert Sum([m], ScopeIncrement) == 0;
  }

  lemma EmptyModuleWalk()
    ensures Walk(Module([])) == [Module([])]
  {
    var m := Module([]);
    assert Children(m) == [];
    assert [m][1..] + [] == [];
    assert BfsFrom([]) == [];
  }
}

=== FILE: config.dfy ===
/**
 * `ConfigAnalyzer`: assignments to configuration-like names and default
 * arguments with configuration-like values, the suggestion made for each,
 * and the grouping of the findings by location and by value type.
 */
module Config {
  import opened Wrappers
  import opened Strings
  import opened Syntax
  import opened OrderedMap
  import opened Base
  import PySeq

  /** One finding: `location` is 'module', 'class' or 'function'; `context` names the scope. */
  datatype ConfigItem = ConfigItem(
    name: string,
    value: Literal,
    location: string,
    context: string,
    lineNumber: int,
    suggestion: string)

  datatype ConfigAnalysis = ConfigAnalysis(
    filePath: string,
    success: bool,
    errorMessage: Option<string>,
    configItems: seq<ConfigItem>,
    totalItems: int,
    byLocation: Dict<string, seq<ConfigItem>>,
    byType: Dict<string, seq<ConfigItem>>)

  // ---------------------------------------------------------------- names

  const NamePrefixes: seq<string> := ["CONFIG_", "DEFAULT_", "SETTINGS_", "PARAM_"]
  const NameSuffixes: seq<string> := ["_CONFIG", "_SETTINGS", "_OPTIONS", "_DEFAULTS", "_PARAMS"]
  const NameWords: seq<string> := ["CONFIGURATION", "SETTINGS", "OPTIONS", "PARAMETERS"]

  /** One of the listed patterns, tested against the upper-cased name. */
  predicate ListedPattern(u: string) {
    (exists i :: 0 <= i < |NamePrefixes| && StartsWith(u, NamePrefixes[i])) ||
    (exists i :: 0 <= i < |NameSuffixes| && EndsWith(u, NameSuffixes[i])) ||
    (exists i :: 0 <= i < |NameWords| && Contains(u, NameWords[i]))
  }

  /** CONSTANT_CASE: `name.isupper() and '_' in name`. */
  predicate ConstantCase(name: string) {
    IsUpperText(name) && '_' in name
  }

  /** A loop over `ps` that returns True at the first pattern passing `test`. */
  function AnyPattern(ps: seq<string>, test: string -> bool): (r: bool)
    ensures r <==> exists i :: 0 <= i < |ps| && test(ps[i])
  {
    if ps == [] then false
    else if test(ps[0]) then true
    else
      var r := AnyPattern(ps[1..], test);
      assert forall i :: 1 <= i < |ps| ==> ps[i] == ps[1..][i - 1];
      r
  }

  /** `_is_config_name`: the three pattern loops, then the CONSTANT_CASE test. */
  function IsConfigName(name: string): (r: bool)
    ensures r <==> ListedPattern(Upper(name)) || ConstantCase(name)
  {
    var u := Upper(name);
    if AnyPattern(NamePrefixes, p => StartsWith(u, p)) then true
    else if AnyPattern(NameSuffixes, p => EndsWith(u, p)) then true
    else if AnyPattern(NameWords, w => Contains(u, w)) then true
    else ConstantCase(name)
  }

  /** The listed patterns ignore case: two spellings with one upper-case form agree. */
  lemma ConfigNameIgnoresCase(a: string, b: string)
    requires Upper(a) == Upper(b) && ListedPattern(Upper(a))
    ensures IsConfigName(a) && IsConfigName(b)
  {
  }

  /** A name with a listed word anywhere inside, in any case, is a configuration name. */
  lemma ListedWordInside(front: string, back: string, i: nat)
    requires i < |NameWords|
    ensures IsConfigName(front + NameWords[i] + back)
  {
    var s := front + NameWords[i] + back;
    var u := Upper(s);
    var w := NameWords[i];
    assert Upper(w) == w;
    assert u[|front|..|front| + |w|] == w by {
      forall k | 0 <= k < |w| ensures u[|front| + k] == w[k] {
        assert s[|front| + k] == w[k];
      }
    }
    assert OccursAt(u, w, |front|);
  }

  // ---------------------------------------------------------------- values

  const PathExtensions: seq<string> := ["txt", "json", "yml", "yaml", "cfg", "conf"]
  const MagicNumbers: set<int> := {0, 1, 100, 1000, 60, 24, 365}

  /**
   * The path pattern on newline-free text: a leading `/`, a drive such as
   * `C:\`, or one of the listed extensions at the end.
   */
  predicate IsPathText(s: string) {
    (|s| >= 1 && s[0] == '/') ||
    (|s| >= 3 && IsAsciiLetter(s[0]) && s[1] == ':' && s[2] == '\\') ||
    (exists i :: 0 <= i < |PathExtensions| && EndsWith(s, "." + PathExtensions[i]))
  }

  /** The URL pattern: an `http://`, `https://` or `ftp://` prefix. */
  predicate IsUrlText(s: string) {
    StartsWith(s, "http://") || StartsWith(s, "https://") || StartsWith(s, "ftp://")
  }

  /**
   * `value in magic_numbers`: Python compares numbers by value, so `1.0` and
   * `True` are in the set as well as `1`.
   */
  predicate IsMagic(v: Literal) {
    Numeric(v) && NumValue(v) == NumValue(v).Floor as real && NumValue(v).Floor in MagicNumbers
  }

  /** `_is_config_value`. */
  function IsConfigValue(v: Literal): (r: bool)
    ensures v.Text? ==> (r <==> IsPathText(v.s) || IsUrlText(v.s))
    ensures Numeric(v) ==> (r <==> IsMagic(v))
    ensures v.Sequence? || v.Mapping? ==> r
    ensures v.NoneValue? || v.Complex? ==> !r
  {
    match v
    case Text(s) => IsPathText(s) || IsUrlText(s)
    case Sequence(_) => true
    case Mapping(_) => true
    case NoneValue => false
    case _ => IsMagic(v)
  }

  /** `str(v)` for a magic number: `60`, `60.0`, `True`. */
  function NumberText(v: Literal): string
    requires IsMagic(v)
  {
    match v
    case Integer(i) => IntToString(i)
    case Boolean(b) => if b then "True" else "False"
    case Float(x) => IntToString(x.Floor) + ".0"
  }

  function PathAdvice(name: string): string { "Move path '" + name + "' to configuration file" }
  function UrlAdvice(name: string): string { "Move URL '" + name + "' to configuration file" }
  function CollectionAdvice(name: string): string { "Move collection '" + name + "' to configuration file" }
  function DefaultAdvice(name: string): string { "Consider making '" + name + "' configurable" }

  function MagicAdvice(v: Literal): string
    requires IsMagic(v)
  {
    "Replace magic number '" + NumberText(v) + "' with configured value"
  }

  /**
   * `_generate_suggestion`: path before URL before collection before magic
   * number; every value the detector would not call configuration gets the
   * default advice.
   */
  function GenerateSuggestion(name: string, v: Literal): (r: string)
    ensures r == DefaultAdvice(name) <==> !IsConfigValue(v)
    ensures v.Text? && IsPathText(v.s) ==> r == PathAdvice(name)
    ensures v.Text? && !IsPathText(v.s) && IsUrlText(v.s) ==> r == UrlAdvice(name)
    ensures v.Sequence? || v.Mapping? ==> r == CollectionAdvice(name)
    ensures IsMagic(v) ==> r == MagicAdvice(v)
  {
    var d := DefaultAdvice(name);
    assert d[0] == 'C';
    match v
    case Text(s) =>
      if IsPathText(s) then assert PathAdvice(name)[0] == 'M'; PathAdvice(name)
      else if IsUrlText(s) then assert UrlAdvice(name)[0] == 'M'; UrlAdvice(name)
      else d
    case Sequence(_) => assert CollectionAdvice(name)[0] == 'M'; CollectionAdvice(name)
    case Mapping(_) => assert CollectionAdvice(name)[0] == 'M'; CollectionAdvice(name)
    case NoneValue => d
    case Complex(_) => d
    case _ => if IsMagic(v) then assert MagicAdvice(v)[0] == 'R'; MagicAdvice(v) else d
  }

  /** A URL that also ends in a listed extension is advised on as a path. */
  lemma PathBeatsUrl(name: string)
    ensures GenerateSuggestion(name, Text("http://x/a.json")) == PathAdvice(name)
  {
    var s := "http://x/a.json";
    assert EndsWith(s, "." + PathExtensions[1]) by {
      assert "." + PathExtensions[1] == ".json";
      assert s[|s| - 5..] == ".json";
    }
  }

  // ---------------------------------------------------------------- scopes

  /** `context.split()[0]`: the scope word of a context. */
  function FirstWord(context: string): string {
    Split(context, ' ')[0]
  }

  /** The contexts the walk builds put a space after the scope word. */
  lemma ScopeLocation(word: string, name: string)
    requires ' ' !in word
    ensures FirstWord(word + " " + name) == word
  {
    SplitAfterPiece(word, name, ' ');
    assert word + " " + name == word + [' '] + name;
  }

  lemma ModuleLocation()
    ensures FirstWord("module") == "module"
  {
  }

  function ClassContext(name: string): string { "class " + name }
  function FunctionContext(name: string): string { "function " + name }

  /** The message of the AttributeError a node without `lineno` raises. */
  function NoLineno(kind: string): string {
    "'" + kind + "' object has no attribute 'lineno'"
  }

  /** The findings so far and `total_items`, or the message of the exception that ended the walk. */
  datatype Progress =
    | Running(items: seq<ConfigItem>, total: int)
    | Raised(message: string)

  /** `config_items.append(item)` then `total_items += 1`. */
  function Record(st: Progress, item: ConfigItem): (r: Progress)
    requires st.Running?
    ensures r.Running? && r.items == st.items + [item] && r.total == st.total + 1
  {
    Running(st.items + [item], st.total + 1)
  }

  // ---------------------------------------------------------------- assignments

  /** A target that yields a finding: a plain name that looks like configuration, with a known value. */
  predicate Reports(t: Node, value: Node) {
    t.Name? && IsConfigName(t.id) && !ExtractValue(value).NoneValue?
  }

  function AssignItem(t: Node, value: Node, line: int, context: string): ConfigItem
    requires t.Name?
  {
    var v := ExtractValue(value);
    ConfigItem(t.id, v, FirstWord(context), context, line, GenerateSuggestion(t.id, v))
  }

  /** The loop of `_analyze_assignment` over the targets, from the first. */
  function AssignTargets(targets: seq<Node>, value: Node, span: Span, context: string, st: Progress): Progress
    decreases |targets|
  {
    if targets == [] || st.Raised? then st
    else
      var t := targets[0];
      var next :=
        if !Reports(t, value) then st
        else if span.NoSpan? then Raised(NoLineno("Assign"))
        else Record(st, AssignItem(t, value, span.lineno, context));
      AssignTargets(targets[1..], value, span, context, next)
  }

  /** The finding of one target, if it reports one. */
  function ItemOf(t: Node, value: Node, line: int, context: string): seq<ConfigItem> {
    if Reports(t, value) then [AssignItem(t, value, line, context)] else []
  }

  /** Reference: the findings of the reporting targets, in target order. */
  function AssignmentItems(targets: seq<Node>, value: Node, line: int, context: string): seq<ConfigItem> {
    FlatMap(targets, t => ItemOf(t, value, line, context))
  }

  lemma AssignmentItemsCons(t: Node, rest: seq<Node>, value: Node, line: int, context: string)
    ensures AssignmentItems([t] + rest, value, line, context) ==
      ItemOf(t, value, line, context) + AssignmentItems(rest, value, line, context)
  {
    FlatMapCons(t, rest, t => ItemOf(t, value, line, context));
  }

  /**
   * With a line number on the assignment, the loop appends exactly the
   * findings of the reporting targets, one per target, and counts each.
   */
  lemma {:induction false} AssignTargetsAppend(targets: seq<Node>, value: Node, line: int, end: Option<int>,
                                               context: string, items: seq<ConfigItem>, total: int)
    ensures AssignTargets(targets, value, At(line, end), context, Running(items, total)) ==
      Running(items + AssignmentItems(targets, value, line, context), total + |AssignmentItems(targets, value, line, context)|)
    decreases |targets|
  {
    if targets != [] {
      var t := targets[0];
      var rest := targets[1..];
      var item := ItemOf(t, value, line, context);
      var later := AssignmentItems(rest, value, line, context);
      assert [t] + rest == targets;
      AssignmentItemsCons(t, rest, value, line, context);
      var items2 := items + item;
      var total2 := total + |item|;
      AssignTargetStep(targets, value, line, end, context, items, total);
      assert AssignTargets(targets, value, At(line, end), context, Running(items, total)) ==
        AssignTargets(rest, value, At(line, end), context, Running(items2, total2));
      AssignTargetsAppend(rest, value, line, end, context, items2, total2);
      assert AssignTargets(rest, value, At(line, end), context, Running(items2, total2)) ==
        Running(items2 + later, total2 + |later|);
      AppendRegroup(items, item, later);
    } else {
      AppendNothing(items);
    }
  }

  lemma AppendRegroup(items: seq<ConfigItem>, item: seq<ConfigItem>, later: seq<ConfigItem>)
    ensures (items + item) + later == items + (item + later) && |item + later| == |item| + |later|
  {
  }

  /** The first target appends its finding, if any, and the loop goes on with the rest. */
  lemma AssignTargetStep(targets: seq<Node>, value: Node, line: int, end: Option<int>,
                         context: string, items: seq<ConfigItem>, total: int)
    requires targets != []
    ensures var item := ItemOf(targets[0], value, line, context);
      AssignTargets(targets, value, At(line, end), context, Running(items, total)) ==
        AssignTargets(targets[1..], value, At(line, end), context, Running(items + item, total + |item|))
  {
    if !Reports(targets[0], value) {
      assert items + [] == items;
    }
  }

  /** Only plain names that look like configuration and have a known value are reported. */
  lemma AssignmentItemsMeaning(targets: seq<Node>, value: Node, line: int, context: string, x: ConfigItem)
    ensures x in AssignmentItems(targets, value, line, context) <==>
      exists j :: 0 <= j < |targets| && Reports(targets[j], value) && x == AssignItem(targets[j], value, line, context)
  {
    var f := t => ItemOf(t, value, line, context);
    FlatMapMembers(targets, f, x);
    if x in AssignmentItems(targets, value, line, context) {
      var j :| 0 <= j < |targets| && x in f(targets[j]);
      assert Reports(targets[j], value) && x == AssignItem(targets[j], value, line, context);
    }
    if exists j :: 0 <= j < |targets| && Reports(targets[j], value) && x == AssignItem(targets[j], value, line, context) {
      var j :| 0 <= j < |targets| && Reports(targets[j], value) && x == AssignItem(targets[j], value, line, context);
      assert x in f(targets[j]);
    }
  }

  // ---------------------------------------------------------------- default arguments

  /** `zip(args[-len(defaults):], defaults)`. */
  function DefaultPairs(params: seq<string>, defaults: seq<Node>): (r: seq<(string, Node)>)
    ensures |r| == if |params| <= |defaults| then |params| else |defaults|
    ensures |defaults| <= |params| ==>
      forall k :: 0 <= k < |r| ==> r[k] == (params[|params| - |defaults| + k], defaults[k])
    ensures |params| < |defaults| ==> forall k :: 0 <= k < |r| ==> r[k] == (params[k], defaults[k])
  {
    var tail := PySeq.From(params, -|defaults|);
    PySeq.Zip(tail, defaults)
  }

  /** A default argument that yields a finding: a known value that looks like configuration. */
  predicate DefaultReports(d: Node) {
    var v := ExtractValue(d);
    !v.NoneValue? && IsConfigValue(v)
  }

  function DefaultItem(fname: string, arg: string, d: Node, line: int, context: string): ConfigItem {
    ConfigItem(fname + "_" + arg + "_default", ExtractValue(d), "function", context, line, DefaultAdvice(arg))
  }

  /** The loop of `_analyze_function_defaults` over the pairs, from the first. */
  function DefaultsFrom(fname: string, pairs: seq<(string, Node)>, span: Span, context: string, st: Progress): Progress
    decreases |pairs|
  {
    if pairs == [] || st.Raised? then st
    else
      var (arg, d) := pairs[0];
      var next :=
        if !DefaultReports(d) then st
        else if span.NoSpan? then Raised(NoLineno("FunctionDef"))
        else Record(st, DefaultItem(fname, arg, d, span.lineno, context));
      DefaultsFrom(fname, pairs[1..], span, context, next)
  }

  /** The finding of one default, if it reports one. */
  function DefaultItemOf(fname: string, p: (string, Node), line: int, context: string): seq<ConfigItem> {
    if DefaultReports(p.1) then [DefaultItem(fname, p.0, p.1, line, context)] else []
  }

  /** Reference: the findings of the reporting defaults, in parameter order. */
  function DefaultFindings(fname: string, pairs: seq<(string, Node)>, line: int, context: string): seq<ConfigItem> {
    FlatMap(pairs, p => DefaultItemOf(fname, p, line, context))
  }

  lemma DefaultFindingsCons(fname: string, p: (string, Node), rest: seq<(string, Node)>, line: int, context: string)
    ensures DefaultFindings(fname, [p] + rest, line, context) ==
      DefaultItemOf(fname, p, line, context) + DefaultFindings(fname, rest, line, context)
  {
    FlatMapCons(p, rest, p => DefaultItemOf(fname, p, line, context));
  }

  /** A default is reported exactly when its value is known and looks like configuration. */
  lemma DefaultFindingsMeaning(fname: string, pairs: seq<(string, Node)>, line: int, context: string, x: ConfigItem)
    ensures x in DefaultFindings(fname, pairs, line, context) <==>
      exists j :: 0 <= j < |pairs| && DefaultReports(pairs[j].1) && x == DefaultItem(fname, pairs[j].0, pairs[j].1, line, context)
  {
    var f := p => DefaultItemOf(fname, p, line, context);
    FlatMapMembers(pairs, f, x);
    if x in DefaultFindings(fname, pairs, line, context) {
      var j :| 0 <= j < |pairs| && x in f(pairs[j]);
      assert DefaultReports(pairs[j].1) && x == DefaultItem(fname, pairs[j].0, pairs[j].1, line, context);
    }
    if exists j :: 0 <= j < |pairs| && DefaultReports(pairs[j].1) && x == DefaultItem(fname, pairs[j].0, pairs[j].1, line, context) {
      var j :| 0 <= j < |pairs| && DefaultReports(pairs[j].1) && x == DefaultItem(fname, pairs[j].0, pairs[j].1, line, context);
      assert x in f(pairs[j]);
    }
  }

  /** With a line number on the function, the loop appends exactly the findings of the reporting defaults. */
  lemma {:induction false} DefaultsAppend(fname: string, pairs: seq<(string, Node)>, line: int, end: Option<int>,
                                          context: string, items: seq<ConfigItem>, total: int)
    ensures var found := DefaultFindings(fname, pairs, line, context);
      DefaultsFrom(fname, pairs, At(line, end), context, Running(items, total)) ==
        Running(items + found, total + |found|)
    decreases |pairs|
  {
    if pairs != [] {
      var p := pairs[0];
      DefaultFindingsCons(fname, p, pairs[1..], line, context);
      assert pairs == [p] + pairs[1..];
      if DefaultReports(p.1) {
        var item := DefaultItem(fname, p.0, p.1, line, context);
        DefaultsAppend(fname, pairs[1..], line, end, context, items + [item], total + 1);
        assert items + [item] + DefaultFindings(fname, pairs[1..], line, context) ==
          items + ([item] + DefaultFindings(fname, pairs[1..], line, context));
      } else {
        DefaultsAppend(fname, pairs[1..], line, end, context, items, total);
      }
    }
  }

  // ---------------------------------------------------------------- the walk

  lemma ClassBodySmaller(c: Node)
    requires c.ClassDef?
    ensures forall x :: x in c.body ==> Size(x) < Size(c)
  {
    forall x | x in c.body ensures Size(x) < Size(c) {
      var i :| 0 <= i < |c.body| && c.body[i] == x;
      var k := |c.bases| + |c.keywords| + i;
      assert Children(c)[k] == x;
      ChildSmaller(c, k);
    }
  }

  /** `_analyze_node(node, analysis, context)`: every node of `ast.walk(node)` in turn. */
  function AnalyzeNode(n: Node, context: string, st: Progress): Progress
    decreases Size(n), 3
  {
    WalkSizes(n);
    Scan(Walk(n), context, st, Size(n))
  }

  function Scan(ms: seq<Node>, context: string, st: Progress, bound: nat): Progress
    requires forall m :: m in ms ==> Size(m) <= bound
    decreases bound, 2, |ms|
  {
    if ms == [] then st
    else Scan(ms[1..], context, Visit(ms[0], context, st, bound), bound)
  }

  /** One node of the walk: an assignment, a class (its body, recursively) or a function (its defaults). */
  function Visit(m: Node, context: string, st: Progress, bound: nat): Progress
    requires Size(m) <= bound
    decreases bound, 1
  {
    match m
    case Assign(targets, value, span) => AssignTargets(targets, value, span, context, st)
    case ClassDef(name, _, _, body, _, _) =>
      ClassBodySmaller(m);
      ClassBody(body, ClassContext(name), st, bound)
    case FunctionDef(name, params, defaults, _, _, _, span) =>
      DefaultsFrom(name, DefaultPairs(params, defaults), span, FunctionContext(name), st)
    case _ => st
  }

  /** `for item in node.body: self._analyze_node(item, analysis, class_context)`. */
  function ClassBody(items: seq<Node>, context: string, st: Progress, bound: nat): Progress
    requires forall x :: x in items ==> Size(x) < bound
    decreases bound, 0, |items|
  {
    if items == [] then st
    else ClassBody(items[1..], context, AnalyzeNode(items[0], context, st), bound)
  }

  // ---------------------------------------------------------------- what the walk keeps

  /** A finding as the walk makes it. */
  predicate ItemOk(it: ConfigItem) {
    !it.value.NoneValue? &&
    it.location == FirstWord(it.context) &&
    ((IsConfigName(it.name) && it.suggestion == GenerateSuggestion(it.name, it.value)) ||
     (IsConfigValue(it.value) && it.location == "function"))
  }

  /** `total_items == len(config_items)`, and every finding is well made. */
  predicate Consistent(st: Progress) {
    st.Running? ==> st.total == |st.items| && forall i :: 0 <= i < |st.items| ==> ItemOk(st.items[i])
  }

  /** Findings are only ever appended, and an exception ends the walk. */
  predicate Extends(before: Progress, after: Progress) {
    (before.Raised? ==> after == before) &&
    (before.Running? && after.Running? ==> before.items <= after.items)
  }

  /**
   * Recording keeps the earlier findings and puts the item last; from a
   * consistent state it stays consistent exactly when the item is well made.
   */
  lemma RecordConsistent(st: Progress, item: ConfigItem)
    requires st.Running?
    ensures Extends(st, Record(st, item)) && Record(st, item).items[|st.items|] == item
    ensures Consistent(st) ==> (Consistent(Record(st, item)) <==> ItemOk(item))
  {
    var r := Record(st, item);
    assert forall i :: 0 <= i < |st.items| ==> r.items[i] == st.items[i];
  }

  lemma ExtendsTrans(a: Progress, b: Progress, c: Progress)
    requires Extends(a, b) && Extends(b, c)
    ensures Extends(a, c)
  {
    if a.Running? && c.Running? && b.Running? {
      assert a.items <= b.items <= c.items;
    }
  }

  lemma {:induction false} AssignTargetsKeeps(targets: seq<Node>, value: Node, span: Span, context: string, st: Progress)
    requires Consistent(st)
    ensures var r := AssignTargets(targets, value, span, context, st); Consistent(r) && Extends(st, r)
    decreases |targets|
  {
    if targets != [] && st.Running? {
      var t := targets[0];
      var next :=
        if !Reports(t, value) then st
        else if span.NoSpan? then Raised(NoLineno("Assign"))
        else Record(st, AssignItem(t, value, span.lineno, context));
      AssignTargetsKeeps(targets[1..], value, span, context, next);
      ExtendsTrans(st, next, AssignTargets(targets[1..], value, span, context, next));
    }
  }

  lemma {:induction false} DefaultsKeep(fname: string, pairs: seq<(string, Node)>, span: Span, st: Progress)
    requires Consistent(st)
    ensures var r := DefaultsFrom(fname, pairs, span, FunctionContext(fname), st); Consistent(r) && Extends(st, r)
    decreases |pairs|
  {
    var context := FunctionContext(fname);
    if pairs != [] && st.Running? {
      var (arg, d) := pairs[0];
      var next :=
        if !DefaultReports(d) then st
        else if span.NoSpan? then Raised(NoLineno("FunctionDef"))
        else Record(st, DefaultItem(fname, arg, d, span.lineno, context));
      if DefaultReports(d) && span.At? {
        ScopeLocation("function", fname);
        assert "function" + " " + fname == context;
      }
      DefaultsKeep(fname, pairs[1..], span, next);
      ExtendsTrans(st, next, DefaultsFrom(fname, pairs[1..], span, context, next));
    }
  }

  lemma {:induction false} AnalyzeNodeKeeps(n: Node, context: string, st: Progress)
    requires Consistent(st)
    ensures var r := AnalyzeNode(n, context, st); Consistent(r) && Extends(st, r)
    decreases Size(n), 3
  {
    WalkSizes(n);
    ScanKeeps(Walk(n), context, st, Size(n));
  }

  lemma {:induction false} ScanKeeps(ms: seq<Node>, context: string, st: Progress, bound: nat)
    requires forall m :: m in ms ==> Size(m) <= bound
    requires Consistent(st)
    ensures var r := Scan(ms, context, st, bound); Consistent(r) && Extends(st, r)
    decreases bound, 2, |ms|
  {
    if ms != [] {
      var next := Visit(ms[0], context, st, bound);
      VisitKeeps(ms[0], context, st, bound);
      ScanKeeps(ms[1..], context, next, bound);
      ExtendsTrans(st, next, Scan(ms[1..], context, next, bound));
    }
  }

  lemma {:induction false} VisitKeeps(m: Node, context: string, st: Progress, bound: nat)
    requires Size(m) <= bound
    requires Consistent(st)
    ensures var r := Visit(m, context, st, bound); Consistent(r) && Extends(st, r)
    decreases bound, 1
  {
    match m
    case Assign(targets, value, span) => AssignTargetsKeeps(targets, value, span, context, st);
    case ClassDef(name, _, _, body, _, _) =>
      ClassBodySmaller(m);
      ClassBodyKeeps(body, ClassContext(name), st, bound);
    case FunctionDef(name, params, defaults, _, _, _, span) =>
      DefaultsKeep(name, DefaultPairs(params, defaults), span, st);
    case _ =>
  }

  lemma {:induction false} ClassBodyKeeps(items: seq<Node>, context: string, st: Progress, bound: nat)
    requires forall x :: x in items ==> Size(x) < bound
    requires Consistent(st)
    ensures var r := ClassBody(items, context, st, bound); Consistent(r) && Extends(st, r)
    decreases bound, 0, |items|
  {
    if items != [] {
      var next := AnalyzeNode(items[0], context, st);
      AnalyzeNodeKeeps(items[0], context, st);
      ClassBodyKeeps(items[1..], context, next, bound);
      ExtendsTrans(st, next, ClassBody(items[1..], context, next, bound));
    }
  }

  // ---------------------------------------------------------------- what the walk finds

  /** Whatever state it starts from, a visit of `m` that raises nothing has recorded `x`. */
  ghost predicate VisitRecords(m: Node, context: string, x: ConfigItem) {
    forall st: Progress, bound: nat ::
      Consistent(st) && Size(m) <= bound && Visit(m, context, st, bound).Running? ==>
        x in Visit(m, context, st, bound).items
  }

  /** Whatever state it starts from, `_analyze_node(n)` that raises nothing has recorded `x`. */
  ghost predicate NodeRecords(n: Node, context: string, x: ConfigItem) {
    forall st: Progress :: Consistent(st) && AnalyzeNode(n, context, st).Running? ==> x in AnalyzeNode(n, context, st).items
  }

  /** A finding one visit of the scan records is still there when the scan ends without an exception. */
  lemma {:induction false} ScanRecords(ms: seq<Node>, context: string, st: Progress, bound: nat, i: nat, x: ConfigItem)
    requires forall m :: m in ms ==> Size(m) <= bound
    requires Consistent(st) && i < |ms| && VisitRecords(ms[i], context, x)
    ensures Scan(ms, context, st, bound).Running? ==> x in Scan(ms, context, st, bound).items
    decreases |ms|
  {
    var next := Visit(ms[0], context, st, bound);
    VisitKeeps(ms[0], context, st, bound);
    ScanKeeps(ms[1..], context, next, bound);
    var r := Scan(ms[1..], context, next, bound);
    assert Scan(ms, context, st, bound) == r;
    if i == 0 {
      if r.Running? {
        assert next.Running?;
        assert x in next.items;
        assert next.items <= r.items;
      }
    } else {
      assert ms[1..][i - 1] == ms[i];
      ScanRecords(ms[1..], context, next, bound, i - 1, x);
    }
  }

  /** A finding the analysis of one class-body statement records survives the rest of the body. */
  lemma {:induction false} ClassBodyRecords(items: seq<Node>, context: string, st: Progress, bound: nat, k: nat, x: ConfigItem)
    requires forall y :: y in items ==> Size(y) < bound
    requires Consistent(st) && k < |items| && NodeRecords(items[k], context, x)
    ensures ClassBody(items, context, st, bound).Running? ==> x in ClassBody(items, context, st, bound).items
    decreases |items|
  {
    var next := AnalyzeNode(items[0], context, st);
    AnalyzeNodeKeeps(items[0], context, st);
    ClassBodyKeeps(items[1..], context, next, bound);
    var r := ClassBody(items[1..], context, next, bound);
    assert ClassBody(items, context, st, bound) == r;
    if k == 0 {
      if r.Running? {
        assert next.Running?;
        assert x in next.items;
        assert next.items <= r.items;
      }
    } else {
      assert items[1..][k - 1] == items[k];
      ClassBodyRecords(items[1..], context, next, bound, k - 1, x);
    }
  }

  /** Visiting an assignment with a line number records the finding of each reporting target. */
  lemma AssignRecords(a: Node, context: string, j: nat)
    requires a.Assign? && a.span.At? && j < |a.targets| && Reports(a.targets[j], a.value)
    ensures VisitRecords(a, context, AssignItem(a.targets[j], a.value, a.span.lineno, context))
  {
    var x := AssignItem(a.targets[j], a.value, a.span.lineno, context);
    assert a.span == At(a.span.lineno, a.span.endLineno);
    AssignmentItemsMeaning(a.targets, a.value, a.span.lineno, context, x);
    forall st: Progress, bound: nat | Consistent(st) && Size(a) <= bound && Visit(a, context, st, bound).Running?
      ensures x in Visit(a, context, st, bound).items
    {
      if st.Running? {
        AssignTargetsAppend(a.targets, a.value, a.span.lineno, a.span.endLineno, context, st.items, st.total);
      }
    }
  }

  /** The walk from `root` meets every node below it, so each visit's finding reaches the result. */
  lemma WalkRecords(root: Node, context: string, st: Progress, m: Node, x: ConfigItem)
    requires m in Walk(root) && Consistent(st) && VisitRecords(m, context, x)
    ensures AnalyzeNode(root, context, st).Running? ==> x in AnalyzeNode(root, context, st).items
  {
    WalkSizes(root);
    var i :| 0 <= i < |Walk(root)| && Walk(root)[i] == m;
    ScanRecords(Walk(root), context, st, Size(root), i, x);
  }

  /** A class visit runs `_analyze_node` on each body statement, so an assignment there is recorded in the class context. */
  lemma ClassRecords(c: Node, context: string, k: nat, j: nat)
    requires c.ClassDef? && k < |c.body|
    requires c.body[k].Assign? && c.body[k].span.At? && j < |c.body[k].targets|
    requires Reports(c.body[k].targets[j], c.body[k].value)
    ensures VisitRecords(c, context,
      AssignItem(c.body[k].targets[j], c.body[k].value, c.body[k].span.lineno, ClassContext(c.name)))
  {
    var a := c.body[k];
    var inner := ClassContext(c.name);
    var x := AssignItem(a.targets[j], a.value, a.span.lineno, inner);
    AssignRecords(a, inner, j);
    forall st: Progress | Consistent(st) && AnalyzeNode(a, inner, st).Running?
      ensures x in AnalyzeNode(a, inner, st).items
    {
      WalkRecords(a, inner, st, a, x);
    }
    assert NodeRecords(a, inner, x);
    ClassBodySmaller(c);
    forall st: Progress, bound: nat | Consistent(st) && Size(c) <= bound && Visit(c, context, st, bound).Running?
      ensures x in Visit(c, context, st, bound).items
    {
      ClassBodyRecords(c.body, inner, st, bound, k, x);
    }
  }

  /** The finding a configuration-like assignment target gives in a scope. */
  function Finding(a: Node, j: nat, location: string, context: string): ConfigItem
    requires a.Assign? && a.span.At? && j < |a.targets| && a.targets[j].Name?
  {
    var name := a.targets[j].id;
    var v := ExtractValue(a.value);
    ConfigItem(name, v, location, context, a.span.lineno, GenerateSuggestion(name, v))
  }

  // ---------------------------------------------------------------- grouping and the file

  /** `type(value).__name__`. */
  function TypeName(v: Literal): string {
    match v
    case Integer(_) => "int"
    case Float(_) => "float"
    case Text(_) => "str"
    case Boolean(_) => "bool"
    case NoneValue => "NoneType"
    case Complex(_) => "complex"
    case Sequence(_) => "list"
    case Mapping(_) => "dict"
  }

  function LocationOf(it: ConfigItem): string { it.location }
  function TypeOf(it: ConfigItem): string { TypeName(it.value) }

  function Failure(path: string, message: string): ConfigAnalysis {
    ConfigAnalysis(path, false, Some(message), [], 0, [], [])
  }

  /** `analyze_file` on the parsed tree, None when parsing failed. */
  function AnalyzeFile(path: string, tree: Option<Node>): (r: ConfigAnalysis)
    ensures r.filePath == path
    ensures r.success <==> tree.Some? && AnalyzeNode(tree.value, "module", Running([], 0)).Running?
    ensures tree.None? ==> r.errorMessage == Some("Failed to parse file")
    ensures !r.success ==> r.errorMessage.Some? && r.configItems == [] && r.totalItems == 0 &&
                           r.byLocation == [] && r.byType == []
    ensures r.success ==> r.errorMessage.None? && r.totalItems == |r.configItems|
    ensures r.success ==> forall i :: 0 <= i < |r.configItems| ==> ItemOk(r.configItems[i])
    ensures r.success ==> Keys(r.byLocation) == Dedup(MapSeq(r.configItems, LocationOf)) &&
                          GroupSizes(r.byLocation) == |r.configItems|
    ensures r.success ==> Keys(r.byType) == Dedup(MapSeq(r.configItems, TypeOf)) &&
                          GroupSizes(r.byType) == |r.configItems|
    ensures r.success ==> r.configItems == AnalyzeNode(tree.value, "module", Running([], 0)).items
    ensures r.success ==> r.byLocation == GroupBy(r.configItems, LocationOf) && r.byType == GroupBy(r.configItems, TypeOf)
  {
    if tree.None? then Failure(path, "Failed to parse file")
    else
      var st := AnalyzeNode(tree.value, "module", Running([], 0));
      AnalyzeNodeKeeps(tree.value, "module", Running([], 0));
      match st
      case Raised(message) => Failure(path, message)
      case Running(items, total) =>
        ConfigAnalysis(path, true, None, items, total, GroupBy(items, LocationOf), GroupBy(items, TypeOf))
  }

  /** Each finding sits in exactly one location group and one type group, its own. */
  lemma GroupedOnce(path: string, tree: Option<Node>, x: ConfigItem, k: string)
    requires AnalyzeFile(path, tree).success
    requires x in AnalyzeFile(path, tree).configItems
    ensures var r := AnalyzeFile(path, tree);
      Lookup(r.byLocation, x.location).Some? && x in Lookup(r.byLocation, x.location).value &&
      Lookup(r.byType, TypeName(x.value)).Some? && x in Lookup(r.byType, TypeName(x.value)).value &&
      (Lookup(r.byLocation, k).Some? && x in Lookup(r.byLocation, k).value ==> k == x.location) &&
      (Lookup(r.byType, k).Some? && x in Lookup(r.byType, k).value ==> k == TypeName(x.value))
  {
    var r := AnalyzeFile(path, tree);
    var items := r.configItems;
    var i :| 0 <= i < |items| && items[i] == x;
    assert MapSeq(items, LocationOf)[i] == x.location;
    assert MapSeq(items, TypeOf)[i] == TypeName(x.value);
    WithKeyMembers(items, LocationOf, x.location);
    WithKeyMembers(items, TypeOf, TypeName(x.value));
    WithKeyMembers(items, LocationOf, k);
    WithKeyMembers(items, TypeOf, k);
  }

  /** The finding an assignment gives in the context of the module. */
  lemma ModuleFinding(a: Node, j: nat)
    requires a.Assign? && a.span.At? && j < |a.targets| && a.targets[j].Name?
    ensures AssignItem(a.targets[j], a.value, a.span.lineno, "module") == Finding(a, j, "module", "module")
  {
    ModuleLocation();
  }

  /**
   * Completeness: every assignment `ast.walk` meets in the file, at any depth,
   * reports each target that is a configuration-like name with a known value,
   * in the context "module".
   */
  lemma AssignmentReported(path: string, root: Node, a: Node, j: nat)
    requires a in Walk(root) && a.Assign? && a.span.At? && j < |a.targets|
    requires Reports(a.targets[j], a.value)
    ensures var r := AnalyzeFile(path, Some(root));
      r.success ==> Finding(a, j, "module", "module") in r.configItems
  {
    var x := AssignItem(a.targets[j], a.value, a.span.lineno, "module");
    AssignRecords(a, "module", j);
    WalkRecords(root, "module", Running([], 0), a, x);
    ModuleFinding(a, j);
  }

  /** In particular, a top-level assignment of the module is reported. */
  lemma ModuleAssignmentReported(path: string, body: seq<Node>, k: nat, j: nat)
    requires k < |body| && body[k].Assign? && body[k].span.At? && j < |body[k].targets|
    requires Reports(body[k].targets[j], body[k].value)
    ensures var r := AnalyzeFile(path, Some(Module(body)));
      r.success ==> Finding(body[k], j, "module", "module") in r.configItems
  {
    ChildInWalk(Module(body), Module(body), k);
    AssignmentReported(path, Module(body), body[k], j);
  }

  /** The statements of a class body the walk meets are met by the walk too. */
  lemma ClassBodyInWalk(root: Node, c: Node, k: nat)
    requires c in Walk(root) && c.ClassDef? && k < |c.body|
    ensures c.body[k] in Walk(root)
  {
    var idx := |c.bases| + |c.keywords| + k;
    assert Children(c)[idx] == c.body[k];
    ChildInWalk(root, c, idx);
  }

  /** The finding an assignment gives in the context of class `name`. */
  lemma ClassFinding(a: Node, j: nat, name: string)
    requires a.Assign? && a.span.At? && j < |a.targets| && a.targets[j].Name?
    ensures AssignItem(a.targets[j], a.value, a.span.lineno, ClassContext(name)) == Finding(a, j, "class", "class " + name)
  {
    ScopeLocation("class", name);
    assert "class" + " " + name == ClassContext(name);
  }

  /** A configuration-like assignment in the body of a class the walk meets is reported in the class context. */
  lemma ClassAssignmentReported(path: string, root: Node, c: Node, k: nat, j: nat)
    requires c in Walk(root) && c.ClassDef? && k < |c.body|
    requires c.body[k].Assign? && c.body[k].span.At? && j < |c.body[k].targets|
    requires Reports(c.body[k].targets[j], c.body[k].value)
    ensures var r := AnalyzeFile(path, Some(root));
      r.success ==> Finding(c.body[k], j, "class", "class " + c.name) in r.configItems
  {
    var a := c.body[k];
    var x := AssignItem(a.targets[j], a.value, a.span.lineno, ClassContext(c.name));
    ClassRecords(c, "module", k, j);
    WalkRecords(root, "module", Running([], 0), c, x);
    ClassFinding(a, j, c.name);
  }

  /**
   * An assignment in a class body is reported twice: once by the walk of the
   * module, in the context "module", and once by the visit of the class body,
   * in the context "class <name>".
   */
  lemma ClassAssignReportedTwice(path: string, root: Node, c: Node, k: nat, j: nat)
    requires c in Walk(root) && c.ClassDef? && k < |c.body|
    requires c.body[k].Assign? && c.body[k].span.At? && j < |c.body[k].targets|
    requires Reports(c.body[k].targets[j], c.body[k].value)
    ensures var r := AnalyzeFile(path, Some(root));
      r.success ==>
        Finding(c.body[k], j, "module", "module") in r.configItems &&
        Finding(c.body[k], j, "class", "class " + c.name) in r.configItems
  {
    ClassBodyInWalk(root, c, k);
    AssignmentReported(path, root, c.body[k], j);
    ClassAssignmentReported(path, root, c, k, j);
  }
}

=== FILE: dirmap.dfy ===
/**
 * `directory_mapper.py`: the directory and file names it leaves out, the
 * `(depth, name, is_dir)` elements a top-down `os.walk` yields once the
 * excluded directories are pruned and each listing is sorted, and the text
 * tree `create_directory_map` draws from them, one line per element.
 */
module DirectoryMap {
  import opened Wrappers
  import opened Strings
  import opened OrderedMap
  import Sorting

  // ---------------------------------------------------------------- what is left out

  const ExcludedDirs: seq<string> := ["__pycache__", ".git", ".idea", ".vscode", "logs"]
  const ExcludedExtensions: seq<string> := [".pyc", ".pyo", ".pyd", ".log"]

  /** `should_exclude_dir`: the name is one of the excluded directory names. */
  predicate ShouldExcludeDir(name: string) {
    name in ExcludedDirs
  }

  /** The file name ends in one of the excluded extensions. */
  predicate ExcludedFile(name: string) {
    exists k :: 0 <= k < |ExcludedExtensions| && EndsWith(name, ExcludedExtensions[k])
  }

  predicate KeptDir(name: string) { !ShouldExcludeDir(name) }
  predicate KeptFile(name: string) { !ExcludedFile(name) }

  // ---------------------------------------------------------------- get_tree_elements

  /** A directory as `os.walk` lists it: the names of its files, and its subdirectories by name. */
  datatype Dir = Dir(files: seq<string>, subdirs: Dict<string, Dir>)

  /** One `(depth, name, is_dir)` tuple. */
  datatype Element = Element(depth: nat, name: string, isDir: bool)

  /** The files listed under a directory: those without an excluded extension, sorted. */
  function ListedFiles(d: Dir): seq<string> {
    Sorting.Sort(Filter(d.files, KeptFile))
  }

  /** The subdirectories walked into: those not excluded, sorted, as `dirs[:]` is reassigned. */
  function ListedDirs(d: Dir): seq<string> {
    Sorting.Sort(Filter(Keys(d.subdirs), KeptDir))
  }

  function FileElements(names: seq<string>, depth: nat): (r: seq<Element>)
    ensures |r| == |names|
    ensures forall i :: 0 <= i < |r| ==> r[i] == Element(depth, names[i], false)
  {
    seq(|names|, i requires 0 <= i < |names| => Element(depth, names[i], false))
  }

  /** The elements of a directory walked at `depth`: its files, then each subdirectory followed by its own elements. */
  function TreeElements(d: Dir, depth: nat): seq<Element>
    decreases d, 1
  {
    FileElements(ListedFiles(d), depth) + SubdirElements(d, ListedDirs(d), depth)
  }

  /** The blocks of the named subdirectories, in the order given. */
  function SubdirElements(d: Dir, names: seq<string>, depth: nat): seq<Element>
    decreases d, 0, |names|
  {
    if names == [] then []
    else
      var sub := Lookup(d.subdirs, names[0]);
      (if sub.Some? then [Element(depth, names[0], true)] + TreeElements(sub.value, depth + 1) else [])
        + SubdirElements(d, names[1..], depth)
  }

  /** `get_tree_elements`: the walk from the start directory, which itself yields no element. */
  function GetTreeElements(d: Dir): seq<Element> {
    TreeElements(d, 0)
  }

  // ---------------------------------------------------------------- what the walk yields

  /** The listed files are the kept files, sorted; the listed subdirectories are the kept ones, sorted. */
  lemma ListedMeaning(d: Dir)
    ensures Sorting.Sorted(ListedFiles(d)) && multiset(ListedFiles(d)) == multiset(Filter(d.files, KeptFile))
    ensures forall x :: x in ListedFiles(d) <==> x in d.files && KeptFile(x)
    ensures Sorting.Sorted(ListedDirs(d)) && multiset(ListedDirs(d)) == multiset(Filter(Keys(d.subdirs), KeptDir))
    ensures forall x :: x in ListedDirs(d) <==> x in Keys(d.subdirs) && KeptDir(x)
  {
    forall x ensures x in ListedFiles(d) <==> x in Filter(d.files, KeptFile) {
      assert x in ListedFiles(d) <==> x in multiset(ListedFiles(d));
      assert x in Filter(d.files, KeptFile) <==> x in multiset(Filter(d.files, KeptFile));
    }
    forall x ensures x in ListedDirs(d) <==> x in Filter(Keys(d.subdirs), KeptDir) {
      assert x in ListedDirs(d) <==> x in multiset(ListedDirs(d));
      assert x in Filter(Keys(d.subdirs), KeptDir) <==> x in multiset(Filter(Keys(d.subdirs), KeptDir));
    }
  }

  /** Every element lies at `depth` or deeper, and none is an excluded directory or an excluded file. */
  predicate AllKept(es: seq<Element>, depth: nat) {
    forall i :: 0 <= i < |es| ==>
      es[i].depth >= depth && (if es[i].isDir then KeptDir(es[i].name) else KeptFile(es[i].name))
  }

  /**
   * A listing in preorder from `depth`: it starts at `depth`, and each element
   * is at most one level deeper than the one before it, and deeper only right
   * after a directory.
   */
  predicate Preorder(es: seq<Element>, depth: nat) {
    && (es != [] ==> es[0].depth == depth)
    && forall i :: 0 < i < |es| ==>
         es[i].depth <= es[i - 1].depth + 1 && (es[i].depth > es[i - 1].depth ==> es[i - 1].isDir)
  }

  /** Two listings from the same depth make one. */
  lemma Concatenated(a: seq<Element>, b: seq<Element>, depth: nat)
    requires AllKept(a, depth) && Preorder(a, depth) && AllKept(b, depth) && Preorder(b, depth)
    ensures AllKept(a + b, depth) && Preorder(a + b, depth)
  {
    var c := a + b;
    forall i | 0 <= i < |c| ensures c[i] == if i < |a| then a[i] else b[i - |a|] {
    }
    ConcatenatedSteps(a, b, depth);
  }

  lemma ConcatenatedSteps(a: seq<Element>, b: seq<Element>, depth: nat)
    requires forall i :: 0 <= i < |a| ==> a[i].depth >= depth
    requires Preorder(a, depth) && Preorder(b, depth)
    ensures forall i :: 0 < i < |a + b| ==>
      (a + b)[i].depth <= (a + b)[i - 1].depth + 1 && ((a + b)[i].depth > (a + b)[i - 1].depth ==> (a + b)[i - 1].isDir)
  {
    forall i | 0 < i < |a + b|
      ensures (a + b)[i].depth <= (a + b)[i - 1].depth + 1 && ((a + b)[i].depth > (a + b)[i - 1].depth ==> (a + b)[i - 1].isDir)
    {
      ConcatenatedStep(a, b, depth, i);
    }
  }

  lemma ConcatenatedStep(a: seq<Element>, b: seq<Element>, depth: nat, i: nat)
    requires forall i :: 0 <= i < |a| ==> a[i].depth >= depth
    requires Preorder(a, depth) && Preorder(b, depth)
    requires 0 < i < |a + b|
    ensures (a + b)[i].depth <= (a + b)[i - 1].depth + 1 && ((a + b)[i].depth > (a + b)[i - 1].depth ==> (a + b)[i - 1].isDir)
  {
    var c := a + b;
    if i < |a| {
      assert c[i] == a[i] && c[i - 1] == a[i - 1];
    } else if i == |a| {
      assert c[i] == b[0] && c[i - 1] == a[i - 1];
    } else {
      assert c[i] == b[i - |a|] && c[i - 1] == b[i - 1 - |a|];
    }
  }

  /** A directory followed by the listing of its contents one level down. */
  lemma Nested(name: string, inner: seq<Element>, depth: nat)
    requires KeptDir(name) && AllKept(inner, depth + 1) && Preorder(inner, depth + 1)
    ensures AllKept([Element(depth, name, true)] + inner, depth) && Preorder([Element(depth, name, true)] + inner, depth)
  {
    var c := [Element(depth, name, true)] + inner;
    forall i | 0 < i < |c| ensures c[i].depth <= c[i - 1].depth + 1 && (c[i].depth > c[i - 1].depth ==> c[i - 1].isDir) {
      assert c[i] == inner[i - 1];
      if i > 1 {
        assert c[i - 1] == inner[i - 2];
      }
    }
  }

  /**
   * The walk of a directory at `depth` is a preorder listing from `depth` that
   * holds no excluded directory and no excluded file.
   */
  lemma {:induction false} TreeShape(d: Dir, depth: nat)
    ensures AllKept(TreeElements(d, depth), depth) && Preorder(TreeElements(d, depth), depth)
    decreases d, 1
  {
    ListedMeaning(d);
    var files := FileElements(ListedFiles(d), depth);
    assert forall i :: 0 <= i < |files| ==> files[i].name in ListedFiles(d);
    SubdirShape(d, ListedDirs(d), depth);
    Concatenated(files, SubdirElements(d, ListedDirs(d), depth), depth);
  }

  lemma {:induction false} SubdirShape(d: Dir, names: seq<string>, depth: nat)
    requires forall k :: 0 <= k < |names| ==> KeptDir(names[k])
    ensures AllKept(SubdirElements(d, names, depth), depth) && Preorder(SubdirElements(d, names, depth), depth)
    decreases d, 0, |names|
  {
    if names != [] {
      var sub := Lookup(d.subdirs, names[0]);
      var rest := SubdirElements(d, names[1..], depth);
      SubdirShape(d, names[1..], depth);
      if sub.Some? {
        var block := [Element(depth, names[0], true)] + TreeElements(sub.value, depth + 1);
        assert SubdirElements(d, names, depth) == block + rest;
        TreeShape(sub.value, depth + 1);
        Nested(names[0], TreeElements(sub.value, depth + 1), depth);
        Concatenated(block, rest, depth);
      } else {
        assert SubdirElements(d, names, depth) == [] + rest;
        assert [] + rest == rest;
      }
    }
  }

  /** The elements of a listing that lie exactly at `depth`, in order. */
  function AtDepth(es: seq<Element>, depth: nat): (r: seq<Element>)
    ensures forall i :: 0 <= i < |r| ==> r[i].depth == depth
  {
    if es == [] then [] else (if es[0].depth == depth then [es[0]] else []) + AtDepth(es[1..], depth)
  }

  lemma {:induction false} AtDepthAppend(a: seq<Element>, b: seq<Element>, depth: nat)
    ensures AtDepth(a + b, depth) == AtDepth(a, depth) + AtDepth(b, depth)
  {
    if a != [] {
      assert (a + b)[1..] == a[1..] + b && (a + b)[0] == a[0];
      AtDepthAppend(a[1..], b, depth);
      var h := if a[0].depth == depth then [a[0]] else [];
      assert AtDepth(a + b, depth) == h + AtDepth((a + b)[1..], depth);
      assert AtDepth(a, depth) == h + AtDepth(a[1..], depth);
      assert (h + AtDepth(a[1..], depth)) + AtDepth(b, depth) == h + (AtDepth(a[1..], depth) + AtDepth(b, depth));
    } else {
      assert a + b == b;
      assert AtDepth(a, depth) + AtDepth(b, depth) == AtDepth(b, depth);
    }
  }

  lemma {:induction false} AtDepthNone(es: seq<Element>, depth: nat)
    requires AllKept(es, depth + 1)
    ensures AtDepth(es, depth) == []
  {
    if es != [] {
      AtDepthNone(es[1..], depth);
    }
  }

  lemma {:induction false} AtDepthAll(es: seq<Element>, depth: nat)
    requires forall i :: 0 <= i < |es| ==> es[i].depth == depth
    ensures AtDepth(es, depth) == es
  {
    if es != [] {
      AtDepthAll(es[1..], depth);
    }
  }

  function DirElements(names: seq<string>, depth: nat): (r: seq<Element>)
    ensures |r| == |names|
    ensures forall i :: 0 <= i < |r| ==> r[i] == Element(depth, names[i], true)
  {
    seq(|names|, i requires 0 <= i < |names| => Element(depth, names[i], true))
  }

  lemma {:induction false} SubdirsAtDepth(d: Dir, names: seq<string>, depth: nat)
    requires forall k :: 0 <= k < |names| ==> names[k] in Keys(d.subdirs)
    ensures AtDepth(SubdirElements(d, names, depth), depth) == DirElements(names, depth)
    decreases |names|
  {
    if names != [] {
      var sub := Lookup(d.subdirs, names[0]);
      assert sub.Some?;
      var head := [Element(depth, names[0], true)];
      var inner := TreeElements(sub.value, depth + 1);
      var rest := SubdirElements(d, names[1..], depth);
      assert SubdirElements(d, names, depth) == (head + inner) + rest;
      SubtreeBelow(sub.value, depth);
      AtDepthAppend(head, inner, depth);
      assert AtDepth(head, depth) == head;
      assert AtDepth(head + inner, depth) == head + [];
      AtDepthAppend(head + inner, rest, depth);
      assert forall k :: 0 <= k < |names[1..]| ==> names[1..][k] in Keys(d.subdirs) by {
        forall k | 0 <= k < |names[1..]| ensures names[1..][k] in Keys(d.subdirs) {
          assert names[1..][k] == names[k + 1];
        }
      }
      SubdirsAtDepth(d, names[1..], depth);
      DirElementsCons(names, depth);
    }
  }

  /** Nothing of a subdirectory's listing lies at the directory's own depth. */
  lemma SubtreeBelow(sub: Dir, depth: nat)
    ensures AtDepth(TreeElements(sub, depth + 1), depth) == []
  {
    TreeShape(sub, depth + 1);
    AtDepthNone(TreeElements(sub, depth + 1), depth);
  }

  lemma DirElementsCons(names: seq<string>, depth: nat)
    requires names != []
    ensures DirElements(names, depth) == [Element(depth, names[0], true)] + DirElements(names[1..], depth)
  {
  }

  /**
   * Directly under a directory the walk lists its kept files, sorted, and then
   * its kept subdirectories, sorted; everything else lies deeper.
   */
  lemma TopLevel(d: Dir, depth: nat)
    ensures AtDepth(TreeElements(d, depth), depth) == FileElements(ListedFiles(d), depth) + DirElements(ListedDirs(d), depth)
  {
    ListedMeaning(d);
    AtDepthAll(FileElements(ListedFiles(d), depth), depth);
    SubdirsAtDepth(d, ListedDirs(d), depth);
    AtDepthAppend(FileElements(ListedFiles(d), depth), SubdirElements(d, ListedDirs(d), depth), depth);
  }

  // ---------------------------------------------------------------- create_directory_map

  const Indent: string := "\U{2502}   "
  const Branch: string := "\U{251c}\U{2500}\U{2500}"
  const LastBranch: string := "\U{2514}\U{2500}\U{2500}"

  /** One line of the map: an indent per level, the connector, the name, and `/` after a directory. */
  function Line(e: Element, last: bool): string {
    Repeat(Indent, e.depth) + (if last then LastBranch else Branch) + " " + e.name + (if e.isDir then "/" else "")
  }

  /** The test of the source for the last item of a level: the final element, or the next one no deeper. */
  predicate IsLastAsWritten(es: seq<Element>, i: nat)
    requires i < |es|
  {
    i == |es| - 1 || es[i + 1].depth <= es[i].depth
  }

  function LinesAsWritten(es: seq<Element>): (r: seq<string>)
    ensures |r| == |es|
  {
    seq(|es|, i requires 0 <= i < |es| => Line(es[i], IsLastAsWritten(es, i)))
  }

  /** `create_directory_map` as written. */
  function CreateDirectoryMapAsWritten(d: Dir): string {
    Join(LinesAsWritten(GetTreeElements(d)), "\n")
  }

  /** Element `i` has a later sibling: an element at its depth before any shallower one. */
  ghost predicate HasLaterSibling(es: seq<Element>, i: nat)
    requires i < |es|
  {
    exists j :: i < j < |es| && es[j].depth == es[i].depth && forall k :: i < k < j ==> es[k].depth > es[i].depth
  }

  /** The first element from `j` on that is no deeper than element `i`. */
  function NextNotDeeper(es: seq<Element>, i: nat, j: nat): (r: Option<nat>)
    requires i < j <= |es|
    ensures r.Some? ==> j <= r.value < |es| && es[r.value].depth <= es[i].depth
    ensures r.Some? ==> forall k :: j <= k < r.value ==> es[k].depth > es[i].depth
    ensures r.None? ==> forall k :: j <= k < |es| ==> es[k].depth > es[i].depth
    decreases |es| - j
  {
    if j == |es| then None
    else if es[j].depth <= es[i].depth then Some(j)
    else NextNotDeeper(es, i, j + 1)
  }

  /** Element `i` is the last of its level: the next element no deeper than it is shallower, or there is none. */
  predicate IsLast(es: seq<Element>, i: nat)
    requires i < |es|
  {
    match NextNotDeeper(es, i, i + 1)
    case None => true
    case Some(j) => es[j].depth < es[i].depth
  }

  /** The scan decides exactly the absence of a later sibling. */
  lemma IsLastMeaning(es: seq<Element>, i: nat)
    requires i < |es|
    ensures IsLast(es, i) <==> !HasLaterSibling(es, i)
  {
    match NextNotDeeper(es, i, i + 1)
    case None =>
    case Some(j) =>
      if es[j].depth == es[i].depth {
        assert HasLaterSibling(es, i);
      } else {
        forall j' | i < j' < |es| && es[j'].depth == es[i].depth
          ensures i < j < j' && es[j].depth <= es[i].depth
        {
        }
      }
  }

  function Lines(es: seq<Element>): (r: seq<string>)
    ensures |r| == |es|
  {
    seq(|es|, i requires 0 <= i < |es| => Line(es[i], IsLast(es, i)))
  }

  /** `create_directory_map`, each element drawn as last exactly when it has no later sibling. */
  function CreateDirectoryMap(d: Dir): string {
    Join(Lines(GetTreeElements(d)), "\n")
  }

  // ---------------------------------------------------------------- reading the map back

  /** The leading indents of a line, counted, and what follows them. */
  function StripIndents(s: string): (r: (nat, string))
    decreases |s|
  {
    if |s| >= 4 && s[..4] == Indent then
      var inner := StripIndents(s[4..]);
      (inner.0 + 1, inner.1)
    else (0, s)
  }

  /** Reads a line of the map back: the depth from its indents, whether its connector is the last one, the name, and a trailing `/` for a directory. */
  function ParseLine(line: string): Option<(Element, bool)> {
    var depth := StripIndents(line).0;
    var rest := StripIndents(line).1;
    if |rest| < 4 || rest[3] != ' ' || (rest[..3] != Branch && rest[..3] != LastBranch) then None
    else
      var body := rest[4..];
      if body != [] && body[|body| - 1] == '/' then Some((Element(depth, body[..|body| - 1], true), rest[..3] == LastBranch))
      else Some((Element(depth, body, false), rest[..3] == LastBranch))
  }

  /** A name a directory listing can hold without breaking the map's lines: no slash and no line break. */
  predicate PlainName(name: string) {
    '/' !in name && '\n' !in name
  }

  lemma {:induction false} StripRepeat(n: nat, rest: string)
    requires rest != [] && rest[0] != Indent[0]
    ensures StripIndents(Repeat(Indent, n) + rest) == (n, rest)
  {
    if n == 0 {
      assert Repeat(Indent, n) + rest == rest;
      assert |rest| >= 4 ==> rest[..4][0] != Indent[0];
    } else {
      var s := Repeat(Indent, n) + rest;
      assert s == Indent + (Repeat(Indent, n - 1) + rest);
      assert s[..4] == Indent && s[4..] == Repeat(Indent, n - 1) + rest;
      StripRepeat(n - 1, rest);
    }
  }

  lemma {:induction false} RepeatIndentUnbroken(n: nat)
    ensures '\n' !in Repeat(Indent, n)
  {
    if n > 0 {
      RepeatIndentUnbroken(n - 1);
      assert Repeat(Indent, n) == Indent + Repeat(Indent, n - 1);
    }
  }

  /** After the indents, a line is the connector, a space, the name and a `/` for a directory. */
  lemma RestShape(e: Element, last: bool)
    requires PlainName(e.name)
    ensures var rest := (if last then LastBranch else Branch) + " " + e.name + (if e.isDir then "/" else "");
      && |rest| >= 4 && rest[3] == ' ' && (rest[..3] == Branch || rest[..3] == LastBranch)
      && (rest[..3] == LastBranch) == last
      && (rest[4..] != [] && rest[4..][|rest[4..]| - 1] == '/') == e.isDir
      && (if e.isDir then rest[4..][..|rest[4..]| - 1] else rest[4..]) == e.name
      && '\n' !in rest
  {
    var connector := if last then LastBranch else Branch;
    var mark := if e.isDir then "/" else "";
    var rest := connector + " " + e.name + mark;
    assert rest[..3] == connector && rest[3] == ' ';
    assert Branch[0] != LastBranch[0];
    var body := rest[4..];
    assert body == e.name + mark;
    if e.isDir {
      assert body[|body| - 1] == '/';
      assert body[..|body| - 1] == e.name;
    } else if body != [] {
      assert body[|body| - 1] in e.name;
    }
  }

  /** A line reads back as the element and the connector it was drawn with. */
  lemma LineRoundTrip(e: Element, last: bool)
    requires PlainName(e.name)
    ensures ParseLine(Line(e, last)) == Some((e, last))
    ensures '\n' !in Line(e, last)
  {
    var rest := (if last then LastBranch else Branch) + " " + e.name + (if e.isDir then "/" else "");
    assert Line(e, last) == Repeat(Indent, e.depth) + rest;
    RestShape(e, last);
    StripRepeat(e.depth, rest);
    RepeatIndentUnbroken(e.depth);
  }

  /**
   * The map splits back into one line per element, and line `i` reads back as
   * element `i`, drawn as last exactly when it has no later sibling.
   */
  lemma MapReadsBack(es: seq<Element>)
    requires es != [] && forall i :: 0 <= i < |es| ==> PlainName(es[i].name)
    ensures Split(Join(Lines(es), "\n"), '\n') == Lines(es)
    ensures forall i :: 0 <= i < |es| ==>
      ParseLine(Lines(es)[i]) == Some((es[i], IsLast(es, i))) && (IsLast(es, i) <==> !HasLaterSibling(es, i))
  {
    forall i | 0 <= i < |es|
      ensures ParseLine(Lines(es)[i]) == Some((es[i], IsLast(es, i))) && '\n' !in Lines(es)[i]
      ensures IsLast(es, i) <==> !HasLaterSibling(es, i)
    {
      LineRoundTrip(es[i], IsLast(es, i));
      IsLastMeaning(es, i);
    }
    SplitJoin(Lines(es), '\n');
  }

  /** The map as written splits back the same way, and line `i` reads back as element `i` with the connector of the source's test. */
  lemma MapAsWrittenReadsBack(es: seq<Element>)
    requires es != [] && forall i :: 0 <= i < |es| ==> PlainName(es[i].name)
    ensures Split(Join(LinesAsWritten(es), "\n"), '\n') == LinesAsWritten(es)
    ensures forall i :: 0 <= i < |es| ==> ParseLine(LinesAsWritten(es)[i]) == Some((es[i], IsLastAsWritten(es, i)))
  {
    forall i | 0 <= i < |es|
      ensures ParseLine(LinesAsWritten(es)[i]) == Some((es[i], IsLastAsWritten(es, i))) && '\n' !in LinesAsWritten(es)[i]
    {
      LineRoundTrip(es[i], IsLastAsWritten(es, i));
    }
    SplitJoin(LinesAsWritten(es), '\n');
  }

  // ---------------------------------------------------------------- the connector test

  /**
   * The source's test and the sibling test agree on the final element and
   * when the next element is shallower; they disagree exactly when the next
   * element is at the same depth (the source draws a last connector before a
   * sibling), or deeper with no later sibling (the source draws a middle
   * connector after the last one).
   */
  lemma AsWrittenDisagrees(es: seq<Element>, i: nat)
    requires i < |es|
    ensures IsLastAsWritten(es, i) != IsLast(es, i) <==>
      i + 1 < |es| && (es[i + 1].depth == es[i].depth || (es[i + 1].depth > es[i].depth && !HasLaterSibling(es, i)))
    ensures i + 1 == |es| ==> IsLast(es, i) && IsLastAsWritten(es, i)
  {
    IsLastMeaning(es, i);
    if i + 1 < |es| && es[i + 1].depth <= es[i].depth {
      assert NextNotDeeper(es, i, i + 1) == Some(i + 1);
    }
  }

  /** The two files `b` and `a`, listed. */
  lemma TwoFilesListed()
    ensures ListedFiles(Dir(["b", "a"], [])) == ["a", "b"]
    ensures ListedDirs(Dir(["b", "a"], [])) == []
  {
    OneLetterKept("a");
    OneLetterKept("b");
    assert Filter(["b"], KeptFile) == ["b"] by {
      assert ["b"][..0] == [];
    }
    assert Filter(["b", "a"], KeptFile) == ["b", "a"] by {
      assert ["b", "a"][..1] == ["b"];
    }
    SortTwo();
    assert Keys<string, Dir>([]) == [];
  }

  /** A one-character name ends in none of the excluded extensions. */
  lemma OneLetterKept(name: string)
    requires |name| == 1
    ensures KeptFile(name)
  {
    forall k | 0 <= k < |ExcludedExtensions| ensures !EndsWith(name, ExcludedExtensions[k]) {
      assert |ExcludedExtensions[k]| > 1;
    }
  }

  lemma SortTwo()
    ensures Sorting.Sort(["b", "a"]) == ["a", "b"]
  {
    assert ["b", "a"][1..] == ["a"] && ["a"][1..] == [];
    assert Sorting.Sort(["a"]) == ["a"];
    assert !Sorting.StrLe("b", "a");
    assert Sorting.Insert("b", ["a"]) == ["a"] + Sorting.Insert("b", []);
  }

  /** The line of a file directly under the start directory. */
  lemma TopFileLine(name: string, last: bool)
    ensures Line(Element(0, name, false), last) == (if last then LastBranch else Branch) + " " + name
  {
    assert Repeat(Indent, 0) == "";
    var c := if last then LastBranch else Branch;
    assert "" + c + " " + name + "" == c + " " + name;
  }

  /** The two files of the sibling example, as elements. */
  function SiblingElements(): seq<Element> {
    [Element(0, "a", false), Element(0, "b", false)]
  }

  lemma SiblingListed()
    ensures GetTreeElements(Dir(["b", "a"], [])) == SiblingElements()
  {
    TwoFilesListed();
    var es := SiblingElements();
    assert FileElements(["a", "b"], 0) == es;
    assert GetTreeElements(Dir(["b", "a"], [])) == es + [];
    assert es + [] == es;
  }

  lemma SiblingLinesAsWritten()
    ensures LinesAsWritten(SiblingElements()) == [LastBranch + " " + "a", LastBranch + " " + "b"]
  {
    TopFileLine("a", true);
    TopFileLine("b", true);
  }

  lemma SiblingLines()
    ensures Lines(SiblingElements()) == [Branch + " " + "a", LastBranch + " " + "b"]
  {
    var es := SiblingElements();
    TopFileLine("a", false);
    TopFileLine("b", true);
    assert NextNotDeeper(es, 0, 1) == Some(1);
  }

  /** Two files side by side: the source draws both with the last connector; the sibling test draws the first with the middle one. */
  lemma SiblingFilesAsWritten()
    ensures GetTreeElements(Dir(["b", "a"], [])) == [Element(0, "a", false), Element(0, "b", false)]
    ensures CreateDirectoryMapAsWritten(Dir(["b", "a"], [])) == (LastBranch + " " + "a") + "\n" + (LastBranch + " " + "b")
    ensures CreateDirectoryMap(Dir(["b", "a"], [])) == (Branch + " " + "a") + "\n" + (LastBranch + " " + "b")
  {
    SiblingListed();
    SiblingLinesAsWritten();
    SiblingLines();
    assert [LastBranch + " " + "a", LastBranch + " " + "b"][1..] == [LastBranch + " " + "b"];
    assert [Branch + " " + "a", LastBranch + " " + "b"][1..] == [LastBranch + " " + "b"];
  }
}

=== FILE: mapping.dfy ===
/**
 * The migration mapping as the planner loads it (planner/mapper.py): the YAML
 * document, the shape check run on it, and the loaded-configuration slot that
 * `load_mapping` updates.
 */
module Mapping {
  import opened Wrappers
  import opened Strings
  import opened OrderedMap

  /**
   * A document as `yaml.safe_load` returns it: a mapping with text keys, a
   * list, a string, another scalar (a number or a boolean), or null, which is
   * also what an empty file loads as.
   */
  datatype Yaml =
    | YMap(entries: seq<(string, Yaml)>)
    | YList(items: seq<Yaml>)
    | YStr(text: string)
    | YScalar
    | YNull

  /** A document `key in y` cannot be asked of: Python raises `TypeError`. */
  predicate Unsearchable(y: Yaml) { y.YScalar? || y.YNull? }

  /** Keys the top level must have, in the order they are checked. */
  const RequiredKeys: seq<string> := ["version", "patterns", "special", "validation"]

  /** Keys every rule of a pattern list must have. */
  const RuleKeys: seq<string> := ["pattern", "target", "priority"]

  /**
   * What the shape check does: return True, return False with a logged
   * reason, or raise (a `TypeError` or `AttributeError` from using a value of
   * the wrong kind).
   */
  datatype Verdict = Accepted | Rejected(reason: string) | Raised

  /** `key in y` for a top-level document; None when the test itself raises. */
  function HasKey(y: Yaml, key: string): (r: Option<bool>)
    ensures r.None? <==> Unsearchable(y)
  {
    match y
    case YMap(es) => Some(key in Keys(es))
    case YList(items) => Some(YStr(key) in items)
    case YStr(s) => Some(Contains(s, key))
    case YScalar => None
    case YNull => None
  }

  /** The first of `keys` the document lacks. */
  function FirstMissing(y: Yaml, keys: seq<string>): (r: Option<nat>)
    requires !Unsearchable(y)
    ensures r.Some? ==> r.value < |keys| && HasKey(y, keys[r.value]) == Some(false) &&
                        forall j :: 0 <= j < r.value ==> HasKey(y, keys[j]) == Some(true)
    ensures r.None? <==> forall j :: 0 <= j < |keys| ==> HasKey(y, keys[j]) == Some(true)
  {
    if keys == [] then None
    else if HasKey(y, keys[0]) == Some(false) then Some(0)
    else
      var t := FirstMissing(y, keys[1..]);
      if t.None? then None else Some(t.value + 1)
  }

  /** The check of the rules of one file type, in order: each must be a mapping with the three rule keys. */
  function CheckRules(fileType: string, rules: seq<Yaml>): (r: Verdict)
    ensures r == Accepted <==>
      forall i :: 0 <= i < |rules| ==> rules[i].YMap? && forall k :: k in RuleKeys ==> k in Keys(rules[i].entries)
    ensures r.Rejected? ==> r.reason == "Invalid pattern structure in " + fileType
    ensures r == Raised ==> exists i :: 0 <= i < |rules| && !rules[i].YMap?
  {
    if rules == [] then Accepted
    else if !rules[0].YMap? then Raised
    else if exists k :: k in RuleKeys && k !in Keys(rules[0].entries) then
      Rejected("Invalid pattern structure in " + fileType)
    else
      var t := CheckRules(fileType, rules[1..]);
      assert forall i :: 1 <= i < |rules| ==> rules[i] == rules[1..][i - 1];
      t
  }

  /** The check of every file type's pattern list, in order: each must be a list of well-formed rules. */
  function CheckPatternLists(es: seq<(string, Yaml)>): (r: Verdict)
    ensures r == Accepted <==>
      forall i :: 0 <= i < |es| ==> es[i].1.YList? && CheckRules(es[i].0, es[i].1.items) == Accepted
    ensures r == Raised ==> exists i :: 0 <= i < |es| && es[i].1.YList? && CheckRules(es[i].0, es[i].1.items) == Raised
  {
    if es == [] then Accepted
    else if !es[0].1.YList? then Rejected("Pattern list for " + es[0].0 + " must be a list")
    else
      var v := CheckRules(es[0].0, es[0].1.items);
      if v != Accepted then v
      else
        var t := CheckPatternLists(es[1..]);
        assert forall i :: 1 <= i < |es| ==> es[i] == es[1..][i - 1];
        t
  }

  /** A document of the shape the planner expects, stated without the order of the checks. */
  predicate WellShaped(y: Yaml) {
    && y.YMap?
    && (forall k :: k in RequiredKeys ==> k in Keys(y.entries))
    && var patterns := Lookup(y.entries, "patterns");
    && patterns.Some? && patterns.value.YMap?
    && forall i :: 0 <= i < |patterns.value.entries| ==>
         var (fileType, rules) := patterns.value.entries[i];
         && rules.YList?
         && forall j :: 0 <= j < |rules.items| ==>
              rules.items[j].YMap? && forall k :: k in RuleKeys ==> k in Keys(rules.items[j].entries)
  }

  /** `_validate_mapping_config`. */
  function Validate(y: Yaml): (r: Verdict)
    ensures r == Accepted <==> WellShaped(y)
    ensures Unsearchable(y) ==> r == Raised
    ensures (y.YList? || y.YStr?) ==> r != Accepted
  {
    if Unsearchable(y) then Raised
    else
      var missing := FirstMissing(y, RequiredKeys);
      if missing.Some? then Rejected("Missing required key in mapping: " + RequiredKeys[missing.value])
      else if !y.YMap? then Raised
      else
        assert "patterns" in Keys(y.entries) by {
          assert HasKey(y, RequiredKeys[1]) == Some(true);
        }
        assert forall k :: k in RequiredKeys ==> k in Keys(y.entries) by {
          forall k | k in RequiredKeys ensures k in Keys(y.entries) {
            var j :| 0 <= j < |RequiredKeys| && RequiredKeys[j] == k;
            assert HasKey(y, RequiredKeys[j]) == Some(true);
          }
        }
        var patterns := Lookup(y.entries, "patterns").value;
        if !patterns.YMap? then Rejected("Patterns must be a dictionary")
        else CheckPatternLists(patterns.entries)
  }

  /** What `load_mapping` was given: a file that could not be opened or parsed, or a parsed document. */
  datatype Source = Unreadable | Parsed(document: Yaml)

  /** The configuration slot holds nothing, or a document that passed the shape check. */
  predicate Loaded(config: Option<Yaml>) {
    config.Some? ==> Validate(config.value) == Accepted
  }

  /** `self.mapping_config = yaml.safe_load(f)`: the slot holds the document, or None for a null one. */
  function Stored(y: Yaml): (r: Option<Yaml>)
    ensures r.None? <==> y.YNull?
    ensures r.Some? ==> r.value == y
  {
    if y.YNull? then None else Some(y)
  }

  /**
   * `load_mapping` as written: a raising shape check lands in the outer
   * `except`, which returns False without clearing the slot the document was
   * already stored in.
   */
  function LoadMappingAsWritten(config: Option<Yaml>, source: Source): (r: (Option<Yaml>, bool))
    ensures r.1 <==> source.Parsed? && Validate(source.document) == Accepted
    ensures r.1 ==> r.0 == Some(source.document)
    ensures source.Parsed? && Validate(source.document).Rejected? ==> r.0 == None
    ensures source.Parsed? && Validate(source.document) == Raised ==> r.0 == Stored(source.document)
    ensures source.Parsed? && source.document.YNull? ==> r == (None, false)
    ensures source.Unreadable? ==> r.0 == config
  {
    match source
    case Unreadable => (config, false)
    case Parsed(y) =>
      match Validate(y)
      case Accepted => (Some(y), true)
      case Rejected(_) => (None, false)
      case Raised => (Stored(y), false)
  }

  /** A document whose shape check raises: a rule that is a plain string has no `keys()`. */
  lemma AsWrittenKeepsInvalidDocument()
    ensures var y := YMap([("version", YScalar),
                           ("patterns", YMap([("python", YList([YStr("oops")]))])),
                           ("special", YScalar),
                           ("validation", YScalar)]);
      Validate(y) == Raised &&
      LoadMappingAsWritten(None, Parsed(y)) == (Some(y), false) &&
      !Loaded(LoadMappingAsWritten(None, Parsed(y)).0)
  {
    var pats := YMap([("python", YList([YStr("oops")]))]);
    var y := YMap([("version", YScalar), ("patterns", pats), ("special", YScalar), ("validation", YScalar)]);
    assert Keys(y.entries) == ["version", "patterns", "special", "validation"];
    assert FirstMissing(y, RequiredKeys) == None;
    assert Lookup(y.entries, "patterns") == Some(pats);
    assert CheckRules("python", [YStr("oops")]) == Raised;
    assert CheckPatternLists(pats.entries) == Raised;
  }

  /**
   * An empty mapping file loads as null: `'version' in None` raises, and both
   * loaders report failure with nothing loaded, whatever was loaded before.
   */
  lemma EmptyFileLoadsNothing(config: Option<Yaml>)
    ensures LoadMappingAsWritten(config, Parsed(YNull)) == (None, false)
    ensures LoadMapping(config, Parsed(YNull)) == (None, false)
  {
  }

  /** `load_mapping` with the slot cleared whenever the document fails the shape check, raising or not. */
  function LoadMapping(config: Option<Yaml>, source: Source): (r: (Option<Yaml>, bool))
    ensures r.1 <==> source.Parsed? && Validate(source.document) == Accepted
    ensures r.1 ==> r.0 == Some(source.document)
    ensures source.Parsed? && !r.1 ==> r.0 == None
    ensures source.Unreadable? ==> r.0 == config
    ensures Loaded(config) ==> Loaded(r.0)
  {
    match source
    case Unreadable => (config, false)
    case Parsed(y) =>
      if Validate(y) == Accepted then (Some(y), true) else (None, false)
  }
}

=== FILE: ordered_map.dfy ===
/**
 * Python's `dict`, which remembers insertion order: a sequence of entries with
 * distinct keys. Assigning to an existing key replaces its value in place;
 * assigning to a new key appends an entry.
 */
module OrderedMap {
  import opened Wrappers

  type Dict<K, V> = seq<(K, V)>

  predicate NoDuplicates<T(==)>(s: seq<T>) {
    forall i, j :: 0 <= i < j < |s| ==> s[i] != s[j]
  }

  function Keys<K, V>(d: Dict<K, V>): (ks: seq<K>)
    ensures |ks| == |d|
  {
    seq(|d|, i requires 0 <= i < |d| => d[i].0)
  }

  function Values<K, V>(d: Dict<K, V>): (vs: seq<V>)
    ensures |vs| == |d|
  {
    seq(|d|, i requires 0 <= i < |d| => d[i].1)
  }

  /** `d.get(k)`: the value of the first entry with key `k`. */
  function Lookup<K(==), V>(d: Dict<K, V>, k: K): (r: Option<V>)
    ensures r.Some? <==> k in Keys(d)
    ensures r.Some? ==> (k, r.value) in d
  {
    if d == [] then None
    else if d[0].0 == k then
      assert Keys(d)[0] == k;
      Some(d[0].1)
    else
      assert Keys(d) == [d[0].0] + Keys(d[1..]);
      Lookup(d[1..], k)
  }

  /** `d[k] = v`. */
  function Put<K(==,!new), V>(d: Dict<K, V>, k: K, v: V): (r: Dict<K, V>)
    ensures Lookup(r, k) == Some(v)
    ensures forall k' :: k' != k ==> Lookup(r, k') == Lookup(d, k')
    ensures Keys(r) == if k in Keys(d) then Keys(d) else Keys(d) + [k]
  {
    if d == [] then [(k, v)]
    else if d[0].0 == k then
      KeysSplit(d);
      ConsEntry((k, v), d[1..]);
      [(k, v)] + d[1..]
    else
      var t := Put(d[1..], k, v);
      KeysSplit(d);
      ConsEntry(d[0], t);
      [d[0]] + t
  }

  /** The keys of a non-empty dictionary: its first key, then the keys of the rest. */
  lemma KeysSplit<K, V>(d: Dict<K, V>)
    requires d != []
    ensures Keys(d) == [d[0].0] + Keys(d[1..])
  {
  }

  /** A dictionary with one more entry in front. */
  lemma ConsEntry<K, V>(e: (K, V), t: Dict<K, V>)
    ensures Keys([e] + t) == [e.0] + Keys(t)
    ensures ([e] + t)[1..] == t && ([e] + t)[0] == e
    ensures forall k :: Lookup([e] + t, k) == if e.0 == k then Some(e.1) else Lookup(t, k)
  {
    assert ([e] + t)[1..] == t;
  }

  /** Assignment keeps the keys distinct. */
  lemma PutNoDuplicates<K(!new), V>(d: Dict<K, V>, k: K, v: V)
    requires NoDuplicates(Keys(d))
    ensures NoDuplicates(Keys(Put(d, k, v)))
  {
  }

  /** The distinct elements of `s` in order of first occurrence. */
  function Dedup<T(==,!new)>(s: seq<T>): (r: seq<T>)
    ensures NoDuplicates(r)
    ensures forall x :: x in r <==> x in s
  {
    if s == [] then []
    else
      var d := Dedup(s[..|s| - 1]);
      assert s == s[..|s| - 1] + [s[|s| - 1]];
      if s[|s| - 1] in d then d else d + [s[|s| - 1]]
  }

  /** Appending a non-empty sequence is appending its front, then its last element. */
  lemma AppendNothing<T>(xs: seq<T>)
    ensures xs + [] == xs
  {
  }

  lemma AppendSnoc<T>(a: seq<T>, b: seq<T>)
    requires b != []
    ensures a + b == (a + b[..|b| - 1]) + [b[|b| - 1]]
  {
    assert b == b[..|b| - 1] + [b[|b| - 1]];
  }

  /** Membership in a non-empty sequence: in its front, or its last element. */
  lemma MemberSnoc<T>(s: seq<T>, x: T)
    requires s != []
    ensures x in s <==> x in s[..|s| - 1] || x == s[|s| - 1]
  {
    assert s == s[..|s| - 1] + [s[|s| - 1]];
  }

  /** Deduplicating one more element. */
  lemma DedupSnoc<T(!new)>(s: seq<T>, x: T)
    ensures Dedup(s + [x]) == if x in Dedup(s) then Dedup(s) else Dedup(s) + [x]
  {
    assert (s + [x])[..|s|] == s;
  }

  /** The value of the last pair in `ps` whose key is `k`. */
  function LastValue<K(==), V>(ps: seq<(K, V)>, k: K): (r: Option<V>)
    ensures r.Some? <==> k in Keys(ps)
    ensures r.Some? ==> exists i :: 0 <= i < |ps| && ps[i] == (k, r.value) &&
                                    (forall j :: i < j < |ps| ==> ps[j].0 != k)
  {
    if ps == [] then None
    else
      var n := |ps| - 1;
      KeysSnoc(ps);
      if ps[n].0 == k then Some(ps[n].1) else LastValue(ps[..n], k)
  }

  /** The lists `f(x)` of the elements of `xs`, concatenated in order. */
  function FlatMap<T, U>(xs: seq<T>, f: T -> seq<U>): seq<U> {
    if xs == [] then [] else FlatMap(xs[..|xs| - 1], f) + f(xs[|xs| - 1])
  }

  /** The list of the first element comes first. */
  lemma {:induction false} FlatMapCons<T, U>(x: T, xs: seq<T>, f: T -> seq<U>)
    ensures FlatMap([x] + xs, f) == f(x) + FlatMap(xs, f)
    decreases |xs|
  {
    var s := [x] + xs;
    if xs == [] {
      assert s[..0] == [];
    } else {
      var n := |xs| - 1;
      assert s[..|s| - 1] == [x] + xs[..n];
      assert s[|s| - 1] == xs[n];
      FlatMapCons(x, xs[..n], f);
    }
  }

  /** An element of the concatenation belongs to the list of some element, and every such element is in it. */
  lemma {:induction false} FlatMapMembers<T, U>(xs: seq<T>, f: T -> seq<U>, y: U)
    ensures y in FlatMap(xs, f) <==> exists j :: 0 <= j < |xs| && y in f(xs[j])
    decreases |xs|
  {
    if xs != [] {
      var n := |xs| - 1;
      var init := xs[..n];
      FlatMapMembers(init, f, y);
      if y in FlatMap(init, f) {
        var j :| 0 <= j < |init| && y in f(init[j]);
        assert xs[j] == init[j];
      }
      if exists j :: 0 <= j < |xs| && y in f(xs[j]) {
        var j :| 0 <= j < |xs| && y in f(xs[j]);
        if j < n {
          assert init[j] == xs[j];
        }
      }
    }
  }

  /** A key of the concatenation is a key of the list of some element, and every such key is in it. */
  lemma {:induction false} FlatMapKeys<T, K, V>(xs: seq<T>, f: T -> seq<(K, V)>, k: K)
    ensures k in Keys(FlatMap(xs, f)) <==> exists j :: 0 <= j < |xs| && k in Keys(f(xs[j]))
    decreases |xs|
  {
    if xs != [] {
      var n := |xs| - 1;
      var init := xs[..n];
      FlatMapKeys(init, f, k);
      KeysAppend(FlatMap(init, f), f(xs[n]));
      if k in Keys(FlatMap(init, f)) {
        var j :| 0 <= j < |init| && k in Keys(f(init[j]));
        assert xs[j] == init[j];
      }
      if exists j :: 0 <= j < |xs| && k in Keys(f(xs[j])) {
        var j :| 0 <= j < |xs| && k in Keys(f(xs[j]));
        if j < n {
          assert init[j] == xs[j];
        }
      }
    }
  }

  /** A dict filled by assigning every pair of `ps`, in order. */
  function FromPairs<K(==,!new), V>(ps: seq<(K, V)>): (r: Dict<K, V>)
    ensures Keys(r) == Dedup(Keys(ps))
    ensures forall k :: Lookup(r, k) == LastValue(ps, k)
  {
    if ps == [] then []
    else
      var n := |ps| - 1;
      KeysSnoc(ps);
      DedupSnoc(Keys(ps[..n]), ps[n].0);
      Put(FromPairs(ps[..n]), ps[n].0, ps[n].1)
  }

  /** The keys of two sequences of pairs one after the other. */
  lemma KeysAppend<K, V>(a: seq<(K, V)>, b: seq<(K, V)>)
    ensures Keys(a + b) == Keys(a) + Keys(b)
  {
  }

  /** The keys of a non-empty sequence of pairs: the keys of all but the last, then the last key. */
  lemma KeysSnoc<K, V>(ps: seq<(K, V)>)
    requires ps != []
    ensures Keys(ps) == Keys(ps[..|ps| - 1]) + [ps[|ps| - 1].0]
  {
  }

  /** Assigning one more pair. */
  lemma FromPairsSnoc<K(!new), V>(ps: seq<(K, V)>, p: (K, V))
    ensures FromPairs(ps + [p]) == Put(FromPairs(ps), p.0, p.1)
  {
    assert (ps + [p])[..|ps|] == ps;
  }

  /** In a dict with distinct keys, an entry is what looking up its key finds. */
  lemma {:induction false} LookupEntry<K, V>(d: Dict<K, V>, k: K, v: V)
    requires NoDuplicates(Keys(d))
    requires (k, v) in d
    ensures Lookup(d, k) == Some(v)
  {
    if d[0] != (k, v) {
      assert d[0].0 != k by {
        var i :| 0 <= i < |d| && d[i] == (k, v);
        assert Keys(d)[0] == d[0].0 && Keys(d)[i] == k;
      }
      assert Keys(d[1..]) == Keys(d)[1..];
      LookupEntry(d[1..], k, v);
    }
  }

  /** Every entry of a dict built from pairs is one of the pairs. */
  lemma FromPairsEntries<K(!new), V>(ps: seq<(K, V)>)
    ensures forall e :: e in FromPairs(ps) ==> e in ps
  {
    var r := FromPairs(ps);
    forall e | e in r ensures e in ps {
      LookupEntry(r, e.0, e.1);
      assert LastValue(ps, e.0) == Some(e.1);
    }
  }

  /** A sequence without repeats has as many elements as its set of members. */
  lemma {:induction false} DistinctCard<T>(s: seq<T>)
    requires NoDuplicates(s)
    ensures |set x | x in s| == |s|
  {
    if s != [] {
      var t := s[1..];
      DistinctCard(t);
      assert (set x | x in s) == {s[0]} + (set x | x in t);
      assert s[0] !in t;
    }
  }

  /** The number of distinct elements of `s`: Python's `len(set(s))`. */
  lemma DedupCard<T(!new)>(s: seq<T>)
    ensures |Dedup(s)| == |set x | x in s|
  {
    DistinctCard(Dedup(s));
    assert (set x | x in Dedup(s)) == (set x | x in s);
  }

  function Filter<T(!new)>(xs: seq<T>, p: T -> bool): (r: seq<T>)
    ensures |r| <= |xs|
    ensures forall x :: x in r <==> x in xs && p(x)
  {
    if xs == [] then []
    else
      var n := |xs| - 1;
      assert xs == xs[..n] + [xs[n]];
      Filter(xs[..n], p) + (if p(xs[n]) then [xs[n]] else [])
  }

  /** Filtering a sequence with a first element. */
  lemma {:induction false} FilterCons<T(!new)>(x: T, xs: seq<T>, p: T -> bool)
    ensures Filter([x] + xs, p) == (if p(x) then [x] else []) + Filter(xs, p)
    decreases |xs|
  {
    if xs != [] {
      var n := |xs| - 1;
      FilterCons(x, xs[..n], p);
      assert ([x] + xs)[..|xs|] == [x] + xs[..n];
      assert ([x] + xs)[|xs|] == xs[n];
    }
  }

  function MapSeq<T, U>(xs: seq<T>, f: T -> U): (r: seq<U>)
    ensures |r| == |xs|
    ensures forall i :: 0 <= i < |xs| ==> r[i] == f(xs[i])
  {
    seq(|xs|, i requires 0 <= i < |xs| => f(xs[i]))
  }

  lemma MapSeqAppend<T, U>(xs: seq<T>, ys: seq<T>, f: T -> U)
    ensures MapSeq(xs + ys, f) == MapSeq(xs, f) + MapSeq(ys, f)
  {
    assert forall i :: 0 <= i < |xs + ys| ==> MapSeq(xs + ys, f)[i] == (MapSeq(xs, f) + MapSeq(ys, f))[i];
  }

  /** The elements of `xs` whose key is `k`, in order. */
  function WithKey<T, K(==)>(xs: seq<T>, key: T -> K, k: K): (r: seq<T>)
    ensures |r| <= |xs|
  {
    if xs == [] then []
    else
      var n := |xs| - 1;
      WithKey(xs[..n], key, k) + (if key(xs[n]) == k then [xs[n]] else [])
  }

  lemma {:induction false} WithKeyMembers<T, K>(xs: seq<T>, key: T -> K, k: K)
    ensures forall x :: x in WithKey(xs, key, k) ==> x in xs && key(x) == k
    ensures forall x :: x in xs && key(x) == k ==> x in WithKey(xs, key, k)
  {
    if xs != [] {
      var n := |xs| - 1;
      WithKeyMembers(xs[..n], key, k);
      assert xs == xs[..n] + [xs[n]];
    }
  }

  lemma {:induction false} WithKeyNone<T, K>(xs: seq<T>, key: T -> K, k: K)
    requires forall i :: 0 <= i < |xs| ==> key(xs[i]) != k
    ensures WithKey(xs, key, k) == []
  {
    if xs != [] {
      WithKeyNone(xs[..|xs| - 1], key, k);
    }
  }

  /** No element has a key that none of the keys of the elements is. */
  lemma WithKeyAbsent<T, K(!new)>(xs: seq<T>, key: T -> K, k: K)
    requires k !in Dedup(MapSeq(xs, key))
    ensures WithKey(xs, key, k) == []
  {
    var m := MapSeq(xs, key);
    forall i | 0 <= i < |xs| ensures key(xs[i]) != k {
      assert m[i] in m;
    }
    WithKeyNone(xs, key, k);
  }

  /** Total number of elements held in the lists of a dict. */
  function GroupSizes<K, T>(d: Dict<K, seq<T>>): nat {
    if d == [] then 0 else |d[0].1| + GroupSizes(d[1..])
  }

  /** Replacing the list under `k` changes the total by the difference in length. */
  lemma {:induction false} GroupSizesPut<K(!new), T>(d: Dict<K, seq<T>>, k: K, before: seq<T>, after: seq<T>)
    requires before == Lookup(d, k).GetOr([])
    ensures GroupSizes(Put(d, k, after)) == GroupSizes(d) - |before| + |after|
  {
    if d != [] && d[0].0 != k {
      GroupSizesPut(d[1..], k, before, after);
      assert Put(d, k, after)[1..] == Put(d[1..], k, after);
    }
  }

  /** Total of the counts held in a dict. */
  function ValueSum<K>(d: Dict<K, int>): int {
    if d == [] then 0 else d[0].1 + ValueSum(d[1..])
  }

  /** `d[k] = d.get(k, 0) + 1`. */
  function Bump<K(==,!new)>(d: Dict<K, int>, k: K): Dict<K, int> {
    Put(d, k, Lookup(d, k).GetOr(0) + 1)
  }

  /** Bumping a counter adds one to the total. */
  lemma {:induction false} BumpSum<K(!new)>(d: Dict<K, int>, k: K)
    ensures ValueSum(Bump(d, k)) == ValueSum(d) + 1
  {
    if d != [] && d[0].0 != k {
      BumpSum(d[1..], k);
      assert Bump(d, k)[1..] == Bump(d[1..], k);
    }
  }

  lemma BumpKeys<K(!new)>(d: Dict<K, int>, k: K)
    ensures k in Keys(d) ==> Keys(Bump(d, k)) == Keys(d)
  {
  }

  /** The step of the grouping loop that files `xs[n]`, the last element. */
  lemma GroupStep<T, K(!new)>(xs: seq<T>, key: T -> K, d: Dict<K, seq<T>>)
    requires |xs| > 0
    requires Keys(d) == Dedup(MapSeq(xs[..|xs| - 1], key))
    requires forall k :: k in Keys(d) ==> Lookup(d, k) == Some(WithKey(xs[..|xs| - 1], key, k))
    ensures var k := key(xs[|xs| - 1]);
            var r := Put(d, k, Lookup(d, k).GetOr([]) + [xs[|xs| - 1]]);
            && Keys(r) == Dedup(MapSeq(xs, key))
            && forall k' :: k' in Keys(r) ==> Lookup(r, k') == Some(WithKey(xs, key, k'))
  {
    var n := |xs| - 1;
    var k := key(xs[n]);
    var r := Put(d, k, Lookup(d, k).GetOr([]) + [xs[n]]);
    GroupStepKeys(xs, key, d);
    forall k' | k' in Keys(r)
      ensures Lookup(r, k') == Some(WithKey(xs, key, k'))
    {
      GroupStepAt(xs, key, d, k');
    }
  }

  /** The keys after that step: the distinct keys of all of `xs`. */
  lemma GroupStepKeys<T, K(!new)>(xs: seq<T>, key: T -> K, d: Dict<K, seq<T>>)
    requires |xs| > 0
    requires Keys(d) == Dedup(MapSeq(xs[..|xs| - 1], key))
    ensures var k := key(xs[|xs| - 1]);
            Keys(Put(d, k, Lookup(d, k).GetOr([]) + [xs[|xs| - 1]])) == Dedup(MapSeq(xs, key))
  {
    var n := |xs| - 1;
    assert xs == xs[..n] + [xs[n]];
    MapSeqAppend(xs[..n], [xs[n]], key);
    DedupSnoc(MapSeq(xs[..n], key), key(xs[n]));
  }

  /** The list of one key after that step. */
  lemma GroupStepAt<T, K(!new)>(xs: seq<T>, key: T -> K, d: Dict<K, seq<T>>, k': K)
    requires |xs| > 0
    requires Keys(d) == Dedup(MapSeq(xs[..|xs| - 1], key))
    requires forall k :: k in Keys(d) ==> Lookup(d, k) == Some(WithKey(xs[..|xs| - 1], key, k))
    requires k' == key(xs[|xs| - 1]) || k' in Keys(d)
    ensures var k := key(xs[|xs| - 1]);
            Lookup(Put(d, k, Lookup(d, k).GetOr([]) + [xs[|xs| - 1]]), k') == Some(WithKey(xs, key, k'))
  {
    var n := |xs| - 1;
    var k := key(xs[n]);
    var group := Lookup(d, k).GetOr([]);
    var r := Put(d, k, group + [xs[n]]);
    if k' != k {
      var w := WithKey(xs[..n], key, k');
      assert WithKey(xs, key, k') == w + [];
      assert w + [] == w;
      assert Lookup(r, k') == Lookup(d, k');
    } else {
      assert WithKey(xs, key, k') == WithKey(xs[..n], key, k') + [xs[n]];
      if k !in Keys(d) {
        WithKeyAbsent(xs[..n], key, k);
      }
      assert group == WithKey(xs[..n], key, k);
    }
  }

  /**
   * The grouping loop `if key not in d: d[key] = []` then `d[key].append(x)`,
   * run over `xs` in order.
   */
  function GroupBy<T, K(==,!new)>(xs: seq<T>, key: T -> K): (r: Dict<K, seq<T>>)
    ensures Keys(r) == Dedup(MapSeq(xs, key))
    ensures forall k :: k in Keys(r) ==> Lookup(r, k) == Some(WithKey(xs, key, k))
    ensures GroupSizes(r) == |xs|
  {
    if xs == [] then []
    else
      var n := |xs| - 1;
      var d := GroupBy(xs[..n], key);
      var k := key(xs[n]);
      var group := Lookup(d, k).GetOr([]);
      GroupStep(xs, key, d);
      GroupSizesPut(d, k, group, group + [xs[n]]);
      Put(d, k, group + [xs[n]])
  }
}

=== FILE: paths.dfy ===
/**
 * The parts of `pathlib.PurePosixPath` the planner and the scanner read:
 * the final component (`name`), its last dotted suffix (`suffix`), the name
 * without it (`stem`) and the name of the parent (`parent.name`). Path text
 * is split at `/`; empty pieces and `.` pieces are dropped, as pathlib does.
 */
module Paths {
  import opened Strings
  import opened OrderedMap

  /** A piece of path text that pathlib keeps as a component. */
  predicate IsPart(piece: string) {
    piece != "" && piece != "."
  }

  /** The components of a path, the root left out. */
  function Parts(p: string): seq<string> {
    Filter(Split(p, '/'), IsPart)
  }

  /** Every component is a kept piece without a slash. */
  lemma PartsArePieces(p: string)
    ensures forall k :: 0 <= k < |Parts(p)| ==> '/' !in Parts(p)[k] && IsPart(Parts(p)[k])
  {
    var r := Parts(p);
    assert forall k :: 0 <= k < |r| ==> r[k] in r;
  }

  /** `Path(p).name`: the last component, or empty text when there is none. */
  function Name(p: string): string {
    var ps := Parts(p);
    if ps == [] then "" else ps[|ps| - 1]
  }

  /** The name is the last component, and has no slash. */
  lemma NameIsLastPart(p: string)
    ensures '/' !in Name(p)
    ensures Name(p) == "" <==> Parts(p) == []
    ensures Name(p) != "" ==> Name(p) == Parts(p)[|Parts(p)| - 1]
  {
    PartsArePieces(p);
  }

  /** `Path(p).parent.name`: the component before the last one, or empty text. */
  function ParentName(p: string): string {
    var ps := Parts(p);
    if |ps| < 2 then "" else ps[|ps| - 2]
  }

  /** The parent name is the next-to-last component, and has no slash. */
  lemma ParentNameIsPart(p: string)
    ensures '/' !in ParentName(p)
    ensures ParentName(p) != "" <==> |Parts(p)| >= 2
    ensures ParentName(p) != "" ==> ParentName(p) == Parts(p)[|Parts(p)| - 2]
  {
    PartsArePieces(p);
  }

  /** `s.rfind('.')`: the index of the last dot, or -1. */
  function LastDot(s: string): (i: int)
    ensures -1 <= i < |s|
    ensures i >= 0 ==> s[i] == '.'
    ensures forall k :: i < k < |s| ==> s[k] != '.'
  {
    if s == [] then -1
    else if s[|s| - 1] == '.' then |s| - 1
    else LastDot(s[..|s| - 1])
  }

  /** The name has a suffix: its last dot is neither its first nor its last character. */
  predicate HasSuffix(name: string) {
    0 < LastDot(name) < |name| - 1
  }

  /** `Path(p).suffix`: from the last dot of the name to its end, or empty text. */
  function Suffix(p: string): string {
    var n := Name(p);
    if HasSuffix(n) then n[LastDot(n)..] else ""
  }

  /** The suffix is empty, or a dot and a dot-free rest; it ends the name, and is empty exactly when the name has no suffix. */
  lemma SuffixOfName(p: string)
    ensures Suffix(p) == "" || (|Suffix(p)| >= 2 && Suffix(p)[0] == '.' && '.' !in Suffix(p)[1..])
    ensures EndsWith(Name(p), Suffix(p))
    ensures Suffix(p) == "" <==> !HasSuffix(Name(p))
  {
    var n := Name(p);
    if HasSuffix(n) {
      var r := n[LastDot(n)..];
      assert forall k :: 0 <= k < |r[1..]| ==> r[1..][k] == n[LastDot(n) + 1 + k];
    }
  }

  /** `Path(p).stem`: the name without its suffix. */
  function Stem(p: string): string {
    var n := Name(p);
    if HasSuffix(n) then n[..LastDot(n)] else n
  }

  /** The stem and the suffix make up the name. */
  lemma StemSuffix(p: string)
    ensures Stem(p) + Suffix(p) == Name(p)
  {
  }

  /** `Path(p).suffix.lstrip('.')`: the extension without its dot. */
  function Extension(p: string): string {
    var s := Suffix(p);
    if s == "" then "" else s[1..]
  }

  /** The extension is the suffix without its dot, and holds no dot. */
  lemma ExtensionOfSuffix(p: string)
    ensures '.' !in Extension(p)
    ensures Suffix(p) == (if Extension(p) == "" then "" else "." + Extension(p))
  {
    SuffixOfName(p);
  }

  /** Appending one more path piece. */
  lemma PartsAppend(dir: string, file: string)
    requires '/' !in file && IsPart(file)
    ensures Parts(dir + "/" + file) == Parts(dir) + [file]
  {
    SplitAppendPiece(dir, file, '/');
    var xs := Split(dir, '/');
    assert Split(dir + "/" + file, '/') == xs + [file];
    assert (xs + [file])[..|xs|] == xs;
  }

  /** The name of `dir/file` is `file`. */
  lemma NameOfJoin(dir: string, file: string)
    requires '/' !in file && IsPart(file)
    ensures Name(dir + "/" + file) == file
  {
    PartsAppend(dir, file);
    assert Parts(dir + "/" + file)[|Parts(dir)|] == file;
  }

  /** The parent name of `dir/sub/file` is `sub`. */
  lemma ParentNameOfJoin(dir: string, sub: string, file: string)
    requires '/' !in sub && IsPart(sub) && '/' !in file && IsPart(file)
    ensures ParentName(dir + "/" + sub + "/" + file) == sub
  {
    PartsAppend(dir, sub);
    PartsAppend(dir + "/" + sub, file);
  }
}

=== FILE: planner.dfy ===
/**
 * `MigrationPlanner` (planner/mapper.py) on an already loaded mapping: the
 * directories to create, the rule chosen for each file, the target path
 * built from the rule's template, and the checks run over the finished plan.
 * `fnmatch` is the `matches` parameter and the file-size lookup is `stat`.
 */
module Planner {
  import opened Wrappers
  import opened Strings
  import opened OrderedMap
  import opened Paths

  /** One entry of a pattern list: a glob, a target template and a priority. */
  datatype Rule = Rule(pattern: string, target: string, priority: int)

  /** One entry of `validation.file_checks`. */
  datatype FileCheck = FileCheck(fileType: string, maxSize: Option<int>)

  /**
   * The loaded mapping, read through the keys the planner uses:
   * `patterns`, `special['ignore']` (None when the key is absent),
   * `validation['required_dirs']` (None when absent) and
   * `validation.get('file_checks', [])`.
   */
  datatype MappingConfig = MappingConfig(
    patterns: Dict<string, seq<Rule>>,
    ignore: Option<seq<string>>,
    requiredDirs: Option<seq<string>>,
    fileChecks: seq<FileCheck>)

  /** A planned move: source path, resolved target and the glob of the rule used. */
  datatype Move = Move(source: string, target: string, pattern: string)

  /** `current_plan`: its five lists. */
  datatype Plan = Plan(
    moves: seq<Move>,
    creates: seq<string>,
    ignores: seq<(string, string)>,
    warnings: seq<string>,
    errors: seq<string>)

  /** `fnmatch.fnmatch(path, pattern)`. */
  type Matcher = (string, string) -> bool

  /** `os.path.getsize` of a source under the base directory: a size, or the text of the `OSError`. */
  datatype Stat = Size(bytes: int) | StatError(message: string)

  // ---------------------------------------------------------------- directories

  /**
   * The directory part of a target template: the text before its first `{`,
   * trailing slashes removed. There is one exactly when something other than
   * a slash precedes the first `{`; only slashes lie between it and the `{`.
   */
  function TargetDir(target: string): (r: Option<string>)
    ensures '{' !in target ==> r.None?
    ensures '{' in target ==> (r.Some? <==> exists k :: 0 <= k < IndexOf(target, '{') && target[k] != '/')
    ensures r.Some? ==> r.value != "" && '{' !in r.value && StartsWith(target, r.value) &&
                        r.value[|r.value| - 1] != '/'
    ensures r.Some? ==> r.value == target[..|r.value|] && |r.value| <= IndexOf(target, '{') &&
                        forall k :: |r.value| <= k < IndexOf(target, '{') ==> target[k] == '/'
  {
    if '{' !in target then None
    else
      var i := IndexOf(target, '{');
      var d := RStrip(target[..i], '/');
      if d == "" then
        assert forall k :: 0 <= k < i ==> target[k] == target[..i][k];
        None
      else
        assert d == target[..|d|];
        assert forall k :: 0 <= k < |d| ==> d[k] == target[..i][k];
        assert forall k :: |d| <= k < i ==> target[k] == target[..i][k];
        assert target[|d| - 1] != '/';
        Some(d)
  }

  /** The target templates of all rules, file type by file type. */
  function Targets(patterns: Dict<string, seq<Rule>>): (r: seq<string>)
    ensures forall i, j :: 0 <= i < |patterns| && 0 <= j < |patterns[i].1| ==> patterns[i].1[j].target in r
    ensures forall t :: t in r ==> exists i, j :: 0 <= i < |patterns| && 0 <= j < |patterns[i].1| && patterns[i].1[j].target == t
  {
    if patterns == [] then []
    else
      var here := MapSeq(patterns[0].1, (x: Rule) => x.target);
      var rest := Targets(patterns[1..]);
      assert forall i :: 1 <= i < |patterns| ==> patterns[i] == patterns[1..][i - 1];
      assert forall t :: t in here ==> exists j :: 0 <= j < |patterns[0].1| && patterns[0].1[j].target == t;
      assert forall t :: t in rest ==> exists i, j :: 1 <= i < |patterns| && 0 <= j < |patterns[i].1| && patterns[i].1[j].target == t by {
        forall t | t in rest ensures exists i, j :: 1 <= i < |patterns| && 0 <= j < |patterns[i].1| && patterns[i].1[j].target == t {
          var i, j :| 0 <= i < |patterns[1..]| && 0 <= j < |patterns[1..][i].1| && patterns[1..][i].1[j].target == t;
          assert patterns[i + 1].1[j].target == t;
        }
      }
      here + rest
  }

  /**
   * The second loop of `_plan_directory_structure`, given each target's
   * directory: a directory is appended unless it is empty or already planned.
   */
  function AddDirs(creates: seq<string>, dirs: seq<Option<string>>): (r: seq<string>)
    ensures |creates| <= |r| && r[..|creates|] == creates
    decreases |dirs|
  {
    if dirs == [] then creates
    else
      var next := AddDir(creates, dirs[0]);
      var r := AddDirs(next, dirs[1..]);
      assert r[..|creates|] == next[..|creates|];
      r
  }

  /** The planned directories after one directory of the loop. */
  function AddDir(creates: seq<string>, d: Option<string>): seq<string> {
    if d.Some? && d.value !in creates then creates + [d.value] else creates
  }

  /** Every directory of the loop ends up planned. */
  lemma {:induction false} AddDirsComplete(creates: seq<string>, dirs: seq<Option<string>>)
    ensures forall d :: Some(d) in dirs ==> d in AddDirs(creates, dirs)
    decreases |dirs|
  {
    if dirs != [] {
      var next := AddDir(creates, dirs[0]);
      var r := AddDirs(next, dirs[1..]);
      AddDirsComplete(next, dirs[1..]);
      forall d | Some(d) in dirs ensures d in r {
        if Some(d) != dirs[0] {
          assert Some(d) in dirs[1..];
        } else {
          assert d in next;
          assert next == r[..|next|];
        }
      }
    }
  }

  /** Each entry the loop adds is the directory of some target. */
  lemma {:induction false} AddDirsFrom(creates: seq<string>, dirs: seq<Option<string>>)
    ensures forall k :: |creates| <= k < |AddDirs(creates, dirs)| ==> Some(AddDirs(creates, dirs)[k]) in dirs
    decreases |dirs|
  {
    if dirs != [] {
      var next := AddDir(creates, dirs[0]);
      var r := AddDirs(next, dirs[1..]);
      AddDirsFrom(next, dirs[1..]);
      forall k | |creates| <= k < |r| ensures Some(r[k]) in dirs {
        if k < |next| {
          assert r[..|next|] == next;
          assert r[k] == next[k];
        } else {
          assert Some(r[k]) in dirs[1..];
        }
      }
    }
  }

  /** The loop adds nothing already planned, so nothing twice. */
  lemma {:induction false} AddDirsFresh(creates: seq<string>, dirs: seq<Option<string>>)
    ensures forall k :: |creates| <= k < |AddDirs(creates, dirs)| ==> AddDirs(creates, dirs)[k] !in AddDirs(creates, dirs)[..k]
    decreases |dirs|
  {
    if dirs != [] {
      var next := AddDir(creates, dirs[0]);
      var r := AddDirs(next, dirs[1..]);
      AddDirsFresh(next, dirs[1..]);
      forall k | |creates| <= k < |r| ensures r[k] !in r[..k] {
        if k < |next| {
          assert r[..|next|] == next;
          assert r[k] == next[k];
          assert r[..k] == creates;
        }
      }
    }
  }

  /** `_plan_directory_structure`: the required directories in order, then the target directories. */
  function PlanDirectories(m: MappingConfig): (r: seq<string>)
    ensures m.requiredDirs.Some? ==> forall d :: d in m.requiredDirs.value ==> d in r
    ensures forall i, j :: 0 <= i < |m.patterns| && 0 <= j < |m.patterns[i].1| && TargetDir(m.patterns[i].1[j].target).Some? ==>
      TargetDir(m.patterns[i].1[j].target).value in r
  {
    var required := m.requiredDirs.GetOr([]);
    var targets := Targets(m.patterns);
    var dirs := MapSeq(targets, TargetDir);
    var r := AddDirs(required, dirs);
    AddDirsComplete(required, dirs);
    assert forall d :: d in required ==> d in r[..|required|];
    forall i, j | 0 <= i < |m.patterns| && 0 <= j < |m.patterns[i].1| && TargetDir(m.patterns[i].1[j].target).Some?
      ensures TargetDir(m.patterns[i].1[j].target).value in r
    {
      var t := m.patterns[i].1[j].target;
      var k :| 0 <= k < |targets| && targets[k] == t;
      assert dirs[k] == TargetDir(t);
    }
    r
  }

  /**
   * Past the required directories, every planned directory is the directory
   * of some rule's target, and none is planned twice.
   */
  lemma PlanDirectoriesAdded(m: MappingConfig)
    ensures PlanDirectories(m)[..|m.requiredDirs.GetOr([])|] == m.requiredDirs.GetOr([])
    ensures forall k :: |m.requiredDirs.GetOr([])| <= k < |PlanDirectories(m)| ==>
      exists i, j :: 0 <= i < |m.patterns| && 0 <= j < |m.patterns[i].1| && TargetDir(m.patterns[i].1[j].target) == Some(PlanDirectories(m)[k])
    ensures forall k :: |m.requiredDirs.GetOr([])| <= k < |PlanDirectories(m)| ==> PlanDirectories(m)[k] !in PlanDirectories(m)[..k]
  {
    var required := m.requiredDirs.GetOr([]);
    var targets := Targets(m.patterns);
    var dirs := MapSeq(targets, TargetDir);
    var r := PlanDirectories(m);
    AddDirsFrom(required, dirs);
    AddDirsFresh(required, dirs);
    assert r == AddDirs(required, dirs);
    forall k | |required| <= k < |r|
      ensures exists i, j :: 0 <= i < |m.patterns| && 0 <= j < |m.patterns[i].1| && TargetDir(m.patterns[i].1[j].target) == Some(r[k])
    {
      var x :| 0 <= x < |dirs| && dirs[x] == Some(r[k]);
      assert targets[x] in targets;
    }
  }

  // ---------------------------------------------------------------- rules

  /** The first ignore pattern the path matches. */
  function FirstIgnore(ignores: seq<string>, path: string, matches: Matcher): (r: Option<nat>)
    ensures r.Some? ==> r.value < |ignores| && matches(path, ignores[r.value]) &&
                        forall j :: 0 <= j < r.value ==> !matches(path, ignores[j])
    ensures r.None? <==> forall j :: 0 <= j < |ignores| ==> !matches(path, ignores[j])
  {
    if ignores == [] then None
    else if matches(path, ignores[0]) then Some(0)
    else
      var t := FirstIgnore(ignores[1..], path, matches);
      assert forall j :: 1 <= j < |ignores| ==> ignores[j] == ignores[1..][j - 1];
      if t.None? then None else Some(t.value + 1)
  }

  /**
   * The rule loop of `_plan_file_migration`: a matching rule replaces the
   * current choice only with a strictly higher priority, starting from -1.
   */
  function SelectRule(rules: seq<Rule>, path: string, matches: Matcher): (r: Option<nat>)
    ensures r.Some? ==> r.value < |rules| && matches(path, rules[r.value].pattern) && rules[r.value].priority > -1
    ensures r.Some? ==> forall j :: 0 <= j < |rules| && matches(path, rules[j].pattern) ==>
      rules[j].priority <= rules[r.value].priority
    ensures r.Some? ==> forall j :: 0 <= j < r.value && matches(path, rules[j].pattern) ==>
      rules[j].priority < rules[r.value].priority
    ensures r.None? <==> forall j :: 0 <= j < |rules| && matches(path, rules[j].pattern) ==> rules[j].priority <= -1
  {
    if rules == [] then None
    else
      var n := |rules| - 1;
      var best := SelectRule(rules[..n], path, matches);
      assert forall j :: 0 <= j < n ==> rules[..n][j] == rules[j];
      var highest := if best.None? then -1 else rules[best.value].priority;
      if matches(path, rules[n].pattern) && rules[n].priority > highest then Some(n) else best
  }

  // ---------------------------------------------------------------- targets

  function Placeholder(key: string): string {
    "{" + key + "}"
  }

  /** The placeholder keys `_resolve_target_path` knows, in the order it substitutes them. */
  const ReplacementKeys: seq<string> := ["name", "stem", "parent", "ext"]

  /** The values `_resolve_target_path` substitutes, in its order. */
  function Replacements(source: string): (r: seq<(string, string)>)
    ensures Keys(r) == ReplacementKeys
  {
    [("name", Name(source)), ("stem", Stem(source)), ("parent", ParentName(source)), ("ext", Extension(source))]
  }

  /** The substitution loop: each placeholder present is replaced by its value. */
  function Substitute(text: string, reps: seq<(string, string)>): string
    decreases |reps|
  {
    if reps == [] then text
    else
      var ph := Placeholder(reps[0].0);
      var next := if Contains(text, ph) then ReplaceAll(text, ph, reps[0].1) else text;
      Substitute(next, reps[1..])
  }

  predicate BraceFree(s: string) {
    '{' !in s && '}' !in s
  }

  /** `_resolve_target_path`: the substituted template, or the `ValueError` for a leftover brace. */
  function ResolveTarget(source: string, template: string): (r: Result<string>)
    ensures r.Success? ==> BraceFree(r.value)
    ensures r.Failure? ==> r.error == "Unresolved placeholders in target path: " + Substitute(template, Replacements(source))
  {
    var result := Substitute(template, Replacements(source));
    if '{' in result || '}' in result then Failure("Unresolved placeholders in target path: " + result)
    else Success(result)
  }

  /** Text without `{` holds no placeholder. */
  lemma NoPlaceholderWithoutBrace(s: string, key: string)
    requires '{' !in s
    ensures !Contains(s, Placeholder(key))
  {
    var q := Placeholder(key);
    forall i | 0 <= i <= |s| - |q| ensures !OccursAt(s, q, i) {
      assert s[i..i + |q|][0] == s[i] != q[0];
    }
  }

  /** Substitution leaves brace-free text alone. */
  lemma {:induction false} SubstituteBraceFree(text: string, reps: seq<(string, string)>)
    requires '{' !in text
    ensures Substitute(text, reps) == text
    decreases |reps|
  {
    if reps != [] {
      NoPlaceholderWithoutBrace(text, reps[0].0);
      SubstituteBraceFree(text, reps[1..]);
    }
  }

  /** A brace-free template is returned unchanged. */
  lemma ResolveBraceFreeTemplate(source: string, template: string)
    requires BraceFree(template)
    ensures ResolveTarget(source, template) == Success(template)
  {
    SubstituteBraceFree(template, Replacements(source));
  }

  /** One placeholder is never the start of another placeholder followed by more text. */
  lemma PlaceholderNotPrefix(k1: string, k2: string, rest: string)
    requires '}' !in k1 && '}' !in k2 && k1 != k2
    ensures !StartsWith(Placeholder(k2) + rest, Placeholder(k1))
  {
    var s := Placeholder(k2) + rest;
    var q := Placeholder(k1);
    if |q| <= |s| {
      if |k1| < |k2| {
        assert s[..|q|][|k1| + 1] == k2[|k1|] != q[|k1| + 1];
      } else if |k1| == |k2| {
        var idx :| 0 <= idx < |k1| && k1[idx] != k2[idx];
        assert s[..|q|][idx + 1] == k2[idx] && q[idx + 1] == k1[idx];
      } else {
        assert s[..|q|][|k2| + 1] == '}' != k1[|k2|] == q[|k2| + 1];
      }
    }
  }

  /** Text whose only brace opens the placeholder of `key` holds no placeholder of another key. */
  lemma OtherPlaceholderAbsent(before: string, key: string, after: string, other: string)
    requires '{' !in before && '{' !in after && '{' !in key && '}' !in key && '}' !in other && key != other
    ensures !Contains(before + Placeholder(key) + after, Placeholder(other))
  {
    var s := before + Placeholder(key) + after;
    var q := Placeholder(other);
    forall i | 0 <= i <= |s| - |q| ensures !OccursAt(s, q, i) {
      if i == |before| {
        PlaceholderNotPrefix(other, key, after);
        assert s[|before|..] == Placeholder(key) + after;
        assert s[i..i + |q|] == (Placeholder(key) + after)[..|q|];
      } else {
        assert s[i..i + |q|][0] == s[i];
        if i < |before| {
          assert s[i] == before[i];
        } else if i <= |before| + |key| + 1 {
          assert s[i] == Placeholder(key)[i - |before|];
          if i == |before| + |key| + 1 {
            assert Placeholder(key)[|key| + 1] == '}';
          } else {
            assert Placeholder(key)[i - |before|] == key[i - |before| - 1];
          }
        } else {
          assert s[i] == after[i - |before| - |key| - 2];
        }
      }
    }
  }

  /** Replacing the one placeholder of brace-free surroundings. */
  lemma ReplaceOnePlaceholder(before: string, key: string, after: string, v: string)
    requires '{' !in before && '{' !in after
    ensures Contains(before + Placeholder(key) + after, Placeholder(key))
    ensures ReplaceAll(before + Placeholder(key) + after, Placeholder(key), v) == before + v + after
  {
    var ph := Placeholder(key);
    var s := before + ph + after;
    assert s[|before|..|before| + |ph|] == ph;
    assert OccursAt(s, ph, |before|);
    assert s == before + (ph + after);
    ReplaceSkipsPrefix(before, ph + after, ph, v);
    assert (ph + after)[..|ph|] == ph && (ph + after)[|ph|..] == after;
    NoPlaceholderWithoutBrace(after, key);
    ReplaceAbsent(after, ph, v);
  }

  /** Keys that a placeholder can be built from: no braces, and each listed once. */
  predicate PlainKeys(keys: seq<string>) {
    && (forall i :: 0 <= i < |keys| ==> '}' !in keys[i] && '{' !in keys[i])
    && (forall i, j :: 0 <= i < j < |keys| ==> keys[i] != keys[j])
  }

  /** Substitution of a text holding exactly one placeholder, of a key that is listed. */
  lemma {:induction false} SubstituteOne(before: string, key: string, after: string, reps: seq<(string, string)>, m: nat)
    requires '{' !in before && '{' !in after
    requires PlainKeys(Keys(reps)) && m < |reps| && reps[m].0 == key && '{' !in reps[m].1
    ensures Substitute(before + Placeholder(key) + after, reps) == before + reps[m].1 + after
    decreases |reps|
  {
    var text := before + Placeholder(key) + after;
    assert Keys(reps)[m] == key && Keys(reps)[0] == reps[0].0;
    if m == 0 {
      ReplaceOnePlaceholder(before, key, after, reps[0].1);
      SubstituteBraceFree(before + reps[0].1 + after, reps[1..]);
    } else {
      OtherPlaceholderAbsent(before, key, after, reps[0].0);
      assert Keys(reps)[0] == reps[0].0;
      assert Keys(reps[1..]) == Keys(reps)[1..];
      SubstituteOne(before, key, after, reps[1..], m - 1);
    }
  }

  /** Substitution of a text holding exactly one placeholder, of a key that is not listed. */
  lemma {:induction false} SubstituteUnknown(before: string, key: string, after: string, reps: seq<(string, string)>)
    requires '{' !in before && '{' !in after && '{' !in key && '}' !in key
    requires PlainKeys(Keys(reps)) && forall i :: 0 <= i < |reps| ==> reps[i].0 != key
    ensures Substitute(before + Placeholder(key) + after, reps) == before + Placeholder(key) + after
    decreases |reps|
  {
    if reps != [] {
      assert Keys(reps)[0] == reps[0].0;
      OtherPlaceholderAbsent(before, key, after, reps[0].0);
      assert Keys(reps)[0] == reps[0].0;
      assert Keys(reps[1..]) == Keys(reps)[1..];
      SubstituteUnknown(before, key, after, reps[1..]);
    }
  }

  /** The four keys are plain. */
  lemma ReplacementKeysPlain()
    ensures PlainKeys(ReplacementKeys)
  {
    var ks := ReplacementKeys;
    assert ks[0][1] == 'a' && ks[1][1] == 't' && ks[2][1] == 'a' && ks[3][1] == 'x';
    assert ks[0][0] == 'n' && ks[2][0] == 'p';
  }

  /** Every character of a value is a character of the file name or of the parent name. */
  lemma ReplacementChars(source: string, c: char)
    ensures c in Stem(source) ==> c in Name(source)
    ensures c in Extension(source) ==> c in Name(source)
  {
    var n, st, su := Name(source), Stem(source), Suffix(source);
    StemSuffix(source);
    ExtensionOfSuffix(source);
    if c in st {
      var i :| 0 <= i < |st| && st[i] == c;
      assert n[i] == c;
    }
    if c in Extension(source) {
      var i :| 0 <= i < |Extension(source)| && Extension(source)[i] == c;
      assert su[i + 1] == c;
      assert n[|st| + i + 1] == c;
    }
  }

  /** The four values are brace-free when the file name and the parent name are. */
  lemma ReplacementsBraceFree(source: string)
    requires BraceFree(Name(source)) && BraceFree(ParentName(source))
    ensures PlainKeys(Keys(Replacements(source)))
    ensures forall i :: 0 <= i < 4 ==> BraceFree(Replacements(source)[i].1)
  {
    ReplacementKeysPlain();
    ReplacementChars(source, '{');
    ReplacementChars(source, '}');
  }

  /** A template with one known placeholder in brace-free surroundings resolves to the surroundings around the value. */
  lemma ResolveOnePlaceholder(source: string, before: string, m: nat, after: string)
    requires m < 4 && BraceFree(before) && BraceFree(after)
    requires BraceFree(Name(source)) && BraceFree(ParentName(source))
    ensures var (key, value) := Replacements(source)[m];
      ResolveTarget(source, before + Placeholder(key) + after) == Success(before + value + after)
  {
    var reps := Replacements(source);
    ReplacementsBraceFree(source);
    SubstituteOne(before, reps[m].0, after, reps, m);
  }

  /** A template with one placeholder of any other key fails with that template in the message. */
  lemma ResolveUnknownPlaceholder(source: string, before: string, key: string, after: string)
    requires BraceFree(before) && BraceFree(after) && BraceFree(key)
    requires key !in ReplacementKeys
    ensures ResolveTarget(source, before + Placeholder(key) + after) ==
      Failure("Unresolved placeholders in target path: " + before + Placeholder(key) + after)
  {
    var reps := Replacements(source);
    var t := before + Placeholder(key) + after;
    ReplacementKeysPlain();
    assert forall i :: 0 <= i < |reps| ==> reps[i].0 == ReplacementKeys[i];
    SubstituteUnknown(before, key, after, reps);
    assert t[|before|] == '{';
  }

  // ---------------------------------------------------------------- one file

  /** What `_plan_file_migration` records for one file. */
  datatype FileOutcome =
    | Ignored(path: string, reason: string)
    | Moved(move: Move)
    | Unresolved(message: string)
    | Unmatched(warning: string)

  /** `_plan_file_migration` for a file type that has rules and a configuration with an ignore list. */
  function PlanFile(ignores: seq<string>, rules: seq<Rule>, path: string, matches: Matcher): (r: FileOutcome)
    ensures r.Ignored? <==> FirstIgnore(ignores, path, matches).Some?
    ensures r.Ignored? ==> r.path == path && r.reason == "Matched ignore pattern: " + ignores[FirstIgnore(ignores, path, matches).value]
    ensures r.Unmatched? <==> FirstIgnore(ignores, path, matches).None? && SelectRule(rules, path, matches).None?
    ensures r.Moved? ==>
      var i := SelectRule(rules, path, matches).value;
      r.move.source == path && r.move.pattern == rules[i].pattern &&
      ResolveTarget(path, rules[i].target) == Success(r.move.target)
    ensures r.Moved? ==> BraceFree(r.move.target)
  {
    var ig := FirstIgnore(ignores, path, matches);
    if ig.Some? then Ignored(path, "Matched ignore pattern: " + ignores[ig.value])
    else
      var sel := SelectRule(rules, path, matches);
      if sel.None? then Unmatched("No matching pattern for file: " + path)
      else
        var rule := rules[sel.value];
        match ResolveTarget(path, rule.target)
        case Success(target) => Moved(Move(path, target, rule.pattern))
        case Failure(e) => Unresolved("Error planning move for " + path + ": " + e)
  }

  /** The plan with one file's outcome appended to the matching list. */
  function Record(p: Plan, o: FileOutcome): (r: Plan)
    ensures Entries(r) == Entries(p) + 1
    ensures r.creates == p.creates
    ensures r.moves == if o.Moved? then p.moves + [o.move] else p.moves
    ensures o.Ignored? ==> r.ignores == p.ignores + [(o.path, o.reason)] && r.errors == p.errors && r.warnings == p.warnings
    ensures o.Moved? ==> r.ignores == p.ignores && r.errors == p.errors && r.warnings == p.warnings
    ensures o.Unresolved? ==> r.ignores == p.ignores && r.errors == p.errors + [o.message] && r.warnings == p.warnings
    ensures o.Unmatched? ==> r.ignores == p.ignores && r.errors == p.errors && r.warnings == p.warnings + [o.warning]
  {
    match o
    case Ignored(path, reason) => p.(ignores := p.ignores + [(path, reason)])
    case Moved(mv) => p.(moves := p.moves + [mv])
    case Unresolved(msg) => p.(errors := p.errors + [msg])
    case Unmatched(w) => p.(warnings := p.warnings + [w])
  }

  /** Entries in the four lists one outcome can go to. */
  function Entries(p: Plan): nat {
    |p.moves| + |p.ignores| + |p.warnings| + |p.errors|
  }

  // ---------------------------------------------------------------- where the outcomes go

  /** The entry each list takes from an outcome: a move, an ignore entry, an error or a warning. */
  function MoveOf(o: FileOutcome): Option<Move> { if o.Moved? then Some(o.move) else None }
  function IgnoreOf(o: FileOutcome): Option<(string, string)> { if o.Ignored? then Some((o.path, o.reason)) else None }
  function ErrorOf(o: FileOutcome): Option<string> { if o.Unresolved? then Some(o.message) else None }
  function WarningOf(o: FileOutcome): Option<string> { if o.Unmatched? then Some(o.warning) else None }

  /** The entries `pick` takes from the outcomes, in order: what one list of the plan receives. */
  function Routed<T(!new)>(os: seq<FileOutcome>, pick: FileOutcome -> Option<T>): (r: seq<T>)
    ensures |r| <= |os|
    decreases |os|
  {
    if os == [] then []
    else (if pick(os[0]).Some? then [pick(os[0]).value] else []) + Routed(os[1..], pick)
  }

  /** A list receives exactly the entries `pick` finds in some outcome. */
  lemma {:induction false} RoutedMembers<T(!new)>(os: seq<FileOutcome>, pick: FileOutcome -> Option<T>)
    ensures forall x :: x in Routed(os, pick) <==> exists i :: 0 <= i < |os| && pick(os[i]) == Some(x)
    decreases |os|
  {
    if os != [] {
      RoutedMembers(os[1..], pick);
      assert forall i :: 1 <= i < |os| ==> os[i] == os[1..][i - 1];
      forall x | x in Routed(os[1..], pick) ensures exists i :: 0 <= i < |os| && pick(os[i]) == Some(x) {
        var k :| 0 <= k < |os[1..]| && pick(os[1..][k]) == Some(x);
        assert pick(os[k + 1]) == Some(x);
      }
    }
  }

  /** Each outcome goes to exactly one of the four lists. */
  lemma {:induction false} RoutedCount(os: seq<FileOutcome>)
    ensures |Routed(os, MoveOf)| + |Routed(os, IgnoreOf)| + |Routed(os, ErrorOf)| + |Routed(os, WarningOf)| == |os|
    decreases |os|
  {
    if os != [] {
      RoutedCount(os[1..]);
    }
  }

  lemma {:induction false} RoutedAppend<T(!new)>(a: seq<FileOutcome>, b: seq<FileOutcome>, pick: FileOutcome -> Option<T>)
    ensures Routed(a + b, pick) == Routed(a, pick) + Routed(b, pick)
    decreases |a|
  {
    if a == [] {
      assert a + b == b;
    } else {
      var head := if pick(a[0]).Some? then [pick(a[0]).value] else [];
      var ab := a + b;
      assert ab[0] == a[0] && ab[1..] == a[1..] + b;
      assert Routed(ab, pick) == head + Routed(a[1..] + b, pick);
      RoutedAppend(a[1..], b, pick);
      assert Routed(a, pick) == head + Routed(a[1..], pick);
    }
  }

  /** The four lists split over a concatenation of outcomes. */
  lemma RoutesAppend(a: seq<FileOutcome>, b: seq<FileOutcome>)
    ensures Routed(a + b, MoveOf) == Routed(a, MoveOf) + Routed(b, MoveOf)
    ensures Routed(a + b, IgnoreOf) == Routed(a, IgnoreOf) + Routed(b, IgnoreOf)
    ensures Routed(a + b, ErrorOf) == Routed(a, ErrorOf) + Routed(b, ErrorOf)
    ensures Routed(a + b, WarningOf) == Routed(a, WarningOf) + Routed(b, WarningOf)
  {
    RoutedAppend(a, b, MoveOf);
    RoutedAppend(a, b, IgnoreOf);
    RoutedAppend(a, b, ErrorOf);
    RoutedAppend(a, b, WarningOf);
  }

  /** The plan `p` with the outcomes `os` routed to its lists, the directories untouched. */
  predicate RoutedFrom(p: Plan, os: seq<FileOutcome>, r: Plan) {
    && r.moves == p.moves + Routed(os, MoveOf)
    && r.ignores == p.ignores + Routed(os, IgnoreOf)
    && r.errors == p.errors + Routed(os, ErrorOf)
    && r.warnings == p.warnings + Routed(os, WarningOf)
    && r.creates == p.creates
  }

  /** Routing one batch of outcomes after another routes their concatenation. */
  lemma RoutedFromTrans(p: Plan, a: seq<FileOutcome>, q: Plan, b: seq<FileOutcome>, r: Plan)
    requires RoutedFrom(p, a, q) && RoutedFrom(q, b, r)
    ensures RoutedFrom(p, a + b, r)
  {
    RoutesAppend(a, b);
    Extended(p.moves, Routed(a, MoveOf), q.moves, Routed(b, MoveOf), r.moves);
    Extended(p.ignores, Routed(a, IgnoreOf), q.ignores, Routed(b, IgnoreOf), r.ignores);
    Extended(p.errors, Routed(a, ErrorOf), q.errors, Routed(b, ErrorOf), r.errors);
    Extended(p.warnings, Routed(a, WarningOf), q.warnings, Routed(b, WarningOf), r.warnings);
  }

  lemma Extended<T>(xs: seq<T>, a: seq<T>, ys: seq<T>, b: seq<T>, zs: seq<T>)
    requires ys == xs + a && zs == ys + b
    ensures zs == xs + (a + b)
  {
  }

  /** Recording one outcome routes it to its list. */
  lemma RecordRoutes(p: Plan, o: FileOutcome)
    ensures RoutedFrom(p, [o], Record(p, o))
  {
    assert [o][1..] == [];
  }

  /** Routing nothing leaves the plan as it is. */
  lemma RoutedNothing(p: Plan)
    ensures RoutedFrom(p, [], p)
  {
    assert p.moves + [] == p.moves && p.ignores + [] == p.ignores;
    assert p.errors + [] == p.errors && p.warnings + [] == p.warnings;
  }

  /** An outcome of a file's planning that moves the file to a brace-free target, if it moves it at all. */
  predicate SoundOutcome(path: string, o: FileOutcome) {
    o.Moved? ==> o.move.source == path && BraceFree(o.move.target)
  }

  /** The outcomes of `PlanFile` are sound. */
  ghost predicate SoundPlanner(outcome: string -> FileOutcome) {
    forall path :: SoundOutcome(path, outcome(path))
  }

  /** The files of one type, one after the other, `outcome` planning each. */
  function PlanFiles(p: Plan, outcome: string -> FileOutcome, paths: seq<string>): (r: Plan)
    requires SoundPlanner(outcome)
    ensures Entries(r) == Entries(p) + |paths|
    ensures r.creates == p.creates
    ensures |p.moves| <= |r.moves| && r.moves[..|p.moves|] == p.moves
    ensures forall k :: |p.moves| <= k < |r.moves| ==> BraceFree(r.moves[k].target) && r.moves[k].source in paths
    decreases |paths|
  {
    if paths == [] then p
    else
      var o := outcome(paths[0]);
      assert SoundOutcome(paths[0], o);
      var q := Record(p, o);
      var r := PlanFiles(q, outcome, paths[1..]);
      assert r.moves[..|q.moves|] == q.moves;
      assert |q.moves| > |p.moves| ==> o.Moved? && r.moves[|p.moves|] == o.move && o.move.source == paths[0];
      assert forall x :: x in paths[1..] ==> x in paths;
      r
  }

  /** The files of one type are routed one by one, in order, to the lists their outcomes name. */
  lemma {:induction false} PlanFilesRoutes(p: Plan, outcome: string -> FileOutcome, paths: seq<string>)
    requires SoundPlanner(outcome)
    ensures RoutedFrom(p, MapSeq(paths, outcome), PlanFiles(p, outcome, paths))
    decreases |paths|
  {
    if paths == [] {
      assert MapSeq(paths, outcome) == [];
      RoutedNothing(p);
    } else {
      var o := outcome(paths[0]);
      var q := Record(p, o);
      var rest := MapSeq(paths[1..], outcome);
      assert MapSeq(paths, outcome) == [o] + rest;
      assert PlanFiles(p, outcome, paths) == PlanFiles(q, outcome, paths[1..]);
      PlanFilesRoutes(q, outcome, paths[1..]);
      RecordRoutes(p, o);
      RoutedFromTrans(p, [o], q, rest, PlanFiles(q, outcome, paths[1..]));
    }
  }

  /** `_plan_file_migration` for one type's rules, as the loop calls it. */
  function FilePlanner(ignores: seq<string>, rules: seq<Rule>, matches: Matcher): (r: string -> FileOutcome)
    ensures SoundPlanner(r)
    ensures forall path :: r(path) == PlanFile(ignores, rules, path, matches)
  {
    (path: string) => PlanFile(ignores, rules, path, matches)
  }

  /** How far the planning got: still going, or stopped by an exception with its text. */
  datatype Step = Continue(plan: Plan) | Abort(plan: Plan, message: string)

  /** The files of mapped types that a mapping without an ignore list cannot plan. */
  predicate NeedsIgnore(m: MappingConfig, files: Dict<string, seq<string>>) {
    exists i :: 0 <= i < |files| && files[i].0 in Keys(m.patterns) && files[i].1 != []
  }

  /** What a file type contributes to the four lists when planned: one entry per file, or one warning. */
  function Expected(m: MappingConfig, files: Dict<string, seq<string>>): nat
    decreases |files|
  {
    if files == [] then 0
    else (if files[0].0 in Keys(m.patterns) then |files[0].1| else 1) + Expected(m, files[1..])
  }

  /**
   * The file loop of `create_migration_plan`. A mapped type's files are
   * planned one by one; the first file of a mapped type raises `KeyError`
   * when the mapping has no ignore list. An unmapped type adds a warning.
   */
  function PlanTypes(m: MappingConfig, matches: Matcher, files: Dict<string, seq<string>>, p: Plan): (r: Step)
    ensures r.plan.creates == p.creates
    ensures r.Abort? <==> m.ignore.None? && NeedsIgnore(m, files)
    ensures r.Abort? ==> r.message == "'ignore'"
    ensures r.Continue? ==> Entries(r.plan) == Entries(p) + Expected(m, files)
    ensures |p.moves| <= |r.plan.moves| && r.plan.moves[..|p.moves|] == p.moves
    ensures forall k :: |p.moves| <= k < |r.plan.moves| ==> BraceFree(r.plan.moves[k].target)
    decreases |files|
  {
    if files == [] then Continue(p)
    else
      var (fileType, paths) := files[0];
      assert forall i :: 1 <= i < |files| ==> files[i] == files[1..][i - 1];
      if fileType in Keys(m.patterns) then
        if m.ignore.None? && paths != [] then Abort(p, "'ignore'")
        else
          var q := PlanFiles(p, FilePlanner(m.ignore.GetOr([]), Lookup(m.patterns, fileType).value, matches), paths);
          var r := PlanTypes(m, matches, files[1..], q);
          assert r.plan.moves[..|q.moves|] == q.moves;
          assert forall k :: |p.moves| <= k < |q.moves| ==> r.plan.moves[k] == q.moves[k];
          r
      else
        PlanTypes(m, matches, files[1..], p.(warnings := p.warnings + [NoRulesWarning(fileType)]))
  }

  function NoRulesWarning(fileType: string): string {
    "No mapping rules for file type: " + fileType
  }

  /**
   * The outcomes of the file loop stated type by type, without the plan: the
   * outcome of each file of a type with rules, and one warning for a type
   * without.
   */
  function TypeOutcomes(m: MappingConfig, matches: Matcher, files: Dict<string, seq<string>>): seq<FileOutcome>
    decreases |files|
  {
    if files == [] then []
    else
      var (fileType, paths) := files[0];
      var here := if fileType in Keys(m.patterns)
        then MapSeq(paths, FilePlanner(m.ignore.GetOr([]), Lookup(m.patterns, fileType).value, matches))
        else [Unmatched(NoRulesWarning(fileType))];
      here + TypeOutcomes(m, matches, files[1..])
  }

  /**
   * Which list each file lands in: when the loop finishes, every outcome of
   * `TypeOutcomes` has gone to its list, in order; when it stops for the
   * missing ignore list, no file has been planned and only type warnings
   * were added.
   */
  lemma {:induction false} PlanTypesRoutes(m: MappingConfig, matches: Matcher, files: Dict<string, seq<string>>, p: Plan)
    ensures var r := PlanTypes(m, matches, files, p);
      r.Continue? ==> RoutedFrom(p, TypeOutcomes(m, matches, files), r.plan)
    ensures var r := PlanTypes(m, matches, files, p);
      r.Abort? ==> r.plan.moves == p.moves && r.plan.ignores == p.ignores && r.plan.errors == p.errors &&
                   p.warnings <= r.plan.warnings
    decreases |files|
  {
    if files == [] {
      RoutedNothing(p);
    } else {
      var (fileType, paths) := files[0];
      var rest := files[1..];
      var later := TypeOutcomes(m, matches, rest);
      if fileType in Keys(m.patterns) {
        if !(m.ignore.None? && paths != []) {
          var f := FilePlanner(m.ignore.GetOr([]), Lookup(m.patterns, fileType).value, matches);
          var q := PlanFiles(p, f, paths);
          var r := PlanTypes(m, matches, rest, q);
          assert PlanTypes(m, matches, files, p) == r;
          assert TypeOutcomes(m, matches, files) == MapSeq(paths, f) + later;
          PlanFilesRoutes(p, f, paths);
          PlanTypesRoutes(m, matches, rest, q);
          if r.Continue? {
            RoutedFromTrans(p, MapSeq(paths, f), q, later, r.plan);
          } else {
            assert paths == [];
            assert q == p;
          }
        }
      } else {
        var w := Unmatched(NoRulesWarning(fileType));
        var q := p.(warnings := p.warnings + [NoRulesWarning(fileType)]);
        var r := PlanTypes(m, matches, rest, q);
        assert PlanTypes(m, matches, files, p) == r;
        assert TypeOutcomes(m, matches, files) == [w] + later;
        PlanTypesRoutes(m, matches, rest, q);
        if r.Continue? {
          RecordRoutes(p, w);
          RoutedFromTrans(p, [w], q, later, r.plan);
        } else {
          assert p.warnings <= q.warnings;
        }
      }
    }
  }

  // ---------------------------------------------------------------- plan checks

  function DuplicateMessage(target: string, first: string, second: string): string {
    "Duplicate target path " + target + " for files: " + first + " and " + second
  }

  /** The error for one move, given the latest earlier source with its target, if any. */
  function DuplicateAt(prev: Option<string>, mv: Move): seq<string> {
    match prev
    case Some(first) => [DuplicateMessage(mv.target, first, mv.source)]
    case None => []
  }

  /** The loop of `_validate_plan` over the moves, `seen` mapping each target to its latest source. */
  function DuplicateScan(moves: seq<Move>, seen: Dict<string, string>): seq<string>
    decreases |moves|
  {
    if moves == [] then []
    else
      var mv := moves[0];
      DuplicateAt(Lookup(seen, mv.target), mv) + DuplicateScan(moves[1..], Put(seen, mv.target, mv.source))
  }

  /** The (target, source) pairs of a list of moves. */
  function TargetPairs(moves: seq<Move>): (r: seq<(string, string)>)
    ensures |r| == |moves|
    ensures forall i :: 0 <= i < |moves| ==> r[i] == (moves[i].target, moves[i].source)
  {
    MapSeq(moves, (mv: Move) => (mv.target, mv.source))
  }

  /** The error `_validate_plan` reports for move `i`: the latest earlier source with the same target, if any. */
  function DuplicateOf(moves: seq<Move>, i: nat): seq<string>
    requires i < |moves|
  {
    DuplicateAt(LastValue(TargetPairs(moves[..i]), moves[i].target), moves[i])
  }

  /** The duplicate errors of the moves from index `k` on, stated move by move. */
  function DuplicatesFrom(moves: seq<Move>, k: nat): seq<string>
    requires k <= |moves|
    decreases |moves| - k
  {
    if k == |moves| then [] else DuplicateOf(moves, k) + DuplicatesFrom(moves, k + 1)
  }

  /** The duplicate errors of all the moves: each move whose target an earlier move has, once. */
  function Duplicates(moves: seq<Move>): seq<string> {
    DuplicatesFrom(moves, 0)
  }

  /** No earlier source is found for a target exactly when no earlier move has it. */
  lemma NoEarlierTarget(earlier: seq<Move>, target: string)
    ensures LastValue(TargetPairs(earlier), target).None? <==> forall j :: 0 <= j < |earlier| ==> earlier[j].target != target
  {
    assert forall j :: 0 <= j < |earlier| ==> Keys(TargetPairs(earlier))[j] == earlier[j].target;
  }

  /** Move `i` has no error exactly when no earlier move has its target. */
  lemma DuplicateOfNone(moves: seq<Move>, i: nat)
    requires i < |moves|
    ensures DuplicateOf(moves, i) == [] <==> forall j :: 0 <= j < i ==> moves[j].target != moves[i].target
  {
    NoEarlierTarget(moves[..i], moves[i].target);
    assert forall j :: 0 <= j < i ==> moves[..i][j] == moves[j];
  }

  /** No errors from index `k` on exactly when no move from there on repeats an earlier target. */
  lemma {:induction false} DuplicatesFromNone(moves: seq<Move>, k: nat)
    requires k <= |moves|
    ensures DuplicatesFrom(moves, k) == [] <==>
      forall i, j :: k <= i < |moves| && 0 <= j < i ==> moves[j].target != moves[i].target
    decreases |moves| - k
  {
    if k < |moves| {
      DuplicatesFromNone(moves, k + 1);
      DuplicateOfNone(moves, k);
    }
  }

  /** No duplicate errors exactly when the targets are distinct. */
  lemma DuplicatesNone(moves: seq<Move>)
    ensures Duplicates(moves) == [] <==> forall i, j :: 0 <= j < i < |moves| ==> moves[j].target != moves[i].target
  {
    DuplicatesFromNone(moves, 0);
  }

  /** Assigning one more move's target to the table of the moves before it. */
  lemma SeenStep(moves: seq<Move>, k: nat, seen: Dict<string, string>)
    requires k < |moves|
    requires seen == FromPairs(TargetPairs(moves[..k]))
    ensures Put(seen, moves[k].target, moves[k].source) == FromPairs(TargetPairs(moves[..k + 1]))
    ensures Lookup(seen, moves[k].target) == LastValue(TargetPairs(moves[..k]), moves[k].target)
  {
    TargetPairsSnoc(moves, k);
    FromPairsSnoc(TargetPairs(moves[..k]), (moves[k].target, moves[k].source));
  }

  /** The pairs of one more move. */
  lemma TargetPairsSnoc(moves: seq<Move>, k: nat)
    requires k < |moves|
    ensures TargetPairs(moves[..k + 1]) == TargetPairs(moves[..k]) + [(moves[k].target, moves[k].source)]
  {
    var a, b := TargetPairs(moves[..k + 1]), TargetPairs(moves[..k]) + [(moves[k].target, moves[k].source)];
    assert forall i :: 0 <= i < k + 1 ==> a[i] == b[i];
  }

  /** The loop from the table of the first `k` moves reports the move-by-move errors of the rest. */
  lemma {:induction false} DuplicateScanFrom(moves: seq<Move>, k: nat, seen: Dict<string, string>)
    requires k <= |moves|
    requires seen == FromPairs(TargetPairs(moves[..k]))
    ensures DuplicateScan(moves[k..], seen) == DuplicatesFrom(moves, k)
    decreases |moves| - k
  {
    if k < |moves| {
      SeenStep(moves, k, seen);
      DuplicateScanFrom(moves, k + 1, Put(seen, moves[k].target, moves[k].source));
      assert moves[k..][0] == moves[k];
      assert moves[k..][1..] == moves[k + 1..];
    }
  }

  /** The loop over the moves reports exactly the move-by-move duplicates. */
  lemma DuplicateScanMatches(moves: seq<Move>)
    ensures DuplicateScan(moves, []) == Duplicates(moves)
  {
    assert TargetPairs(moves[..0]) == [];
    DuplicateScanFrom(moves, 0, []);
    assert moves[0..] == moves;
  }

  /** A repeated target is always reported. */
  lemma RepeatedTargetReported(moves: seq<Move>, j: nat, i: nat)
    requires j < i < |moves| && moves[j].target == moves[i].target
    ensures DuplicateScan(moves, []) != []
  {
    DuplicateScanMatches(moves);
    DuplicatesNone(moves);
  }

  /** The required directories missing from the plan, each once. */
  function MissingDirs(required: seq<string>, creates: seq<string>): (r: seq<string>)
    ensures forall d :: d in r <==> d in required && d !in creates
    ensures NoDuplicates(r)
  {
    Dedup(Filter(required, (d: string) => d !in creates))
  }

  /** Python's rendering of a set of strings, in the order given. */
  function SetText(items: seq<string>): string {
    "{" + Join(MapSeq(items, (x: string) => "'" + x + "'"), ", ") + "}"
  }

  function MissingDirsErrors(required: seq<string>, creates: seq<string>): (r: seq<string>)
    ensures r == [] <==> forall d :: d in required ==> d in creates
  {
    var missing := MissingDirs(required, creates);
    if missing == [] then
      assert forall d :: d in required ==> d in creates by {
        forall d | d in required ensures d in creates { assert d !in missing; }
      }
      []
    else
      assert missing[0] in missing;
      ["Missing required directories: " + SetText(missing)]
  }

  /** The size warning for one file. */
  function SizeWarning(source: string, fileType: string, size: int, maxSize: int): string {
    "File " + source + " exceeds maximum size for " + fileType + ": " + IntToString(size) + " > " +
    IntToString(maxSize) + " bytes"
  }

  /** A move the file check for `fileType` looks at: its source's extension is the checked type. */
  predicate Checked(fileType: string, mv: Move) {
    Extension(mv.source) == fileType
  }

  /** The plan after a checked move of size `n`: warned about when the size is above the maximum. */
  function Warned(maxSize: int, warn: (Move, int) -> string, mv: Move, n: int, p: Plan): Plan {
    if n > maxSize then p.(warnings := p.warnings + [warn(mv, n)]) else p
  }

  /**
   * One file check over the moves: those `checked` selects (the moves whose
   * extension is the checked type) are looked up, a failing lookup raises,
   * and a size above the maximum adds the warning `warn` words.
   */
  function CheckMoves(maxSize: int, checked: Move -> bool, warn: (Move, int) -> string, moves: seq<Move>,
                      stat: string -> Stat, p: Plan): (r: Step)
    ensures r.plan.moves == p.moves && r.plan.creates == p.creates && r.plan.errors == p.errors
    ensures r.plan.ignores == p.ignores && p.warnings <= r.plan.warnings
    decreases |moves|
  {
    if moves == [] then Continue(p)
    else
      var mv := moves[0];
      if !checked(mv) then CheckMoves(maxSize, checked, warn, moves[1..], stat, p)
      else
        match stat(mv.source)
        case StatError(e) => Abort(p, e)
        case Size(n) => CheckMoves(maxSize, checked, warn, moves[1..], stat, Warned(maxSize, warn, mv, n, p))
  }

  /** The moves a file check warns about: checked, with a known size above the maximum. */
  predicate Oversized(maxSize: int, checked: Move -> bool, stat: string -> Stat, mv: Move) {
    checked(mv) && stat(mv.source).Size? && stat(mv.source).bytes > maxSize
  }

  /** The size a lookup found, or zero for a failed one. */
  function SizeOf(s: Stat): int {
    match s
    case Size(n) => n
    case StatError(_) => 0
  }

  /** The warnings of one file check, stated without the loop: one per oversized move, in order. */
  function SizeWarnings(maxSize: int, checked: Move -> bool, warn: (Move, int) -> string, moves: seq<Move>,
                        stat: string -> Stat): seq<string> {
    MapSeq(Filter(moves, (mv: Move) => Oversized(maxSize, checked, stat, mv)),
           (mv: Move) => warn(mv, SizeOf(stat(mv.source))))
  }

  /** The warnings of one move, as `SizeWarnings` counts them. */
  lemma SizeWarningsCons(maxSize: int, checked: Move -> bool, warn: (Move, int) -> string, mv: Move, rest: seq<Move>, stat: string -> Stat)
    ensures SizeWarnings(maxSize, checked, warn, [mv] + rest, stat) ==
      (if Oversized(maxSize, checked, stat, mv) then [warn(mv, SizeOf(stat(mv.source)))] else []) +
      SizeWarnings(maxSize, checked, warn, rest, stat)
  {
    var keep := (mv: Move) => Oversized(maxSize, checked, stat, mv);
    var warn := (mv: Move) => warn(mv, SizeOf(stat(mv.source)));
    FilterCons(mv, rest, keep);
    MapSeqAppend(if keep(mv) then [mv] else [], Filter(rest, keep), warn);
  }

  /** A file check aborts exactly when the size lookup of a checked move fails, with that lookup's message. */
  lemma {:induction false} CheckMovesAborts(maxSize: int, checked: Move -> bool, warn: (Move, int) -> string, moves: seq<Move>,
                                            stat: string -> Stat, p: Plan)
    ensures var r := CheckMoves(maxSize, checked, warn, moves, stat, p);
      && (r.Abort? <==> exists i :: 0 <= i < |moves| && checked(moves[i]) && stat(moves[i].source).StatError?)
      && (r.Abort? ==> exists i :: 0 <= i < |moves| && checked(moves[i]) && stat(moves[i].source) == StatError(r.message))
    decreases |moves|
  {
    if moves != [] {
      var mv := moves[0];
      assert forall i :: 1 <= i < |moves| ==> moves[i] == moves[1..][i - 1];
      if checked(mv) && stat(mv.source).Size? {
        CheckMovesAborts(maxSize, checked, warn, moves[1..], stat, Warned(maxSize, warn, mv, stat(mv.source).bytes, p));
      } else if !checked(mv) {
        CheckMovesAborts(maxSize, checked, warn, moves[1..], stat, p);
      }
    }
  }

  /** The step of `CheckMovesWarnings` for a checked move of known size. */
  lemma CheckedMoveWarnings(maxSize: int, checked: Move -> bool, warn: (Move, int) -> string, mv: Move, rest: seq<Move>,
                            stat: string -> Stat, p: Plan)
    requires checked(mv) && stat(mv.source).Size?
    requires var q := Warned(maxSize, warn, mv, stat(mv.source).bytes, p);
      CheckMoves(maxSize, checked, warn, rest, stat, q) ==
      Continue(q.(warnings := q.warnings + SizeWarnings(maxSize, checked, warn, rest, stat)))
    ensures CheckMoves(maxSize, checked, warn, [mv] + rest, stat, p) ==
      Continue(p.(warnings := p.warnings + SizeWarnings(maxSize, checked, warn, [mv] + rest, stat)))
  {
    var n := stat(mv.source).bytes;
    var q := Warned(maxSize, warn, mv, n, p);
    var w := if n > maxSize then [warn(mv, n)] else [];
    var tail := SizeWarnings(maxSize, checked, warn, rest, stat);
    CheckedMoveStep(maxSize, checked, warn, mv, rest, stat, p);
    SizeWarningsCons(maxSize, checked, warn, mv, rest, stat);
    if n > maxSize {
      assert q.warnings + tail == p.warnings + (w + tail);
    } else {
      assert w + tail == tail;
    }
    assert q.(warnings := q.warnings + tail) == p.(warnings := p.warnings + (w + tail));
  }

  /** A checked move of known size hands the rest of the loop the plan `Warned` gives. */
  lemma CheckedMoveStep(maxSize: int, checked: Move -> bool, warn: (Move, int) -> string, mv: Move, rest: seq<Move>,
                        stat: string -> Stat, p: Plan)
    requires checked(mv) && stat(mv.source).Size?
    ensures CheckMoves(maxSize, checked, warn, [mv] + rest, stat, p) ==
      CheckMoves(maxSize, checked, warn, rest, stat, Warned(maxSize, warn, mv, stat(mv.source).bytes, p))
  {
    assert ([mv] + rest)[1..] == rest;
  }

  /** The step of `CheckMovesWarnings` for a move the check skips. */
  lemma SkippedMoveWarnings(maxSize: int, checked: Move -> bool, warn: (Move, int) -> string, mv: Move, rest: seq<Move>,
                            stat: string -> Stat, p: Plan)
    requires !checked(mv)
    requires CheckMoves(maxSize, checked, warn, rest, stat, p) ==
      Continue(p.(warnings := p.warnings + SizeWarnings(maxSize, checked, warn, rest, stat)))
    ensures CheckMoves(maxSize, checked, warn, [mv] + rest, stat, p) ==
      Continue(p.(warnings := p.warnings + SizeWarnings(maxSize, checked, warn, [mv] + rest, stat)))
  {
    SizeWarningsCons(maxSize, checked, warn, mv, rest, stat);
    assert ([mv] + rest)[1..] == rest;
  }

  /** When every checked size is known, a file check adds exactly the warnings for the oversized moves. */
  lemma {:induction false} CheckMovesWarnings(maxSize: int, checked: Move -> bool, warn: (Move, int) -> string, moves: seq<Move>,
                                              stat: string -> Stat, p: Plan)
    requires forall i :: 0 <= i < |moves| && checked(moves[i]) ==> stat(moves[i].source).Size?
    ensures CheckMoves(maxSize, checked, warn, moves, stat, p) ==
      Continue(p.(warnings := p.warnings + SizeWarnings(maxSize, checked, warn, moves, stat)))
    decreases |moves|
  {
    if moves == [] {
      assert SizeWarnings(maxSize, checked, warn, moves, stat) == [];
    } else {
      var mv := moves[0];
      var rest := moves[1..];
      assert moves == [mv] + rest;
      assert forall i :: 0 <= i < |rest| ==> rest[i] == moves[i + 1];
      if checked(mv) {
        CheckMovesWarnings(maxSize, checked, warn, rest, stat, Warned(maxSize, warn, mv, stat(mv.source).bytes, p));
        CheckedMoveWarnings(maxSize, checked, warn, mv, rest, stat, p);
      } else {
        CheckMovesWarnings(maxSize, checked, warn, rest, stat, p);
        SkippedMoveWarnings(maxSize, checked, warn, mv, rest, stat, p);
      }
    }
  }

  /** `_validate_file_sizes`: checks whose maximum is missing or zero are skipped. */
  function CheckSizes(checks: seq<FileCheck>, stat: string -> Stat, p: Plan): (r: Step)
    ensures r.plan.moves == p.moves && r.plan.creates == p.creates && r.plan.errors == p.errors
    ensures r.plan.ignores == p.ignores && p.warnings <= r.plan.warnings
    ensures (forall i :: 0 <= i < |checks| ==> checks[i].maxSize.None? || checks[i].maxSize == Some(0)) ==> r == Continue(p)
    decreases |checks|
  {
    if checks == [] then Continue(p)
    else
      var c := checks[0];
      assert forall i :: 1 <= i < |checks| ==> checks[i] == checks[1..][i - 1];
      if c.maxSize.None? || c.maxSize.value == 0 then CheckSizes(checks[1..], stat, p)
      else
        var max := c.maxSize.value;
        match CheckMoves(max, CheckedBy(c.fileType), WarnFor(c.fileType, max), p.moves, stat, p)
        case Abort(q, e) => Abort(q, e)
        case Continue(q) => CheckSizes(checks[1..], stat, q)
  }

  /** The moves a file check for `fileType` looks at. */
  function CheckedBy(fileType: string): Move -> bool {
    (mv: Move) => Checked(fileType, mv)
  }

  /** The warning a file check for `fileType` with limit `maxSize` words. */
  function WarnFor(fileType: string, maxSize: int): (Move, int) -> string {
    (mv: Move, n: int) => SizeWarning(mv.source, fileType, n, maxSize)
  }

  /** A file check with a limit: one whose `max_size` is present and not zero. */
  predicate Limited(c: FileCheck) {
    c.maxSize.Some? && c.maxSize.value != 0
  }

  /** The size warnings of all checks, stated without the loops: check by check, one per oversized move. */
  function SizesWarnings(checks: seq<FileCheck>, moves: seq<Move>, stat: string -> Stat): seq<string>
    decreases |checks|
  {
    if checks == [] then []
    else
      var c := checks[0];
      (if Limited(c) then SizeWarnings(c.maxSize.value, CheckedBy(c.fileType), WarnFor(c.fileType, c.maxSize.value), moves, stat)
       else []) + SizesWarnings(checks[1..], moves, stat)
  }

  /** Some check with a limit looks up a move of its type whose size cannot be read. */
  predicate LookupFails(checks: seq<FileCheck>, moves: seq<Move>, stat: string -> Stat) {
    exists i, k :: 0 <= i < |checks| && 0 <= k < |moves| &&
      Limited(checks[i]) && Checked(checks[i].fileType, moves[k]) && stat(moves[k].source).StatError?
  }

  /**
   * Size validation stops exactly when a lookup fails, with that lookup's
   * message; otherwise it adds, check by check, one warning per oversized
   * move of the checked type.
   */
  lemma {:induction false} CheckSizesMeaning(checks: seq<FileCheck>, stat: string -> Stat, p: Plan)
    ensures SizesMeaning(checks, stat, p)
    decreases |checks|
  {
    if checks == [] {
      assert p.warnings + [] == p.warnings;
    } else {
      var c := checks[0];
      var rest := checks[1..];
      assert checks == [c] + rest;
      if !Limited(c) {
        CheckSizesMeaning(rest, stat, p);
        SkippedCheckStep(c, rest, stat, p);
      } else {
        var max := c.maxSize.value;
        var s := CheckMoves(max, CheckedBy(c.fileType), WarnFor(c.fileType, max), p.moves, stat, p);
        if s.Continue? {
          CheckSizesMeaning(rest, stat, s.plan);
        }
        LimitedCheckStep(c, rest, stat, p);
      }
    }
  }

  /** What `CheckSizesMeaning` states about the checks from plan `p`. */
  predicate SizesMeaning(checks: seq<FileCheck>, stat: string -> Stat, p: Plan) {
    var r := CheckSizes(checks, stat, p);
    && (r.Abort? <==> LookupFails(checks, p.moves, stat))
    && (r.Abort? ==> exists k :: 0 <= k < |p.moves| && stat(p.moves[k].source) == StatError(r.message))
    && (r.Continue? ==> r.plan.warnings == p.warnings + SizesWarnings(checks, p.moves, stat))
  }

  /** The step of `CheckSizesMeaning` for a first check without a limit. */
  lemma SkippedCheckStep(c: FileCheck, rest: seq<FileCheck>, stat: string -> Stat, p: Plan)
    requires !Limited(c) && SizesMeaning(rest, stat, p)
    ensures SizesMeaning([c] + rest, stat, p)
  {
    var checks := [c] + rest;
    assert checks[0] == c && checks[1..] == rest;
    LookupFailsCons(c, rest, p.moves, stat);
    assert CheckSizes(checks, stat, p) == CheckSizes(rest, stat, p);
    assert SizesWarnings(checks, p.moves, stat) == SizesWarnings(rest, p.moves, stat);
  }

  /** The step of `CheckSizesMeaning` for a first check with a limit. */
  lemma LimitedCheckStep(c: FileCheck, rest: seq<FileCheck>, stat: string -> Stat, p: Plan)
    requires Limited(c)
    requires var max := c.maxSize.value;
      var s := CheckMoves(max, CheckedBy(c.fileType), WarnFor(c.fileType, max), p.moves, stat, p);
      s.Continue? ==> SizesMeaning(rest, stat, s.plan)
    ensures SizesMeaning([c] + rest, stat, p)
  {
    var checks := [c] + rest;
    var max := c.maxSize.value;
    var s := CheckMoves(max, CheckedBy(c.fileType), WarnFor(c.fileType, max), p.moves, stat, p);
    var here := SizeWarnings(max, CheckedBy(c.fileType), WarnFor(c.fileType, max), p.moves, stat);
    LimitedUnfold(c, rest, stat, p);
    LimitedCheck(c, stat, p);
    LookupFailsCons(c, rest, p.moves, stat);
    if s.Abort? {
      assert CheckSizes(checks, stat, p) == s;
      assert LookupFails(checks, p.moves, stat);
    } else {
      var q := s.plan;
      var r := CheckSizes(rest, stat, q);
      assert CheckSizes(checks, stat, p) == r;
      assert q.moves == p.moves && q.warnings == p.warnings + here;
      assert r.Abort? <==> LookupFails(checks, p.moves, stat);
      if r.Continue? {
        Extended(p.warnings, here, q.warnings, SizesWarnings(rest, p.moves, stat), r.plan.warnings);
      }
    }
  }

  /** How the loop and the warnings unfold for a first check with a limit. */
  lemma LimitedUnfold(c: FileCheck, rest: seq<FileCheck>, stat: string -> Stat, p: Plan)
    requires Limited(c)
    ensures var max := c.maxSize.value;
      var s := CheckMoves(max, CheckedBy(c.fileType), WarnFor(c.fileType, max), p.moves, stat, p);
      && SizesWarnings([c] + rest, p.moves, stat) ==
           SizeWarnings(max, CheckedBy(c.fileType), WarnFor(c.fileType, max), p.moves, stat) + SizesWarnings(rest, p.moves, stat)
      && (s.Abort? ==> CheckSizes([c] + rest, stat, p) == s)
      && (s.Continue? ==> CheckSizes([c] + rest, stat, p) == CheckSizes(rest, stat, s.plan))
  {
    var checks := [c] + rest;
    assert checks[0] == c && checks[1..] == rest;
  }

  /** One check with a limit: it stops exactly on its own failing lookup, and otherwise adds its warnings. */
  lemma LimitedCheck(c: FileCheck, stat: string -> Stat, p: Plan)
    requires Limited(c)
    ensures var max := c.maxSize.value;
      var s := CheckMoves(max, CheckedBy(c.fileType), WarnFor(c.fileType, max), p.moves, stat, p);
      && (s.Abort? <==> FirstLookupFails(c, p.moves, stat))
      && (s.Abort? ==> exists k :: 0 <= k < |p.moves| && stat(p.moves[k].source) == StatError(s.message))
      && (s.Continue? ==> s.plan.moves == p.moves)
      && (s.Continue? ==>
            s.plan.warnings == p.warnings + SizeWarnings(max, CheckedBy(c.fileType), WarnFor(c.fileType, max), p.moves, stat))
  {
    var max := c.maxSize.value;
    var checked, warn := CheckedBy(c.fileType), WarnFor(c.fileType, max);
    CheckMovesAborts(max, checked, warn, p.moves, stat, p);
    if !FirstLookupFails(c, p.moves, stat) {
      assert forall k :: 0 <= k < |p.moves| && checked(p.moves[k]) ==> stat(p.moves[k].source).Size?;
      CheckMovesWarnings(max, checked, warn, p.moves, stat, p);
    }
  }

  /** The first check's own lookups: some move of its type has a size that cannot be read. */
  predicate FirstLookupFails(c: FileCheck, moves: seq<Move>, stat: string -> Stat) {
    exists k :: 0 <= k < |moves| && Checked(c.fileType, moves[k]) && stat(moves[k].source).StatError?
  }

  /** A lookup fails for a list of checks exactly when it fails for the first or for the rest. */
  lemma LookupFailsCons(c: FileCheck, rest: seq<FileCheck>, moves: seq<Move>, stat: string -> Stat)
    ensures LookupFails([c] + rest, moves, stat) <==>
      (Limited(c) && FirstLookupFails(c, moves, stat)) || LookupFails(rest, moves, stat)
  {
    var checks := [c] + rest;
    assert forall i :: 1 <= i < |checks| ==> checks[i] == rest[i - 1];
    if LookupFails(checks, moves, stat) {
      var i, k :| 0 <= i < |checks| && 0 <= k < |moves| &&
        Limited(checks[i]) && Checked(checks[i].fileType, moves[k]) && stat(moves[k].source).StatError?;
      if i > 0 {
        assert rest[i - 1] == checks[i];
      }
    }
    if LookupFails(rest, moves, stat) {
      var i, k :| 0 <= i < |rest| && 0 <= k < |moves| &&
        Limited(rest[i]) && Checked(rest[i].fileType, moves[k]) && stat(moves[k].source).StatError?;
      assert checks[i + 1] == rest[i];
    }
    if Limited(c) && FirstLookupFails(c, moves, stat) {
      var k :| 0 <= k < |moves| && Checked(c.fileType, moves[k]) && stat(moves[k].source).StatError?;
      assert checks[0] == c;
    }
  }


  /**
   * `_validate_plan`: duplicate targets, then the required directories (a
   * `KeyError` when the mapping lists none), then the file sizes.
   */
  function ValidatePlan(m: MappingConfig, stat: string -> Stat, p: Plan): (r: Step)
    ensures r.plan.moves == p.moves && r.plan.creates == p.creates
    ensures r.plan.ignores == p.ignores && p.warnings <= r.plan.warnings
    ensures |r.plan.errors| >= |p.errors| + |DuplicateScan(p.moves, [])|
    ensures r.plan.errors[..|p.errors|] == p.errors
    ensures m.requiredDirs.None? ==> r.Abort? && r.message == "'required_dirs'"
    ensures m.requiredDirs.None? ==> r.plan.errors == p.errors + Duplicates(p.moves) && r.plan.warnings == p.warnings
    ensures m.requiredDirs.Some? ==>
      r.plan.errors == p.errors + Duplicates(p.moves) + MissingDirsErrors(m.requiredDirs.value, p.creates)
    ensures m.requiredDirs.Some? ==> (r.Abort? <==> LookupFails(m.fileChecks, p.moves, stat))
    ensures m.requiredDirs.Some? && r.Abort? ==>
      exists k :: 0 <= k < |p.moves| && stat(p.moves[k].source) == StatError(r.message)
    ensures m.requiredDirs.Some? && r.Continue? ==> r.plan.warnings == p.warnings + SizesWarnings(m.fileChecks, p.moves, stat)
  {
    DuplicateScanMatches(p.moves);
    var p1 := p.(errors := p.errors + DuplicateScan(p.moves, []));
    if m.requiredDirs.None? then Abort(p1, "'required_dirs'")
    else
      var p2 := p1.(errors := p1.errors + MissingDirsErrors(m.requiredDirs.value, p1.creates));
      assert p2.errors[..|p.errors|] == p.errors;
      CheckSizesMeaning(m.fileChecks, stat, p2);
      assert SizesMeaning(m.fileChecks, stat, p2);
      CheckSizes(m.fileChecks, stat, p2)
  }

  /**
   * The plan handed back: the work done before an exception is kept, and the
   * exception's text becomes the last error.
   */
  function Finish(s: Step): (r: Plan)
    ensures r.moves == s.plan.moves && r.creates == s.plan.creates
    ensures r.ignores == s.plan.ignores && r.warnings == s.plan.warnings
    ensures s.plan.errors <= r.errors && |r.errors| <= |s.plan.errors| + 1
    ensures s.Abort? <==> |r.errors| == |s.plan.errors| + 1
    ensures s.Abort? ==> r.errors[|s.plan.errors|] == s.message
  {
    match s
    case Continue(p) => p
    case Abort(p, e) => p.(errors := p.errors + [e])
  }

  // ---------------------------------------------------------------- the plan

  /** `create_migration_plan`: the `ValueError` when no mapping is loaded, otherwise the plan. */
  function CreateMigrationPlan(config: Option<MappingConfig>, files: Dict<string, seq<string>>,
                               matches: Matcher, stat: string -> Stat): (r: Result<Plan>)
    ensures r.Failure? <==> config.None?
    ensures r.Failure? ==> r.error == "No mapping configuration loaded"
    ensures r.Success? ==> r.value.creates == PlanDirectories(config.value)
    ensures r.Success? ==> forall mv :: mv in r.value.moves ==> BraceFree(mv.target)
    ensures r.Success? && config.value.ignore.None? && NeedsIgnore(config.value, files) ==>
      r.value.errors != [] && r.value.errors[|r.value.errors| - 1] == "'ignore'"
  {
    if config.None? then Failure("No mapping configuration loaded")
    else
      var m := config.value;
      var start := Plan([], PlanDirectories(m), [], [], []);
      match PlanTypes(m, matches, files, start)
      case Abort(p, e) => Success(Finish(Abort(p, e)))
      case Continue(p) => Success(Finish(ValidatePlan(m, stat, p)))
  }

  /**
   * The lists of the plan `create_migration_plan` returns, stated without the
   * loops. A missing ignore list stops the file loop before any file is
   * planned. Otherwise the moves, the ignores and the file errors and warnings
   * are what the outcomes of `TypeOutcomes` route to each list, in order;
   * validation then adds one error per repeated target and the size warnings,
   * or stops at the first lookup that fails, with its message last.
   */
  lemma PlanLists(m: MappingConfig, files: Dict<string, seq<string>>, matches: Matcher, stat: string -> Stat)
    ensures var r := CreateMigrationPlan(Some(m), files, matches, stat).value;
      m.ignore.None? && NeedsIgnore(m, files) ==> r.moves == [] && r.ignores == [] && r.errors == ["'ignore'"]
    ensures var r := CreateMigrationPlan(Some(m), files, matches, stat).value;
      var os := TypeOutcomes(m, matches, files);
      !(m.ignore.None? && NeedsIgnore(m, files)) ==>
        && r.moves == Routed(os, MoveOf)
        && r.ignores == Routed(os, IgnoreOf)
        && (m.requiredDirs.None? ==>
              r.errors == Routed(os, ErrorOf) + Duplicates(r.moves) + ["'required_dirs'"] &&
              r.warnings == Routed(os, WarningOf))
        && (m.requiredDirs.Some? && !LookupFails(m.fileChecks, r.moves, stat) ==>
              r.errors == Routed(os, ErrorOf) + Duplicates(r.moves) &&
              r.warnings == Routed(os, WarningOf) + SizesWarnings(m.fileChecks, r.moves, stat))
        && (m.requiredDirs.Some? && LookupFails(m.fileChecks, r.moves, stat) ==>
              r.errors == Routed(os, ErrorOf) + Duplicates(r.moves) + [r.errors[|r.errors| - 1]] &&
              exists k :: 0 <= k < |r.moves| && stat(r.moves[k].source) == StatError(r.errors[|r.errors| - 1]))
  {
    var start := Plan([], PlanDirectories(m), [], [], []);
    var s := PlanTypes(m, matches, files, start);
    PlanTypesRoutes(m, matches, files, start);
    if s.Continue? {
      var os := TypeOutcomes(m, matches, files);
      var q := s.plan;
      assert q.moves == Routed(os, MoveOf) && q.ignores == Routed(os, IgnoreOf);
      assert q.errors == Routed(os, ErrorOf) && q.warnings == Routed(os, WarningOf);
      assert q.creates == PlanDirectories(m);
      var v := ValidatePlan(m, stat, q);
      assert CreateMigrationPlan(Some(m), files, matches, stat).value == Finish(v);
      if m.requiredDirs.Some? {
        assert MissingDirsErrors(m.requiredDirs.value, q.creates) == [];
        assert v.plan.errors == q.errors + Duplicates(q.moves);
      }
    }
  }

  /** The missing-directories error never fires: directory planning copies every required directory in. */
  lemma RequiredDirsAlwaysPlanned(config: Option<MappingConfig>, files: Dict<string, seq<string>>,
                                  matches: Matcher, stat: string -> Stat)
    requires config.Some? && config.value.requiredDirs.Some?
    ensures var r := CreateMigrationPlan(config, files, matches, stat);
      r.Success? && MissingDirsErrors(config.value.requiredDirs.value, r.value.creates) == []
  {
  }

  /** Two moves to one target always leave the plan with errors. */
  lemma DuplicateTargetsMakeErrors(config: Option<MappingConfig>, files: Dict<string, seq<string>>,
                                   matches: Matcher, stat: string -> Stat, j: nat, i: nat)
    requires config.Some?
    requires var r := CreateMigrationPlan(config, files, matches, stat);
      j < i < |r.value.moves| && r.value.moves[j].target == r.value.moves[i].target
    ensures CreateMigrationPlan(config, files, matches, stat).value.errors != []
  {
    var m := config.value;
    var start := Plan([], PlanDirectories(m), [], [], []);
    var s := PlanTypes(m, matches, files, start);
    if s.Continue? {
      RepeatedTargetReported(s.plan.moves, j, i);
    }
  }

  // ---------------------------------------------------------------- summary

  datatype PlanSummary = PlanSummary(
    totalMoves: nat,
    totalCreates: nat,
    totalIgnores: nat,
    totalWarnings: nat,
    totalErrors: nat,
    hasErrors: bool)

  /** `get_plan_summary`: None while no plan exists. */
  function Summarize(current: Option<Plan>): (r: Option<PlanSummary>)
    ensures r.None? <==> current.None?
    ensures r.Some? ==> var p := current.value; var s := r.value;
      s.totalMoves == |p.moves| && s.totalCreates == |p.creates| && s.totalIgnores == |p.ignores| &&
      s.totalWarnings == |p.warnings| && s.totalErrors == |p.errors| && (s.hasErrors <==> p.errors != [])
  {
    match current
    case None => None
    case Some(p) => Some(PlanSummary(|p.moves|, |p.creates|, |p.ignores|, |p.warnings|, |p.errors|, |p.errors| > 0))
  }

  /** `current_plan` after a planning call: unchanged when the call raised before building a plan. */
  function AfterPlanning(current: Option<Plan>, config: Option<MappingConfig>, files: Dict<string, seq<string>>,
                         matches: Matcher, stat: string -> Stat): (r: Option<Plan>)
    ensures config.None? ==> r == current
    ensures config.Some? ==> r.Some?
  {
    match CreateMigrationPlan(config, files, matches, stat)
    case Success(p) => Some(p)
    case Failure(_) => current
  }

  /**
   * Every file of a mapped type lands in exactly one of the four lists, and
   * every unmapped type adds one warning, before the plan checks add more.
   */
  lemma PlanAccountsForEveryFile(m: MappingConfig, files: Dict<string, seq<string>>, matches: Matcher)
    requires m.ignore.Some?
    ensures var s := PlanTypes(m, matches, files, Plan([], PlanDirectories(m), [], [], []));
      s.Continue? && Entries(s.plan) == Expected(m, files)
  {
  }
}

=== FILE: pyseq.dfy ===
/**
 * Python sequence slicing, `s[i:j]`: a negative bound counts from the end,
 * and both bounds are clamped into the sequence, so slicing never fails.
 */
module PySeq {
  /** A slice bound resolved against a sequence of length `len`. */
  function Bound(i: int, len: nat): (b: nat)
    ensures b <= len
    ensures 0 <= i <= len ==> b == i
    ensures i > len ==> b == len
    ensures i < 0 && len + i >= 0 ==> b == len + i
    ensures len + i < 0 ==> b == 0
  {
    if i < 0 then (if len + i < 0 then 0 else len + i)
    else if i > len then len
    else i
  }

  /** `s[i:j]`. */
  function Slice<T>(s: seq<T>, i: int, j: int): (r: seq<T>)
    ensures var a, b := Bound(i, |s|), Bound(j, |s|);
      |r| == (if a <= b then b - a else 0) &&
      forall k :: 0 <= k < |r| ==> r[k] == s[a + k]
  {
    var a, b := Bound(i, |s|), Bound(j, |s|);
    if a <= b then s[a..b] else []
  }

  /** `s[i:]`. */
  function From<T>(s: seq<T>, i: int): (r: seq<T>)
    ensures |r| == |s| - Bound(i, |s|)
    ensures forall k :: 0 <= k < |r| ==> r[k] == s[Bound(i, |s|) + k]
  {
    Slice(s, i, |s|)
  }

  /** `zip(a, b)`: pairs up to the shorter length. */
  function Zip<A, B>(a: seq<A>, b: seq<B>): (r: seq<(A, B)>)
    ensures |r| == if |a| <= |b| then |a| else |b|
    ensures forall k :: 0 <= k < |r| ==> r[k] == (a[k], b[k])
  {
    var n := if |a| <= |b| then |a| else |b|;
    seq(n, k requires 0 <= k < n => (a[k], b[k]))
  }
}

=== FILE: scanner.dfy ===
/**
 * The bookkeeping of `ProjectScanner.scan_directory` (core/scanner.py): the
 * classification of a file by its name and suffix, the fold over the entries
 * `rglob` yields (directory count, file count, counts per type and per size
 * bucket, the file lists per type), and the choice of the last successful
 * analysis of each kind over the Python files.
 */
module Scanner {
  import opened Wrappers
  import opened Strings
  import opened OrderedMap
  import opened Paths
  import Syntax
  import ClassStructure
  import Config
  import Complexity

  // ---------------------------------------------------------------- classification

  /** The six file types, in the order of the `files` map. */
  const FileTypes: seq<string> := ["python", "config", "docs", "git", "compiled", "other"]

  const ConfigSuffixes: seq<string> := [".yml", ".yaml", ".json", ".cfg", ".conf"]
  const DocSuffixes: seq<string> := [".md", ".txt", ".rst"]
  const CompiledSuffixes: seq<string> := [".pyc", ".pyo"]

  /** Suffixes an earlier rule of `_classify_file` claims before the `.git` name test. */
  const NamedSuffixes: seq<string> := [".py"] + ConfigSuffixes + DocSuffixes

  /**
   * `_classify_file`: by the lower-cased suffix and name, the first matching
   * rule winning. Each type is given exactly by its own test and the failure
   * of every earlier one.
   */
  function Classify(path: string): (r: string)
    ensures r in FileTypes
    ensures r == "python" <==> Lower(Suffix(path)) == ".py"
    ensures r == "config" <==> Lower(Suffix(path)) in ConfigSuffixes
    ensures r == "docs" <==> Lower(Suffix(path)) in DocSuffixes
    ensures r == "git" <==> Lower(Suffix(path)) !in NamedSuffixes && StartsWith(Lower(Name(path)), ".git")
    ensures r == "compiled" <==>
      Lower(Suffix(path)) !in NamedSuffixes && !StartsWith(Lower(Name(path)), ".git") &&
      (Lower(Suffix(path)) in CompiledSuffixes || Contains(path, "__pycache__"))
    ensures r == "other" <==>
      Lower(Suffix(path)) !in NamedSuffixes + CompiledSuffixes && !StartsWith(Lower(Name(path)), ".git") &&
      !Contains(path, "__pycache__")
  {
    var name := Lower(Name(path));
    var suffix := Lower(Suffix(path));
    if suffix == ".py" then "python"
    else if suffix in ConfigSuffixes then "config"
    else if suffix in DocSuffixes then "docs"
    else if StartsWith(name, ".git") then "git"
    else if suffix in CompiledSuffixes || Contains(path, "__pycache__") then "compiled"
    else "other"
  }

  /** A dot-free stem followed by a dot and two more characters has that three-character suffix. */
  lemma SuffixOfExtension(dir: string, stem: string, ext: string)
    requires '/' !in stem && '.' !in stem && stem != ""
    requires |ext| == 3 && ext[0] == '.' && ext[1] != '.' && ext[2] != '.' && ext[1] != '/' && ext[2] != '/'
    ensures Suffix(dir + "/" + (stem + ext)) == ext
  {
    var file := stem + ext;
    assert '/' !in file by {
      assert forall i :: 0 <= i < |file| ==> file[i] == (if i < |stem| then stem[i] else ext[i - |stem|]);
    }
    NameOfJoin(dir, file);
    LastDotOfExtension(stem, ext);
    assert file[|stem|..] == ext;
  }

  lemma LastDotOfExtension(stem: string, ext: string)
    requires |ext| == 3 && ext[0] == '.' && ext[1] != '.' && ext[2] != '.'
    ensures LastDot(stem + ext) == |stem|
  {
    var file := stem + ext;
    var a := stem + ext[..2];
    var b := stem + ext[..1];
    assert file[|file| - 1] == ext[2] && file[..|file| - 1] == a;
    assert a[|a| - 1] == ext[1] && a[..|a| - 1] == b;
    assert b[|b| - 1] == '.';
  }

  /** Text that contains `p` still does after more text is appended. */
  lemma ContainsExtended(s: string, p: string, t: string)
    requires Contains(s, p)
    ensures Contains(s + t, p)
  {
    var i :| 0 <= i <= |s| - |p| && OccursAt(s, p, i);
    assert (s + t)[i..i + |p|] == s[i..i + |p|];
    assert OccursAt(s + t, p, i);
  }

  /** Text that ends in `p` contains it. */
  lemma ContainsAtEnd(a: string, p: string)
    ensures Contains(a + p, p)
  {
    assert (a + p)[|a|..|a| + |p|] == p;
    assert OccursAt(a + p, p, |a|);
  }

  /** An extension that lower-cases to `.py`. */
  predicate PyExtension(ext: string) {
    |ext| == 3 && ext[0] == '.' && LowerChar(ext[1]) == 'p' && LowerChar(ext[2]) == 'y'
  }

  lemma LowerPyExtension(ext: string)
    requires PyExtension(ext)
    ensures Lower(ext) == ".py"
  {
    var l := Lower(ext);
    assert l[0] == '.' && l[1] == 'p' && l[2] == 'y';
  }

  /**
   * Case is ignored and the suffix rules come first: a `.py` file inside a
   * `__pycache__` directory is classified as Python, whatever the case of its
   * extension.
   */
  lemma PythonInsidePycache(dir: string, stem: string, ext: string)
    requires '/' !in stem && '.' !in stem && stem != ""
    requires PyExtension(ext)
    ensures Contains(dir + "/" + "__pycache__" + "/" + (stem + ext), "__pycache__")
    ensures Classify(dir + "/" + "__pycache__" + "/" + (stem + ext)) == "python"
  {
    var base := dir + "/" + "__pycache__";
    assert ext[1] != '.' && ext[2] != '.' && ext[1] != '/' && ext[2] != '/';
    SuffixOfExtension(base, stem, ext);
    LowerPyExtension(ext);
    ContainsAtEnd(dir + "/", "__pycache__");
    ContainsExtended(base, "__pycache__", "/");
    ContainsExtended(base + "/", "__pycache__", stem + ext);
  }

  /** A compiled extension, or a `__pycache__` path, makes a file compiled unless an earlier rule applies. */
  lemma CompiledByPath(path: string)
    requires Contains(path, "__pycache__")
    requires Lower(Suffix(path)) !in [".py"] + ConfigSuffixes + DocSuffixes
    requires !StartsWith(Lower(Name(path)), ".git")
    ensures Classify(path) == "compiled"
  {
  }

  // ---------------------------------------------------------------- the fold

  /** What `rglob` yields, relative to the project directory: a directory, a file with its `stat` size, or neither. */
  datatype Kind = Directory | File(size: Result<nat>) | Neither
  datatype Entry = Entry(relative: string, kind: Kind)

  datatype ProjectStats = ProjectStats(totalDirs: int, totalFiles: int, byType: Dict<string, int>, bySize: Dict<string, int>)
  datatype ProjectFile = ProjectFile(path: string, size: int, fileType: string)

  /** The statistics and the file lists as the loop builds them. */
  datatype Tally = Tally(stats: ProjectStats, files: Dict<string, seq<ProjectFile>>)

  const SizeBuckets: seq<string> := ["small", "medium", "large"]
  const NoStats := ProjectStats(0, 0, [], [("small", 0), ("medium", 0), ("large", 0)])
  const NoFiles: Dict<string, seq<ProjectFile>> :=
    [("python", []), ("config", []), ("docs", []), ("git", []), ("compiled", []), ("other", [])]

  /** `project_path / item`. */
  function FullPath(root: string, relative: string): string {
    root + "/" + relative
  }

  /** Under 10 KB small, under 100 KB medium, else large. */
  function SizeBucket(size: int): (r: string)
    ensures r in SizeBuckets
    ensures r == "small" <==> size < 10240
    ensures r == "large" <==> size >= 102400
  {
    if size < 10240 then "small" else if size < 102400 then "medium" else "large"
  }

  /** The text of a `KeyError` for a missing key. */
  function KeyError(key: string): string {
    "'" + key + "'"
  }

  /** One file: counted, by type and by size bucket, and appended to the list of its type. */
  function AddFile(t: Tally, relative: string, size: nat, fileType: string): Result<Tally> {
    if SizeBucket(size) !in Keys(t.stats.bySize) then Failure(KeyError(SizeBucket(size)))
    else if fileType !in Keys(t.files) then Failure(KeyError(fileType))
    else Success(Tally(CountFile(t.stats, size, fileType), FileInto(t.files, fileType, ProjectFile(relative, size, fileType))))
  }

  /**
   * The counters after one more file of the given size and type. The bucket
   * is present, so `by_size[bucket] += 1` is the same bump as the one of
   * `by_type`, which starts a missing type at zero.
   */
  function CountFile(s: ProjectStats, size: nat, fileType: string): ProjectStats
    requires SizeBucket(size) in Keys(s.bySize)
  {
    ProjectStats(s.totalDirs, s.totalFiles + 1, Bump(s.byType, fileType), Bump(s.bySize, SizeBucket(size)))
  }

  /** `files[fileType].append(f)`. */
  function FileInto(files: Dict<string, seq<ProjectFile>>, fileType: string, f: ProjectFile): Dict<string, seq<ProjectFile>>
    requires fileType in Keys(files)
  {
    Put(files, fileType, Lookup(files, fileType).value + [f])
  }

  lemma FileIntoLookup(files: Dict<string, seq<ProjectFile>>, fileType: string, f: ProjectFile, k: string)
    requires fileType in Keys(files)
    ensures Lookup(FileInto(files, fileType, f), k) ==
      if k == fileType then Some(Lookup(files, k).value + [f]) else Lookup(files, k)
  {
  }

  /** The entry is skipped as part of the utility directory. */
  predicate Skipped(root: string, skip: string -> bool, e: Entry) {
    skip(FullPath(root, e.relative))
  }

  /** One entry of the loop; a failing `stat` raises. */
  function Visit(t: Tally, root: string, e: Entry, skip: string -> bool, classify: string -> string): Result<Tally> {
    var full := FullPath(root, e.relative);
    if skip(full) then Success(t)
    else match e.kind
      case Directory =>
        if Name(full) == "__pycache__" then Success(t)
        else Success(t.(stats := t.stats.(totalDirs := t.stats.totalDirs + 1)))
      case File(size) =>
        if size.Failure? then Failure(size.error) else AddFile(t, e.relative, size.value, classify(full))
      case Neither => Success(t)
  }

  /** The loop of `scan_directory` over the entries, with the classifier it calls. */
  function ScanWith(root: string, entries: seq<Entry>, skip: string -> bool, classify: string -> string): Result<Tally> {
    if entries == [] then Success(Tally(NoStats, NoFiles))
    else
      var n := |entries| - 1;
      match ScanWith(root, entries[..n], skip, classify)
      case Failure(e) => Failure(e)
      case Success(t) => Visit(t, root, entries[n], skip, classify)
  }

  // ---------------------------------------------------------------- what the fold keeps

  /** The classifier only ever answers one of the six types. */
  ghost predicate ClassifiesIntoTypes(classify: string -> string) {
    forall p :: classify(p) in FileTypes
  }

  /**
   * The keys of the maps never change, the bucket counts and the type counts
   * each add up to the number of files, the count of a type is the length of
   * its list, and every listed file carries the type it is listed under.
   */
  predicate Tallied(t: Tally) {
    Counted(t) && Listed(t)
  }

  /** The bucket counts and the type counts each add up to the number of files. */
  predicate Counted(t: Tally) {
    && Keys(t.stats.bySize) == SizeBuckets
    && ValueSum(t.stats.bySize) == t.stats.totalFiles
    && ValueSum(t.stats.byType) == t.stats.totalFiles
  }

  /** The count of a type is the length of its list, and every listed file carries the type it is listed under. */
  predicate Listed(t: Tally) {
    && Keys(t.files) == FileTypes
    && GroupSizes(t.files) == t.stats.totalFiles
    && (forall k :: k in FileTypes ==> Lookup(t.stats.byType, k).GetOr(0) == |Lookup(t.files, k).value|)
    && (forall k, f :: k in FileTypes && f in Lookup(t.files, k).value ==> f.fileType == k)
  }

  lemma NothingTallied()
    ensures Tallied(Tally(NoStats, NoFiles))
  {
    var files := NoFiles;
    assert Keys(files) == FileTypes;
    assert Keys(NoStats.bySize) == SizeBuckets;
    assert ValueSum(NoStats.bySize) == 0 by {
      assert NoStats.bySize[1..][1..][1..] == [];
    }
    assert GroupSizes(files) == 0 by {
      assert files[1..][1..][1..][1..][1..][1..] == [];
    }
    forall k | k in FileTypes ensures Lookup(files, k) == Some([]) {
    }
  }

  /** One more file adds one to the total, to the count of its type and to the count of its bucket. */
  lemma CountFileSums(s: ProjectStats, size: nat, fileType: string)
    requires SizeBucket(size) in Keys(s.bySize)
    ensures ValueSum(CountFile(s, size, fileType).byType) == ValueSum(s.byType) + 1
    ensures ValueSum(CountFile(s, size, fileType).bySize) == ValueSum(s.bySize) + 1
    ensures Keys(CountFile(s, size, fileType).bySize) == Keys(s.bySize)
  {
    BumpSum(s.byType, fileType);
    BumpSum(s.bySize, SizeBucket(size));
    BumpKeys(s.bySize, SizeBucket(size));
  }

  /** The counters of one more file. */
  lemma AddFileCounts(t: Tally, relative: string, size: nat, fileType: string)
    requires Counted(t) && Keys(t.files) == FileTypes && fileType in FileTypes
    ensures AddFile(t, relative, size, fileType).Success?
    ensures var r := AddFile(t, relative, size, fileType).value;
      Counted(r) && r.stats.totalDirs == t.stats.totalDirs && r.stats.totalFiles == t.stats.totalFiles + 1
  {
    assert SizeBucket(size) in Keys(t.stats.bySize);
    CountFileSums(t.stats, size, fileType);
  }

  /** The lists of one more file. */
  lemma AddFileLists(t: Tally, relative: string, size: nat, fileType: string)
    requires Tallied(t) && fileType in FileTypes
    ensures AddFile(t, relative, size, fileType).Success?
    ensures Tallied(AddFile(t, relative, size, fileType).value)
  {
    AddFileCounts(t, relative, size, fileType);
    var r := AddFile(t, relative, size, fileType).value;
    var before := Lookup(t.files, fileType).value;
    var item := ProjectFile(relative, size, fileType);
    assert r.files == Put(t.files, fileType, before + [item]);
    GroupSizesPut(t.files, fileType, before, before + [item]);
    forall k | k in FileTypes
      ensures Lookup(r.stats.byType, k).GetOr(0) == |Lookup(r.files, k).value|
    {
    }
    forall k, f | k in FileTypes && f in Lookup(r.files, k).value ensures f.fileType == k {
      if k == fileType && f !in before {
        assert f == item;
      }
    }
  }

  /** A file whose `stat` fails, outside the utility directory. */
  predicate StatFails(root: string, skip: string -> bool, e: Entry) {
    !Skipped(root, skip, e) && e.kind.File? && e.kind.size.Failure?
  }

  /** A directory the loop counts. */
  predicate CountedDir(root: string, skip: string -> bool, e: Entry) {
    !Skipped(root, skip, e) && e.kind.Directory? && Name(FullPath(root, e.relative)) != "__pycache__"
  }

  /** A file the loop counts. */
  predicate CountedFile(root: string, skip: string -> bool, e: Entry) {
    !Skipped(root, skip, e) && e.kind.File?
  }

  /** The counted files of `entries` that the classifier puts in `fileType`, in order, as the loop records them. */
  function FilesOfType(root: string, entries: seq<Entry>, skip: string -> bool, classify: string -> string,
                       fileType: string): seq<ProjectFile> {
    if entries == [] then []
    else
      var n := |entries| - 1;
      FilesOfType(root, entries[..n], skip, classify, fileType) + Recorded(root, entries[n], skip, classify, fileType)
  }

  /** A failing `stat` ends the loop with a failure. */
  lemma {:induction false} ScanFailsOnStat(root: string, entries: seq<Entry>, skip: string -> bool, classify: string -> string, i: nat)
    requires i < |entries| && StatFails(root, skip, entries[i])
    ensures ScanWith(root, entries, skip, classify).Failure?
  {
    var n := |entries| - 1;
    if i < n {
      assert entries[..n][i] == entries[i];
      ScanFailsOnStat(root, entries[..n], skip, classify, i);
    }
  }

  /** One visit keeps the tally consistent, and fails only on the entry's own failing `stat`. */
  lemma VisitKeeps(t: Tally, root: string, e: Entry, skip: string -> bool, classify: string -> string)
    requires Tallied(t) && ClassifiesIntoTypes(classify)
    ensures Visit(t, root, e, skip, classify).Failure? ==> StatFails(root, skip, e)
    ensures Visit(t, root, e, skip, classify).Success? ==> Tallied(Visit(t, root, e, skip, classify).value)
  {
    if !Skipped(root, skip, e) && e.kind.File? && e.kind.size.Success? {
      AddFileLists(t, e.relative, e.kind.size.value, classify(FullPath(root, e.relative)));
    }
  }

  /**
   * With a classifier that answers one of the six types, the loop fails only
   * when some counted file's `stat` fails, and otherwise keeps the bookkeeping
   * consistent.
   */
  lemma {:induction false} ScanKeeps(root: string, entries: seq<Entry>, skip: string -> bool, classify: string -> string)
    requires ClassifiesIntoTypes(classify)
    ensures ScanWith(root, entries, skip, classify).Failure? ==>
      exists i :: 0 <= i < |entries| && StatFails(root, skip, entries[i])
    ensures ScanWith(root, entries, skip, classify).Success? ==> Tallied(ScanWith(root, entries, skip, classify).value)
  {
    if entries == [] {
      NothingTallied();
    } else {
      var n := |entries| - 1;
      var init := entries[..n];
      var e := entries[n];
      ScanKeeps(root, init, skip, classify);
      match ScanWith(root, init, skip, classify)
      case Failure(_) =>
        var i :| 0 <= i < n && StatFails(root, skip, init[i]);
        assert entries[i] == init[i];
      case Success(t) =>
        VisitKeeps(t, root, e, skip, classify);
    }
  }

  /** With a classifier that answers one of the six types, the loop fails exactly when some counted file's `stat` fails. */
  lemma ScanFails(root: string, entries: seq<Entry>, skip: string -> bool, classify: string -> string)
    requires ClassifiesIntoTypes(classify)
    ensures ScanWith(root, entries, skip, classify).Failure? <==>
      exists i :: 0 <= i < |entries| && StatFails(root, skip, entries[i])
  {
    ScanKeeps(root, entries, skip, classify);
    if exists i :: 0 <= i < |entries| && StatFails(root, skip, entries[i]) {
      var i :| 0 <= i < |entries| && StatFails(root, skip, entries[i]);
      ScanFailsOnStat(root, entries, skip, classify, i);
    }
  }

  /** On success the totals count exactly the counted entries. */
  lemma {:induction false} ScanCounts(root: string, entries: seq<Entry>, skip: string -> bool, classify: string -> string)
    ensures var r := ScanWith(root, entries, skip, classify);
      r.Success? ==>
        && r.value.stats.totalFiles == |Filter(entries, e => CountedFile(root, skip, e))|
        && r.value.stats.totalDirs == |Filter(entries, e => CountedDir(root, skip, e))|
  {
    if entries != [] {
      var n := |entries| - 1;
      ScanCounts(root, entries[..n], skip, classify);
    }
  }

  /** The file one entry adds to the list of `fileType`, if any. */
  function Recorded(root: string, e: Entry, skip: string -> bool, classify: string -> string, fileType: string): seq<ProjectFile> {
    if CountedFile(root, skip, e) && e.kind.size.Success? && classify(FullPath(root, e.relative)) == fileType
    then [ProjectFile(e.relative, e.kind.size.value, fileType)] else []
  }

  /** One entry extends the list of `fileType` by the file it records there. */
  lemma VisitLists(t: Tally, root: string, e: Entry, skip: string -> bool, classify: string -> string, fileType: string)
    requires Lookup(t.files, fileType).Some?
    ensures var r := Visit(t, root, e, skip, classify);
      r.Success? ==> Lookup(r.value.files, fileType) == Some(Lookup(t.files, fileType).value + Recorded(root, e, skip, classify, fileType))
  {
    var before := Lookup(t.files, fileType).value;
    if CountedFile(root, skip, e) && e.kind.size.Success? {
      var ty := classify(FullPath(root, e.relative));
      var r := AddFile(t, e.relative, e.kind.size.value, ty);
      assert Visit(t, root, e, skip, classify) == r;
      if r.Success? {
        FileIntoLookup(t.files, ty, ProjectFile(e.relative, e.kind.size.value, ty), fileType);
        if ty != fileType {
          AppendNothing(before);
        }
      }
    } else {
      AppendNothing(before);
    }
  }

  /** On success the list of each type holds exactly the counted files classified as that type, in order. */
  lemma {:induction false} ScanLists(root: string, entries: seq<Entry>, skip: string -> bool, classify: string -> string,
                                     fileType: string)
    requires fileType in FileTypes
    ensures var r := ScanWith(root, entries, skip, classify);
      r.Success? ==> Lookup(r.value.files, fileType) == Some(FilesOfType(root, entries, skip, classify, fileType))
  {
    if entries == [] {
      assert Lookup(NoFiles, fileType) == Some([]);
    } else {
      var n := |entries| - 1;
      ScanLists(root, entries[..n], skip, classify, fileType);
      match ScanWith(root, entries[..n], skip, classify)
      case Failure(_) =>
      case Success(t) =>
        VisitLists(t, root, entries[n], skip, classify, fileType);
    }
  }

  // ---------------------------------------------------------------- the analyses

  /**
   * The last element of `xs` that passes `ok`, if any: what a slot holds
   * after a loop that overwrites it on every success.
   */
  function LastSuccessful<A>(xs: seq<A>, ok: A -> bool): Option<A> {
    if xs == [] then None
    else if ok(xs[|xs| - 1]) then Some(xs[|xs| - 1])
    else LastSuccessful(xs[..|xs| - 1], ok)
  }

  /** There is a last success exactly when some element succeeds, and then no later element does. */
  lemma {:induction false} LastSuccessfulMeaning<A>(xs: seq<A>, ok: A -> bool)
    ensures LastSuccessful(xs, ok).Some? <==> exists i :: 0 <= i < |xs| && ok(xs[i])
    ensures LastSuccessful(xs, ok).Some? ==>
      exists i :: 0 <= i < |xs| && xs[i] == LastSuccessful(xs, ok).value && ok(xs[i]) &&
        forall j :: i < j < |xs| ==> !ok(xs[j])
  {
    if xs != [] {
      var n := |xs| - 1;
      var init := xs[..n];
      LastSuccessfulMeaning(init, ok);
      if !ok(xs[n]) {
        if exists i :: 0 <= i < |xs| && ok(xs[i]) {
          var i :| 0 <= i < |xs| && ok(xs[i]);
          assert i < n && init[i] == xs[i];
        }
        if LastSuccessful(init, ok).Some? {
          var i :| 0 <= i < n && init[i] == LastSuccessful(init, ok).value && ok(init[i]) &&
            forall j :: i < j < n ==> !ok(init[j]);
          assert forall j :: i < j < n ==> init[j] == xs[j];
          assert xs[i] == init[i];
        }
      }
    }
  }

  /** What the analyzers of one kind answer for the Python files, in order; the tree of a file is what `parse` gives for its path. */
  function Runs<A>(root: string, files: seq<ProjectFile>, parse: string -> Option<Syntax.Node>,
                   analyze: (string, Option<Syntax.Node>) -> A): (r: seq<A>)
    ensures |r| == |files|
  {
    if files == [] then []
    else
      var n := |files| - 1;
      var path := FullPath(root, files[n].path);
      Runs(root, files[..n], parse, analyze) + [analyze(path, parse(path))]
  }

  predicate ClassOk(a: ClassStructure.ClassAnalysis) { a.success }
  predicate ConfigOk(a: Config.ConfigAnalysis) { a.success }
  predicate ComplexityOk(a: Complexity.ComplexityAnalysis) { a.success }

  /** The three slots of `analyses`. */
  datatype Analyses = Analyses(
    classes: Option<ClassStructure.ClassAnalysis>,
    config: Option<Config.ConfigAnalysis>,
    complexity: Option<Complexity.ComplexityAnalysis>)

  /** The slot after one more analysis: replaced on success, kept otherwise. */
  function Keep<A>(slot: Option<A>, a: A, ok: A -> bool): Option<A> {
    if ok(a) then Some(a) else slot
  }

  /** The loop over the Python files: each file goes through the three analyzers in turn. */
  function AnalyzePython(root: string, files: seq<ProjectFile>, parse: string -> Option<Syntax.Node>): Analyses {
    if files == [] then Analyses(None, None, None)
    else
      var n := |files| - 1;
      var prev := AnalyzePython(root, files[..n], parse);
      var path := FullPath(root, files[n].path);
      var tree := parse(path);
      Analyses(
        Keep(prev.classes, ClassStructure.AnalyzeFile(path, tree), ClassOk),
        Keep(prev.config, Config.AnalyzeFile(path, tree), ConfigOk),
        Keep(prev.complexity, Complexity.AnalyzeFile(path, tree), ComplexityOk))
  }

  /** The last run of `xs + [x]` that succeeds. */
  lemma LastSuccessfulSnoc<A>(xs: seq<A>, x: A, ok: A -> bool, slot: Option<A>)
    requires slot == LastSuccessful(xs, ok)
    ensures LastSuccessful(xs + [x], ok) == Keep(slot, x, ok)
  {
    assert (xs + [x])[..|xs|] == xs;
  }

  /** Each slot holds the last successful analysis of its kind, over the Python files in order. */
  lemma {:induction false} AnalyzePythonLast(root: string, files: seq<ProjectFile>, parse: string -> Option<Syntax.Node>)
    ensures AnalyzePython(root, files, parse).classes == LastSuccessful(Runs(root, files, parse, ClassStructure.AnalyzeFile), ClassOk)
    ensures AnalyzePython(root, files, parse).config == LastSuccessful(Runs(root, files, parse, Config.AnalyzeFile), ConfigOk)
    ensures AnalyzePython(root, files, parse).complexity == LastSuccessful(Runs(root, files, parse, Complexity.AnalyzeFile), ComplexityOk)
  {
    if files != [] {
      var n := |files| - 1;
      var prev := AnalyzePython(root, files[..n], parse);
      var path := FullPath(root, files[n].path);
      AnalyzePythonLast(root, files[..n], parse);
      LastSuccessfulSnoc(Runs(root, files[..n], parse, ClassStructure.AnalyzeFile),
        ClassStructure.AnalyzeFile(path, parse(path)), ClassOk, prev.classes);
      LastSuccessfulSnoc(Runs(root, files[..n], parse, Config.AnalyzeFile),
        Config.AnalyzeFile(path, parse(path)), ConfigOk, prev.config);
      LastSuccessfulSnoc(Runs(root, files[..n], parse, Complexity.AnalyzeFile),
        Complexity.AnalyzeFile(path, parse(path)), ComplexityOk, prev.complexity);
    }
  }

  // ---------------------------------------------------------------- scan_directory

  datatype ProjectAnalysis = ProjectAnalysis(
    path: string,
    stats: ProjectStats,
    files: Dict<string, seq<ProjectFile>>,
    classAnalysis: Option<ClassStructure.ClassAnalysis>,
    configAnalysis: Option<Config.ConfigAnalysis>,
    complexityAnalysis: Option<Complexity.ComplexityAnalysis>,
    success: bool,
    errorMessage: Option<string>)

  /**
   * `scan_directory`: the loop over the entries of `base_dir/dir_name`, then
   * the analyses of the Python files; an exception on the way gives the empty
   * shape with the error text.
   */
  function ScanDirectory(baseDir: string, dirName: string, entries: seq<Entry>, skip: string -> bool,
                         parse: string -> Option<Syntax.Node>): ProjectAnalysis {
    var root := FullPath(baseDir, dirName);
    match ScanWith(root, entries, skip, Classify)
    case Failure(e) => ProjectAnalysis(root, NoStats, NoFiles, None, None, None, false, Some(e))
    case Success(t) =>
      var a := AnalyzePython(root, Lookup(t.files, "python").GetOr([]), parse);
      ProjectAnalysis(root, t.stats, t.files, a.classes, a.config, a.complexity, true, None)
  }

  lemma ClassifyIntoTypes()
    ensures ClassifiesIntoTypes(Classify)
  {
    forall p ensures Classify(p) in FileTypes {
    }
  }

  /** The scan fails exactly when a counted file's `stat` fails, and then reports the empty shape and the error. */
  lemma ScanDirectoryFails(baseDir: string, dirName: string, entries: seq<Entry>, skip: string -> bool,
                           parse: string -> Option<Syntax.Node>)
    ensures var r := ScanDirectory(baseDir, dirName, entries, skip, parse);
      && (!r.success <==> exists i :: 0 <= i < |entries| && StatFails(FullPath(baseDir, dirName), skip, entries[i]))
      && (!r.success ==>
            && r.stats == NoStats && r.files == NoFiles && r.errorMessage.Some?
            && r.classAnalysis.None? && r.configAnalysis.None? && r.complexityAnalysis.None?)
      && (r.success ==> r.errorMessage.None?)
  {
    ClassifyIntoTypes();
    ScanFails(FullPath(baseDir, dirName), entries, skip, Classify);
  }

  /**
   * On success the statistics and lists are consistent and count exactly the
   * counted entries, and each analysis is the last successful one of its kind
   * over the Python files in the order they were met.
   */
  lemma ScanDirectorySucceeds(baseDir: string, dirName: string, entries: seq<Entry>, skip: string -> bool,
                              parse: string -> Option<Syntax.Node>)
    ensures var r := ScanDirectory(baseDir, dirName, entries, skip, parse);
      var root := FullPath(baseDir, dirName);
      var python := FilesOfType(root, entries, skip, Classify, "python");
      r.success ==>
        && Tallied(Tally(r.stats, r.files))
        && r.stats.totalFiles == |Filter(entries, e => CountedFile(root, skip, e))|
        && r.stats.totalDirs == |Filter(entries, e => CountedDir(root, skip, e))|
        && (forall ty :: ty in FileTypes ==> Lookup(r.files, ty) == Some(FilesOfType(root, entries, skip, Classify, ty)))
        && r.classAnalysis == LastSuccessful(Runs(root, python, parse, ClassStructure.AnalyzeFile), ClassOk)
        && r.configAnalysis == LastSuccessful(Runs(root, python, parse, Config.AnalyzeFile), ConfigOk)
        && r.complexityAnalysis == LastSuccessful(Runs(root, python, parse, Complexity.AnalyzeFile), ComplexityOk)
  {
    var root := FullPath(baseDir, dirName);
    ClassifyIntoTypes();
    ScanKeeps(root, entries, skip, Classify);
    ScanCounts(root, entries, skip, Classify);
    forall ty | ty in FileTypes
      ensures var s := ScanWith(root, entries, skip, Classify);
        s.Success? ==> Lookup(s.value.files, ty) == Some(FilesOfType(root, entries, skip, Classify, ty))
    {
      ScanLists(root, entries, skip, Classify, ty);
    }
    var python := FilesOfType(root, entries, skip, Classify, "python");
    AnalyzePythonLast(root, python, parse);
  }
}

=== FILE: sorting.dfy ===
/**
 * Python's `sorted` on lists of strings: code-point lexicographic order, and an
 * insertion sort proved to return a sorted permutation of its input.
 */
module Sorting {

  /** `a <= b` on Python strings: lexicographic by code point. */
  predicate StrLe(a: string, b: string) {
    if a == [] then true
    else if b == [] then false
    else if a[0] != b[0] then a[0] < b[0]
    else StrLe(a[1..], b[1..])
  }

  lemma {:induction false} StrLeTotal(a: string, b: string)
    ensures StrLe(a, b) || StrLe(b, a)
  {
    if a != [] && b != [] && a[0] == b[0] {
      StrLeTotal(a[1..], b[1..]);
    }
  }

  lemma {:induction false} StrLeTrans(a: string, b: string, c: string)
    requires StrLe(a, b) && StrLe(b, c)
    ensures StrLe(a, c)
  {
    if a != [] && b != [] && c != [] && a[0] == b[0] && b[0] == c[0] {
      StrLeTrans(a[1..], b[1..], c[1..]);
    }
  }

  lemma {:induction false} StrLeAntisym(a: string, b: string)
    requires StrLe(a, b) && StrLe(b, a)
    ensures a == b
  {
    if a != [] && b != [] {
      StrLeAntisym(a[1..], b[1..]);
      assert a == [a[0]] + a[1..];
      assert b == [b[0]] + b[1..];
    }
  }

  predicate Sorted(s: seq<string>) {
    forall i, j :: 0 <= i < j < |s| ==> StrLe(s[i], s[j])
  }

  /** A list is sorted when its tail is and its head is no greater than any element of the tail. */
  lemma ConsSorted(h: string, t: seq<string>)
    requires Sorted(t) && forall j :: 0 <= j < |t| ==> StrLe(h, t[j])
    ensures Sorted([h] + t)
  {
  }

  /** What the head of a sorted list exceeds no element exceeds. */
  lemma HeadIsLeast(x: string, s: seq<string>)
    requires Sorted(s) && s != [] && StrLe(x, s[0])
    ensures forall j :: 0 <= j < |s| ==> StrLe(x, s[j])
  {
    forall j | 0 <= j < |s| ensures StrLe(x, s[j]) {
      if j > 0 { StrLeTrans(x, s[0], s[j]); }
    }
  }

  /** Inserting into the tail an `x` the head does not exceed keeps the head least. */
  lemma HeadBelowInsert(x: string, s: seq<string>, t: seq<string>)
    requires Sorted(s) && s != [] && StrLe(s[0], x)
    requires multiset(t) == multiset(s[1..]) + multiset{x}
    ensures forall j :: 0 <= j < |t| ==> StrLe(s[0], t[j])
  {
    forall j | 0 <= j < |t| ensures StrLe(s[0], t[j]) {
      var y := t[j];
      assert y in multiset(t);
      if y != x {
        assert y in multiset(s[1..]);
        var k :| 0 <= k < |s[1..]| && s[1..][k] == y;
        assert s[k + 1] == y;
      }
    }
  }

  /** Inserts `x` into a sorted list before the first element it does not exceed. */
  function Insert(x: string, s: seq<string>): (r: seq<string>)
    requires Sorted(s)
    ensures Sorted(r)
    ensures multiset(r) == multiset(s) + multiset{x}
  {
    if s == [] then [x]
    else if StrLe(x, s[0]) then
      HeadIsLeast(x, s);
      ConsSorted(x, s);
      [x] + s
    else
      StrLeTotal(x, s[0]);
      var t := Insert(x, s[1..]);
      assert s == [s[0]] + s[1..];
      HeadBelowInsert(x, s, t);
      ConsSorted(s[0], t);
      [s[0]] + t
  }

  /** Python's `sorted(xs)` for a list of strings. */
  function Sort(s: seq<string>): (r: seq<string>)
    ensures Sorted(r)
    ensures multiset(r) == multiset(s)
  {
    if s == [] then []
    else
      assert s == [s[0]] + s[1..];
      Insert(s[0], Sort(s[1..]))
  }
}

=== FILE: strings.dfy ===
/**
 * String helpers with the meaning Python gives them: prefix and suffix tests,
 * substring membership (`p in s`), ASCII case mapping, `sep.join`, `str.split`
 * on one character, and decimal rendering of integers.
 */
module Strings {

  predicate StartsWith(s: string, p: string) {
    |p| <= |s| && s[..|p|] == p
  }

  predicate EndsWith(s: string, p: string) {
    |p| <= |s| && s[|s| - |p|..] == p
  }

  /** `p` occurs in `s` starting at index `i`. */
  predicate OccursAt(s: string, p: string, i: int) {
    0 <= i <= |s| - |p| && s[i..i + |p|] == p
  }

  /** Python's `p in s` for two strings. */
  predicate Contains(s: string, p: string) {
    exists i :: 0 <= i <= |s| - |p| && OccursAt(s, p, i)
  }

  /** Python's `c in s` for one character. */
  predicate HasChar(s: string, c: char) {
    c in s
  }

  lemma ContainsPrefix(s: string, p: string)
    requires StartsWith(s, p)
    ensures Contains(s, p)
  {
    assert OccursAt(s, p, 0);
  }

  /** Contains of a single-character string is character membership. */
  lemma ContainsChar(s: string, c: char)
    ensures Contains(s, [c]) <==> c in s
  {
    if c in s {
      var i :| 0 <= i < |s| && s[i] == c;
      assert s[i..i + 1] == [c];
      assert OccursAt(s, [c], i);
    }
    if Contains(s, [c]) {
      var i :| 0 <= i <= |s| - 1 && OccursAt(s, [c], i);
      assert s[i..i + 1][0] == c;
    }
  }

  predicate IsAsciiLower(c: char) { 'a' <= c <= 'z' }
  predicate IsAsciiUpper(c: char) { 'A' <= c <= 'Z' }
  predicate IsAsciiLetter(c: char) { IsAsciiLower(c) || IsAsciiUpper(c) }

  function UpperChar(c: char): (r: char)
    ensures IsAsciiLower(c) ==> IsAsciiUpper(r) && r as int == c as int - 32
    ensures !IsAsciiLower(c) ==> r == c
  {
    if IsAsciiLower(c) then (c as int - 32) as char else c
  }

  function LowerChar(c: char): (r: char)
    ensures IsAsciiUpper(c) ==> IsAsciiLower(r) && r as int == c as int + 32
    ensures !IsAsciiUpper(c) ==> r == c
  {
    if IsAsciiUpper(c) then (c as int + 32) as char else c
  }

  /** Python's `str.upper()` restricted to ASCII letters. */
  function Upper(s: string): (r: string)
    ensures |r| == |s|
    ensures forall i :: 0 <= i < |s| ==> r[i] == UpperChar(s[i])
  {
    seq(|s|, i requires 0 <= i < |s| => UpperChar(s[i]))
  }

  /** Python's `str.lower()` restricted to ASCII letters. */
  function Lower(s: string): (r: string)
    ensures |r| == |s|
    ensures forall i :: 0 <= i < |s| ==> r[i] == LowerChar(s[i])
  {
    seq(|s|, i requires 0 <= i < |s| => LowerChar(s[i]))
  }

  /** Python's `str.isupper()` for ASCII text: some cased character, none lower-case. */
  predicate IsUpperText(s: string) {
    (exists i :: 0 <= i < |s| && IsAsciiUpper(s[i])) &&
    (forall i :: 0 <= i < |s| ==> !IsAsciiLower(s[i]))
  }

  /** Upper-casing never leaves a lower-case letter behind. */
  lemma UpperHasNoLower(s: string)
    ensures forall i :: 0 <= i < |Upper(s)| ==> !IsAsciiLower(Upper(s)[i])
  {
  }

  /** `sep.join(parts)`. */
  function Join(parts: seq<string>, sep: string): (r: string)
    ensures parts == [] ==> r == ""
    ensures |parts| == 1 ==> r == parts[0]
  {
    if parts == [] then ""
    else if |parts| == 1 then parts[0]
    else parts[0] + sep + Join(parts[1..], sep)
  }

  /** Appending one more part to a join. */
  lemma {:induction false} JoinSnoc(parts: seq<string>, sep: string, x: string)
    requires |parts| >= 1
    ensures Join(parts + [x], sep) == Join(parts, sep) + sep + x
    decreases |parts|
  {
    if |parts| > 1 {
      assert (parts + [x])[1..] == parts[1..] + [x];
      JoinSnoc(parts[1..], sep, x);
    } else {
      assert (parts + [x])[1..] == [x];
    }
  }

  /** Python's `s.split(c)`: the pieces between occurrences of `c`. */
  function Split(s: string, c: char): (r: seq<string>)
    ensures |r| >= 1
    ensures forall k :: 0 <= k < |r| ==> c !in r[k]
    decreases |s|
  {
    if c !in s then [s]
    else
      var i := IndexOf(s, c);
      [s[..i]] + Split(s[i + 1..], c)
  }

  /** Index of the first occurrence of `c` in `s` (Python's `s.find(c)` when present). */
  function IndexOf(s: string, c: char): (i: nat)
    requires c in s
    ensures i < |s| && s[i] == c && c !in s[..i]
  {
    if s[0] == c then 0 else
      assert c in s[1..] by { var k :| 0 <= k < |s| && s[k] == c; assert s[1..][k - 1] == c; }
      var j := IndexOf(s[1..], c);
      assert s[..j + 1] == [s[0]] + s[1..][..j];
      j + 1
  }

  lemma IndexOfAfterPrefix(a: string, b: string, c: char)
    requires c !in a && c in b
    ensures c in a + b && IndexOf(a + b, c) == |a| + IndexOf(b, c)
    decreases |a|
  {
    var j := IndexOf(b, c);
    assert (a + b)[|a| + j] == c;
    if a != [] {
      assert (a + b)[1..] == a[1..] + b;
      assert a[0] != c;
      IndexOfAfterPrefix(a[1..], b, c);
    }
  }

  /** Splitting text that starts with a piece free of `c` and then `c`. */
  lemma SplitAfterPiece(a: string, b: string, c: char)
    requires c !in a
    ensures Split(a + [c] + b, c) == [a] + Split(b, c)
  {
    var s := a + [c] + b;
    assert s == a + ([c] + b);
    IndexOfAfterPrefix(a, [c] + b, c);
    assert IndexOf(s, c) == |a|;
    assert s[..|a|] == a;
    assert s[|a| + 1..] == b;
  }

  /** Joining pieces free of `c` with `c` and splitting again gives the pieces back. */
  lemma {:induction false} SplitJoin(parts: seq<string>, c: char)
    requires |parts| >= 1
    requires forall k :: 0 <= k < |parts| ==> c !in parts[k]
    ensures Split(Join(parts, [c]), c) == parts
    decreases |parts|
  {
    if |parts| > 1 {
      var rest := Join(parts[1..], [c]);
      assert Join(parts, [c]) == parts[0] + [c] + rest;
      SplitAfterPiece(parts[0], rest, c);
      SplitJoin(parts[1..], c);
      assert parts == [parts[0]] + parts[1..];
    }
  }

  /** Splitting and joining again gives the text back. */
  lemma {:induction false} JoinSplit(s: string, c: char)
    ensures Join(Split(s, c), [c]) == s
    decreases |s|
  {
    if c in s {
      var i := IndexOf(s, c);
      var tail := Split(s[i + 1..], c);
      JoinSplit(s[i + 1..], c);
      assert Split(s, c) == [s[..i]] + tail;
      assert ([s[..i]] + tail)[1..] == tail;
      assert s == s[..i] + [c] + s[i + 1..];
    }
  }

  /** The first occurrence of `c` does not move when text is appended. */
  lemma {:induction false} IndexOfInPrefix(a: string, t: string, c: char)
    requires c in a
    ensures c in a + t && IndexOf(a + t, c) == IndexOf(a, c)
    decreases |a|
  {
    assert (a + t)[IndexOf(a, c)] == c;
    if a[0] != c {
      assert c in a[1..] by { var k :| 0 <= k < |a| && a[k] == c; assert a[1..][k - 1] == c; }
      assert (a + t)[1..] == a[1..] + t;
      IndexOfInPrefix(a[1..], t, c);
    }
  }

  /** Splitting text that ends with `c` and then a piece free of `c`. */
  lemma {:induction false} SplitAppendPiece(a: string, b: string, c: char)
    requires c !in b
    ensures Split(a + [c] + b, c) == Split(a, c) + [b]
    decreases |a|
  {
    var s := a + [c] + b;
    if c !in a {
      SplitAfterPiece(a, b, c);
    } else {
      var j := IndexOf(a, c);
      IndexOfInPrefix(a, [c] + b, c);
      assert s == a + ([c] + b);
      assert s[..j] == a[..j];
      assert s[j + 1..] == a[j + 1..] + [c] + b;
      SplitAppendPiece(a[j + 1..], b, c);
    }
  }

  /** Python's `s.replace(p, v)`: every occurrence of `p`, left to right and not overlapping, becomes `v`. */
  function ReplaceAll(s: string, p: string, v: string): string
    requires |p| > 0
    decreases |s|
  {
    if |s| < |p| then s
    else if s[..|p|] == p then v + ReplaceAll(s[|p|..], p, v)
    else [s[0]] + ReplaceAll(s[1..], p, v)
  }

  /** Replacing text that does not occur changes nothing. */
  lemma {:induction false} ReplaceAbsent(s: string, p: string, v: string)
    requires |p| > 0 && !Contains(s, p)
    ensures ReplaceAll(s, p, v) == s
    decreases |s|
  {
    if |s| >= |p| {
      assert !OccursAt(s, p, 0);
      assert !Contains(s[1..], p) by {
        if Contains(s[1..], p) {
          var i :| 0 <= i <= |s[1..]| - |p| && OccursAt(s[1..], p, i);
          assert s[i + 1..i + 1 + |p|] == s[1..][i..i + |p|];
          assert OccursAt(s, p, i + 1);
        }
      }
      ReplaceAbsent(s[1..], p, v);
      assert s == [s[0]] + s[1..];
    }
  }

  /** Text before the first possible start of `p` is copied unchanged. */
  lemma {:induction false} ReplaceSkipsPrefix(a: string, x: string, p: string, v: string)
    requires |p| > 0 && p[0] !in a
    ensures ReplaceAll(a + x, p, v) == a + ReplaceAll(x, p, v)
    decreases |a|
  {
    if a != [] {
      var s := a + x;
      if |s| >= |p| {
        assert s[..|p|][0] == a[0] != p[0];
        assert s[..|p|] != p;
        assert s[0] == a[0] && s[1..] == a[1..] + x;
        assert ReplaceAll(s, p, v) == [a[0]] + ReplaceAll(a[1..] + x, p, v);
        ReplaceSkipsPrefix(a[1..], x, p, v);
        assert a == [a[0]] + a[1..];
      } else {
        assert ReplaceAll(x, p, v) == x;
      }
    } else {
      assert a + x == x;
    }
  }

  /** The text with every trailing `c` removed: Python's `s.rstrip(c)`. */
  function RStrip(s: string, c: char): (r: string)
    ensures |r| <= |s| && r == s[..|r|]
    ensures r == [] || r[|r| - 1] != c
    ensures forall k :: |r| <= k < |s| ==> s[k] == c
  {
    if s != [] && s[|s| - 1] == c then RStrip(s[..|s| - 1], c) else s
  }

  /** `s * n` for a string. */
  function Repeat(s: string, n: nat): (r: string)
    ensures |r| == n * |s|
  {
    if n == 0 then "" else s + Repeat(s, n - 1)
  }

  function DigitChar(d: nat): char
    requires d < 10
  {
    "0123456789"[d]
  }

  function NatToString(n: nat): (r: string)
    ensures |r| >= 1
    ensures forall k :: 0 <= k < |r| ==> '0' <= r[k] <= '9'
  {
    if n < 10 then [DigitChar(n)] else NatToString(n / 10) + [DigitChar(n % 10)]
  }

  /** Python's `str(i)` for an integer. */
  function IntToString(i: int): (r: string)
    ensures |r| >= 1
    ensures i < 0 <==> r[0] == '-'
  {
    if i < 0 then "-" + NatToString(-i) else NatToString(i)
  }
}

=== FILE: syntax.dfy ===
/**
 * The Python syntax tree the analyzers read, as an inductive datatype, with
 * `ast.iter_child_nodes` (Children) and `ast.walk` (Walk, breadth-first).
 *
 * Wrapper nodes that no analysis ever counts are flattened away: the
 * `arguments` and `arg` nodes of a function (their defaults and annotations
 * become direct children), `alias` nodes of imports, and the `ctx` nodes of
 * names. A `**m` entry of a dict display, whose key Python stores as None, has
 * an empty `Other` node as its key.
 */
module Syntax {
  import opened Wrappers

  datatype Ctx = Load | Store | Del

  /** `import name as asname`. */
  datatype Alias = Alias(name: string, asname: Option<string>)

  /** The `lineno`/`end_lineno` attributes; NoSpan when the node has none. */
  datatype Span = NoSpan | At(lineno: int, endLineno: Option<int>)

  datatype Const =
    | IntConst(i: int)
    | FloatConst(r: real)
    | StrConst(s: string)
    | BoolConst(b: bool)
    | NoneConst
    | ImagConst(im: real)   // an imaginary literal such as `2j`
    | OtherConst            // bytes, Ellipsis

  datatype Node =
    | Module(body: seq<Node>)
    | ClassDef(name: string, bases: seq<Node>, keywords: seq<Node>, body: seq<Node>,
               decorators: seq<Node>, span: Span)
    | FunctionDef(name: string, params: seq<string>, defaults: seq<Node>, annotations: seq<Node>,
                  body: seq<Node>, decorators: seq<Node>, span: Span)
    | Assign(targets: seq<Node>, value: Node, span: Span)
    | Expr(value: Node)
    | Name(id: string, ctx: Ctx)
    | Attribute(value: Node, attr: string)
    | If(test: Node, body: seq<Node>, orelse: seq<Node>)
    | While(test: Node, body: seq<Node>, orelse: seq<Node>)
    | For(target: Node, iter: Node, body: seq<Node>, orelse: seq<Node>)
    | Try(body: seq<Node>, handlers: seq<Node>, orelse: seq<Node>, finalbody: seq<Node>)
    | ExceptHandler(exctype: seq<Node>, body: seq<Node>)
    | BoolOp(first: Node, second: Node, rest: seq<Node>)
    | Return(result: seq<Node>)
    | Import(names: seq<Alias>)
    | ImportFrom(fromModule: Option<string>, names: seq<Alias>)
    | Constant(c: Const)
    | ListLit(elts: seq<Node>)
    | DictLit(keys: seq<Node>, vals: seq<Node>)
    | Other(children: seq<Node>)   // every other statement or expression kind
  {
    /** The operands of a BoolOp: Python's `values`, never fewer than two. */
    function Values(): (vs: seq<Node>)
      requires BoolOp?
      ensures |vs| >= 2
    {
      [first, second] + rest
    }
  }

  /** Number of nodes in a tree. */
  function Size(n: Node): (k: nat)
    ensures k >= 1
  {
    match n
    case Module(body) => 1 + SizeSeq(body)
    case ClassDef(_, bases, keywords, body, decorators, _) =>
      1 + SizeSeq(bases) + SizeSeq(keywords) + SizeSeq(body) + SizeSeq(decorators)
    case FunctionDef(_, _, defaults, annotations, body, decorators, _) =>
      1 + SizeSeq(defaults) + SizeSeq(annotations) + SizeSeq(body) + SizeSeq(decorators)
    case Assign(targets, value, _) => 1 + SizeSeq(targets) + Size(value)
    case Expr(value) => 1 + Size(value)
    case Name(_, _) => 1
    case Attribute(value, _) => 1 + Size(value)
    case If(test, body, orelse) => 1 + Size(test) + SizeSeq(body) + SizeSeq(orelse)
    case While(test, body, orelse) => 1 + Size(test) + SizeSeq(body) + SizeSeq(orelse)
    case For(target, iter, body, orelse) =>
      1 + Size(target) + Size(iter) + SizeSeq(body) + SizeSeq(orelse)
    case Try(body, handlers, orelse, finalbody) =>
      1 + SizeSeq(body) + SizeSeq(handlers) + SizeSeq(orelse) + SizeSeq(finalbody)
    case ExceptHandler(exctype, body) => 1 + SizeSeq(exctype) + SizeSeq(body)
    case BoolOp(first, second, rest) => 1 + Size(first) + Size(second) + SizeSeq(rest)
    case Return(result) => 1 + SizeSeq(result)
    case Import(_) => 1
    case ImportFrom(_, _) => 1
    case Constant(_) => 1
    case ListLit(elts) => 1 + SizeSeq(elts)
    case DictLit(keys, vals) => 1 + SizeSeq(keys) + SizeSeq(vals)
    case Other(children) => 1 + SizeSeq(children)
  }

  function SizeSeq(s: seq<Node>): nat {
    if s == [] then 0 else Size(s[0]) + SizeSeq(s[1..])
  }

  lemma {:induction false} SizeSeqConcat(a: seq<Node>, b: seq<Node>)
    ensures SizeSeq(a + b) == SizeSeq(a) + SizeSeq(b)
  {
    if a == [] {
      assert a + b == b;
    } else {
      assert (a + b)[0] == a[0];
      assert (a + b)[1..] == a[1..] + b;
      SizeSeqConcat(a[1..], b);
    }
  }

  lemma SizeSeqConcat3(a: seq<Node>, b: seq<Node>, c: seq<Node>)
    ensures SizeSeq(a + b + c) == SizeSeq(a) + SizeSeq(b) + SizeSeq(c)
  {
    SizeSeqConcat(a, b);
    SizeSeqConcat(a + b, c);
  }

  lemma SizeSeqConcat4(a: seq<Node>, b: seq<Node>, c: seq<Node>, d: seq<Node>)
    ensures SizeSeq(a + b + c + d) == SizeSeq(a) + SizeSeq(b) + SizeSeq(c) + SizeSeq(d)
  {
    SizeSeqConcat3(a, b, c);
    SizeSeqConcat(a + b + c, d);
  }

  lemma SizeSeqSingle(a: Node)
    ensures SizeSeq([a]) == Size(a)
  {
    assert [a][1..] == [];
  }

  lemma SizeSeqPair(a: Node, b: Node)
    ensures SizeSeq([a, b]) == Size(a) + Size(b)
  {
    assert [a, b][1..] == [b];
    SizeSeqSingle(b);
  }

  lemma {:induction false} SizeSeqElement(s: seq<Node>, i: nat)
    requires i < |s|
    ensures Size(s[i]) <= SizeSeq(s)
  {
    if i > 0 {
      SizeSeqElement(s[1..], i - 1);
    }
  }

  /**
   * `ast.iter_child_nodes`: the direct children, in field order. A function's
   * defaults and annotations stand in for its `arguments` node and come
   * first. Python reaches them one or two levels lower, the annotations of
   * the parameters before the defaults, so the walk order of these
   * expressions differs. No analysis depends on it: the walk order of the
   * statements is the same, and the names collected from expressions are
   * kept as sets.
   */
  function Children(n: Node): seq<Node> {
    match n
    case Module(body) => body
    case ClassDef(_, bases, keywords, body, decorators, _) => bases + keywords + body + decorators
    case FunctionDef(_, _, defaults, annotations, body, decorators, _) =>
      defaults + annotations + body + decorators
    case Assign(targets, value, _) => targets + [value]
    case Expr(value) => [value]
    case Name(_, _) => []
    case Attribute(value, _) => [value]
    case If(test, body, orelse) => [test] + body + orelse
    case While(test, body, orelse) => [test] + body + orelse
    case For(target, iter, body, orelse) => [target, iter] + body + orelse
    case Try(body, handlers, orelse, finalbody) => body + handlers + orelse + finalbody
    case ExceptHandler(exctype, body) => exctype + body
    case BoolOp(first, second, rest) => [first, second] + rest
    case Return(result) => result
    case Import(_) => []
    case ImportFrom(_, _) => []
    case Constant(_) => []
    case ListLit(elts) => elts
    case DictLit(keys, vals) => keys + vals
    case Other(children) => children
  }

  /** The children of a node hold all of its nodes but itself. */
  lemma ChildrenSize(n: Node)
    ensures SizeSeq(Children(n)) == Size(n) - 1
  {
    if n.Module? || n.ClassDef? || n.FunctionDef? || n.Assign? || n.Expr? || n.If? || n.While? {
      StatementChildrenSize(n);
    } else {
      OtherChildrenSize(n);
    }
  }

  lemma StatementChildrenSize(n: Node)
    requires n.Module? || n.ClassDef? || n.FunctionDef? || n.Assign? || n.Expr? || n.If? || n.While?
    ensures SizeSeq(Children(n)) == Size(n) - 1
  {
    match n
    case Module(body) =>
    case ClassDef(_, bases, keywords, body, decorators, _) =>
      SizeSeqConcat4(bases, keywords, body, decorators);
    case FunctionDef(_, _, defaults, annotations, body, decorators, _) =>
      SizeSeqConcat4(defaults, annotations, body, decorators);
    case Assign(targets, value, _) =>
      SizeSeqConcat(targets, [value]);
      SizeSeqSingle(value);
    case Expr(value) => SizeSeqSingle(value);
    case If(test, body, orelse) =>
      SizeSeqConcat3([test], body, orelse);
      SizeSeqSingle(test);
    case While(test, body, orelse) =>
      SizeSeqConcat3([test], body, orelse);
      SizeSeqSingle(test);
  }

  lemma OtherChildrenSize(n: Node)
    requires !(n.Module? || n.ClassDef? || n.FunctionDef? || n.Assign? || n.Expr? || n.If? || n.While?)
    ensures SizeSeq(Children(n)) == Size(n) - 1
  {
    match n
    case Name(_, _) =>
    case Attribute(value, _) => SizeSeqSingle(value);
    case For(target, iter, body, orelse) =>
      SizeSeqConcat3([target, iter], body, orelse);
      SizeSeqPair(target, iter);
    case Try(body, handlers, orelse, finalbody) =>
      SizeSeqConcat4(body, handlers, orelse, finalbody);
    case ExceptHandler(exctype, body) => SizeSeqConcat(exctype, body);
    case BoolOp(first, second, rest) =>
      SizeSeqConcat([first, second], rest);
      SizeSeqPair(first, second);
    case Return(result) =>
    case Import(_) =>
    case ImportFrom(_, _) =>
    case Constant(_) =>
    case ListLit(elts) =>
    case DictLit(keys, vals) => SizeSeqConcat(keys, vals);
    case Other(children) =>
  }

  lemma ChildSmaller(n: Node, i: nat)
    requires i < |Children(n)|
    ensures Size(Children(n)[i]) < Size(n)
  {
    ChildrenSize(n);
    SizeSeqElement(Children(n), i);
  }

  /** `ast.walk` from a queue of pending nodes: pop the front, queue its children. */
  function BfsFrom(queue: seq<Node>): seq<Node>
    decreases SizeSeq(queue)
  {
    if queue == [] then []
    else
      ChildrenSize(queue[0]);
      SizeSeqConcat(queue[1..], Children(queue[0]));
      [queue[0]] + BfsFrom(queue[1..] + Children(queue[0]))
  }

  /** `ast.walk(n)`: every node of the tree, breadth-first. */
  function Walk(n: Node): (r: seq<Node>)
    ensures |r| >= 1 && r[0] == n
  {
    BfsFrom([n])
  }

  /** Reference traversal: every node of the tree, depth-first pre-order. */
  function Pre(n: Node): (r: seq<Node>)
    ensures |r| == Size(n)
    decreases Size(n), 0
  {
    ChildrenSize(n);
    [n] + PreSeq(Children(n))
  }

  function PreSeq(s: seq<Node>): (r: seq<Node>)
    ensures |r| == SizeSeq(s)
    decreases SizeSeq(s), 1
  {
    if s == [] then [] else Pre(s[0]) + PreSeq(s[1..])
  }

  lemma {:induction false} PreSeqConcat(a: seq<Node>, b: seq<Node>)
    ensures PreSeq(a + b) == PreSeq(a) + PreSeq(b)
    decreases |a|
  {
    if a == [] {
      assert a + b == b;
    } else {
      assert (a + b)[0] == a[0];
      assert (a + b)[1..] == a[1..] + b;
      PreSeqConcat(a[1..], b);
    }
  }

  /** The breadth-first walk visits exactly the nodes of the pre-order traversal. */
  lemma {:induction false} BfsIsPermutation(queue: seq<Node>)
    ensures multiset(BfsFrom(queue)) == multiset(PreSeq(queue))
    decreases SizeSeq(queue)
  {
    if queue != [] {
      var n := queue[0];
      var next := queue[1..] + Children(n);
      ChildrenSize(n);
      SizeSeqConcat(queue[1..], Children(n));
      BfsIsPermutation(next);
      PreSeqConcat(queue[1..], Children(n));
      assert PreSeq(queue) == [n] + PreSeq(Children(n)) + PreSeq(queue[1..]);
    }
  }

  /** `ast.walk(n)` visits every node of the tree exactly once. */
  lemma WalkIsPermutation(n: Node)
    ensures multiset(Walk(n)) == multiset(Pre(n))
    ensures forall x :: x in Walk(n) <==> x in Pre(n)
  {
    BfsIsPermutation([n]);
    assert PreSeq([n]) == Pre(n);
    assert forall x :: x in Walk(n) <==> x in multiset(Walk(n));
  }

  /** Every node met by the traversal is no larger than the tree. */
  lemma {:induction false} PreSizes(n: Node)
    ensures forall x :: x in Pre(n) ==> Size(x) <= Size(n)
    decreases Size(n), 0
  {
    ChildrenSize(n);
    PreSeqSizes(Children(n));
    forall x | x in Pre(n) ensures Size(x) <= Size(n) {
      if x != n {
        assert x in PreSeq(Children(n));
        var i :| 0 <= i < |Children(n)| && Size(x) <= Size(Children(n)[i]);
        ChildSmaller(n, i);
      }
    }
  }

  lemma {:induction false} PreSeqSizes(s: seq<Node>)
    ensures forall x :: x in PreSeq(s) ==> exists i :: 0 <= i < |s| && Size(x) <= Size(s[i])
    decreases SizeSeq(s), 1
  {
    if s != [] {
      PreSizes(s[0]);
      PreSeqSizes(s[1..]);
      forall x | x in PreSeq(s)
        ensures exists i :: 0 <= i < |s| && Size(x) <= Size(s[i])
      {
        if x in Pre(s[0]) {
          assert Size(x) <= Size(s[0]);
        } else {
          var i :| 0 <= i < |s[1..]| && Size(x) <= Size(s[1..][i]);
          assert s[1..][i] == s[i + 1];
        }
      }
    }
  }

  lemma WalkSizes(n: Node)
    ensures forall x :: x in Walk(n) ==> Size(x) <= Size(n)
  {
    WalkIsPermutation(n);
    PreSizes(n);
  }

  /** A node is met by the traversal of a list exactly when it is met in the tree of one element. */
  lemma {:induction false} PreSeqMembers(s: seq<Node>, y: Node)
    ensures y in PreSeq(s) <==> exists i :: 0 <= i < |s| && y in Pre(s[i])
    decreases |s|
  {
    if s != [] {
      PreSeqMembers(s[1..], y);
      if exists i :: 0 <= i < |s[1..]| && y in Pre(s[1..][i]) {
        var i :| 0 <= i < |s[1..]| && y in Pre(s[1..][i]);
        assert s[1..][i] == s[i + 1];
      }
      if exists i :: 0 <= i < |s| && y in Pre(s[i]) {
        var i :| 0 <= i < |s| && y in Pre(s[i]);
        if i > 0 { assert s[1..][i - 1] == s[i]; }
      }
    }
  }

  /** The traversal meets the children of every node it meets: it is closed under descent. */
  lemma {:induction false} PreClosed(n: Node, x: Node, k: nat)
    requires x in Pre(n) && k < |Children(x)|
    ensures Children(x)[k] in Pre(n)
    decreases Size(n)
  {
    var y := Children(x)[k];
    if x == n {
      assert y in Pre(y);
      PreSeqMembers(Children(n), y);
    } else {
      PreSeqMembers(Children(n), x);
      var i :| 0 <= i < |Children(n)| && x in Pre(Children(n)[i]);
      ChildSmaller(n, i);
      PreClosed(Children(n)[i], x, k);
      PreSeqMembers(Children(n), y);
    }
  }

  /** `ast.walk(root)` yields every child of every node it yields. */
  lemma ChildInWalk(root: Node, x: Node, k: nat)
    requires x in Walk(root) && k < |Children(x)|
    ensures Children(x)[k] in Walk(root)
  {
    WalkIsPermutation(root);
    PreClosed(root, x, k);
  }

  /** Σ f(x) over a list of nodes. */
  function Sum(s: seq<Node>, f: Node -> int): int {
    if s == [] then 0 else f(s[0]) + Sum(s[1..], f)
  }

  lemma {:induction false} SumConcat(a: seq<Node>, b: seq<Node>, f: Node -> int)
    ensures Sum(a + b, f) == Sum(a, f) + Sum(b, f)
  {
    if a == [] {
      assert a + b == b;
    } else {
      assert (a + b)[0] == a[0];
      assert (a + b)[1..] == a[1..] + b;
      SumConcat(a[1..], b, f);
    }
  }

  /** A sum does not depend on the order of its terms. */
  lemma {:induction false} SumPermutation(a: seq<Node>, b: seq<Node>, f: Node -> int)
    requires multiset(a) == multiset(b)
    ensures Sum(a, f) == Sum(b, f)
    decreases |a|
  {
    if a == [] {
      assert |b| == |multiset(b)| == 0;
    } else {
      var x := a[0];
      assert x in multiset(b);
      var k :| 0 <= k < |b| && b[k] == x;
      var rest := b[..k] + b[k + 1..];
      assert b == b[..k] + [x] + b[k + 1..];
      SumConcat(b[..k] + [x], b[k + 1..], f);
      SumConcat(b[..k], [x], f);
      SumConcat(b[..k], b[k + 1..], f);
      assert Sum([x], f) == f(x) by { assert [x][1..] == []; }
      assert a == [x] + a[1..];
      calc {
        multiset(a[1..]) + multiset{x};
        multiset(a);
        multiset(b);
        multiset(b[..k]) + multiset{x} + multiset(b[k + 1..]);
        multiset(rest) + multiset{x};
      }
      assert multiset(a[1..]) == multiset(a[1..]) + multiset{x} - multiset{x};
      assert multiset(a[1..]) == multiset(rest);
      SumPermutation(a[1..], rest, f);
    }
  }

  lemma {:induction false} SumNonNegative(s: seq<Node>, f: Node -> int)
    requires forall x :: f(x) >= 0
    ensures Sum(s, f) >= 0
  {
    if s != [] {
      SumNonNegative(s[1..], f);
    }
  }

  /** A sum of non-negative terms is zero exactly when every term is. */
  lemma {:induction false} SumZero(s: seq<Node>, f: Node -> int)
    requires forall x :: f(x) >= 0
    ensures Sum(s, f) == 0 <==> forall x :: x in s ==> f(x) == 0
  {
    if s != [] {
      SumZero(s[1..], f);
      SumNonNegative(s[1..], f);
      assert forall x :: x in s <==> x == s[0] || x in s[1..];
    }
  }

  /** A sum of pointwise sums is the sum of the sums. */
  lemma {:induction false} SumAdd(s: seq<Node>, f: Node -> int, g: Node -> int, h: Node -> int)
    requires forall x :: h(x) == f(x) + g(x)
    ensures Sum(s, h) == Sum(s, f) + Sum(s, g)
  {
    if s != [] {
      SumAdd(s[1..], f, g, h);
    }
  }

  /** Reference: Σ f over every node of the tree, by structural recursion. */
  function TreeSum(n: Node, f: Node -> int): int
    decreases Size(n), 0
  {
    ChildrenSize(n);
    f(n) + TreeSumSeq(Children(n), f)
  }

  function TreeSumSeq(s: seq<Node>, f: Node -> int): int
    decreases SizeSeq(s), 1
  {
    if s == [] then 0 else TreeSum(s[0], f) + TreeSumSeq(s[1..], f)
  }

  lemma {:induction false} SumPre(n: Node, f: Node -> int)
    ensures Sum(Pre(n), f) == TreeSum(n, f)
    decreases Size(n), 0
  {
    ChildrenSize(n);
    SumPreSeq(Children(n), f);
    SumConcat([n], PreSeq(Children(n)), f);
    assert Sum([n], f) == f(n) by { assert [n][1..] == []; }
  }

  lemma {:induction false} SumPreSeq(s: seq<Node>, f: Node -> int)
    ensures Sum(PreSeq(s), f) == TreeSumSeq(s, f)
    decreases SizeSeq(s), 1
  {
    if s != [] {
      SumPre(s[0], f);
      SumPreSeq(s[1..], f);
      SumConcat(Pre(s[0]), PreSeq(s[1..]), f);
    }
  }

  /** Summing over `ast.walk` is summing over the tree. */
  lemma SumWalk(n: Node, f: Node -> int)
    ensures Sum(Walk(n), f) == TreeSum(n, f)
  {
    WalkIsPermutation(n);
    SumPermutation(Walk(n), Pre(n), f);
    SumPre(n, f);
  }

  /** Σ f over `k` copies of one tree. */
  lemma {:induction false} TreeSumSeqCopies(x: Node, k: nat, f: Node -> int)
    ensures TreeSumSeq(seq(k, _ => x), f) == k * TreeSum(x, f)
  {
    if k > 0 {
      assert seq(k, _ => x)[0] == x;
      assert seq(k, _ => x)[1..] == seq(k - 1, _ => x);
      TreeSumSeqCopies(x, k - 1, f);
    }
  }

  /** A sum of non-negative terms over the tree is at least the root's term. */
  lemma {:induction false} TreeSumAtLeastRoot(n: Node, f: Node -> int)
    requires forall x :: f(x) >= 0
    ensures TreeSum(n, f) >= f(n)
    decreases Size(n), 0
  {
    ChildrenSize(n);
    TreeSumSeqNonNegative(Children(n), f);
  }

  lemma {:induction false} TreeSumSeqNonNegative(s: seq<Node>, f: Node -> int)
    requires forall x :: f(x) >= 0
    ensures TreeSumSeq(s, f) >= 0
    decreases SizeSeq(s), 1
  {
    if s != [] {
      TreeSumAtLeastRoot(s[0], f);
      TreeSumSeqNonNegative(s[1..], f);
    }
  }

  /** The position of a node: child indices from the root. */
  type Path = seq<nat>

  /** The node reached by following `p` from `n`, if every index exists. */
  function NodeAt(n: Node, p: Path): Option<Node>
    decreases |p|
  {
    if p == [] then Some(n)
    else if p[0] < |Children(n)| then NodeAt(Children(n)[p[0]], p[1..])
    else None
  }

  /** A prefix of a valid path is valid, and the path continues from it. */
  lemma {:induction false} NodeAtSplit(n: Node, p: Path, k: nat)
    requires k <= |p|
    ensures NodeAt(n, p).Some? ==> NodeAt(n, p[..k]).Some?
    ensures NodeAt(n, p[..k]).Some? ==> NodeAt(n, p) == NodeAt(NodeAt(n, p[..k]).value, p[k..])
    decreases |p|
  {
    if k > 0 && p[0] < |Children(n)| {
      assert p[..k][1..] == p[1..][..k - 1];
      assert p[k..] == p[1..][k - 1..];
      NodeAtSplit(Children(n)[p[0]], p[1..], k - 1);
    }
  }
}

=== FILE: wrappers.dfy ===
/**
 * Option, the model of Python's `Optional[...]` values and of `None`, and
 * Result, the model of a call that either returns or raises with a message.
 */
module Wrappers {

  datatype Option<+T> = None | Some(value: T) {

    /** The wrapped value, or `default` for None. */
    function GetOr(default: T): T {
      match this
      case Some(v) => v
      case None => default
    }
  }

  /** A value, or the text of the exception that was raised instead. */
  datatype Result<+T> = Success(value: T) | Failure(error: string)
}
